=== FILE: README.md ===
# LFortran language server and runtime: a Dafny model

This project models three parts of LFortran, the Fortran compiler:

- **The language server's request translation.** This is the C++ server that answers Language Server Protocol requests by asking the compiler front end.
  - Capability negotiation on `initialize`.
  - The per-document cache of compiler options.
  - Go to definition and rename.
  - Diagnostics, with their severity mapping and the problem cap.
  - Document symbols, as a flat list or as a hierarchy rebuilt from parent indices.
  - The resolution of file names against the include directories.
  - Conversion between the protocol's 0-based positions and the compiler's 1-based ones.
- **The C runtime library (`lfortran_intrinsics.c`).**
  - The string intrinsics: concatenation, repetition, item, substring, slicing, slice assignment, assignment into descriptors and pointers, and the blank-insensitive comparisons.
  - The cleaning and tokenizing of FORMAT strings.
  - Integer and logical edit descriptors.
  - The bit intrinsics IBITS, MVBITS, ISHFTC and `bit_length`.
  - The small stack the format code uses.
  - The table from Fortran units to open files.
  - The address bisection of the stack tracer.
  - The decoding of the type codes in the serialization string of `print`.
  - The STATUS= and FORM= decisions of OPEN.
- **The Python framing parser of the server's test client.** It splits a byte stream into `Content-Length`-framed messages.

The modelling choices:

- C strings are sequences of non-NUL characters.
- Undefined behaviour, such as reading past a terminator or shifting by the word width, is an `Undefined` error outcome.
- A path that calls `exit(1)` is a `Fatal` outcome carrying its message.
- Fixed-width integers are unbounded integers. Casts between widths are explicit two's-complement conversions. Where the runtime's `int` arithmetic can leave its range, the model checks the range explicitly and overflow is an `Undefined` outcome. This covers the bit intrinsics' shifts and `abs`, the length of a repetition, and the buffer size and stepped index of a slice. The arithmetic that is left unbounded is listed under "## Left out".
- The filesystem and the compiler front end are parameters: existence and normalisation of paths, and the symbols, occurrences and diagnostics the compiler reports.

The modules are:

- `Results`, `Words`, `Decimal` and `CBase`: shared outcome types, arithmetic and C library helpers.
- `LspProtocol`, `Capabilities`, `PathResolver`, `OptionsCache`, `DefinitionRename`, `Diagnostics` and `DocumentSymbols`: the server.
- `StringOps`, `StringAssign`, `StringCompare`, `FormatParser`, `FormatEdit`, `BitIntrinsics`, `RuntimeStack`, `UnitTable`, `AddressSearch`, `PrintSerialization` and `OpenStatement`: the runtime.
- `LspJsonText`, `LspJsonStream` and `LspJsonMessages`: the framing parser's byte and integer helpers, its state machine, and whole messages through it.

## Model

| member | source | states |
|---|---|---|
| LspProtocol.SymbolKindOf | src/bin/lfortran_lsp_language_server.cpp:71-98 | Each compiler symbol type has its own protocol kind (Module, Operator, Struct, Enum, Variable, Class, Method, TypeParameter), and exactly Function, GenericProcedure and every unlisted type fall back to Function |
| LspProtocol.SymbolKindCodeInjective | src/bin/lfortran_lsp_language_server.cpp:71-98 | Distinct protocol symbol kinds are sent as distinct numbers, so the mapping's distinctions survive on the wire |
| LspProtocol.CursorToNative | src/bin/lfortran_lsp_language_server.cpp:336-337 | The compiler's 1-based line and column for a cursor, read back as a protocol start, are the cursor again |
| LspProtocol.CursorRoundTrip | src/bin/lfortran_lsp_language_server.cpp:336-337 | The reverse trip: a 1-based native start read as a protocol position and turned back into a cursor is the same line and column, so distinct native starts never share a protocol position |
| LspProtocol.RangeConventionsDiffer | src/bin/lfortran_lsp_language_server.cpp:355-369 | Definition and rename ranges, and diagnostic and document-symbol ranges, agree on the start and the end line and differ by exactly one in the end column |
| Capabilities.NegotiateFlags | src/bin/lfortran_lsp_language_server.cpp:263-283 | A session flag changes only when the client sends the matching capability; the link and hierarchy flags are then true exactly when the option is present and true |
| Capabilities.ReceiveInitialize | src/bin/lfortran_lsp_language_server.cpp:258-324 | Rename is always advertised; definition and document symbols are advertised exactly when the negotiated flag is set, and otherwise the generic server's answer is kept |
| Capabilities.FreshSessionFlags | src/bin/lfortran_lsp_language_server.cpp:263-283 | On a fresh session each feature flag holds if and only if the client declared that capability |
| Capabilities.NoCapabilitiesGating | src/bin/lfortran_lsp_language_server.cpp:300-321 | A client that declares nothing gets rename only, with plain locations and a flat symbol list |
| PathResolver.Candidates | src/bin/lfortran_lsp_language_server.cpp:571-590 | The search order is the file itself, then the file under each include directory in the order they were declared, every path made absolute and normal |
| PathResolver.SearchIncludeDirs | src/bin/lfortran_lsp_language_server.cpp:579-584 | A path found in the include directories is one that exists |
| PathResolver.Resolve | src/bin/lfortran_lsp_language_server.cpp:571-590 | A name whose normalised absolute path exists resolves to that path; any resolved path exists; otherwise the error is InvalidParams "File not found: " followed by the name |
| PathResolver.SearchIsFirstExisting | src/bin/lfortran_lsp_language_server.cpp:579-584 | The include-directory loop finds nothing exactly when no later candidate exists, and otherwise the first candidate that exists |
| PathResolver.ResolveIsFirstExisting | src/bin/lfortran_lsp_language_server.cpp:571-590 | `resolve` fails with InvalidParams "File not found: " plus the name exactly when no candidate exists; otherwise it returns the first existing candidate in search order |
| OptionsCache.Probe | src/bin/lfortran_lsp_language_server.cpp:122-126 | The read-locked lookup hits exactly when the URI has an entry, and returns that entry |
| OptionsCache.Fill | src/bin/lfortran_lsp_language_server.cpp:147-158 | The write-locked step keeps every existing entry and adds only this URI; the caller gets the entry now stored, which is the freshly built options only if none was there |
| OptionsCache.Build | src/bin/lfortran_lsp_language_server.cpp:130-144 | The options are the parse of the configured flags followed by the document path, with continue-compilation on; a parse failure becomes InvalidParams carrying the parser's message |
| OptionsCache.GetCompilerOptions | src/bin/lfortran_lsp_language_server.cpp:117-160 | A hit returns the cached options and leaves the cache alone; a miss builds them, and on success stores exactly them under the URI; a failure caches nothing |
| OptionsCache.Invalidate | src/bin/lfortran_lsp_language_server.cpp:100-107 | Invalidation leaves no URI in the cache |
| OptionsCache.GetKeepsOtherEntries | src/bin/lfortran_lsp_language_server.cpp:147-158 | A lookup never removes or replaces an entry that was already in the cache |
| OptionsCache.GetIsIdempotent | src/bin/lfortran_lsp_language_server.cpp:121-126 | Once a lookup has succeeded, the next lookup of the same URI returns the same options and changes nothing, whatever configuration it is given |
| OptionsCache.RacingFillsAgree | src/bin/lfortran_lsp_language_server.cpp:147-158 | Two requests that both missed and both built options see the same options, the first one built, and the map holds one entry for the URI |
| OptionsCache.RebuildAfterInvalidate | src/bin/lfortran_lsp_language_server.cpp:100-107 | After invalidation the next lookup rebuilds from the current configuration and never returns an entry cached before |
| DefinitionRename.CursorOptions | src/bin/lfortran_lsp_language_server.cpp:334-337 | The query options are the cached options with only the cursor changed, moved from 0-based to 1-based; the include directories and flags are untouched |
| DefinitionRename.MapLocations | src/bin/lfortran_lsp_language_server.cpp:371-388 | One location per symbol in order, with the resolved file URI and both range ends moved to 0-based; the first symbol whose file does not resolve makes the request fail |
| DefinitionRename.MapLinks | src/bin/lfortran_lsp_language_server.cpp:341-370 | One definition link per symbol in order, target range equal to selection range, both ends moved to 0-based; the first unresolvable file makes the request fail |
| DefinitionRename.ReceiveDefinition | src/bin/lfortran_lsp_language_server.cpp:326-393 | No symbol gives a null result; otherwise links or locations according to the client's link support, or the first resolve error; an options failure is returned as is |
| DefinitionRename.RenameEdits | src/bin/lfortran_lsp_language_server.cpp:419-428 | One text edit per occurrence, in order, replacing its range, moved to 0-based, with the new name |
| DefinitionRename.ReceiveRename | src/bin/lfortran_lsp_language_server.cpp:397-440 | No occurrence gives a null result; otherwise one workspace edit whose only document is the request URI and whose edits are the occurrences' edits |
| DefinitionRename.RenameIgnoresFilenames | src/bin/lfortran_lsp_language_server.cpp:411-428 | Rename edits never depend on the file an occurrence was reported in |
| Diagnostics.SeverityOf | src/bin/lfortran_lsp_language_server.cpp:54-69 | Error, Note and Help map to Error, Information and Hint; Warning and every other level map to Warning, in both directions |
| Diagnostics.SeverityCode | src/bin/lfortran_lsp_language_server.cpp:54-69 | Every severity is sent as a protocol number from 1 to 4 |
| Diagnostics.SeverityRoundTrip | src/bin/lfortran_lsp_language_server.cpp:54-69 | Reading a severity back recovers each of the four named levels; any other level is reported like Warning |
| Diagnostics.ToDiagnostic | src/bin/lfortran_lsp_language_server.cpp:195-216 | A highlight becomes a diagnostic whose start is its first line and column moved to 0-based, whose end keeps the last column, whose severity reads back as the highlight's level when that level is named, and whose message and source are copied |
| Diagnostics.BuildDiagnostics | src/bin/lfortran_lsp_language_server.cpp:183-227 | The first min(number of highlights, maxNumberOfProblems) highlights in compiler order, each with its start moved to 0-based, its end column kept, its severity mapped and its message and source copied |
| Diagnostics.Validate | src/bin/lfortran_lsp_language_server.cpp:162-256 | A diagnostics notification is sent exactly when the options build and the compiler succeeds; it carries the snapshot's URI and version and the truncated diagnostics |
| Diagnostics.ValidateAll | src/bin/lfortran_lsp_language_server.cpp:592-600 | Revalidating every open document keeps every cached entry, and, for documents with distinct URIs, sends exactly the notifications the documents' own validations send, one per successful document, in document order |
| Diagnostics.DidChangeConfiguration | src/bin/lfortran_lsp_language_server.cpp:602-611 | After a configuration change the cache holds entries only for open documents; for documents with distinct URIs the notifications are exactly those each document's validation sends against an emptied cache, in document order |
| Diagnostics.Publications | src/bin/lfortran_lsp_language_server.cpp:596-598 | Entry i is what validating document i alone against the cache would send |
| Diagnostics.ValidateLocal | src/bin/lfortran_lsp_language_server.cpp:162-256 | Two caches that agree at the document's URI give the same notification |
| Diagnostics.PublicationsShift | src/bin/lfortran_lsp_language_server.cpp:596-598 | Validating the first of several documents with distinct URIs does not change what validating the others sends |
| Diagnostics.TruncationIsPrefix | src/bin/lfortran_lsp_language_server.cpp:188-191 | Raising maxNumberOfProblems only appends diagnostics: the smaller cap's list is a prefix of the larger cap's list |
| DocumentSymbols.FilterPass | src/bin/lfortran_lsp_language_server.cpp:461-493 | The kept indices are, in strictly increasing list order, exactly the symbols whose file resolves to the document; every kept parent index is in range; a failure is the error of the first symbol whose file does not resolve or that is in the document with an out-of-range parent index |
| DocumentSymbols.ChildrenOf | src/bin/lfortran_lsp_language_server.cpp:464-488 | The children collected for a parent are exactly the kept symbols that name it as parent, in strictly increasing list order |
| DocumentSymbols.RootsOf | src/bin/lfortran_lsp_language_server.cpp:489-491 | The roots are exactly the kept symbols with a negative parent index, in strictly increasing list order |
| DocumentSymbols.ParentChainDistinct | src/bin/lfortran_lsp_language_server.cpp:549-569 | A chain of parent links from a root never repeats an index, so `walk` cannot loop |
| DocumentSymbols.DistinctBound | src/bin/lfortran_lsp_language_server.cpp:549-569 | A chain of distinct symbol indices is no longer than the symbol list, which bounds the depth of `walk` |
| DocumentSymbols.Walk | src/bin/lfortran_lsp_language_server.cpp:549-569 | A node's children are the kept symbols naming it as parent, in list order, and it has none when no kept symbol names it |
| DocumentSymbols.Init | src/bin/lfortran_lsp_language_server.cpp:525-547 | A document symbol takes the compiler symbol's name and mapped kind, and the same range for `range` and `selectionRange`, start moved to 0-based and end column kept |
| DocumentSymbols.ToDocumentSymbol | src/bin/lfortran_lsp_language_server.cpp:525-568 | The protocol tree has the index tree's shape, a children list exactly when the node has children and of the same length, and each node carries the name, kind and ranges `init` gives its symbol |
| DocumentSymbols.RootTrees | src/bin/lfortran_lsp_language_server.cpp:494-500 | One tree per root symbol, in list order, each rooted at that root and holding the walk from it |
| DocumentSymbols.BuildHierarchy | src/bin/lfortran_lsp_language_server.cpp:453-501 | The hierarchical result fails exactly when the filter pass fails, and otherwise has one top-level symbol per kept root, in order, initialised from that root and with that root's walk below it |
| DocumentSymbols.BuildFlat | src/bin/lfortran_lsp_language_server.cpp:502-520 | One record per compiler symbol with no filtering, the resolved URI, the start moved to 0-based and the end column kept; name and kind are left unset |
| DocumentSymbols.WalkFollowsParents | src/bin/lfortran_lsp_language_server.cpp:549-569 | Every node below a walk's start is a kept symbol whose parent is itself a node of the same tree |
| DocumentSymbols.OrphanUnreachable | src/bin/lfortran_lsp_language_server.cpp:460-500 | A kept symbol whose parent was filtered out appears nowhere in the hierarchical result |
| DocumentSymbols.RootWalkSkipsOrphan | src/bin/lfortran_lsp_language_server.cpp:549-569 | The walk from one root never reaches a symbol whose parent was not kept |
| DocumentSymbols.ReceiveDocumentSymbol | src/bin/lfortran_lsp_language_server.cpp:442-523 | The client's hierarchy support picks the shape; the hierarchical shape fails exactly when the filter pass fails, and the flat shape fails exactly when some symbol's file does not resolve, and otherwise has one record per symbol |
| DocumentSymbols.FilterError | src/bin/lfortran_lsp_language_server.cpp:463-465 | A symbol fails the filter when its file does not resolve, or when it is in the document and its parent index is past the list |
| DocumentSymbols.WalkAt | src/bin/lfortran_lsp_language_server.cpp:549-569 | The walk reached along a parent chain is rooted at the chain's symbol and has one child per kept symbol naming it as parent |
| DocumentSymbols.WalkStep | src/bin/lfortran_lsp_language_server.cpp:557-567 | The walk of the next symbol on a kept parent chain is one of the children of the walk of the one before |
| DocumentSymbols.ChildPath | src/bin/lfortran_lsp_language_server.cpp:557-567 | A node reached from a child is reached from its parent by one more step |
| DocumentSymbols.WalkReaches | src/bin/lfortran_lsp_language_server.cpp:549-569 | Following a kept parent chain from position m to n reaches the walk of the n-th symbol in n-m steps |
| DocumentSymbols.KeptChainInTree | src/bin/lfortran_lsp_language_server.cpp:494-500 | Every kept symbol reachable from a root by kept parent links is a node of that root's tree, at the depth of its chain, and a direct child of its parent's node |
| DocumentSymbols.TreeAtConverts | src/bin/lfortran_lsp_language_server.cpp:525-568 | Converting a tree to protocol symbols and then following a path gives the conversion of the node at that path |
| DocumentSymbols.KeptChainConverted | src/bin/lfortran_lsp_language_server.cpp:494-500 | Every symbol on a kept parent chain appears in the protocol tree of the chain's root, at the depth of its chain |
| DocumentSymbols.HierarchyComplete | src/bin/lfortran_lsp_language_server.cpp:453-569 | No kept symbol linked to a root by kept parents is lost: the result has a top-level symbol named after that root with, at the chain's depth, a node carrying the symbol's name, kind and ranges, and children exactly when kept symbols name it as parent |
| StringOps.Strcat | src/libasr/runtime/lfortran_intrinsics.c:2277-2295 | The result is the bytes of the first string followed by those of the second |
| StringOps.Repeat | src/libasr/runtime/lfortran_intrinsics.c:2545-2554 | The repetition of a string n times has n times its length, and nothing for a count that is not positive |
| StringOps.RepeatAt | src/libasr/runtime/lfortran_intrinsics.c:2549-2554 | Copy q of the repetition holds the string again, byte for byte |
| StringOps.Strrepeat | src/libasr/runtime/lfortran_intrinsics.c:2539-2577 | The nested copy loops produce the string repeated n times; the call is undefined exactly when the `int` product of the length and n, or the buffer size one past it, leaves the `int` range |
| StringOps.StrItem | src/libasr/runtime/lfortran_intrinsics.c:2580-2594 | A 1-based index in range, or one that is in range once the length is added to it, gives that one character; any other index is fatal with the out-of-bounds message |
| StringOps.WrapIndex | src/libasr/runtime/lfortran_intrinsics.c:2585 | Adding the length to an index below 1 picks the same character as counting modulo the length |
| StringOps.StrCopy | src/libasr/runtime/lfortran_intrinsics.c:2597-2617 | Only the first index is checked, and an out-of-range one is fatal; non-positive indices count from the end; the result is the inclusive 1-based substring, and a second index past the terminator or before the first is undefined |
| StringOps.StrCopyIsSubstring | src/libasr/runtime/lfortran_intrinsics.c:2597-2617 | A Fortran substring s(i:j) with 1 <= i <= j <= len(s) is the contiguous run of bytes from i to j |
| StringOps.PosShift | src/libasr/runtime/lfortran_intrinsics.c:2656-2661 | Starting one step later is the same as taking one more step |
| StringOps.Stride | src/libasr/runtime/lfortran_intrinsics.c:2656-2663 | A result is exactly the bytes at i, i+step and so on while before the stop, in order; bounds the caller clamped keep every read at or before the terminator, and a failure is undefined behaviour |
| StringOps.StrSlice | src/libasr/runtime/lfortran_intrinsics.c:2619-2664 | A zero step is fatal; a slice that selects nothing after negative indices and omitted bounds are resolved is the empty string; otherwise, with the bounds clamped as the source clamps them, the result is the strided selection of the string, and it is undefined exactly when that selection would read before the start, when the `int` buffer size computed for it overflows, or when stepping the index past a selected position overflows; a successful result fills the computed buffer exactly, terminator included |
| StringOps.StrSliceUnitStep | src/libasr/runtime/lfortran_intrinsics.c:2619-2664 | With unit step and bounds in range, s[a:b] is the contiguous substring from a up to b |
| StringOps.SliceBufferSize | src/libasr/runtime/lfortran_intrinsics.c:2646-2653 | The buffer size the slice computes is an `int` whenever it can be computed, and an intermediate result outside the `int` range is undefined |
| StringOps.StridedFits | src/libasr/runtime/lfortran_intrinsics.c:2646-2661 | For a nonempty selection the computed buffer size is the number of selected bytes plus one for the terminator |
| StringOps.StepsStayInIntIff | src/libasr/runtime/lfortran_intrinsics.c:2656-2661 | The index stays an `int` after every step of the loop exactly when no position before the stop is followed by a step out of the `int` range |
| StringOps.StepsWithin | src/libasr/runtime/lfortran_intrinsics.c:2656-2661 | A stop at least one step away from the edge of the `int` range keeps every stepped index an `int` |
| StringOps.StrSliceHugeStep | src/libasr/runtime/lfortran_intrinsics.c:2646-2649 | s(1:10:INT_MAX) overflows the buffer-size computation and is undefined, rather than the one-byte string "b" |
| StringOps.StrSliceReverses | src/libasr/runtime/lfortran_intrinsics.c:2619-2664 | s[::-1] is the string reversed |
| StringOps.StrideReverses | src/libasr/runtime/lfortran_intrinsics.c:2656-2661 | Walking down from the last byte to before the first reads every byte once, back to front |
| StringOps.StrideUpInRange | src/libasr/runtime/lfortran_intrinsics.c:2647-2661 | Going up from a non-negative start never reads outside the string |
| StringOps.StrideFromInRange | src/libasr/runtime/lfortran_intrinsics.c:2650-2661 | Going down from a start inside the string to a stop of at least -1 never reads outside the string |
| StringOps.StrideWrite | src/libasr/runtime/lfortran_intrinsics.c:2699-2704 | The assignment loop keeps the buffer's length, and a failure is undefined behaviour; the cells it writes are stated by StringOps.StrideWriteCells and when it fails by StringOps.StrideWriteFailsIff |
| StringOps.StrSliceAssign | src/libasr/runtime/lfortran_intrinsics.c:2666-2706 | A zero step is fatal; a slice that selects nothing returns the original string itself; otherwise a successful assignment puts the k-th value byte at the k-th selected position, stops reading at a selected position that holds the value's terminator, and keeps the string's byte at every unselected position before the end; a selection over a string of `INT_MAX` bytes overflows the buffer size, and one whose stepped index leaves the `int` range is undefined; a selected position outside the buffer, or past the position that receives the value's terminator, is undefined |
| StringOps.StrideWriteUnit | src/libasr/runtime/lfortran_intrinsics.c:2699-2704 | With unit step the loop replaces exactly the cells from the start up to the stop with consecutive bytes of the value |
| StringOps.StrSliceAssignUnitStep | src/libasr/runtime/lfortran_intrinsics.c:2666-2706 | Assigning to s[a:b] a value at least as long as the slice, and no longer than s, replaces exactly those bytes with the leading bytes of the value and leaves every other byte as it was |
| StringOps.PastStop | src/libasr/runtime/lfortran_intrinsics.c:2657-2658 | Once a stride position is at or past the stop, every later one is too |
| StringOps.StrideFailsIff | src/libasr/runtime/lfortran_intrinsics.c:2656-2661 | The slice loop fails exactly when one of its positions before the stop lies before the start of the string |
| StringOps.StrideBounds | src/libasr/runtime/lfortran_intrinsics.c:2647-2653 | Going up, the stop is clamped to the string's length and the start kept; going down, the start is clamped to the last index and the stop kept |
| StringOps.StrideWriteCells | src/libasr/runtime/lfortran_intrinsics.c:2699-2704 | Each selected cell holds the matching byte of the value, and each unselected cell keeps the buffer's byte |
| StringOps.StrideWriteFailsIff | src/libasr/runtime/lfortran_intrinsics.c:2699-2704 | The assignment loop fails exactly when a selected position is outside the buffer or comes after the value's terminator |
| StringOps.ReadSelected | src/libasr/runtime/lfortran_intrinsics.c:2697-2705 | A selected position read before the terminator holds the matching value byte; one that reads as the end is where the value ran out |
| StringOps.ReadUnselected | src/libasr/runtime/lfortran_intrinsics.c:2697-2705 | An unselected position read back holds the original string's byte there |
| StringOps.StrideLeavesStart | src/libasr/runtime/lfortran_intrinsics.c:2657-2660 | A slice that starts one step later never returns to the first position, so the loop never writes a cell twice |
| StringOps.SelectedShift | src/libasr/runtime/lfortran_intrinsics.c:2700-2703 | A position selected by the loop after its first step was selected by the loop from the start |
| StringOps.AssignedContent | src/libasr/runtime/lfortran_intrinsics.c:2697-2705 | Writing the value over the widened copy and reading the result back gives the value's bytes at the selected positions and the original bytes elsewhere |
| StringOps.StringInit | src/libasr/runtime/lfortran_intrinsics.c:2760-2766 | A buffer of n+1 bytes becomes n blanks and a terminator, which compares equal to the empty string; a size below one is undefined |
| StringOps.BlankTrimmedLength | src/libasr/runtime/lfortran_intrinsics.c:2399-2403 | A string of blanks only has trimmed length zero |
| StringOps.SkipSpaces | src/libasr/runtime/lfortran_intrinsics.c:4025 | The scan stops at the first character that is not white space |
| StringOps.TrimEnd | src/libasr/runtime/lfortran_intrinsics.c:4029-4030 | The backward scan stops at the last character that is not white space, but never before the first |
| StringOps.RemoveWhitespace | src/libasr/runtime/lfortran_intrinsics.c:4019-4034 | A NULL or empty string gives "(null)"; otherwise the result is a run of the string with only white space around it, neither starting nor ending with white space |
| StringOps.LastIndexOf | src/libasr/runtime/lfortran_intrinsics.c:4239-4241 | The last position holding the character, and none when it does not occur (`strrchr`) |
| StringOps.GetBaseName | src/libasr/runtime/lfortran_intrinsics.c:4237-4255 | The text between the last '/' and the last '.', holding no '/'; a name without '.' is undefined behaviour, and the result is NULL exactly when a '/' comes after the last '.' |
| StringAssign.StrcpyPointer | src/libasr/runtime/lfortran_intrinsics.c:2372-2395 | The left-hand side keeps its length and takes the right-hand side's bytes, blank-padded; an unallocated one first becomes as many blanks as the right-hand side is long; an unallocated right-hand side is fatal |
| StringAssign.StrcpyPointerMeaning | src/libasr/runtime/lfortran_intrinsics.c:2372-2395 | A long enough left-hand side then compares equal to the right-hand side, and a short one holds its prefix |
| StringAssign.TrimmedLengthOfBlankTail | src/libasr/runtime/lfortran_intrinsics.c:2399-2403 | When everything from n on is blank and the byte before n is not, n is the trimmed length |
| StringAssign.AllocateString | src/libasr/runtime/lfortran_intrinsics.c:2313-2334 | A fresh descriptor gets a block of at least 100 bytes, exactly the requested size when that is larger, and a length one less than requested; allocating twice or from an inconsistent state is fatal |
| StringAssign.Realloc | src/libasr/runtime/lfortran_intrinsics.c:2307 | Reallocation keeps the leading contents and leaves any new room indeterminate |
| StringAssign.ExtendString | src/libasr/runtime/lfortran_intrinsics.c:2298-2311 | The capacity doubles, or becomes the needed size when doubling is not enough; the contents are kept |
| StringAssign.WriteCString | src/libasr/runtime/lfortran_intrinsics.c:2364-2368 | Writing a string and its terminator into a large enough block makes the block read back as that string |
| StringAssign.ReadPrefix | src/libasr/runtime/lfortran_intrinsics.c:2364-2368 | A string that ends inside the first n cells reads the same from the whole block |
| StringAssign.StrcpyDescriptor | src/libasr/runtime/lfortran_intrinsics.c:2339-2370 | Afterwards the buffer reads back as the right-hand side and the size is its length; the capacity is kept when it was enough, and otherwise grows as allocation or extension dictates; an inconsistent descriptor or an unallocated right-hand side is fatal |
| StringAssign.StrcpyDescriptorSettles | src/libasr/runtime/lfortran_intrinsics.c:2339-2370 | Assigning the same value twice leaves the capacity where the first assignment put it |
| StringCompare.TrimmedLength | src/libasr/runtime/lfortran_intrinsics.c:2399-2403 | The trimmed length drops exactly the trailing blanks: everything after it is a blank and the byte before it is not |
| StringCompare.SignedChar | src/libasr/runtime/lfortran_intrinsics.c:2413-2414 | A byte read as a signed char is between -128 and 127, never zero, and congruent to the byte modulo 256 |
| StringCompare.SignedCharInjective | src/libasr/runtime/lfortran_intrinsics.c:2413-2414 | Two bytes have the same signed value exactly when they are equal |
| StringCompare.FirstDifference | src/libasr/runtime/lfortran_intrinsics.c:2412-2417 | The loop stops at the first position before the limit where the strings differ, or at the limit |
| StringCompare.StrCompare | src/libasr/runtime/lfortran_intrinsics.c:2405-2420 | The result is zero exactly when the strings are equal once trailing blanks are dropped |
| StringCompare.FirstDifferenceSymmetric | src/libasr/runtime/lfortran_intrinsics.c:2412-2417 | The first difference does not depend on the order of the two strings |
| StringCompare.StrCompareAntisymmetric | src/libasr/runtime/lfortran_intrinsics.c:2405-2420 | Swapping the operands negates the result |
| StringCompare.StrCompareNegativeIsTrimmedLess | src/libasr/runtime/lfortran_intrinsics.c:2405-2420 | A negative result means exactly that, after trailing blanks are dropped, the first string is a proper prefix of the second or holds the smaller signed byte where they first differ |
| StringCompare.StrCompareEq | src/libasr/runtime/lfortran_intrinsics.c:2421-2424 | Equality ignores trailing blanks and nothing else |
| StringCompare.StrCompareNotEq | src/libasr/runtime/lfortran_intrinsics.c:2426-2429 | Inequality is the negation of trailing-blank-insensitive equality |
| StringCompare.StrCompareLt | src/libasr/runtime/lfortran_intrinsics.c:2441-2444 | Less-than is the trimmed signed-byte order |
| StringCompare.StrCompareGt | src/libasr/runtime/lfortran_intrinsics.c:2431-2434 | Greater-than is the trimmed order with the operands swapped |
| StringCompare.StrCompareLte | src/libasr/runtime/lfortran_intrinsics.c:2436-2439 | Less-or-equal holds exactly when the second string does not sort first |
| StringCompare.StrCompareGte | src/libasr/runtime/lfortran_intrinsics.c:2446-2449 | Greater-or-equal holds exactly when the first string does not sort first |
| StringCompare.StrCompareTrichotomy | src/libasr/runtime/lfortran_intrinsics.c:2405-2449 | Exactly one of less, equal and greater holds for any two strings |
| FormatParser.NextQuoteState | src/libasr/runtime/lfortran_intrinsics.c:642-652 | A quote not preceded by a backslash opens a quoted segment when outside one and closes the segment it opened; any other character leaves the state as it is |
| FormatParser.CleanFrom | src/libasr/runtime/lfortran_intrinsics.c:640-659 | The cleaned rest of a format is no longer than the input rest, is that rest unchanged when it holds no white space, and holds no white space when it starts outside quotes with no quote ahead |
| FormatParser.NonSpaceAppend | src/libasr/runtime/lfortran_intrinsics.c:654-656 | Dropping white space from two joined strings is dropping it from each |
| FormatParser.CleanKeepsNonSpace | src/libasr/runtime/lfortran_intrinsics.c:640-659 | The cleaning loop keeps every character that is not white space, in order |
| FormatParser.CleanWithoutQuotes | src/libasr/runtime/lfortran_intrinsics.c:640-659 | Outside quotes, with no quote ahead, the cleaning loop drops exactly the white space |
| FormatParser.CleanWithoutAnyQuote | src/libasr/runtime/lfortran_intrinsics.c:630-663 | A format string without quotes loses exactly its white space |
| FormatParser.RemoveSpacesExceptQuotes | src/libasr/runtime/lfortran_intrinsics.c:630-663 | The cleaned format is never longer, keeps every character that is not white space in order, and without quotes is the string with all white space removed |
| FormatParser.QuotedSegmentKept | src/libasr/runtime/lfortran_intrinsics.c:640-659 | A quoted segment opened outside quotes is copied verbatim, blanks included, and the scan is outside quotes again after its closing quote |
| FormatParser.InsideSegment | src/libasr/runtime/lfortran_intrinsics.c:640-659 | Inside a quoted segment every character up to the closing quote is copied |
| FormatParser.Token | src/libasr/runtime/lfortran_intrinsics.c:743-763 | A descriptor cut from i to j is the single token s[i..j] and the scan goes on at j |
| FormatParser.Skip | src/libasr/runtime/lfortran_intrinsics.c:689-690 | A comma, or a blank the default branch passes over, appends nothing and moves one place |
| FormatParser.QuotedStep | src/libasr/runtime/lfortran_intrinsics.c:698-712 | A quoted literal is one token from its quote to the next same quote, quotes included; without a closing quote the scan runs past the terminator |
| FormatParser.ExponentStep | src/libasr/runtime/lfortran_intrinsics.c:721-745 | E, EN and ES editing fail with "Period required" exactly when the byte after the width digits, past the optional N and S, is not a period, and that is the only way they fail |
| FormatParser.SignStep | src/libasr/runtime/lfortran_intrinsics.c:766-778 | S fails exactly when the next character is not a comma, P or S; a lone S leaves the comma for the next pass |
| FormatParser.GroupStep | src/libasr/runtime/lfortran_intrinsics.c:779-784 | A parenthesised group is one token ending at its ')' and sets the mark |
| FormatParser.TabStep | src/libasr/runtime/lfortran_intrinsics.c:785-804 | T, TL and TR fail, with the width-required message, exactly when no digit follows the optional L or R, and the token ends with a digit |
| FormatParser.DefaultStep | src/libasr/runtime/lfortran_intrinsics.c:805-841 | A scale factor is one token; a repeat count r gives r tokens and sets the mark exactly when a group follows; a character that is not a digit, a blank or a scale factor is the unsupported-character error, and only such a character fails fatally |
| FormatParser.ParseStep | src/libasr/runtime/lfortran_intrinsics.c:688-843 | Each pass moves forward within the string and appends copies of one slice; commas and blanks append nothing; '/', ':' and '*' are one-character tokens; only a group or a repeat count sets the mark |
| FormatParser.ParseStepErrors | src/libasr/runtime/lfortran_intrinsics.c:721-840 | The fatal errors are: E whose width digits are not followed by a period, S not followed by a comma, P or S, T without a width digit, and a character no descriptor starts with; an E or T descriptor fails exactly in its case |
| FormatParser.ParseStepShapes | src/libasr/runtime/lfortran_intrinsics.c:698-837 | A quoted literal is one token with its quotes, a scale factor is one token, and a repeat count r yields r tokens with the mark set exactly when a group follows |
| FormatParser.NumericEnd | src/libasr/runtime/lfortran_intrinsics.c:746-765 | An I, D, F or L descriptor always covers at least its letter |
| FormatParser.Copies | src/libasr/runtime/lfortran_intrinsics.c:823-835 | The repeat loop appends r copies of the same token |
| FormatParser.RepeatStep | src/libasr/runtime/lfortran_intrinsics.c:812-837 | A repeat count r gives r copies of one slice that starts after the count, and sets the mark exactly when a group follows |
| FormatParser.ParseFrom | src/libasr/runtime/lfortran_intrinsics.c:680-844 | The mark, when set, is a token count of at least one |
| FormatParser.ParseFromSlices | src/libasr/runtime/lfortran_intrinsics.c:680-844 | Every token is a nonempty piece of the format string |
| FormatParser.ParseFortranFormat | src/libasr/runtime/lfortran_intrinsics.c:676-847 | The count grows by the number of new tokens, every token is a nonempty piece of the format, and item_start moves only when a group is seen, and then past the slots the caller already had |
| FormatParser.NoGroupNoMark | src/libasr/runtime/lfortran_intrinsics.c:779-825 | A format without '(' never moves item_start |
| FormatParser.ParseWithoutGroups | src/libasr/runtime/lfortran_intrinsics.c:779-825 | Without '(' no pass from any position sets the mark |
| FormatParser.DottedAtIsDotted | src/libasr/runtime/lfortran_intrinsics.c:746-765 | A dot that splits a descriptor into two digit runs is the dot the descriptor scan reaches |
| FormatParser.DigitRunEndAt | src/libasr/runtime/lfortran_intrinsics.c:753-758 | A run of digits ending at a non-digit or at the end is the run the scan reads |
| FormatParser.NumericEndDotted | src/libasr/runtime/lfortran_intrinsics.c:746-765 | A copied Iw.d descriptor followed by a comma or the end is cut exactly at its end |
| FormatParser.DottedLead | src/libasr/runtime/lfortran_intrinsics.c:750-757 | In a copied Iw.d the character after the letter is a digit or the dot, and the dot is where the copy has it |
| FormatParser.DottedRuns | src/libasr/runtime/lfortran_intrinsics.c:753-758 | The two digit runs of a copied Iw.d end at the dot and at the end of the copy |
| FormatParser.NumericEndOfRuns | src/libasr/runtime/lfortran_intrinsics.c:750-762 | A letter, digits up to the dot and digits up to a comma or the end, with no exponent, end where the second run ends |
| FormatParser.CopiedDigits | src/libasr/runtime/lfortran_intrinsics.c:753-758 | Digits of a descriptor stay digits where it is copied into the format |
| FormatParser.DigitsAfterLetter | src/libasr/runtime/lfortran_intrinsics.c:713-765 | A letter followed only by digits and then a comma or the end has its digit run end at its end, and no S or dot follows the letter |
| FormatParser.SimpleStep | src/libasr/runtime/lfortran_intrinsics.c:688-765 | A simple descriptor followed by a comma or the end is cut as exactly one token, itself |
| FormatParser.TokenUpTo | src/libasr/runtime/lfortran_intrinsics.c:743-763 | The token cut from i to the end of a copy of t is t |
| FormatParser.LetterStep | src/libasr/runtime/lfortran_intrinsics.c:746-765 | An I, D, F or L descriptor is cut where its number ends |
| FormatParser.WidthStep | src/libasr/runtime/lfortran_intrinsics.c:713-720 | An A descriptor is cut where its width ends |
| FormatParser.ParseFromUnfold | src/libasr/runtime/lfortran_intrinsics.c:680-844 | The tokens from i are the pass's tokens followed by the tokens from where it stopped |
| FormatParser.ParseFromEnd | src/libasr/runtime/lfortran_intrinsics.c:680 | At the terminator the loop ends with no tokens |
| FormatParser.ParseCons | src/libasr/runtime/lfortran_intrinsics.c:680-844 | A descriptor, a comma, and the tokens after the comma are the tokens from i |
| FormatParser.JoinIsJoined | src/libasr/runtime/lfortran_intrinsics.c:680-844 | A comma-separated list of descriptors lies in the string one after the other |
| FormatParser.AllSimpleOf | src/libasr/runtime/lfortran_intrinsics.c:688-765 | A list every member of which is simple is simple throughout |
| FormatParser.ParseJoin | src/libasr/runtime/lfortran_intrinsics.c:676-847 | Simple descriptors joined by commas from i to the end are tokenized back into themselves |
| FormatParser.ParseJoinLast | src/libasr/runtime/lfortran_intrinsics.c:676-847 | The last descriptor of a joined list is tokenized back into itself |
| FormatParser.JoinedStep | src/libasr/runtime/lfortran_intrinsics.c:676-847 | The tokens from i are the first descriptor followed by the tokens after its comma |
| FormatParser.JoinedUncons | src/libasr/runtime/lfortran_intrinsics.c:676-847 | A joined list starts with a simple descriptor followed by a comma |
| FormatParser.ParseLast | src/libasr/runtime/lfortran_intrinsics.c:676-847 | A simple descriptor that ends the string is its only token |
| FormatParser.ParseSimpleCons | src/libasr/runtime/lfortran_intrinsics.c:676-847 | A simple descriptor, a comma, and the tokens after it are the tokens from i |
| FormatParser.ParseFortranFormatOf | src/libasr/runtime/lfortran_intrinsics.c:676-847 | Once the tokens from the start are known, the call returns them after the existing slots with the count increased by their number |
| FormatParser.ParseFortranFormatJoin | src/libasr/runtime/lfortran_intrinsics.c:676-847 | Tokenizing simple descriptors joined by commas gives them back and adds their number to the count, leaving item_start alone |
| FormatEdit.DigitCount | src/libasr/runtime/lfortran_intrinsics.c:203-209 | Every value, zero and INT64_MIN included, has at least one decimal digit |
| FormatEdit.Repeated | src/libasr/runtime/lfortran_intrinsics.c:225-258 | The padding loops write exactly n copies of one character, none for a count that is not positive |
| FormatEdit.DigitText | src/libasr/runtime/lfortran_intrinsics.c:248-254 | The digits written are exactly the decimal numeral of the magnitude, INT64_MIN's included, with as many digits as counted |
| FormatEdit.ParseIntegerEdit | src/libasr/runtime/lfortran_intrinsics.c:199-222 | The edit has a minimum digit count exactly when the descriptor holds a '.' |
| FormatEdit.SignText | src/libasr/runtime/lfortran_intrinsics.c:201-202 | A sign is written exactly when the value is negative or SP is in effect, and it is one character |
| FormatEdit.HandleInteger | src/libasr/runtime/lfortran_intrinsics.c:197-260 | A field of width w too narrow for the sign and max(m, digits) digits is w asterisks; otherwise it is the padded field of width w with max(m, digits) digits, and a zero width gives the padded field of minimal width |
| FormatEdit.HandleIntegerLayoutExample | src/libasr/runtime/lfortran_intrinsics.c:223-254 | I5.3 of 5 is "  005", and I2 of 5 under SP is "+5" |
| FormatEdit.PaddedField | src/libasr/runtime/lfortran_intrinsics.c:223-254 | Blanks, the sign and the zero-padded digits make a field of exactly the given width |
| FormatEdit.PaddedFieldLayout | src/libasr/runtime/lfortran_intrinsics.c:223-254 | The field is right-justified: leading blanks, then '-' for a negative value or '+' under SP, then exactly the requested number of digits, zero-padded, whose value is the magnitude |
| FormatEdit.PaddedFieldReadsBack | src/libasr/runtime/lfortran_intrinsics.c:223-254 | Reading a padded field back with `atoi` gives the value written |
| FormatEdit.LeadingZerosValue | src/libasr/runtime/lfortran_intrinsics.c:235-237 | Leading zeros do not change a numeral's value |
| FormatEdit.AllZerosValue | src/libasr/runtime/lfortran_intrinsics.c:235-237 | A run of zeros has value zero |
| CBase.Atoi | src/libasr/runtime/lfortran_intrinsics.c:212-218 | `atoi` of a string of decimal digits is their decimal value |
| FormatEdit.AtoiSkipsBlanks | src/libasr/runtime/lfortran_intrinsics.c:212-218 | `atoi` reads past leading blanks |
| FormatEdit.AtoiSignedDigits | src/libasr/runtime/lfortran_intrinsics.c:212-218 | `atoi` of blanks, an optional sign and digits is the signed value of the digits |
| FormatEdit.DigitRunToEnd | src/libasr/runtime/lfortran_intrinsics.c:212-218 | A string that is all digits from i on has its digit run end at its end |
| FormatEdit.AtoiOfField | src/libasr/runtime/lfortran_intrinsics.c:212-218 | `atoi` of a field of blanks, an optional sign and digits is the value with that sign |
| FormatEdit.HandleIntegerReadsBack | src/libasr/runtime/lfortran_intrinsics.c:197-260 | Whenever the field is not asterisks, reading it back gives the value written |
| FormatEdit.HandleIntegerAsWritten | src/libasr/runtime/lfortran_intrinsics.c:197-260 | The field as the runtime writes it; see Findings |
| FormatEdit.HandleIntegerAsWrittenOverflowsField | src/libasr/runtime/lfortran_intrinsics.c:223-237 | When w holds the sign and the digits but not the m zero-padded digits, the field as written is longer than w, where asterisks were due |
| FormatEdit.HandleIntegerAsWrittenExample | src/libasr/runtime/lfortran_intrinsics.c:223-237 | I3.3 applied to -5 writes "-005", four characters in a three-character field, where "***" is due |
| FormatEdit.HandleIntegerAgreesElsewhere | src/libasr/runtime/lfortran_intrinsics.c:197-260 | Outside that case the field as written and the corrected field are the same |
| FormatEdit.WrittenIsPadded | src/libasr/runtime/lfortran_intrinsics.c:223-254 | Where the field fits, the field as written is blanks, sign and zero-padded digits |
| FormatEdit.RepeatedNone | src/libasr/runtime/lfortran_intrinsics.c:225-241 | A padding loop with a count that is not positive writes nothing |
| FormatEdit.HandleLogical | src/libasr/runtime/lfortran_intrinsics.c:262-272 | L editing writes w-1 blanks and then T or F; a width below one still writes the letter |
| Decimal.ValueOfDigits | src/libasr/runtime/lfortran_intrinsics.c:248-254 | The decimal numeral printed for a magnitude reads back as that magnitude |
| Decimal.DigitsNoLeadingZero | src/libasr/runtime/lfortran_intrinsics.c:248-254 | The numeral starts with 0 only for zero itself |
| Decimal.DigitsLength | src/libasr/runtime/lfortran_intrinsics.c:203-209 | The numeral has exactly floor(log10 n) + 1 digits, the count handle_integer computes |
| BitIntrinsics.Ibits | src/libasr/runtime/lfortran_intrinsics.c:2798-2806 | ibits is defined exactly when both shift counts lie in [0, w), and its result fits the w-bit type |
| BitIntrinsics.ExtractField | src/libasr/runtime/lfortran_intrinsics.c:2798-2801 | Shifting left then right extracts exactly the bits [p, p + l) |
| BitIntrinsics.IbitsValue | src/libasr/runtime/lfortran_intrinsics.c:2798-2806 | The result is bits [pos, pos + len) of the argument, right-adjusted, as IBITS is defined |
| BitIntrinsics.IbitsBits | src/libasr/runtime/lfortran_intrinsics.c:2798-2806 | Bit k of the result is bit pos + k of the argument below len and clear from len up |
| BitIntrinsics.Mvbits | src/libasr/runtime/lfortran_intrinsics.c:2770-2796 | mvbits is defined exactly when every shift count lies in [0, w), and its result fits the w-bit type |
| BitIntrinsics.FieldBits | src/libasr/runtime/lfortran_intrinsics.c:2770-2782 | The shifted field holds bit frompos + k - topos of the source inside the target window and nothing outside it |
| BitIntrinsics.MvbitsBits | src/libasr/runtime/lfortran_intrinsics.c:2770-2796 | Bits [topos, topos + len) of the result come from bits [frompos, frompos + len) of from; every other bit is the bit of to, as MVBITS is defined |
| BitIntrinsics.MvbitsInPlace | src/libasr/runtime/lfortran_intrinsics.c:2770-2796 | Moving a field onto itself at the same position changes nothing |
| BitIntrinsics.CutoffExtraBits | src/libasr/runtime/lfortran_intrinsics.c:1844-1849 | The cut is defined exactly for sizes up to 64 and keeps the low size bits |
| BitIntrinsics.CircularShift | src/libasr/runtime/lfortran_intrinsics.c:1851-1879 | The common body is defined exactly when the size is at most 64 and both shift counts are below 64, and its result is a 64-bit word |
| BitIntrinsics.RotateInverse | src/libasr/runtime/lfortran_intrinsics.c:1851-1879 | Rotating n bits left by t and then by n - t restores them |
| BitIntrinsics.CircularShiftRotates | src/libasr/runtime/lfortran_intrinsics.c:1851-1879 | The runtime's circular shift rotates the low n bits of the argument, left for a non-negative shift and right for a negative one |
| BitIntrinsics.Sishftc | src/libasr/runtime/lfortran_intrinsics.c:1851-1864 | The 32-bit circular shift returns a 32-bit value whenever it is defined |
| BitIntrinsics.Dishftc | src/libasr/runtime/lfortran_intrinsics.c:1866-1879 | The 64-bit circular shift returns a 64-bit value whenever it is defined |
| BitIntrinsics.SishftcDefined | src/libasr/runtime/lfortran_intrinsics.c:1851-1864 | The 32-bit circular shift is defined exactly when the shift is not INT_MIN, abs(shift) <= size <= 64, and neither shift count reaches 64 |
| BitIntrinsics.SishftcDropsHighBits | src/libasr/runtime/lfortran_intrinsics.c:1851-1864 | On conforming arguments the runtime's result is the standard ISHFTC with every bit from size up cleared |
| BitIntrinsics.SishftcRotates | src/libasr/runtime/lfortran_intrinsics.c:1851-1864 | On conforming arguments the runtime's result is the low size bits of the argument rotated, and nothing above them |
| BitIntrinsics.DishftcRotates | src/libasr/runtime/lfortran_intrinsics.c:1866-1879 | On conforming arguments that keep both shift counts below 64 the runtime's 64-bit result is the rotated low size bits |
| BitIntrinsics.DishftcDropsHighBits | src/libasr/runtime/lfortran_intrinsics.c:1866-1879 | On such arguments the 64-bit runtime result is the standard ISHFTC with the bits from size up cleared |
| BitIntrinsics.DishftcFullWidth | src/libasr/runtime/lfortran_intrinsics.c:1866-1879 | At size 64 a shift of 0 or 64 shifts by 64, which C leaves undefined, while the standard result is the argument itself |
| BitIntrinsics.DishftcWholeWord | src/libasr/runtime/lfortran_intrinsics.c:1866-1879 | A shift of 0 or 64 at size 64 always reaches the undefined shift |
| BitIntrinsics.SishftcExample | src/libasr/runtime/lfortran_intrinsics.c:1851-1864 | ishftc(255, 1, 4) gives 15 from the runtime |
| BitIntrinsics.SishftcFullWidth | src/libasr/runtime/lfortran_intrinsics.c:1851-1864 | At size 32 nothing lies above the field and the runtime agrees with the standard |
| BitIntrinsics.Ishftc | src/libasr/runtime/lfortran_intrinsics.c:1851-1879 | The standard ISHFTC is defined exactly when 0 < size <= w and abs(shift) <= size, and fits the w-bit type |
| BitIntrinsics.IshftcBits | src/libasr/runtime/lfortran_intrinsics.c:1851-1879 | Below size bit k of the standard result is bit k - shift of the argument counted modulo size; from size up it is the argument's bit |
| BitIntrinsics.IshftcInverse | src/libasr/runtime/lfortran_intrinsics.c:1851-1879 | Shifting circularly by shift and then by -shift restores the argument |
| BitIntrinsics.IshftcWhole | src/libasr/runtime/lfortran_intrinsics.c:1866-1879 | Rotating a whole 64-bit word by 0 or 64 leaves it as it was |
| BitIntrinsics.IshftcExample | src/libasr/runtime/lfortran_intrinsics.c:1851-1864 | The standard ISHFTC keeps the bits of 255 above the 4-bit field |
| BitIntrinsics.CircularShiftLowBits | src/libasr/runtime/lfortran_intrinsics.c:1851-1879 | On conforming arguments the runtime's circular shift equals the low size bits of the standard result |
| BitIntrinsics.CountBits | src/libasr/runtime/lfortran_intrinsics.c:2494-2536 | The shift loop counts r with 2^(r-1) <= num < 2^r, and 0 for num <= 0 |
| BitIntrinsics.AbsInPlace | src/libasr/runtime/lfortran_intrinsics.c:2494-2536 | abs is defined except for the most negative 32- and 64-bit values; for 8 and 16 bits narrowing leaves the most negative value unchanged |
| BitIntrinsics.BitLength | src/libasr/runtime/lfortran_intrinsics.c:2494-2536 | bit_length is the number of bits of abs(num), except that the most negative 8- and 16-bit values give 0 and the most negative 32- and 64-bit values are undefined |
| BitIntrinsics.BitLengthCorrected | src/libasr/runtime/lfortran_intrinsics.c:2494-2536 | Python's bit_length: 0 exactly for 0, otherwise the r with 2^(r-1) <= abs(num) < 2^r |
| BitIntrinsics.BitsOfBounds | src/libasr/runtime/lfortran_intrinsics.c:2494-2503 | The count of binary digits is 0 only for 0 and otherwise brackets n between powers of two |
| BitIntrinsics.BitsOfUnique | src/libasr/runtime/lfortran_intrinsics.c:2494-2503 | No other count brackets n |
| BitIntrinsics.BitLengthExample | src/libasr/runtime/lfortran_intrinsics.c:2494-2503 | (-128).bit_length() is 8 |
| RuntimeStack.CreateStack | src/libasr/runtime/lfortran_intrinsics.c:920-926 | A new stack holds no items and has room for ten |
| RuntimeStack.Push | src/libasr/runtime/lfortran_intrinsics.c:928-934 | Pushing appends the value on top and keeps every earlier item; the allocation doubles exactly when it was full |
| RuntimeStack.Pop | src/libasr/runtime/lfortran_intrinsics.c:936-942 | Popping an empty stack is the fatal "Compiler Internal Error."; otherwise exactly the top item is removed and the allocation is kept |
| RuntimeStack.Top | src/libasr/runtime/lfortran_intrinsics.c:944-946 | The top is the last item pushed and not popped; on an empty stack the read falls before the allocation |
| RuntimeStack.Empty | src/libasr/runtime/lfortran_intrinsics.c:948-950 | A stack is empty exactly when it has no top to read |
| RuntimeStack.TopOfPush | src/libasr/runtime/lfortran_intrinsics.c:928-946 | Pushing then reading the top gives the pushed value, and the stack is not empty |
| RuntimeStack.PopOfPush | src/libasr/runtime/lfortran_intrinsics.c:928-942 | Pushing then popping gives back the same items |
| RuntimeStack.PopValid | src/libasr/runtime/lfortran_intrinsics.c:936-942 | Popping keeps the items within the allocation |
| RuntimeStack.PushAll | src/libasr/runtime/lfortran_intrinsics.c:928-934 | Any number of pushes keeps the items within an allocation of ten doubled some number of times |
| RuntimeStack.PushAllItems | src/libasr/runtime/lfortran_intrinsics.c:928-934 | After a series of pushes the items are the old items followed by the pushed values, last on top, and the allocation never shrinks |
| UnitTable.FirstMatch | src/libasr/runtime/lfortran_intrinsics.c:3151-3160 | The position found is that of the first record held for the unit, and there is none exactly when no record holds it |
| UnitTable.CountOf | src/libasr/runtime/lfortran_intrinsics.c:3132-3149 | The number of records held for a unit is zero exactly when no record holds it |
| UnitTable.StoreUnitFile | src/libasr/runtime/lfortran_intrinsics.c:3132-3149 | Every record already held for the unit takes the new file pointer and form but keeps its file name; a new record is appended; other records are unchanged; a table already holding 1000 records is fatal |
| UnitTable.GetFilePointerFromUnit | src/libasr/runtime/lfortran_intrinsics.c:3151-3160 | The file pointer and form of the first record for the unit, or NULL and false when there is none |
| UnitTable.GetFileNameFromUnit | src/libasr/runtime/lfortran_intrinsics.c:3162-3171 | The file name and form of the first record for the unit, or NULL and false when there is none |
| UnitTable.FirstMatchIs | src/libasr/runtime/lfortran_intrinsics.c:3175-3181 | A matching record with no matching record before it is the one found |
| UnitTable.RemoveUnit | src/libasr/runtime/lfortran_intrinsics.c:3173-3191 | Removal drops one record exactly when the unit has one, and the unit then has one record fewer |
| UnitTable.CountSplit | src/libasr/runtime/lfortran_intrinsics.c:3183-3190 | Deleting a record splits the count of records for a unit across the two sides of it |
| UnitTable.CountConcat | src/libasr/runtime/lfortran_intrinsics.c:3183-3190 | The records for a unit in two tables joined are those of each table added together |
| UnitTable.RemoveFromUnitToFile | src/libasr/runtime/lfortran_intrinsics.c:3173-3191 | The search-and-shift loops delete the first record for the unit and move every later record down one place, or leave the table unchanged when there is none |
| UnitTable.Lookup | src/libasr/runtime/lfortran_intrinsics.c:3151-3160 | A lookup finds nothing exactly when no record holds the unit, and otherwise the first record that does |
| UnitTable.StoreThenLookup | src/libasr/runtime/lfortran_intrinsics.c:3132-3160 | After a store, a lookup of the unit finds the new file pointer and form |
| UnitTable.StoreThenFileName | src/libasr/runtime/lfortran_intrinsics.c:3132-3171 | After a store, the file name found is the new one only if the unit had no record before: a unit opened again keeps its first file name |
| UnitTable.StoreKeepsOthers | src/libasr/runtime/lfortran_intrinsics.c:3132-3149 | A store does not change what any other unit looks up |
| UnitTable.DeleteIndex | src/libasr/runtime/lfortran_intrinsics.c:3183-3190 | Deleting the record at one position keeps the records before it and moves each later one down one place |
| UnitTable.DeleteKeepsOther | src/libasr/runtime/lfortran_intrinsics.c:3183-3190 | Deleting a record of another unit does not change what a lookup finds |
| UnitTable.RemoveKeepsOthers | src/libasr/runtime/lfortran_intrinsics.c:3173-3191 | A removal does not change what any other unit looks up |
| UnitTable.StoreThenRemoveFresh | src/libasr/runtime/lfortran_intrinsics.c:3132-3191 | Storing a unit the table does not hold and then removing it restores the table |
| UnitTable.ReopenThenRemoveKeepsUnit | src/libasr/runtime/lfortran_intrinsics.c:3132-3191 | A unit stored while it already had a record still has one after a single removal |
| AddressSearch.Bisection | src/libasr/runtime/lfortran_intrinsics.c:4433-4447 | The result is 0 below the first address, the table size at or above the last one, and otherwise an index r with vec[r] <= i < vec[r+1] |
| AddressSearch.CountAtMost | src/libasr/runtime/lfortran_intrinsics.c:4433-4447 | The number of addresses at or below i is at most the table size |
| AddressSearch.BracketIsRank | src/libasr/runtime/lfortran_intrinsics.c:4433-4447 | In a sorted table the bracketing index is one less than the number of addresses at or below i |
| AddressSearch.AllAtMost | src/libasr/runtime/lfortran_intrinsics.c:4438-4440 | When the last address of a sorted table is at or below i, every address is |
| AddressSearch.BracketUnique | src/libasr/runtime/lfortran_intrinsics.c:4433-4447 | In a sorted table at most one index brackets a given address, so the search's answer is the only one |
| OpenStatement.ScanBack | src/libasr/runtime/lfortran_intrinsics.c:3207-3216 | The backward scan stops at the last non-blank character, or at the first character, and everything after it up to the start of the scan is white space |
| OpenStatement.TrimFileName | src/libasr/runtime/lfortran_intrinsics.c:3207-3216 | A name whose last character is not a blank is kept; otherwise trailing white space is removed but the first character always stays; an empty name reads before the string |
| OpenStatement.StatusDecision | src/libasr/runtime/lfortran_intrinsics.c:3229-3258 | OLD needs an existing file and NEW an absent one; REPLACE and UNKNOWN always succeed; NEW and REPLACE open with "w+" and the others with "r+"; UNKNOWN creates an absent file first; everything else, SCRATCH included, is fatal |
| OpenStatement.FormDecision | src/libasr/runtime/lfortran_intrinsics.c:3259-3271 | FORMATTED and UNFORMATTED are accepted, in any letter case, and only UNFORMATTED opens the unit as binary; any other value is fatal with a message quoting it |
| OpenStatement.SpellingsDistinct | src/libasr/runtime/lfortran_intrinsics.c:3229-3271 | No specifier value matches two different spellings, so the order of the tests does not matter |
| OpenStatement.Open | src/libasr/runtime/lfortran_intrinsics.c:3193-3271 | An omitted name, status or form takes its default and the name is trimmed; a successful plan is exactly what the STATUS= table decides for the trimmed name; a trimming error wins over a STATUS= error, which wins over a FORM= error |
| OpenStatement.OpenDefaults | src/libasr/runtime/lfortran_intrinsics.c:3196-3205 | With every specifier omitted the default file is opened formatted with "r+", and created first when absent |
| OpenStatement.OpenSafety | src/libasr/runtime/lfortran_intrinsics.c:3229-3258 | A successful open truncates an existing file only under STATUS=REPLACE, and the file exists by the time it is opened |
| OpenStatement.StatusIgnoresCase | src/libasr/runtime/lfortran_intrinsics.c:3229-3258 | STATUS= values differing only in letter case take the same decision |
| OpenStatement.FormIgnoresCase | src/libasr/runtime/lfortran_intrinsics.c:3259-3271 | FORM= values differing only in letter case take the same decision |
| OpenStatement.TrimIdempotent | src/libasr/runtime/lfortran_intrinsics.c:3207-3216 | Trimming a trimmed name changes nothing |
| OpenStatement.TrimAllBlank | src/libasr/runtime/lfortran_intrinsics.c:3207-3216 | A name of blanks only is cut to its first blank, not to nothing |
| PrintSerialization.EnumValue | src/libasr/runtime/lfortran_intrinsics.c:849-861 | Every primitive type has an enumeration value below the count of ten types |
| PrintSerialization.FormatSpecifier | src/libasr/runtime/lfortran_intrinsics.c:868-894 | Integers print with `i`, reals with `f`, characters with `a`, logicals with `l` and C pointers with `P`; NONE_TYPE, and only it, ends the program with "Unidentified Type 9" |
| PrintSerialization.IsFormatMatch | src/libasr/runtime/lfortran_intrinsics.c:895-911 | An edit letter suits a type exactly when, lower-cased, it is among that type's accepted edits: I for integers, F, D or E for reals, A or L for characters and logicals, none for C pointers |
| PrintSerialization.OwnSpecifierMatches | src/libasr/runtime/lfortran_intrinsics.c:895-911 | Every printable type other than a C pointer accepts the edit letter it prints with, in either letter case |
| PrintSerialization.GetSerializedArraySize | src/libasr/runtime/lfortran_intrinsics.c:979-985 | The loop reads the run of decimal digits at the current position as a number and stops just after it |
| PrintSerialization.DigitRunIs | src/libasr/runtime/lfortran_intrinsics.c:981-983 | A run of digits ending at a non-digit or at the end is the run the loop reads |
| PrintSerialization.ArraySizeRoundTrip | src/libasr/runtime/lfortran_intrinsics.c:979-985 | A size written in decimal in front of a non-digit reads back as that size, and the position moves past exactly its digits |
| PrintSerialization.SetCurrentPrimitiveType | src/libasr/runtime/lfortran_intrinsics.c:989-1053 | A decoded code names a printable type and the position moves past exactly that type's code; anything else is fatal |
| PrintSerialization.IntegerKind | src/libasr/runtime/lfortran_intrinsics.c:993-1014 | After `I`, the kind digits 8, 4, 2 and 1 give the four integer types; any other character is fatal, quoting the whole string |
| PrintSerialization.RealKind | src/libasr/runtime/lfortran_intrinsics.c:1016-1030 | After `R`, the kind digits 8 and 4 give the two real types; any other character is fatal |
| PrintSerialization.PointerCode | src/libasr/runtime/lfortran_intrinsics.c:1038-1043 | After `C`, the characters `Ptr` must follow, read left to right up to the first mismatch; otherwise the assertion is fatal |
| PrintSerialization.TypeCodeRoundTrip | src/libasr/runtime/lfortran_intrinsics.c:989-1053 | Every printable type's code decodes back to that type, whatever precedes or follows it |
| PrintSerialization.DecodesAt | src/libasr/runtime/lfortran_intrinsics.c:989-1053 | A type's code standing at the current position decodes to that type |
| PrintSerialization.DecodedIsTypeCode | src/libasr/runtime/lfortran_intrinsics.c:989-1053 | Whatever the decoder accepts is exactly the code of the type it reports |
| PrintSerialization.TypeCodeInjective | src/libasr/runtime/lfortran_intrinsics.c:989-1053 | No two types share a code, so decoding is unambiguous |
| LspJsonText.UpperBytes | src/server/tests/src/llanguage_test_client/lsp_json_stream.py:94 | `bytes.upper()` changes exactly the ASCII lower-case letters, each to its capital, and keeps the length |
| LspJsonText.AsciiIsUtf8 | src/server/tests/src/llanguage_test_client/lsp_json_stream.py:94 | Bytes below 0x80 always decode as UTF-8, so an ASCII header name never raises a decode error |
| LspJsonStream.UpperKeepsUtf8 | src/server/tests/src/llanguage_test_client/lsp_json_stream.py:94 | Upper-casing a header name does not change whether it decodes as UTF-8 |
| LspJsonText.PyInt | src/server/tests/src/llanguage_test_client/lsp_json_stream.py:119 | `int()` of a header value succeeds only on a value that is not blank once white space is stripped |
| LspJsonText.PyIntOfDigits | src/server/tests/src/llanguage_test_client/lsp_json_stream.py:119 | A decimal numeral of at most 4300 digits, with any leading blanks, reads back as its number |
| LspJsonText.UnsignedDigits | src/server/tests/src/llanguage_test_client/lsp_json_stream.py:119 | Text that strips to at most 4300 plain decimal digits reads as their decimal value |
| LspJsonText.DigitsOverLimit | src/server/tests/src/llanguage_test_client/lsp_json_stream.py:119 | Text that strips to more than 4300 digits is rejected by `int()`, as Python's integer string conversion length limit demands |
| LspJsonMessages.ContentLengthTooLong | src/server/tests/src/llanguage_test_client/lsp_json_stream.py:108-120 | A Content-Length value of more than 4300 digits, leading zeros included, fails with ValueError |
| LspJsonStream.ScanName | src/server/tests/src/llanguage_test_client/lsp_json_stream.py:71-99 | A header-name scan that succeeds consumes at least one more byte and stays within the input |
| LspJsonStream.ParseHeaderValue | src/server/tests/src/llanguage_test_client/lsp_json_stream.py:101-126 | A header-value scan that succeeds consumes at least one byte and stays within the input |
| LspJsonStream.ScanValue | src/server/tests/src/llanguage_test_client/lsp_json_stream.py:106-126 | The value loop, when it succeeds, stays within the input and moves forward |
| LspJsonStream.ParseBody | src/server/tests/src/llanguage_test_client/lsp_json_stream.py:128-148 | The body succeeds exactly when enough bytes remain and they are UTF-8; it is then the next num_bytes bytes (none when num_bytes is not positive) and ends right after them |
| LspJsonStream.Next | src/server/tests/src/llanguage_test_client/lsp_json_stream.py:49-54 | A message leaves has_content_length set and consumes a non-empty prefix of the input; the rest of the input is what follows that prefix |
| LspJsonStream.NextFrames | src/server/tests/src/llanguage_test_client/lsp_json_stream.py:49-54 | The body `next` returns is UTF-8 and is the last bytes of what it consumed |
| LspJsonStream.ScanNameFrames | src/server/tests/src/llanguage_test_client/lsp_json_stream.py:71-99 | Whatever the header scan frames is UTF-8 and ends exactly where the scan stopped |
| LspJsonStream.ParseHeaderValueFrames | src/server/tests/src/llanguage_test_client/lsp_json_stream.py:101-126 | Whatever the scan frames from a header value on is UTF-8 and ends where the scan stopped |
| LspJsonStream.ScanValueFrames | src/server/tests/src/llanguage_test_client/lsp_json_stream.py:106-126 | Whatever the scan frames from inside a value is UTF-8 and ends where the scan stopped |
| LspJsonStream.ValueLineFrames | src/server/tests/src/llanguage_test_client/lsp_json_stream.py:108-120 | At the end of a value line the scan frames UTF-8 that ends where it stopped, with or without a new body length |
| LspJsonStream.NameRunsTo | src/server/tests/src/llanguage_test_client/lsp_json_stream.py:73-99 | Bytes other than a line end or `:` are read through without effect in a header name |
| LspJsonStream.ValueRunsTo | src/server/tests/src/llanguage_test_client/lsp_json_stream.py:106-126 | Bytes other than a line end are read through without effect in a header value |
| LspJsonStream.HeaderName | src/server/tests/src/llanguage_test_client/lsp_json_stream.py:91-97 | At the `:` the name read so far, upper-cased, sets has_content_length exactly when it is CONTENT-LENGTH, and the value is parsed next |
| LspJsonStream.ContentLengthAnyCase | src/server/tests/src/llanguage_test_client/lsp_json_stream.py:94-96 | The name comparison ignores letter case: "Content-Length" and "content-length" match, "Content-Type" does not |
| LspJsonStream.HeaderValue | src/server/tests/src/llanguage_test_client/lsp_json_stream.py:108-120 | A value line sets the body length to `int()` of the whole value only under Content-Length, fails with ValueError when that is not a number, and otherwise keeps the body length |
| LspJsonStream.CarriageReturnWithoutLineFeed | src/server/tests/src/llanguage_test_client/lsp_json_stream.py:75-81 | A `\r` not followed by `\n` in a header name is an error naming the byte that followed |
| LspJsonStream.BareLineFeedInName | src/server/tests/src/llanguage_test_client/lsp_json_stream.py:82-90 | A bare `\n`, or a name line ended without `:`, is an out-of-sequence newline |
| LspJsonStream.BadLineEndingInValue | src/server/tests/src/llanguage_test_client/lsp_json_stream.py:108-124 | In a header value a bare `\n` is an out-of-sequence newline and a `\r` without `\n` names the byte that followed |
| LspJsonStream.EmptyLine | src/server/tests/src/llanguage_test_client/lsp_json_stream.py:75-86 | An empty line reads the body only when the last header was Content-Length; after another header it is out of sequence, and before any header the attribute is missing |
| LspJsonMessages.HeaderLayout | src/server/tests/src/llanguage_test_client/lsp_json_stream.py:71-126 | The message header `Content-Length: N\r\n\r\n` has its name, colon, numeral and two line ends at fixed places |
| LspJsonMessages.ContentLengthNameStep | src/server/tests/src/llanguage_test_client/lsp_json_stream.py:91-97 | A Content-Length name at the start of the input sets the flag and moves to its value |
| LspJsonMessages.PlainName | src/server/tests/src/llanguage_test_client/lsp_json_stream.py:91-97 | A header name of letters and `-` is UTF-8 and holds no line end or `:` |
| LspJsonMessages.ContentLengthValueStep | src/server/tests/src/llanguage_test_client/lsp_json_stream.py:101-120 | The value ` N\r\n` under Content-Length sets the body length to N and goes on with the next header |
| LspJsonMessages.ValueBytes | src/server/tests/src/llanguage_test_client/lsp_json_stream.py:101-105 | The value of `Content-Length: N` includes its leading blank and holds no line end |
| LspJsonMessages.NumeralText | src/server/tests/src/llanguage_test_client/lsp_json_stream.py:117-119 | Blanks followed by a numeral are ASCII text with no line end |
| LspJsonMessages.WellFormedMessage | src/server/tests/src/llanguage_test_client/lsp_json_stream.py:49-148 | After `Content-Length: N\r\n\r\n` with at least N bytes following, `next` returns exactly those N bytes and leaves the input just after them, whatever state came before |
| LspJsonMessages.LengthMessage | src/server/tests/src/llanguage_test_client/lsp_json_stream.py:49-148 | A Content-Length line, the empty line, then N bytes of UTF-8 frame one message of exactly those bytes |
| LspJsonMessages.MessageAt | src/server/tests/src/llanguage_test_client/lsp_json_stream.py:49-54 | Headers that leave the body length at N before an empty line, then N bytes, make one message of those bytes |
| LspJsonMessages.BodyAfterHeaders | src/server/tests/src/llanguage_test_client/lsp_json_stream.py:82-83 | An empty line after Content-Length followed by N bytes ends the message with those bytes |
| LspJsonMessages.NextOfFramed | src/server/tests/src/llanguage_test_client/lsp_json_stream.py:49-54 | `next` returns the body the header scan framed, and the input after it |
| LspJsonMessages.FullBody | src/server/tests/src/llanguage_test_client/lsp_json_stream.py:128-148 | With N bytes available the body is exactly those bytes |
| LspJsonMessages.HeadersRead | src/server/tests/src/llanguage_test_client/lsp_json_stream.py:71-126 | The header lines of `Content-Length: N` leave the body length at N and the flag set before the empty line |
| LspJsonMessages.ContentLengthLine | src/server/tests/src/llanguage_test_client/lsp_json_stream.py:71-126 | A `Content-Length: N` line at the start of the input sets the flag and the body length to N |
| LspJsonMessages.ShortBody | src/server/tests/src/llanguage_test_client/lsp_json_stream.py:128-144 | Fewer than N bytes after the header is the time-out error, never a partial body |
| LspJsonMessages.OtherHeader | src/server/tests/src/llanguage_test_client/lsp_json_stream.py:91-126 | Any other header clears has_content_length and keeps the body length, whatever its value says |
| LspJsonMessages.ContentTypeLast | src/server/tests/src/llanguage_test_client/lsp_json_stream.py:82-86 | With Content-Type after Content-Length the empty line is out of sequence: the flag follows the last header only |
| LspJsonMessages.ContentTypeName | src/server/tests/src/llanguage_test_client/lsp_json_stream.py:94-96 | `Content-Type` is a header name other than Content-Length |
| LspJsonMessages.LengthLineLayout | src/server/tests/src/llanguage_test_client/lsp_json_stream.py:71-126 | The Content-Length line of the two-header message has its parts at fixed places |
| LspJsonMessages.TypeLineLayout | src/server/tests/src/llanguage_test_client/lsp_json_stream.py:71-126 | The Content-Type line and the empty line of the two-header message have their parts at fixed places |
| LspJsonMessages.StateReset | src/server/tests/src/llanguage_test_client/lsp_json_stream.py:49-54 | Every message starts with body length zero but keeps has_content_length: after a message an empty line alone is an empty body, before any header it fails on the missing attribute, and after another header it is out of sequence |
| LspJsonMessages.Consecutive | src/server/tests/src/llanguage_test_client/lsp_json_stream.py:49-54 | Two messages back to back: the second `next` starts where the first body ended and returns the second body |

## Left out

- Locking: the reader and writer locks around the options cache and the configuration are not modelled, and the operations are sequential. The write step of `getCompilerOptions` takes `configMutex` rather than `optionMutex` (src/bin/lfortran_lsp_language_server.cpp:147), so two writers can race. `OptionsCache.RacingFillsAgree` covers only two interleaved requests.
- DidChangeConfiguration: the generic server's own handling, which clears the configuration cache, is assumed to run first. The generic server is not part of this model.
- The compiler front end, the filesystem and `std::filesystem` path normalisation are parameters rather than models.
- JSON serialisation of protocol values is not modelled. Values are Dafny datatypes, and symbol kinds and severities are given their protocol numbers.
- Diagnostics.BuildDiagnostics: the `source` field and the exact message text are taken from the compiler's diagnostic as given.
- DocumentSymbols.BuildFlat: the flat `SymbolInformation` records carry no name and no kind, as in the source (src/bin/lfortran_lsp_language_server.cpp:502-520).
- Memory: `malloc` and `realloc` failures are not modelled, and neither is freeing.
- Pointer width: `int` is 32 bits and `long` and `size_t` are 64 bits (LP64).
- StringCompare.SignedChar: plain `char` is taken as signed, as on x86-64. The comparison subtracts plain `char` values (src/libasr/runtime/lfortran_intrinsics.c:2413-2414), so on targets where `char` is unsigned (AArch64 Linux, ARM, PowerPC, s390x) the order of bytes from 0x80 up is reversed against the other bytes, and the sign of `StrCompare` and the five comparisons built on it differ from the model there.
- CBase.Atoi: its own contract states the all-digits case only. Leading blanks and a sign are stated by `FormatEdit.AtoiSkipsBlanks` and `FormatEdit.AtoiSignedDigits`. Overflow, which C leaves undefined, is not modelled.
- FormatParser.RepeatStep: the repeat count is `atoi` of the digits (src/libasr/runtime/lfortran_intrinsics.c:819-820), and a count past `INT_MAX` is not modelled as undefined. The model makes exactly as many copies as the digits say.
- String lengths: `strlen` is stored into an `int` throughout the string intrinsics. The slicing and repetition members require strings of at most `INT_MAX` bytes, and longer strings are not modelled.
- StringOps.StrSliceUnitStep: it requires a slice shorter than `INT_MAX` bytes, because a longer one overflows the buffer size.
- StringOps.StrSliceReverses: it requires a string shorter than `INT_MAX` bytes, because reversing a longer one overflows the buffer size.
- StringOps.StrSliceAssignUnitStep: it requires a string shorter than `INT_MAX` bytes, because the buffer size `s_len + 1` of a longer one overflows.
- FormatEdit.DigitCount: the `log10` of the source is replaced by the exact decimal digit count. The two differ only where floating-point rounding would be wrong, for values near powers of ten beyond 2^53.
- FormatEdit.HandleInteger: `perror` for m > w only writes to standard error and is not modelled.
- The other edit descriptors of the runtime's formatted output (`handle_float`, `handle_decimal`, `handle_en` and `handle_scientific`) are not modelled. They work in floating point.
- BitIntrinsics.Dishftc: the narrowing of the 64-bit shift and size arguments to `uint32_t` is modelled, but no contract names the results for counts that wrap.
- PrintSerialization.GetSerializedArraySize: the number is an unbounded integer. The source accumulates into an `int64_t`, which overflows past 19 digits.
- RuntimeStack: `stack_size` is an `int` in the source, and its doubling past 2^31 is not modelled.
- PrintSerialization.SetCurrentPrimitiveType: a failed `ASSERT_MSG` is modelled as a `Fatal` outcome, and its exact message text is not.
- StringAssign.StrcpyDescriptor: a failed `ASSERT_MSG` is modelled as a `Fatal` outcome carrying the assertion's own text; what the macro prints around it is defined outside the runtime file and is not modelled.
- OpenStatement.Open: the `fopen` call, the creation of a file for STATUS=UNKNOWN and the later `store_unit_file` are not modelled. Open returns the decided mode, the binary flag and whether a file must be created.
- Exit status: every fatal path is `Fatal`, whatever status the source passes to `exit`.
- LspJsonStream.Next: a read that runs out of bytes is the time-out error, because the model has no clock. The contract on `Next` states only framing facts, and `LspJsonStream.NextFrames` and `LspJsonMessages.WellFormedMessage` state what the body is.
- LspJsonText.PyInt: `int()` is modelled for ASCII digits, single underscores between digits, an optional sign, ASCII white space and the 4300-digit limit on integer string conversion, which Python applies from 3.11 and from 3.10.7 and which counts digits but not underscores. Unicode digits and white space, and a limit changed through `sys.set_int_max_str_digits`, are not modelled. Its own contract states only that a blank value fails; `LspJsonText.PyIntOfDigits`, `LspJsonText.UnsignedDigits` and `LspJsonText.DigitsOverLimit` state the values read and the limit.
- LspJsonStream.ParseBody: the decoded body is returned as its UTF-8 bytes. `json.loads` is not modelled.
- PathResolver.SearchIncludeDirs: its own contract states only that a found path exists. Which candidate is found, the first existing one in include-directory order, is stated by `PathResolver.SearchIsFirstExisting`.
- PathResolver.Resolve: its own contract states the first candidate, existence and the error. The order in which the include directories are tried is stated by `PathResolver.ResolveIsFirstExisting`.
- Diagnostics.ValidateAll: the exact list of notifications is stated for documents with distinct URIs. The server keys its open documents by URI (src/bin/lfortran_lsp_language_server.cpp:596), so this is the only case it meets. The same holds for `Diagnostics.DidChangeConfiguration`.
- LspJsonMessages.WellFormedMessage and the other framing lemmas about `Content-Length: N` require that N has at most 4300 digits; a longer value is the ValueError of `LspJsonMessages.ContentLengthTooLong`.
- The text of error messages is modelled only where a contract names it. Elsewhere only the kind of error is kept.

## Findings

| source | as written | input that shows it | evidently intended | confidence | as-written member | corrected member |
|---|---|---|---|---|---|---|
| src/libasr/runtime/lfortran_intrinsics.c:223-237 | `Iw.m` pads to m digits after checking the width only against the unpadded digits, so a field too narrow for m digits plus a sign is written longer than w | `handle_integer("i3.3", -5, ...)` writes `-005` | a field of exactly w characters, here `***`, because the sign and three digits do not fit in three places | not executed | FormatEdit.HandleIntegerAsWrittenExample | FormatEdit.HandleInteger |
| src/libasr/runtime/lfortran_intrinsics.c:1851-1864 | `_lfortran_sishftc` builds its result from the low `size` bits only and drops every bit of `val` from `size` up | `ishftc(255, 1, 4)` returns 15 | 255: ISHFTC rotates the rightmost `size` bits and keeps the others | not executed | BitIntrinsics.SishftcExample | BitIntrinsics.IshftcExample |
| src/libasr/runtime/lfortran_intrinsics.c:1866-1879 | `_lfortran_dishftc` with size 64 shifts a 64-bit value by 64 when the shift is 0 or 64, which C leaves undefined | `ishftc(x, 0, 64)` on an `integer(8)` x | x itself | not executed | BitIntrinsics.DishftcFullWidth | BitIntrinsics.IshftcWhole |
| src/libasr/runtime/lfortran_intrinsics.c:2494-2514 | `_lpython_bit_length1` and `2` take `abs` in `int` and narrow it back into the argument, so the most negative value stays negative and the loop never runs | `_lpython_bit_length1(-128)` returns 0 | 8, as Python's `(-128).bit_length()` | not executed | BitIntrinsics.BitLength | BitIntrinsics.BitLengthCorrected |

=== FILE: address_search.dfy ===
/**
 * `bisection`, the binary search the runtime's stack trace uses to find
 * which recorded address range a program counter falls in. Addresses are
 * `uint64_t`; the `(i1+i2)/2` midpoint cannot wrap because both indices
 * are below `size`.
 */
module AddressSearch {

  predicate Sorted(vec: seq<nat>) {
    forall a, b :: 0 <= a < b < |vec| ==> vec[a] <= vec[b]
  }

  /**
   * 0 below the first address, `size` at or above the last one, and
   * otherwise the index `r` with `vec[r] <= i < vec[r+1]`. The bracket
   * holds whether or not `vec` is sorted; sortedness makes it unique.
   */
  method Bisection(vec: seq<nat>, i: nat) returns (r: nat)
    requires |vec| >= 1
    ensures i < vec[0] ==> r == 0
    ensures vec[0] <= i && vec[|vec| - 1] <= i ==> r == |vec|
    ensures vec[0] <= i < vec[|vec| - 1] ==> r < |vec| - 1 && vec[r] <= i < vec[r + 1]
  {
    if i < vec[0] {
      return 0;
    }
    if i >= vec[|vec| - 1] {
      return |vec|;
    }
    var i1 := 0;
    var i2 := |vec| - 1;
    while i1 < i2 - 1
      invariant 0 <= i1 < i2 <= |vec| - 1
      invariant vec[i1] <= i < vec[i2]
      decreases i2 - i1
    {
      var imid := (i1 + i2) / 2;
      if i < vec[imid] {
        i2 := imid;
      } else {
        i1 := imid;
      }
    }
    return i1;
  }

  /** How many addresses are at or below `i`. */
  function CountAtMost(vec: seq<nat>, i: nat): (n: nat)
    ensures n <= |vec|
  {
    if |vec| == 0 then 0
    else CountAtMost(vec[..|vec| - 1], i) + (if vec[|vec| - 1] <= i then 1 else 0)
  }

  /**
   * In a sorted table the bracket is the last address at or below `i`:
   * its index is one less than the number of such addresses, so no other
   * index brackets `i`.
   */
  lemma {:induction false} BracketIsRank(vec: seq<nat>, i: nat, r: nat)
    requires Sorted(vec) && r + 1 < |vec| && vec[r] <= i < vec[r + 1]
    ensures CountAtMost(vec, i) == r + 1
    decreases |vec|
  {
    var last := |vec| - 1;
    if r + 1 == last {
      AllAtMost(vec[..last], i);
    } else {
      assert vec[last] >= vec[r + 1];
      BracketIsRank(vec[..last], i, r);
    }
  }

  /** Every address of a sorted table whose last entry is at most `i` counts. */
  lemma {:induction false} AllAtMost(vec: seq<nat>, i: nat)
    requires Sorted(vec) && (|vec| == 0 || vec[|vec| - 1] <= i)
    ensures CountAtMost(vec, i) == |vec|
    decreases |vec|
  {
    if |vec| > 0 {
      var last := |vec| - 1;
      if last > 0 {
        assert vec[last - 1] <= vec[last];
      }
      AllAtMost(vec[..last], i);
    }
  }

  /** In a sorted table at most one index brackets a given address. */
  lemma BracketUnique(vec: seq<nat>, i: nat, r: nat, q: nat)
    requires Sorted(vec)
    requires r + 1 < |vec| && vec[r] <= i < vec[r + 1]
    requires q + 1 < |vec| && vec[q] <= i < vec[q + 1]
    ensures r == q
  {
    BracketIsRank(vec, i, r);
    BracketIsRank(vec, i, q);
  }
}

=== FILE: bit_intrinsics.dfy ===
/**
 * The bit intrinsics of the runtime: IBITS, MVBITS and ISHFTC (section 16.9
 * of the Fortran 2018 standard) and Python's `int.bit_length`. Every value is
 * handled as its two's-complement bit pattern (see `Words`), and every shift
 * whose count falls outside `[0, width)` is C undefined behaviour, modelled
 * as an `Undefined` outcome.
 */
module BitIntrinsics {
  import opened Results
  import opened CBase
  import opened Words

  // IBITS -----------------------------------------------------------------

  /** The shift counts `w - pos - len` and `w - len` of `ibits` are both in `[0, w)`. */
  predicate FieldShiftsDefined(pos: int, len: int, w: nat) {
    0 < len <= w && 0 < pos + len <= w
  }

  /**
   * `_lfortran_ibits32` (`w == 32`) and `_lfortran_ibits64` (`w == 64`):
   * `(ui << (w - pos - len)) >> (w - len)` on the unsigned pattern `ui` of `i`,
   * converted back to the signed result type.
   */
  function Ibits(i: int, pos: int, len: int, w: nat): (r: Outcome<int>)
    requires w > 0 && IsSigned(i, w)
    ensures r.Ok? <==> FieldShiftsDefined(pos, len, w)
    ensures r.Ok? ==> IsSigned(r.value, w)
  {
    if !FieldShiftsDefined(pos, len, w) then Err(Undefined("ibits: shift count outside the word"))
    else Ok(Signed(Shr(Shl(Unsigned(i, w), w - pos - len, w), w - len), w))
  }

  /** Shifting left by `a` then right by `a + p` in an `(a + p + l)`-bit word extracts bits `[p, p + l)`. */
  lemma ExtractField(u: nat, a: nat, p: nat, l: nat)
    requires IsWord(u, a + p + l)
    ensures Shr(Shl(u, a, a + p + l), a + p) == Shr(u, p) % Pow2(l)
  {
    var A, P, L := Pow2(a), Pow2(p), Pow2(l);
    var M := Pow2(p + l);
    Pow2Add(a, p + l);
    Pow2Add(a, p);
    Pow2Add(p, l);
    assert Pow2(a + p + l) == A * M;
    MulModSplit(u, A, M);
    var low := u % M;
    assert Shl(u, a, a + p + l) == low * A;
    MulModSplit(low, A, P);
    assert Shr(low * A, a + p) == low / P;
    assert M == P * L;
    ModDiv(u, P, L);
  }

  /** IBITS (section 16.9.95 of Fortran 2018): bits `[pos, pos + len)` of `i`, right-adjusted. */
  lemma IbitsValue(i: int, pos: nat, len: int, w: nat)
    requires w > 0 && IsSigned(i, w)
    requires Ibits(i, pos, len, w).Ok?
    ensures Unsigned(Ibits(i, pos, len, w).value, w) == Shr(Unsigned(i, w), pos) % Pow2(len)
  {
    var u := Unsigned(i, w);
    ExtractField(u, w - pos - len, pos, len);
    UnsignedSigned(Shr(Shl(u, w - pos - len, w), w - len), w);
  }

  /** Bit `k` of `(x >> p) mod 2^l` is bit `p + k` of `x` when `k < l`, and clear otherwise. */
  lemma FieldBit(x: nat, p: nat, l: nat, k: nat)
    ensures Bit(Shr(x, p) % Pow2(l), k) == (k < l && Bit(x, p + k))
  {
    BitMod(Shr(x, p), l, k);
    BitDiv(x, p, k);
  }

  lemma IbitsBits(i: int, pos: nat, len: int, w: nat, k: nat)
    requires w > 0 && IsSigned(i, w)
    requires Ibits(i, pos, len, w).Ok?
    ensures Bit(Unsigned(Ibits(i, pos, len, w).value, w), k) == (k < len && Bit(Unsigned(i, w), pos + k))
  {
    IbitsValue(i, pos, len, w);
    FieldBit(Unsigned(i, w), pos, len, k);
  }

  // MVBITS ----------------------------------------------------------------

  /** Every shift count of `mvbits` is in `[0, w)`. */
  predicate MoveShiftsDefined(frompos: int, len: int, topos: int, w: nat) {
    FieldShiftsDefined(frompos, len, w) && 0 <= topos < w
  }

  /** `(~mask & to) | field` on `w`-bit words. */
  function Merge(mask: nat, to: nat, field: nat, w: nat): (r: nat)
    requires IsWord(mask, w) && IsWord(to, w) && IsWord(field, w)
    ensures IsWord(r, w)
  {
    AndWord(to, Not(mask, w));
    AndSymmetric(to, Not(mask, w));
    OrWord(And(Not(mask, w), to), field, w);
    Or(And(Not(mask, w), to), field)
  }

  /** The bits `[frompos, frompos + len)` of `x` moved to start at `topos`, as `mvbits` shifts them. */
  function Field(x: nat, frompos: int, len: int, topos: int, w: nat): (r: nat)
    requires IsWord(x, w) && MoveShiftsDefined(frompos, len, topos, w)
    ensures IsWord(r, w)
  {
    Shl(Shr(Shl(x, w - frompos - len, w), w - len), topos, w)
  }

  /**
   * `_lfortran_mvbits32` (`w == 32`) and `_lfortran_mvbits64` (`w == 64`):
   * the all-ones mask and `from` go through the same three shifts, and the
   * result is `(~mask & to) | from'`.
   */
  function Mvbits(from: int, frompos: int, len: int, to: int, topos: int, w: nat): (r: Outcome<int>)
    requires w > 0 && IsSigned(from, w) && IsSigned(to, w)
    ensures r.Ok? <==> MoveShiftsDefined(frompos, len, topos, w)
    ensures r.Ok? ==> IsSigned(r.value, w)
  {
    if !MoveShiftsDefined(frompos, len, topos, w) then Err(Undefined("mvbits: shift count outside the word"))
    else
      var mask := Field(Pow2(w) - 1, frompos, len, topos, w);
      var moved := Field(Unsigned(from, w), frompos, len, topos, w);
      Ok(Signed(Merge(mask, Unsigned(to, w), moved, w), w))
  }

  lemma AllOnesBit(w: nat, k: nat)
    ensures Bit(Pow2(w) - 1, k) == (k < w)
  {
    if k < w {
      NotBit(0, w, k);
      assert 0 / Pow2(k) == 0;
    } else {
      BitAbove(Pow2(w) - 1, w);
      Pow2Monotone(w, k);
      BitAbove(Pow2(w) - 1, k);
    }
  }

  /** Bit `k < w` of `Field(x, ...)` is bit `frompos + k - topos` of `x` inside the target window. */
  lemma FieldBits(x: nat, frompos: nat, len: nat, topos: nat, w: nat, k: nat)
    requires IsWord(x, w) && MoveShiftsDefined(frompos, len, topos, w) && k < w
    ensures Bit(Field(x, frompos, len, topos, w), k)
      == (topos <= k < topos + len && Bit(x, frompos + k - topos))
  {
    var f := Shr(x, frompos) % Pow2(len);
    ExtractField(x, w - frompos - len, frompos, len);
    BitMod(f * Pow2(topos), w, k);
    BitMul(f, topos, k);
    if topos <= k {
      FieldBit(x, frompos, len, k - topos);
    }
  }

  /**
   * MVBITS (section 16.9.137 of Fortran 2018): bits `[topos, topos + len)` of
   * the result are bits `[frompos, frompos + len)` of `from`; every other bit
   * is the bit of `to`.
   */
  lemma MvbitsBits(from: int, frompos: nat, len: nat, to: int, topos: nat, w: nat, k: nat)
    requires w > 0 && IsSigned(from, w) && IsSigned(to, w)
    requires Mvbits(from, frompos, len, to, topos, w).Ok?
    requires k < w
    ensures Bit(Unsigned(Mvbits(from, frompos, len, to, topos, w).value, w), k)
      == if topos <= k < topos + len then Bit(Unsigned(from, w), frompos + k - topos)
         else Bit(Unsigned(to, w), k)
  {
    var ones := Pow2(w) - 1;
    var mask := Field(ones, frompos, len, topos, w);
    var moved := Field(Unsigned(from, w), frompos, len, topos, w);
    var ut := Unsigned(to, w);
    var merged := Merge(mask, ut, moved, w);
    assert Mvbits(from, frompos, len, to, topos, w).value == Signed(merged, w);
    UnsignedSigned(merged, w);
    assert Bit(merged, k) == ((!Bit(mask, k) && Bit(ut, k)) || Bit(moved, k)) by {
      OrBit(And(Not(mask, w), ut), moved, k);
      AndBit(Not(mask, w), ut, k);
      NotBit(mask, w, k);
    }
    assert Bit(mask, k) == (topos <= k < topos + len) by {
      FieldBits(ones, frompos, len, topos, w, k);
      if topos <= k < topos + len {
        AllOnesBit(w, frompos + k - topos);
      }
    }
    FieldBits(Unsigned(from, w), frompos, len, topos, w, k);
  }

  /** With `from == to` and the same positions, MVBITS changes nothing. */
  lemma MvbitsInPlace(x: int, pos: nat, len: nat, w: nat)
    requires w > 0 && IsSigned(x, w)
    requires Mvbits(x, pos, len, x, pos, w).Ok?
    ensures Mvbits(x, pos, len, x, pos, w).value == x
  {
    var r := Mvbits(x, pos, len, x, pos, w).value;
    forall k | 0 <= k < w
      ensures Bit(Unsigned(r, w), k) == Bit(Unsigned(x, w), k)
    {
      MvbitsBits(x, pos, len, x, pos, w, k);
    }
    BitsEqual(Unsigned(r, w), Unsigned(x, w), w);
    SignedUnsigned(r, w);
    SignedUnsigned(x, w);
  }

  // ISHFTC ----------------------------------------------------------------

  /** A conversion to `w` bits leaves a value that already fits unchanged. */
  lemma UnsignedOfWord(v: int, w: nat)
    requires 0 <= v < Pow2(w)
    ensures Unsigned(v, w) == v
  {
    DivModUnique(v, Pow2(w), 0, v);
  }

  /** A conversion to `w` bits adds `2^w` to a small negative value. */
  lemma UnsignedOfNegative(v: int, w: nat)
    requires -(Pow2(w) as int) <= v < 0
    ensures Unsigned(v, w) == v + Pow2(w)
  {
    DivModUnique(v, Pow2(w), -1, v + Pow2(w));
  }

  /** Adding a multiple of `m` does not change the remainder modulo `m`. */
  lemma ModPlusMultiple(c: int, m: nat, x: nat)
    requires m > 0
    ensures (c * m + x) % m == x % m
  {
    assert (c + x / m) * m == c * m + (x / m) * m;
    DivModUnique(c * m + x, m, c + x / m, x % m);
  }

  lemma Regroup(q: int, m: int, k: int)
    ensures q * (m * k) == (q * k) * m
  {
  }

  /** Narrowing an `n`-bit pattern to its low `m` bits gives the `m`-bit pattern. */
  lemma UnsignedNarrow(v: int, m: nat, n: nat)
    requires m <= n
    ensures Unsigned(v, n) % Pow2(m) == Unsigned(v, m)
  {
    var N, M, K := Pow2(n), Pow2(m), Pow2(n - m);
    var q, u := v / N, v % N;
    assert v == q * N + u;
    Pow2Add(m, n - m);
    Regroup(q, M, K);
    ModPlusMultiple(q * K, M, u);
  }

  /**
   * `cutoff_extra_bits(num, bits_size, 64)`: `num` itself when `bits_size` is
   * 64, otherwise `num & ((1lu << bits_size) - 1)` with a 64-bit `1lu`; a
   * `bits_size` above 64 shifts `1lu` out of its width.
   */
  function CutoffExtraBits(num: nat, size: nat): (r: Outcome<nat>)
    requires IsWord(num, 64)
    ensures r.Ok? <==> size <= 64
    ensures r.Ok? ==> r.value == num % Pow2(size)
  {
    if size == 64 then
      UnsignedOfWord(num, 64);
      Ok(num)
    else if size > 64 then
      Err(Undefined("cutoff_extra_bits: shift count outside the word"))
    else
      LowMask(size, 64);
      AndLowMask(num, size);
      Ok(And(num, Shl(1, size, 64) - 1))
  }

  /** `1lu << n` is `2^n` below 64. */
  lemma LowMask(n: nat, w: nat)
    requires n < w
    ensures Shl(1, n, w) == Pow2(n)
  {
    var P := Pow2(n);
    assert Pow2(n + 1) == 2 * P;
    Pow2Monotone(n + 1, w);
    UnsignedOfWord(P, w);
    assert Shl(1, n, w) == P % Pow2(w);
  }

  /**
   * The common body of `_lfortran_sishftc` and `_lfortran_dishftc` on the
   * 64-bit pattern `u` of `val`: `t` is the shift magnitude, `n` the size as
   * `cutoff_extra_bits` receives it, and `back` the value of `bits_size - shift`.
   * A negative shift ORs `val1 >> t` with the cut-off `val1 << back`; a
   * non-negative one ORs the cut-off `val1 << t` with `val1 >> back`.
   */
  function CircularShift(u: nat, negative: bool, t: nat, n: nat, back: int): (r: Outcome<nat>)
    requires IsWord(u, 64)
    ensures r.Ok? <==> n <= 64 && t < 64 && 0 <= back < 64
    ensures r.Ok? ==> IsWord(r.value, 64)
  {
    var v :- CutoffExtraBits(u, n);
    if t >= 64 || !(0 <= back < 64) then Err(Undefined("ishftc: shift count outside the word"))
    else
      Pow2Monotone(n, 64);
      if negative then
        var high := CutoffExtraBits(Shl(v, back, 64), n).value;
        OrWord(Shr(v, t), high, 64);
        Ok(Or(Shr(v, t), high))
      else
        var low := CutoffExtraBits(Shl(v, t, 64), n).value;
        OrWord(low, Shr(v, back), 64);
        Ok(Or(low, Shr(v, back)))
  }

  /** `v` rotated left by `t` places within its low `n` bits. */
  function RotateLeft(v: nat, t: nat, n: nat): (r: nat)
    requires IsWord(v, n) && t <= n
    ensures IsWord(r, n)
  {
    ShrWord(v, n - t, t);
    StackBelow(v % Pow2(n - t), t, Shr(v, n - t), n - t);
    (v % Pow2(n - t)) * Pow2(t) + Shr(v, n - t)
  }

  /** An `(a + b)`-bit value shifted right by `a` has at most `b` bits. */
  lemma ShrWord(v: nat, a: nat, b: nat)
    requires IsWord(v, a + b)
    ensures IsWord(Shr(v, a), b)
  {
    var q, A, B := Shr(v, a), Pow2(a), Pow2(b);
    assert v < A * B by {
      Pow2Add(a, b);
    }
    assert q * A <= v;
    if q >= B {
      MulMonotone(B, q, A);
      assert false;
    }
  }

  /** Bit `k` of `c * 2^s + r` with `r < 2^s`: bits of `r` below `s`, of `c` from `s` up. */
  lemma SplitBit(c: nat, s: nat, r: nat, k: nat)
    requires r < Pow2(s)
    ensures Bit(c * Pow2(s) + r, k) == if k < s then Bit(r, k) else Bit(c, k - s)
  {
    OrDisjoint(c, s, r);
    OrBit(c * Pow2(s), r, k);
    BitMul(c, s, k);
    if k >= s {
      Pow2Monotone(s, k);
      BitAbove(r, k);
    }
  }

  /** Bit `k < n` of the rotation is bit `k - t` of `v`, counted modulo `n`. */
  lemma RotateBit(v: nat, t: nat, n: nat, k: nat)
    requires IsWord(v, n) && t <= n && k < n
    ensures Bit(RotateLeft(v, t, n), k) == if k >= t then Bit(v, k - t) else Bit(v, k + n - t)
  {
    ShrWord(v, n - t, t);
    SplitBit(v % Pow2(n - t), t, Shr(v, n - t), k);
    if k >= t {
      BitMod(v, n - t, k - t);
    } else {
      BitDiv(v, n - t, k);
    }
  }

  /** Rotating left by `t` and then by `n - t` restores the value. */
  lemma RotateInverse(v: nat, t: nat, n: nat)
    requires IsWord(v, n) && t <= n
    ensures RotateLeft(RotateLeft(v, t, n), n - t, n) == v
  {
    var once := RotateLeft(v, t, n);
    var twice := RotateLeft(once, n - t, n);
    forall k | 0 <= k < n
      ensures Bit(twice, k) == Bit(v, k)
    {
      RotateBit(once, n - t, n, k);
      if k >= n - t {
        RotateBit(v, t, n, k - (n - t));
      } else {
        RotateBit(v, t, n, k + t);
      }
    }
    BitsEqual(twice, v, n);
  }

  /** The bits an `n`-bit value keeps under `<< s` in a 64-bit word, cut to `n == s + r` bits. */
  lemma ShlCut(v: nat, s: nat, r: nat, n: nat, w: nat)
    requires s + r == n <= w
    ensures Shl(v, s, w) % Pow2(n) == (v % Pow2(r)) * Pow2(s)
  {
    ModPow2Mod(v * Pow2(s), n, w);
    assert Pow2(n) == Pow2(s) * Pow2(r) by {
      Pow2Add(s, r);
    }
    MulModSplit(v, Pow2(s), Pow2(r));
  }

  /** The non-negative branch: the cut-off `v << t` ORed with `v >> (n - t)`. */
  lemma LeftBranch(v: nat, t: nat, n: nat, w: nat)
    requires IsWord(v, n) && t <= n <= w
    ensures IsWord(v, w)
    ensures Or(Shl(v, t, w) % Pow2(n), Shr(v, n - t)) == RotateLeft(v, t, n)
  {
    var r := n - t;
    Pow2Monotone(n, w);
    var a, q := v % Pow2(r), Shr(v, r);
    assert Shl(v, t, w) % Pow2(n) == a * Pow2(t) by {
      ShlCut(v, t, r, n, w);
    }
    assert q < Pow2(t) by {
      assert IsWord(v, r + t);
      ShrWord(v, r, t);
    }
    OrDisjoint(a, t, q);
    assert RotateLeft(v, t, n) == a * Pow2(t) + q;
  }

  /** The negative branch: `v >> t` ORed with the cut-off `v << (n - t)`. */
  lemma RightBranch(v: nat, t: nat, n: nat, w: nat)
    requires IsWord(v, n) && t <= n <= w
    ensures IsWord(v, w)
    ensures Or(Shr(v, t), Shl(v, n - t, w) % Pow2(n)) == RotateLeft(v, n - t, n)
  {
    var s := n - t;
    Pow2Monotone(n, w);
    var a, q := v % Pow2(t), Shr(v, t);
    assert Shl(v, s, w) % Pow2(n) == a * Pow2(s) by {
      ShlCut(v, s, t, n, w);
    }
    assert q < Pow2(s) by {
      assert IsWord(v, t + s);
      ShrWord(v, t, s);
    }
    OrDisjoint(a, s, q);
    OrSymmetric(q, a * Pow2(s));
    assert RotateLeft(v, s, n) == a * Pow2(s) + q by {
      assert n - s == t;
    }
  }

  /**
   * When `back` is `n - t` (the size minus the shift magnitude), the runtime's
   * circular shift rotates the low `n` bits of `u`: left by `t` for a
   * non-negative shift, right by `t` for a negative one.
   */
  lemma CircularShiftRotates(u: nat, negative: bool, t: nat, n: nat)
    requires IsWord(u, 64) && t <= n <= 64
    requires CircularShift(u, negative, t, n, n - t).Ok?
    ensures IsWord(u % Pow2(n), n)
    ensures CircularShift(u, negative, t, n, n - t).value
      == if negative then RotateLeft(u % Pow2(n), n - t, n) else RotateLeft(u % Pow2(n), t, n)
  {
    var v := u % Pow2(n);
    if negative {
      RightBranch(v, t, n, 64);
    } else {
      LeftBranch(v, t, n, 64);
    }
  }

  /** `_lfortran_sishftc(val, shift, size)`: 32-bit `int` arguments and result, a 64-bit body. */
  function Sishftc(val: int, shift: int, size: int): (r: Outcome<int>)
    requires IsSigned(val, 32) && IsSigned(shift, 32) && IsSigned(size, 32)
    ensures r.Ok? ==> IsSigned(r.value, 32)
  {
    if shift == -(Pow2(31) as int) then Err(Undefined("abs: the magnitude of INT_MIN does not fit"))
    else
      // `bits_size - shift` mixes `int` with `uint32_t`, so it is computed modulo 2^32
      var n := Unsigned(size, 32);
      Narrow(CircularShift(Unsigned(val, 64), shift < 0, Abs(shift), n, Unsigned(n - Abs(shift), 32)), 32)
  }

  /** The `uint64_t` result converted to the `w`-bit signed return type. */
  function Narrow(result: Outcome<nat>, w: nat): (r: Outcome<int>)
    requires w > 0
    ensures r.Ok? == result.Ok?
    ensures r.Ok? ==> IsSigned(r.value, w) && Unsigned(r.value, w) == Unsigned(result.value, w)
  {
    if result.Err? then Err(result.error)
    else
      UnsignedSigned(Unsigned(result.value, w), w);
      Ok(Signed(Unsigned(result.value, w), w))
  }

  /** `_lfortran_dishftc(val, shift, size)`: 64-bit arguments, with the shift and size narrowed to `uint32_t`. */
  function Dishftc(val: int, shift: int, size: int): (r: Outcome<int>)
    requires IsSigned(val, 64) && IsSigned(shift, 64) && IsSigned(size, 64)
    ensures r.Ok? ==> IsSigned(r.value, 64)
  {
    if shift == -(Pow2(63) as int) then Err(Undefined("llabs: the magnitude of LLONG_MIN does not fit"))
    else
      // here `bits_size - shift` is computed in `int64_t`
      var t := Unsigned(Abs(shift), 32);
      Narrow(CircularShift(Unsigned(val, 64), shift < 0, t, Unsigned(size, 32), size - t), 64)
  }

  lemma Pow2Values()
    ensures Pow2(7) == 128 && Pow2(8) == 256 && Pow2(32) == 2 * Pow2(31) && Pow2(31) >= 256
  {
    Pow2Monotone(8, 31);
  }

  /**
   * `_lfortran_sishftc` is defined exactly when `|shift| <= size <= 64`, the
   * shift is not INT_MIN, and neither shift count reaches 64.
   */
  lemma SishftcDefined(val: int, shift: int, size: int)
    requires IsSigned(val, 32) && IsSigned(shift, 32) && IsSigned(size, 32)
    ensures Sishftc(val, shift, size).Ok?
      <==> shift != -(Pow2(31) as int) && 0 <= size <= 64 && Abs(shift) <= size
           && Abs(shift) < 64 && size - Abs(shift) < 64
  {
    if shift != -(Pow2(31) as int) {
      var t, n := Abs(shift), Unsigned(size, 32);
      SishftcCounts(size, t);
      SishftcBody(val, shift, size);
    }
  }

  /** The circular shift `_lfortran_sishftc` performs once the shift is not INT_MIN. */
  lemma SishftcBody(val: int, shift: int, size: int)
    requires IsSigned(val, 32) && IsSigned(shift, 32) && IsSigned(size, 32)
    requires shift != -(Pow2(31) as int)
    ensures var n := Unsigned(size, 32);
      Sishftc(val, shift, size)
      == Narrow(CircularShift(Unsigned(val, 64), shift < 0, Abs(shift), n, Unsigned(n - Abs(shift), 32)), 32)
  {
  }

  /** The size and the `uint32_t` difference `size - t` that `_lfortran_sishftc` shifts by. */
  lemma SishftcCounts(size: int, t: nat)
    requires IsSigned(size, 32) && t <= Pow2(31)
    ensures var n := Unsigned(size, 32);
      (n <= 64 && Unsigned(n - t, 32) < 64) <==> (0 <= size <= 64 && t <= size && size - t < 64)
  {
    Pow2Values();
    if size >= 0 {
      UnsignedOfWord(size, 32);
      if t <= size {
        UnsignedOfWord(size - t, 32);
      } else {
        UnsignedOfNegative(size - t, 32);
      }
    } else {
      UnsignedOfNegative(size, 32);
    }
  }

  /**
   * ISHFTC as section 16.9.101 of Fortran 2018 defines it for a `w`-bit `i`:
   * the rightmost `size` bits are rotated by `shift` places (left when
   * positive) and the bits from `size` up are left unchanged.
   */
  function Ishftc(i: int, shift: int, size: int, w: nat): (r: Outcome<int>)
    requires w > 0 && IsSigned(i, w)
    ensures r.Ok? <==> 0 < size <= w && Abs(shift) <= size
    ensures r.Ok? ==> IsSigned(r.value, w)
  {
    if !(0 < size <= w && Abs(shift) <= size) then Err(Undefined("ishftc: arguments outside the intrinsic's domain"))
    else
      var u := Unsigned(i, w);
      Ok(Signed(Recombine(u, RotationOf(shift, size), size, w), w))
  }

  /** The left rotation that a signed ISHFTC shift amounts to within `size` bits. */
  function RotationOf(shift: int, size: nat): (t: nat)
    requires Abs(shift) <= size
    ensures t <= size
    ensures shift < 0 ==> t == size - Abs(shift)
    ensures shift >= 0 ==> t == shift
  {
    if shift >= 0 then shift else size + shift
  }

  /** The bits of `u` from `n` up, with the low `n` bits rotated left by `t`. */
  function Recombine(u: nat, t: nat, n: nat, w: nat): (r: nat)
    requires IsWord(u, w) && t <= n <= w
    ensures IsWord(r, w)
  {
    Pow2Monotone(n, w);
    ShrWord(u, n, w - n);
    StackBelow(Shr(u, n), n, RotateLeft(u % Pow2(n), t, n), w - n);
    Shr(u, n) * Pow2(n) + RotateLeft(u % Pow2(n), t, n)
  }

  /** Bit `k < w` of the standard ISHFTC: rotated below `size`, unchanged from `size` up. */
  lemma IshftcBits(i: int, shift: int, size: int, w: nat, k: nat)
    requires w > 0 && IsSigned(i, w)
    requires Ishftc(i, shift, size, w).Ok? && k < w
    ensures var u, t := Unsigned(i, w), RotationOf(shift, size);
      Bit(Unsigned(Ishftc(i, shift, size, w).value, w), k)
      == if size <= k then Bit(u, k)
         else if t <= k then Bit(u, k - t) else Bit(u, k + size - t)
  {
    var u, t := Unsigned(i, w), RotationOf(shift, size);
    Pow2Monotone(size, w);
    var v := u % Pow2(size);
    UnsignedSigned(Recombine(u, t, size, w), w);
    SplitBit(Shr(u, size), size, RotateLeft(v, t, size), k);
    if size <= k {
      BitDiv(u, size, k - size);
    } else {
      RotateBit(v, t, size, k);
      if t <= k {
        BitMod(u, size, k - t);
      } else {
        BitMod(u, size, k + size - t);
      }
    }
  }

  lemma RotateByNothing(v: nat, n: nat)
    requires IsWord(v, n)
    ensures RotateLeft(v, 0, n) == v
  {
    DivModUnique(v, Pow2(n), 0, v);
  }

  /** The bits above `n` and the rotated low bits can be read back from `Recombine`. */
  lemma RecombineParts(u: nat, t: nat, n: nat, w: nat)
    requires IsWord(u, w) && t <= n <= w
    ensures Shr(Recombine(u, t, n, w), n) == Shr(u, n)
    ensures Recombine(u, t, n, w) % Pow2(n) == RotateLeft(u % Pow2(n), t, n)
  {
    DivModUnique(Recombine(u, t, n, w), Pow2(n), Shr(u, n), RotateLeft(u % Pow2(n), t, n));
  }

  /** The rotations that `shift` and `-shift` amount to undo each other. */
  lemma RotationsCancel(v: nat, shift: int, n: nat)
    requires IsWord(v, n) && Abs(shift) <= n
    ensures RotateLeft(RotateLeft(v, RotationOf(shift, n), n), RotationOf(-shift, n), n) == v
  {
    if shift == 0 {
      RotateByNothing(v, n);
    } else {
      RotateInverse(v, RotationOf(shift, n), n);
    }
  }

  lemma RecombineInverse(u: nat, shift: int, n: nat, w: nat)
    requires IsWord(u, w) && Abs(shift) <= n <= w
    ensures Recombine(Recombine(u, RotationOf(shift, n), n, w), RotationOf(-shift, n), n, w) == u
  {
    var P, t, back := Pow2(n), RotationOf(shift, n), RotationOf(-shift, n);
    var x, low := Recombine(u, t, n, w), u % P;
    RecombineParts(u, t, n, w);
    RotationsCancel(low, shift, n);
    assert Recombine(x, back, n, w) == Shr(u, n) * P + low;
    ShrSplit(u, n);
  }

  /** Shifting circularly by `shift` and then by `-shift` restores `i`. */
  lemma IshftcInverse(i: int, shift: int, size: int, w: nat)
    requires w > 0 && IsSigned(i, w)
    requires Ishftc(i, shift, size, w).Ok?
    ensures Ishftc(Ishftc(i, shift, size, w).value, -shift, size, w) == Ok(i)
  {
    var x := Recombine(Unsigned(i, w), RotationOf(shift, size), size, w);
    UnsignedSigned(x, w);
    RecombineInverse(Unsigned(i, w), shift, size, w);
    SignedUnsigned(i, w);
  }

  /**
   * On conforming arguments the runtime's circular shift is the standard
   * ISHFTC with every bit from `size` up cleared.
   */
  lemma CircularShiftLowBits(val: int, shift: int, size: int, w: nat)
    requires 0 < w <= 64 && IsSigned(val, w) && 0 < size <= w && Abs(shift) <= size
    requires size < 64 || 0 < Abs(shift) < 64
    ensures CircularShift(Unsigned(val, 64), shift < 0, Abs(shift), size, size - Abs(shift))
      == Ok(Unsigned(Ishftc(val, shift, size, w).value, w) % Pow2(size))
  {
    RuntimeRotation(val, shift, size);
    IshftcLowBits(val, shift, size, w);
  }

  /** The runtime's circular shift rotates the low `size` bits of `val`'s pattern. */
  lemma RuntimeRotation(val: int, shift: int, size: nat)
    requires 0 < size <= 64 && Abs(shift) <= size && (size < 64 || 0 < Abs(shift) < 64)
    ensures CircularShift(Unsigned(val, 64), shift < 0, Abs(shift), size, size - Abs(shift))
      == Ok(RotateLeft(Unsigned(val, size), RotationOf(shift, size), size))
  {
    CircularShiftRotates(Unsigned(val, 64), shift < 0, Abs(shift), size);
    UnsignedNarrow(val, size, 64);
  }

  /** The low `size` bits of the standard ISHFTC are the rotated low bits of `i`. */
  lemma IshftcLowBits(i: int, shift: int, size: int, w: nat)
    requires w > 0 && IsSigned(i, w) && 0 < size <= w && Abs(shift) <= size
    ensures Unsigned(Ishftc(i, shift, size, w).value, w) % Pow2(size)
      == RotateLeft(Unsigned(i, size), RotationOf(shift, size), size)
  {
    UnsignedNarrow(i, size, w);
    UnsignedSigned(Recombine(Unsigned(i, w), RotationOf(shift, size), size, w), w);
    RecombineParts(Unsigned(i, w), RotationOf(shift, size), size, w);
  }

  /**
   * `_lfortran_sishftc` on conforming arguments: the standard result with the
   * bits from `size` up cleared, so it differs whenever `size < 32` and `i`
   * has a bit set there.
   */
  lemma SishftcDropsHighBits(val: int, shift: int, size: int)
    requires IsSigned(val, 32) && 0 < size <= 32 && Abs(shift) <= size
    ensures Sishftc(val, shift, size).Ok?
    ensures Unsigned(Sishftc(val, shift, size).value, 32)
      == Unsigned(Ishftc(val, shift, size, 32).value, 32) % Pow2(size)
  {
    var rotated := RotateLeft(Unsigned(val, size), RotationOf(shift, size), size);
    SishftcRotates(val, shift, size);
    assert Unsigned(rotated, 32) == rotated by {
      Pow2Monotone(size, 32);
      UnsignedOfWord(rotated, 32);
    }
    IshftcLowBits(val, shift, size, 32);
  }

  lemma SishftcRotates(val: int, shift: int, size: int)
    requires IsSigned(val, 32) && 0 < size <= 32 && Abs(shift) <= size
    ensures Sishftc(val, shift, size) == Narrow(Ok(RotateLeft(Unsigned(val, size), RotationOf(shift, size), size)), 32)
  {
    SmallCounts(size, Abs(shift));
    assert shift != -(Pow2(31) as int);
    var n := Unsigned(size, 32);
    assert Unsigned(n - Abs(shift), 32) == size - Abs(shift);
    RuntimeRotation(val, shift, size);
  }

  lemma DishftcRotates(val: int, shift: int, size: int)
    requires IsSigned(val, 64) && 0 < size <= 64 && Abs(shift) <= size
    requires size < 64 || 0 < Abs(shift) < 64
    ensures Dishftc(val, shift, size) == Narrow(Ok(RotateLeft(Unsigned(val, size), RotationOf(shift, size), size)), 64)
  {
    SmallCounts(size, Abs(shift));
    DishftcBody(val, shift, size);
    RuntimeRotation(val, shift, size);
  }

  /** The circular shift `_lfortran_dishftc` performs on small counts. */
  lemma DishftcBody(val: int, shift: int, size: nat)
    requires IsSigned(val, 64) && size <= 64 && Abs(shift) <= size
    requires Unsigned(size, 32) == size && Unsigned(Abs(shift), 32) == Abs(shift)
    requires Abs(shift) < Pow2(63)
    ensures Dishftc(val, shift, size)
      == Narrow(CircularShift(Unsigned(val, 64), shift < 0, Abs(shift), size, size - Abs(shift)), 64)
  {
  }

  /** Counts of at most 64 pass through the conversions to `uint32_t` unchanged. */
  lemma SmallCounts(size: nat, t: nat)
    requires t <= size <= 64
    ensures Unsigned(size, 32) == size && Unsigned(t, 32) == t && Unsigned(size - t, 32) == size - t
    ensures size < Pow2(31) && Pow2(31) < Pow2(63)
  {
    assert size < Pow2(31) && size < Pow2(32) by {
      Pow2Values();
    }
    assert Pow2(31) < Pow2(63) by {
      Pow2Values();
      Pow2Monotone(32, 63);
    }
    assert Unsigned(size, 32) == size by {
      UnsignedOfWord(size, 32);
    }
    assert Unsigned(t, 32) == t by {
      UnsignedOfWord(t, 32);
    }
    assert Unsigned(size - t, 32) == size - t by {
      UnsignedOfWord(size - t, 32);
    }
  }

  /** `_lfortran_dishftc` on conforming arguments, likewise (but see `DishftcFullWidth`). */
  lemma DishftcDropsHighBits(val: int, shift: int, size: int)
    requires IsSigned(val, 64) && 0 < size <= 64 && Abs(shift) <= size
    requires size < 64 || 0 < Abs(shift) < 64
    ensures Dishftc(val, shift, size).Ok?
    ensures Unsigned(Dishftc(val, shift, size).value, 64)
      == Unsigned(Ishftc(val, shift, size, 64).value, 64) % Pow2(size)
  {
    var rotated := RotateLeft(Unsigned(val, size), RotationOf(shift, size), size);
    DishftcRotates(val, shift, size);
    assert Unsigned(rotated, 64) == rotated by {
      Pow2Monotone(size, 64);
      UnsignedOfWord(rotated, 64);
    }
    IshftcLowBits(val, shift, size, 64);
  }

  /**
   * At `size == 64` a shift of 0 or of 64 makes `_lfortran_dishftc` shift a
   * 64-bit value by 64, which C leaves undefined; the standard ISHFTC returns
   * `i` for both.
   */
  lemma DishftcFullWidth(val: int)
    requires IsSigned(val, 64)
    ensures Dishftc(val, 0, 64).Err? && Dishftc(val, 64, 64).Err?
    ensures Ishftc(val, 0, 64, 64) == Ok(val) && Ishftc(val, 64, 64, 64) == Ok(val)
  {
    DishftcWholeWord(val, 0);
    DishftcWholeWord(val, 64);
    IshftcWhole(val, 0);
    IshftcWhole(val, 64);
  }

  /** A shift of 0 or 64 at size 64 makes one of the two shift counts 64. */
  lemma DishftcWholeWord(val: int, shift: nat)
    requires IsSigned(val, 64) && (shift == 0 || shift == 64)
    ensures Dishftc(val, shift, 64).Err?
  {
    SmallCounts(64, shift);
    DishftcBody(val, shift, 64);
  }

  /** Rotating the whole word by 0 or by its width changes nothing. */
  lemma IshftcWhole(val: int, shift: nat)
    requires IsSigned(val, 64) && (shift == 0 || shift == 64)
    ensures Ishftc(val, shift, 64, 64) == Ok(val)
  {
    var u := Unsigned(val, 64);
    assert Shr(u, 64) == 0 by {
      DivModUnique(u, Pow2(64), 0, u);
    }
    DivModUnique(u, Pow2(64), 0, u);
    if shift == 0 {
      RotateByNothing(u, 64);
    } else {
      assert RotateLeft(u, 64, 64) == u % Pow2(0) * Pow2(64) + Shr(u, 0);
    }
    SignedUnsigned(val, 64);
  }

  /** At full width nothing lies above `size`, and the runtime agrees with the standard. */
  lemma SishftcFullWidth(val: int, shift: int)
    requires IsSigned(val, 32) && Abs(shift) <= 32
    ensures Sishftc(val, shift, 32) == Ishftc(val, shift, 32, 32)
  {
    SishftcDropsHighBits(val, shift, 32);
    var r := Ishftc(val, shift, 32, 32).value;
    UnsignedOfWord(Unsigned(r, 32), 32);
    SignedUnsigned(r, 32);
  }

  /** A byte value is the same signed and unsigned in any width above 8 bits. */
  lemma SmallWord(v: int, w: nat)
    requires 0 <= v < 256 && 9 <= w
    ensures IsSigned(v, w) && Unsigned(v, w) == v && Signed(v, w) == v
  {
    assert Pow2(8) == 256;
    Pow2Monotone(8, w - 1);
    assert Pow2(w) == 2 * Pow2(w - 1);
    UnsignedOfWord(v, w);
  }

  /** The low four bits of 255, and their rotation by one place, are all ones. */
  lemma LowNibble()
    ensures Unsigned(255, 4) == 15 && Shr(255, 4) == 15
    ensures RotateLeft(15, 1, 4) == 15
  {
    assert Pow2(4) == 16;
    DivModUnique(255, 16, 15, 15);
    assert Pow2(3) == 8 && Pow2(1) == 2;
    DivModUnique(15, 8, 1, 7);
  }

  /** `ishftc(255, 1, 4)`: the runtime returns 15 (see `IshftcExample` for the standard's 255). */
  lemma SishftcExample()
    ensures Sishftc(255, 1, 4) == Ok(15)
  {
    SmallWord(255, 32);
    SmallWord(15, 32);
    LowNibble();
    SishftcRotates(255, 1, 4);
  }

  /** The standard ISHFTC keeps the bits of 255 above the 4-bit field. */
  lemma IshftcExample()
    ensures Ishftc(255, 1, 4, 32) == Ok(255)
  {
    SmallWord(255, 32);
    LowNibble();
    assert RotationOf(1, 4) == 1;
    assert Recombine(255, 1, 4, 32) == 15 * Pow2(4) + 15;
  }

  // bit_length ------------------------------------------------------------

  /** The number of binary digits of `n`, none for 0. */
  function BitsOf(n: nat): nat {
    if n == 0 then 0 else 1 + BitsOf(n / 2)
  }

  /** `BitsOf(n)` is the `r` with `2^(r-1) <= n < 2^r`. */
  lemma {:induction false} BitsOfBounds(n: nat)
    ensures n == 0 <==> BitsOf(n) == 0
    ensures n > 0 ==> Pow2(BitsOf(n) - 1) <= n < Pow2(BitsOf(n))
    decreases n
  {
    if n > 0 {
      BitsOfBounds(n / 2);
    }
  }

  /** No other bit count satisfies the bounds. */
  lemma {:induction false} BitsOfUnique(n: nat, r: nat)
    requires r > 0 && Pow2(r - 1) <= n < Pow2(r)
    ensures BitsOf(n) == r
    decreases r
  {
    if r > 1 {
      BitsOfUnique(n / 2, r - 1);
    }
  }

  /**
   * `num = abs(num)` (`llabs` for 64 bits). For 8 and 16 bits `abs` works in
   * `int` and the assignment narrows its result back, so the most negative
   * value stays where it was; for 32 and 64 bits its magnitude overflows.
   */
  function AbsInPlace(num: int, w: nat): (r: Outcome<int>)
    requires w == 8 || w == 16 || w == 32 || w == 64
    requires IsSigned(num, w)
    ensures r.Ok? <==> w <= 16 || num != -(Pow2(w - 1) as int)
    ensures r.Ok? ==> r.value == if num == -(Pow2(w - 1) as int) then num else Abs(num)
  {
    if w <= 16 then
      NarrowAbs(num, w);
      Ok(Signed(Unsigned(Abs(num), w), w))
    else if num == -(Pow2(w - 1) as int) then Err(Undefined("abs: the magnitude of the most negative value does not fit"))
    else Ok(Abs(num))
  }

  lemma NarrowAbs(num: int, w: nat)
    requires w > 0 && IsSigned(num, w)
    ensures Signed(Unsigned(Abs(num), w), w) == if num == -(Pow2(w - 1) as int) then num else Abs(num)
  {
    if num == -(Pow2(w - 1) as int) {
      UnsignedOfWord(Abs(num), w);
    } else {
      SignedUnsigned(Abs(num), w);
    }
  }

  /** The loop `while (num > 0) { num = num >> 1; res++; }` of `_lpython_bit_length*`. */
  method CountBits(num: int) returns (res: nat)
    ensures num <= 0 ==> res == 0
    ensures num > 0 ==> res >= 1 && Pow2(res - 1) <= num < Pow2(res)
  {
    res := 0;
    var n := num;
    while n > 0
      invariant num <= 0 ==> n == num && res == 0
      invariant num > 0 ==> n >= 0 && res + BitsOf(n) == BitsOf(num)
      decreases if n > 0 then n else 0
    {
      n := n / 2;
      res := res + 1;
    }
    if num > 0 {
      BitsOfBounds(num);
    }
  }

  /**
   * `_lpython_bit_length1` / `2` / `4` / `8` on a `w`-bit `num`: the number of
   * bits of `|num|`, except that the most negative 8- and 16-bit values give
   * 0 and the most negative 32- and 64-bit values are undefined.
   */
  method BitLength(num: int, w: nat) returns (r: Outcome<int>)
    requires w == 8 || w == 16 || w == 32 || w == 64
    requires IsSigned(num, w)
    ensures r.Ok? <==> w <= 16 || num != -(Pow2(w - 1) as int)
    ensures r.Ok? && num != -(Pow2(w - 1) as int) ==> r.value == BitLengthCorrected(num)
    ensures r.Ok? && num == -(Pow2(w - 1) as int) ==> r.value == 0
  {
    var magnitude := AbsInPlace(num, w);
    if magnitude.Err? {
      return Err(magnitude.error);
    }
    var res := CountBits(magnitude.value);
    if num != -(Pow2(w - 1) as int) && num != 0 {
      BitsOfUnique(Abs(num), res);
    }
    return Ok(res);
  }

  /**
   * Python's `int.bit_length`: the number of bits of `|num|` without sign or
   * leading zeros, for every `num` including the most negative one.
   */
  function BitLengthCorrected(num: int): (r: nat)
    ensures num == 0 <==> r == 0
    ensures num != 0 ==> Pow2(r - 1) <= Abs(num) < Pow2(r)
  {
    BitsOfBounds(Abs(num));
    BitsOf(Abs(num))
  }

  /** `(-128).bit_length()` is 8, where `_lpython_bit_length1(-128)` gives 0. */
  lemma BitLengthExample()
    ensures BitLengthCorrected(-128) == 8
    ensures -128 == -(Pow2(7) as int)
  {
    Pow2Values();
    BitsOfUnique(128, 8);
  }
}

=== FILE: c_base.dfy ===
/**
 * The C vocabulary the runtime intrinsics are written in: NUL-terminated
 * strings, the `<ctype.h>` classifications in the "C" locale, `atoi`,
 * `strcasecmp`, and the two ways a runtime call can end without returning.
 */
module CBase {
  import opened Results
  import opened Decimal

  /** A character of a NUL-terminated string: any byte except NUL. */
  type CChar = c: char | 0 < c as int < 256 witness 'a'

  /** The characters before the terminating NUL. */
  type CString = seq<CChar>

  /** How a runtime call ends when it does not return normally. */
  datatype Failure =
    | Fatal(message: string)     // prints a message and calls `exit`
    | Undefined(reason: string)  // the C code has undefined behaviour here

  type Outcome<T> = Result<T, Failure>

  /** `abs` and `llabs` on an argument whose magnitude is representable. */
  function Abs(v: int): nat {
    if v < 0 then -v else v
  }

  /** The range of C's `int`, 32 bits on every platform the runtime targets. */
  const INT_MIN: int := -0x8000_0000
  const INT_MAX: int := 0x7FFF_FFFF

  predicate IsInt(v: int) {
    INT_MIN <= v <= INT_MAX
  }

  /** C's `/`: the quotient truncated toward zero, not Dafny's Euclidean one. */
  function CDiv(x: int, y: int): int
    requires y != 0
  {
    if (x >= 0) == (y > 0) then Abs(x) / Abs(y) else -(Abs(x) / Abs(y))
  }

  /** A string of `n` blanks. */
  function Blanks(n: nat): (s: CString)
    ensures |s| == n && forall i :: 0 <= i < n ==> s[i] == ' '
  {
    seq(n, _ => ' ')
  }

  /** The byte at `i`, reading the terminator at `|s|`. */
  function At(s: CString, i: int): (c: char)
    requires 0 <= i <= |s|
    ensures c == '\0' <==> i == |s|
  {
    if i == |s| then '\0' else s[i]
  }

  /** `isspace` in the "C" locale. */
  predicate IsSpace(c: char) {
    c == ' ' || c == '\t' || c == '\n' || c == '\U{000B}' || c == '\U{000C}' || c == '\r'
  }

  /** `tolower` in the "C" locale. */
  function ToLower(c: char): (r: char)
    ensures 'A' <= c <= 'Z' ==> 'a' <= r <= 'z' && r as int == c as int + 32
    ensures !('A' <= c <= 'Z') ==> r == c
  {
    if 'A' <= c <= 'Z' then (c as int + 32) as char else c
  }

  /** The end of the run of decimal digits that starts at `i`. */
  function DigitRunEnd(s: CString, i: nat): (j: nat)
    requires i <= |s|
    ensures i <= j <= |s|
    ensures AllDigits(s[i..j])
    ensures j == |s| || !IsDigit(s[j])
    decreases |s| - i
  {
    if i < |s| && IsDigit(s[i]) then DigitRunEnd(s, i + 1) else i
  }

  /** The first `c` at or after `i` (`strchr`, or a scan loop), `|s|` when there is none. */
  function IndexFrom(s: CString, c: char, i: nat): (r: nat)
    requires i <= |s|
    ensures i <= r <= |s| && (r < |s| ==> s[r] == c)
    ensures forall k :: i <= k < r ==> s[k] != c
    decreases |s| - i
  {
    if i == |s| || s[i] == c then i else IndexFrom(s, c, i + 1)
  }

  /**
   * `atoi`: leading white space, an optional sign and the longest run of
   * digits; 0 when there are no digits. Overflow, undefined in C, is not modelled.
   */
  function Atoi(s: CString): (n: int)
    ensures AllDigits(s) ==> n == Value(s)
  {
    AtoiFrom(s, 0)
  }

  function AtoiFrom(s: CString, i: nat): (n: int)
    requires i <= |s|
    ensures AllDigits(s[i..]) ==> n == Value(s[i..])
    decreases |s| - i
  {
    if i < |s| && IsSpace(s[i]) then AtoiFrom(s, i + 1)
    else
      var negative := i < |s| && s[i] == '-';
      var start := if i < |s| && (s[i] == '-' || s[i] == '+') then i + 1 else i;
      var end := DigitRunEnd(s, start);
      assert AllDigits(s[i..]) ==> start == i && end == |s| by {
        if AllDigits(s[i..]) && i < |s| {
          assert IsDigit(s[i..][0]);
        }
      }
      assert AllDigits(s[i..]) ==> s[start..end] == s[i..];
      var v: int := Value(s[start..end]);
      if negative then -v else v
  }

  /** `strcasecmp(a, b) == 0`: equal after lower-casing both. */
  predicate StrCaseEql(a: CString, b: string) {
    |a| == |b| && forall i :: 0 <= i < |a| ==> ToLower(a[i]) == ToLower(b[i])
  }

  /** A cell of heap memory: indeterminate until written. */
  datatype Cell = Unset | Byte(c: char)

  /** `count` indeterminate cells. */
  function Fresh(count: int): (m: seq<Cell>)
    ensures |m| == (if count < 0 then 0 else count)
    ensures forall i :: 0 <= i < |m| ==> m[i] == Unset
  {
    seq(if count < 0 then 0 else count, _ => Unset)
  }

  /** Memory holding exactly the string `s` and its terminator. */
  function Cells(s: CString): (m: seq<Cell>)
    ensures |m| == |s| + 1 && m[|s|] == Byte('\0')
    ensures forall i :: 0 <= i < |s| ==> m[i] == Byte(s[i])
  {
    seq(|s| + 1, i requires 0 <= i <= |s| => Byte(At(s, i)))
  }

  /**
   * Reading a string out of memory up to its terminator: an indeterminate
   * cell before it, or no terminator at all, is undefined behaviour.
   */
  function ReadCString(m: seq<Cell>, i: nat): (r: Outcome<CString>)
    requires i <= |m|
    ensures r.Ok? ==>
      && i + |r.value| < |m| && m[i + |r.value|] == Byte('\0')
      && forall k :: 0 <= k < |r.value| ==> m[i + k] == Byte(r.value[k])
    ensures r.Err? ==> r.error.Undefined?
    decreases |m| - i
  {
    if i == |m| then Err(Undefined("string read past the end of its buffer"))
    else match m[i]
      case Unset => Err(Undefined("string read reaches indeterminate memory"))
      case Byte(c) =>
        if c == '\0' then Ok([])
        else if c as int >= 256 then Err(Undefined("not a byte"))
        else
          var rest :- ReadCString(m, i + 1);
          Ok([c as CChar] + rest)
  }

  /** Memory written from a string reads back as that string. */
  lemma {:induction false} ReadCellsFrom(s: CString, i: nat)
    requires i <= |s|
    ensures ReadCString(Cells(s), i) == Ok(s[i..])
    decreases |s| - i
  {
    var m := Cells(s);
    if i < |s| {
      ReadCellsFrom(s, i + 1);
      assert m[i] == Byte(s[i]);
      assert s[i..] == [s[i]] + s[i + 1..];
    } else {
      assert m[i] == Byte('\0');
      assert ReadCString(m, i) == Ok([]);
      assert s[i..] == [];
    }
  }
}

=== FILE: capabilities.dfy ===
/**
 * The initialize handshake (`receiveInitialize`): the client's declared
 * capabilities set the session flags that later select result shapes, and
 * decide which optional providers the server advertises.
 */
module Capabilities {
  import opened Results

  datatype DefinitionClientCapabilities = DefinitionClientCapabilities(linkSupport: Option<bool>)

  datatype DocumentSymbolClientCapabilities = DocumentSymbolClientCapabilities(hierarchicalDocumentSymbolSupport: Option<bool>)

  datatype TextDocumentClientCapabilities = TextDocumentClientCapabilities(
    definition: Option<DefinitionClientCapabilities>,
    documentSymbol: Option<DocumentSymbolClientCapabilities>)

  datatype ClientCapabilities = ClientCapabilities(textDocument: Option<TextDocumentClientCapabilities>)

  /** The server's optional providers; `None` means the field is absent from the response. */
  datatype ServerCapabilities = ServerCapabilities(
    definitionProvider: Option<bool>,
    renameProvider: Option<bool>,
    documentSymbolProvider: Option<bool>)

  /** The session flags the handshake sets; all false before it. */
  datatype SessionFlags = SessionFlags(
    gotoDefinition: bool,
    gotoDefinitionLinks: bool,
    documentSymbols: bool,
    hierarchicalDocumentSymbols: bool)

  const InitialFlags := SessionFlags(false, false, false, false)

  /** An optional boolean option counts only when present and true. */
  predicate Declared(o: Option<bool>) {
    o.Some? && o.value
  }

  /** The flag-setting block: a flag is only written when its client capability is present. */
  function NegotiateFlags(flags: SessionFlags, caps: ClientCapabilities): (f: SessionFlags)
    ensures caps.textDocument.None? ==> f == flags
    ensures caps.textDocument.Some? ==>
      var td := caps.textDocument.value;
      && (td.definition.Some? ==> f.gotoDefinition && f.gotoDefinitionLinks == Declared(td.definition.value.linkSupport))
      && (td.definition.None? ==> f.gotoDefinition == flags.gotoDefinition && f.gotoDefinitionLinks == flags.gotoDefinitionLinks)
      && (td.documentSymbol.Some? ==>
            f.documentSymbols
            && f.hierarchicalDocumentSymbols == Declared(td.documentSymbol.value.hierarchicalDocumentSymbolSupport))
      && (td.documentSymbol.None? ==>
            f.documentSymbols == flags.documentSymbols
            && f.hierarchicalDocumentSymbols == flags.hierarchicalDocumentSymbols)
  {
    match caps.textDocument
    case None => flags
    case Some(td) =>
      var f1 :=
        match td.definition
        case Some(d) => flags.(gotoDefinition := true, gotoDefinitionLinks := Declared(d.linkSupport))
        case None => flags;
      match td.documentSymbol
      case Some(ds) => f1.(documentSymbols := true,
                           hierarchicalDocumentSymbols := Declared(ds.hierarchicalDocumentSymbolSupport))
      case None => f1
  }

  /**
   * `receiveInitialize`: negotiates the flags, then advertises rename always,
   * definition and document symbols only when the client declared them.
   * `base` is what the generic server's initialize already filled in.
   */
  function ReceiveInitialize(flags: SessionFlags, caps: ClientCapabilities, base: ServerCapabilities)
    : (r: (ServerCapabilities, SessionFlags))
    ensures r.1 == NegotiateFlags(flags, caps)
    ensures r.0.renameProvider == Some(true)
    ensures r.1.gotoDefinition ==> r.0.definitionProvider == Some(true)
    ensures !r.1.gotoDefinition ==> r.0.definitionProvider == base.definitionProvider
    ensures r.1.documentSymbols ==> r.0.documentSymbolProvider == Some(true)
    ensures !r.1.documentSymbols ==> r.0.documentSymbolProvider == base.documentSymbolProvider
  {
    var f := NegotiateFlags(flags, caps);
    var withDefinition := if f.gotoDefinition then base.(definitionProvider := Some(true)) else base;
    var withRename := withDefinition.(renameProvider := Some(true));
    var withSymbols := if f.documentSymbols then withRename.(documentSymbolProvider := Some(true)) else withRename;
    (withSymbols, f)
  }

  /**
   * On a fresh session, each flag is true iff the client declared the
   * capability, and the nested link/hierarchy flags iff the option is present
   * and true.
   */
  lemma FreshSessionFlags(caps: ClientCapabilities)
    ensures var f := NegotiateFlags(InitialFlags, caps);
      && (f.gotoDefinition <==> caps.textDocument.Some? && caps.textDocument.value.definition.Some?)
      && (f.documentSymbols <==> caps.textDocument.Some? && caps.textDocument.value.documentSymbol.Some?)
      && (f.gotoDefinitionLinks <==> caps.textDocument.Some? && caps.textDocument.value.definition.Some?
                                     && Declared(caps.textDocument.value.definition.value.linkSupport))
      && (f.hierarchicalDocumentSymbols <==> caps.textDocument.Some? && caps.textDocument.value.documentSymbol.Some?
                                             && Declared(caps.textDocument.value.documentSymbol.value.hierarchicalDocumentSymbolSupport))
  {
  }

  /** A client declaring nothing gets rename only, and the location / flat result shapes. */
  lemma NoCapabilitiesGating(base: ServerCapabilities)
    requires base.definitionProvider.None? && base.documentSymbolProvider.None?
    ensures var (sc, f) := ReceiveInitialize(InitialFlags, ClientCapabilities(None), base);
      && sc.renameProvider == Some(true)
      && sc.definitionProvider.None?
      && sc.documentSymbolProvider.None?
      && !f.gotoDefinitionLinks && !f.hierarchicalDocumentSymbols
  {
  }
}

=== FILE: decimal.dfy ===
/**
 * Decimal text of non-negative integers, shared by `std::to_string`, the
 * runtime's integer edit descriptor and `int()` in the framing parser.
 */
module Decimal {

  predicate IsDigit(c: char) {
    '0' <= c <= '9'
  }

  predicate AllDigits(s: string) {
    forall i :: 0 <= i < |s| ==> IsDigit(s[i])
  }

  function DigitValue(c: char): nat
    requires IsDigit(c)
  {
    c as int - '0' as int
  }

  function DigitChar(d: nat): (c: char)
    requires d < 10
    ensures IsDigit(c) && DigitValue(c) == d
  {
    ('0' as int + d) as char
  }

  function Pow10(k: nat): (p: nat)
    ensures p >= 1
  {
    if k == 0 then 1 else 10 * Pow10(k - 1)
  }

  /** The shortest decimal numeral of `n`: "0" for zero, no leading zeros otherwise. */
  function Digits(n: nat): (s: string)
    ensures |s| >= 1 && AllDigits(s)
    decreases n
  {
    if n < 10 then [DigitChar(n)] else Digits(n / 10) + [DigitChar(n % 10)]
  }

  /** The number a string of decimal digits denotes (most significant first). */
  function Value(s: string): nat
    requires AllDigits(s)
  {
    if |s| == 0 then 0 else 10 * Value(s[..|s| - 1]) + DigitValue(s[|s| - 1])
  }

  /** Reading back a numeral gives the number it was printed from. */
  lemma {:induction false} ValueOfDigits(n: nat)
    ensures Value(Digits(n)) == n
    decreases n
  {
    if n >= 10 {
      var s := Digits(n);
      assert s[..|s| - 1] == Digits(n / 10);
      ValueOfDigits(n / 10);
    }
  }

  /** The numeral has no leading zero unless it is "0". */
  lemma {:induction false} DigitsNoLeadingZero(n: nat)
    ensures Digits(n)[0] == '0' <==> n == 0
    decreases n
  {
    if n >= 10 {
      DigitsNoLeadingZero(n / 10);
      assert Digits(n)[0] == Digits(n / 10)[0];
    }
  }

  /** The numeral of `n` has exactly as many digits as the decimal length of `n`. */
  lemma {:induction false} DigitsLength(n: nat)
    ensures n < Pow10(|Digits(n)|)
    ensures n == 0 || Pow10(|Digits(n)| - 1) <= n
    decreases n
  {
    if n >= 10 {
      DigitsLength(n / 10);
    }
  }

  /** `std::to_string` of a signed integer. */
  function IntToString(i: int): (s: string)
    ensures |s| >= 1
    ensures i < 0 <==> s[0] == '-'
  {
    if i < 0 then "-" + Digits(-i) else Digits(i)
  }
}

=== FILE: definition_rename.dfy ===
/**
 * `textDocument/definition` and `textDocument/rename`: the cursor is turned
 * into the compiler's 1-based line and column on a copy of the cached
 * options, the compiler is queried, and its symbols are mapped into protocol
 * result shapes with the closed-range convention.
 */
module DefinitionRename {
  import opened Results
  import opened Decimal
  import opened LspProtocol
  import opened OptionsCache
  import opened PathResolver

  datatype DefinitionLink = DefinitionLink(targetUri: Uri, targetRange: Range, targetSelectionRange: Range)

  /** `Location[] | DefinitionLink[] | null`. */
  datatype DefinitionResult = NoDefinition | Locations(locations: seq<Location>) | Links(links: seq<DefinitionLink>)

  datatype TextEdit = TextEdit(range: Range, newText: string)

  datatype WorkspaceEdit = WorkspaceEdit(changes: map<Uri, seq<TextEdit>>)

  /** `WorkspaceEdit | null`. */
  datatype RenameResult = NoRename | Edit(edit: WorkspaceEdit)

  /** A compiler query at the cursor carried by the options (`lookupName`, `getAllOccurrences`). */
  type SymbolQuery = (Path, string, CompilerOptions) -> seq<NativeSymbol>

  function FileUri(path: Path): Uri {
    "file://" + path
  }

  /** The copy of the cached options with the cursor set, 0-based to 1-based. */
  function CursorOptions(o: CompilerOptions, pos: Position): (r: CompilerOptions)
    ensures r.line == IntToString(pos.line + 1) && r.column == IntToString(pos.character + 1)
    ensures r.includeDirs == o.includeDirs && r.continueCompilation == o.continueCompilation && r.other == o.other
  {
    o.(line := IntToString(pos.line + 1), column := IntToString(pos.character + 1))
  }

  /** Every symbol's reported file resolves. */
  predicate AllResolve(fs: FileSystem, symbols: seq<NativeSymbol>, dirs: seq<Path>) {
    forall k :: 0 <= k < |symbols| ==> Resolve(fs, symbols[k].filename, dirs).Ok?
  }

  /** The error of the first symbol whose file does not resolve. */
  predicate IsFirstResolveError(fs: FileSystem, symbols: seq<NativeSymbol>, dirs: seq<Path>, e: LspError) {
    exists k :: 0 <= k < |symbols| && Resolve(fs, symbols[k].filename, dirs) == Err(e)
                && forall j :: 0 <= j < k ==> Resolve(fs, symbols[j].filename, dirs).Ok?
  }

  /** One `Location` per symbol, in order, with the closed range. */
  function MapLocations(fs: FileSystem, symbols: seq<NativeSymbol>, dirs: seq<Path>): (r: Result<seq<Location>, LspError>)
    ensures r.Ok? <==> AllResolve(fs, symbols, dirs)
    ensures r.Err? ==> IsFirstResolveError(fs, symbols, dirs, r.error)
    ensures r.Ok? ==> |r.value| == |symbols| && forall i :: 0 <= i < |symbols| ==>
      && r.value[i].uri == FileUri(Resolve(fs, symbols[i].filename, dirs).value)
      && r.value[i].range.start == Position(symbols[i].firstLine - 1, symbols[i].firstColumn - 1)
      && r.value[i].range.end == Position(symbols[i].lastLine - 1, symbols[i].lastColumn - 1)
    decreases |symbols|
  {
    if |symbols| == 0 then Ok([])
    else
      match Resolve(fs, symbols[0].filename, dirs)
      case Err(e) =>
        assert Resolve(fs, symbols[0].filename, dirs) == Err(e);
        Err(e)
      case Ok(path) =>
        match MapLocations(fs, symbols[1..], dirs)
        case Err(e) =>
          assert IsFirstResolveError(fs, symbols[1..], dirs, e);
          var k :| 0 <= k < |symbols[1..]| && Resolve(fs, symbols[1..][k].filename, dirs) == Err(e)
                   && forall j :: 0 <= j < k ==> Resolve(fs, symbols[1..][j].filename, dirs).Ok?;
          assert Resolve(fs, symbols[k + 1].filename, dirs) == Err(e);
          Err(e)
        case Ok(rest) =>
          assert forall k :: 1 <= k < |symbols| ==> symbols[k] == symbols[1..][k - 1];
          Ok([Location(FileUri(path), SymbolClosedRange(symbols[0]))] + rest)
  }

  /** One `DefinitionLink` per symbol, in order, with `targetRange == targetSelectionRange`. */
  function MapLinks(fs: FileSystem, symbols: seq<NativeSymbol>, dirs: seq<Path>): (r: Result<seq<DefinitionLink>, LspError>)
    ensures r.Ok? <==> AllResolve(fs, symbols, dirs)
    ensures r.Err? ==> IsFirstResolveError(fs, symbols, dirs, r.error)
    ensures r.Ok? ==> |r.value| == |symbols| && forall i :: 0 <= i < |symbols| ==>
      && r.value[i].targetUri == FileUri(Resolve(fs, symbols[i].filename, dirs).value)
      && r.value[i].targetRange == r.value[i].targetSelectionRange
      && r.value[i].targetRange.start == Position(symbols[i].firstLine - 1, symbols[i].firstColumn - 1)
      && r.value[i].targetRange.end == Position(symbols[i].lastLine - 1, symbols[i].lastColumn - 1)
  {
    match MapLocations(fs, symbols, dirs)
    case Err(e) => Err(e)
    case Ok(locations) =>
      Ok(seq(|locations|, i requires 0 <= i < |locations| =>
        DefinitionLink(locations[i].uri, locations[i].range, locations[i].range)))
  }

  /**
   * `receiveTextDocument_definition`. The cache is only touched by the
   * get-or-insert of the options; the cursor is set on a copy.
   */
  function ReceiveDefinition(cache: Cache, doc: Document, pos: Position, config: LspConfig, parse: ArgParser,
                             lookupName: SymbolQuery, fs: FileSystem, clientSupportsLinks: bool)
    : (r: (Result<DefinitionResult, LspError>, Cache))
    ensures var (opts, cache') := GetCompilerOptions(cache, doc.uri, doc.path, config.flags, parse);
      && r.1 == cache'
      && (opts.Err? ==> r.0 == Err(opts.error))
      && (opts.Ok? ==>
            var query := CursorOptions(opts.value, pos);
            var symbols := lookupName(doc.path, doc.text, query);
            && (|symbols| == 0 <==> r.0 == Ok(NoDefinition))
            && (r.0.Err? <==> |symbols| > 0 && !AllResolve(fs, symbols, query.includeDirs))
            && (r.0.Err? ==> IsFirstResolveError(fs, symbols, query.includeDirs, r.0.error))
            && (|symbols| > 0 && AllResolve(fs, symbols, query.includeDirs) && clientSupportsLinks ==>
                  r.0 == Ok(Links(MapLinks(fs, symbols, query.includeDirs).value)))
            && (|symbols| > 0 && AllResolve(fs, symbols, query.includeDirs) && !clientSupportsLinks ==>
                  r.0 == Ok(Locations(MapLocations(fs, symbols, query.includeDirs).value))))
  {
    var (opts, cache') := GetCompilerOptions(cache, doc.uri, doc.path, config.flags, parse);
    match opts
    case Err(e) => (Err(e), cache')
    case Ok(o) =>
      var query := CursorOptions(o, pos);
      var symbols := lookupName(doc.path, doc.text, query);
      if |symbols| == 0 then (Ok(NoDefinition), cache')
      else if clientSupportsLinks then
        match MapLinks(fs, symbols, query.includeDirs)
        case Err(e) => (Err(e), cache')
        case Ok(links) => (Ok(Links(links)), cache')
      else
        match MapLocations(fs, symbols, query.includeDirs)
        case Err(e) => (Err(e), cache')
        case Ok(locations) => (Ok(Locations(locations)), cache')
  }

  /** One `TextEdit` per occurrence, in order, replacing its closed range with `newName`. */
  function RenameEdits(occurrences: seq<NativeSymbol>, newName: string): (r: seq<TextEdit>)
    ensures |r| == |occurrences|
    ensures forall i :: 0 <= i < |r| ==>
      && r[i].newText == newName
      && r[i].range.start == Position(occurrences[i].firstLine - 1, occurrences[i].firstColumn - 1)
      && r[i].range.end == Position(occurrences[i].lastLine - 1, occurrences[i].lastColumn - 1)
  {
    seq(|occurrences|, i requires 0 <= i < |occurrences| => TextEdit(SymbolClosedRange(occurrences[i]), newName))
  }

  /**
   * `receiveTextDocument_rename`: no occurrence gives null; otherwise one
   * workspace edit whose only key is the request URI. Occurrence filenames
   * are not consulted.
   */
  function ReceiveRename(cache: Cache, doc: Document, pos: Position, newName: string, config: LspConfig,
                         parse: ArgParser, getAllOccurrences: SymbolQuery)
    : (r: (Result<RenameResult, LspError>, Cache))
    ensures var (opts, cache') := GetCompilerOptions(cache, doc.uri, doc.path, config.flags, parse);
      && r.1 == cache'
      && (opts.Err? <==> r.0.Err?)
      && (opts.Err? ==> r.0.error == opts.error)
      && (opts.Ok? ==>
            var occurrences := getAllOccurrences(doc.path, doc.text, CursorOptions(opts.value, pos));
            && (|occurrences| == 0 <==> r.0.value == NoRename)
            && (|occurrences| > 0 ==>
                  && r.0.value.edit.changes.Keys == {doc.uri}
                  && r.0.value.edit.changes[doc.uri] == RenameEdits(occurrences, newName)))
  {
    var (opts, cache') := GetCompilerOptions(cache, doc.uri, doc.path, config.flags, parse);
    match opts
    case Err(e) => (Err(e), cache')
    case Ok(o) =>
      var occurrences := getAllOccurrences(doc.path, doc.text, CursorOptions(o, pos));
      if |occurrences| == 0 then (Ok(NoRename), cache')
      else (Ok(Edit(WorkspaceEdit(map[doc.uri := RenameEdits(occurrences, newName)]))), cache')
  }

  /** Rename edits never depend on which file an occurrence was reported in. */
  lemma RenameIgnoresFilenames(occurrences: seq<NativeSymbol>, other: seq<NativeSymbol>, newName: string)
    requires |occurrences| == |other|
    requires forall i :: 0 <= i < |occurrences| ==> other[i] == occurrences[i].(filename := other[i].filename)
    ensures RenameEdits(occurrences, newName) == RenameEdits(other, newName)
  {
  }
}

=== FILE: diagnostics.dfy ===
/**
 * The diagnostic-building body of `validate`: a snapshot of one document is
 * compiled, the compiler's highlights are truncated to the configured
 * maximum, mapped to protocol diagnostics and published with the snapshot's
 * version. The worker pool, locking and trace logging are not modelled.
 */
module Diagnostics {
  import opened Results
  import opened LspProtocol
  import opened OptionsCache

  /** The compiler's diagnostic level (`diag::Level`); `OtherLevel` stands for any further level. */
  datatype Level = Error | Warning | Note | Help | OtherLevel

  /** The protocol's `DiagnosticSeverity`. */
  datatype Severity = SeverityError | SeverityWarning | SeverityInformation | SeverityHint

  /** The protocol numbering of `DiagnosticSeverity` (LSP 3.17: Error = 1 … Hint = 4). */
  function SeverityCode(s: Severity): (n: int)
    ensures 1 <= n <= 4
  {
    match s
    case SeverityError => 1
    case SeverityWarning => 2
    case SeverityInformation => 3
    case SeverityHint => 4
  }

  /** A compiler-reported issue (`lc::error_highlight`), 1-based and inclusive. */
  datatype Highlight = Highlight(
    firstLine: int, firstColumn: int, lastLine: int, lastColumn: int,
    severity: Level, message: string)

  datatype Diagnostic = Diagnostic(range: Range, severity: Severity, message: string, source: string)

  datatype PublishDiagnosticsParams = PublishDiagnosticsParams(uri: Uri, version: int, diagnostics: seq<Diagnostic>)

  /** The compiler's error collection (`lfortran.showErrors(path, text, options)`). */
  type ErrorCollector = (Path, string, CompilerOptions) -> seq<Highlight>

  /** `diagnosticLevelToLspSeverity`. */
  function SeverityOf(level: Level): (s: Severity)
    ensures level == Error <==> s == SeverityError
    ensures level == Note <==> s == SeverityInformation
    ensures level == Help <==> s == SeverityHint
    ensures level in {Warning, OtherLevel} <==> s == SeverityWarning
  {
    match level
    case Error => SeverityError
    case Warning => SeverityWarning
    case Note => SeverityInformation
    case Help => SeverityHint
    case OtherLevel => SeverityWarning
  }

  /** The level a severity is read back as; `SeverityWarning` reads back as Warning. */
  function LevelOf(s: Severity): Level {
    match s
    case SeverityError => Error
    case SeverityWarning => Warning
    case SeverityInformation => Note
    case SeverityHint => Help
  }

  /** The severity mapping loses nothing on the four named levels and sends every other level to Warning. */
  lemma SeverityRoundTrip(level: Level)
    ensures level != OtherLevel ==> LevelOf(SeverityOf(level)) == level
    ensures level == OtherLevel ==> SeverityOf(level) == SeverityOf(Warning)
  {
  }

  /**
   * One highlight as a protocol diagnostic: 0-based start, end column kept so
   * the end is exclusive, the level mapped to its severity, message and source as given.
   */
  function ToDiagnostic(h: Highlight, source: string): (d: Diagnostic)
    ensures d.range.start == Position(h.firstLine - 1, h.firstColumn - 1)
    ensures d.range.end == Position(h.lastLine - 1, h.lastColumn)
    ensures h.severity != OtherLevel ==> LevelOf(d.severity) == h.severity
    ensures d.message == h.message && d.source == source
  {
    Diagnostic(EndExclusiveRange(h.firstLine, h.firstColumn, h.lastLine, h.lastColumn),
               SeverityOf(h.severity), h.message, source)
  }

  /**
   * The diagnostics loop: the first `min(|highlights|, maxProblems)` highlights,
   * in compiler order, each with start `(first_line-1, first_column-1)` and end
   * `(last_line-1, last_column)`.
   */
  function BuildDiagnostics(highlights: seq<Highlight>, maxProblems: nat, source: string): (r: seq<Diagnostic>)
    ensures |r| == if |highlights| < maxProblems then |highlights| else maxProblems
    ensures forall i :: 0 <= i < |r| ==>
      && r[i].range.start == Position(highlights[i].firstLine - 1, highlights[i].firstColumn - 1)
      && r[i].range.end == Position(highlights[i].lastLine - 1, highlights[i].lastColumn)
      && r[i].severity == SeverityOf(highlights[i].severity)
      && r[i].message == highlights[i].message
      && r[i].source == source
  {
    var numProblems := if |highlights| < maxProblems then |highlights| else maxProblems;
    seq(numProblems, i requires 0 <= i < numProblems => ToDiagnostic(highlights[i], source))
  }

  /**
   * One validation task over a snapshot. Any failure (options that do not
   * parse, a compiler exception) is caught: nothing is published. On success
   * the publication carries the snapshot's URI and version.
   */
  function Validate(cache: Cache, doc: Document, config: LspConfig, parse: ArgParser,
                    showErrors: (Path, string, CompilerOptions) -> Result<seq<Highlight>, string>,
                    source: string)
    : (r: (Option<PublishDiagnosticsParams>, Cache))
    ensures var (opts, cache') := GetCompilerOptions(cache, doc.uri, doc.path, config.flags, parse);
      && r.1 == cache'
      && (r.0.Some? <==> opts.Ok? && showErrors(doc.path, doc.text, opts.value).Ok?)
      && (r.0.Some? ==>
            && r.0.value.uri == doc.uri
            && r.0.value.version == doc.version
            && r.0.value.diagnostics
               == BuildDiagnostics(showErrors(doc.path, doc.text, opts.value).value, config.maxNumberOfProblems, source))
  {
    var (opts, cache') := GetCompilerOptions(cache, doc.uri, doc.path, config.flags, parse);
    match opts
    case Err(_) => (None, cache')
    case Ok(o) =>
      match showErrors(doc.path, doc.text, o)
      case Err(_) => (None, cache')
      case Ok(highlights) =>
        (Some(PublishDiagnosticsParams(doc.uri, doc.version,
                BuildDiagnostics(highlights, config.maxNumberOfProblems, source))), cache')
  }

  /** The server's open documents are keyed by URI, so no URI occurs twice. */
  predicate DistinctUris(docs: seq<Document>) {
    forall a, b :: 0 <= a < b < |docs| ==> docs[a].uri != docs[b].uri
  }

  /** What validating each document on its own against `cache` would publish, in document order. */
  function Publications(cache: Cache, docs: seq<Document>, config: Uri -> LspConfig, parse: ArgParser,
                        showErrors: (Path, string, CompilerOptions) -> Result<seq<Highlight>, string>,
                        source: string)
    : (r: seq<Option<PublishDiagnosticsParams>>)
    ensures |r| == |docs|
    ensures forall i :: 0 <= i < |docs| ==> r[i] == Validate(cache, docs[i], config(docs[i].uri), parse, showErrors, source).0
  {
    seq(|docs|, i requires 0 <= i < |docs| => Validate(cache, docs[i], config(docs[i].uri), parse, showErrors, source).0)
  }

  /** Validation reads the cache only at the document's own URI. */
  lemma ValidateLocal(cache: Cache, cache': Cache, doc: Document, config: LspConfig, parse: ArgParser,
                      showErrors: (Path, string, CompilerOptions) -> Result<seq<Highlight>, string>,
                      source: string)
    requires doc.uri in cache <==> doc.uri in cache'
    requires doc.uri in cache ==> cache[doc.uri] == cache'[doc.uri]
    ensures Validate(cache, doc, config, parse, showErrors, source).0 == Validate(cache', doc, config, parse, showErrors, source).0
  {
  }

  /**
   * After the first document's validation, the remaining documents publish what
   * they would have published against the starting cache: that validation only
   * filled the first document's own URI.
   */
  lemma PublicationsShift(cache: Cache, docs: seq<Document>, config: Uri -> LspConfig, parse: ArgParser,
                          showErrors: (Path, string, CompilerOptions) -> Result<seq<Highlight>, string>,
                          source: string)
    requires |docs| > 0
    ensures DistinctUris(docs) ==> DistinctUris(docs[1..])
    ensures DistinctUris(docs) ==>
      var cache1 := Validate(cache, docs[0], config(docs[0].uri), parse, showErrors, source).1;
      Publications(cache1, docs[1..], config, parse, showErrors, source)
      == Publications(cache, docs, config, parse, showErrors, source)[1..]
  {
    if !DistinctUris(docs) {
      return;
    }
    var cache1 := Validate(cache, docs[0], config(docs[0].uri), parse, showErrors, source).1;
    var a := Publications(cache1, docs[1..], config, parse, showErrors, source);
    var b := Publications(cache, docs, config, parse, showErrors, source);
    forall i | 0 <= i < |a|
      ensures a[i] == b[i + 1]
    {
      assert docs[1..][i] == docs[i + 1] && docs[0].uri != docs[i + 1].uri;
      ValidateLocal(cache1, cache, docs[i + 1], config(docs[i + 1].uri), parse, showErrors, source);
    }
    forall x, y | 0 <= x < y < |docs[1..]|
      ensures docs[1..][x].uri != docs[1..][y].uri
    {
      assert docs[1..][x] == docs[x + 1] && docs[1..][y] == docs[y + 1];
    }
  }

  /**
   * Revalidation of every open document (`didDeleteFiles`, `didChangeWatchedFiles`,
   * and `didChangeConfiguration` after invalidation), run one task after the
   * other. Returns the publications in task order.
   */
  function ValidateAll(cache: Cache, docs: seq<Document>, config: Uri -> LspConfig, parse: ArgParser,
                       showErrors: (Path, string, CompilerOptions) -> Result<seq<Highlight>, string>,
                       source: string)
    : (r: (seq<PublishDiagnosticsParams>, Cache))
    ensures |r.0| <= |docs|
    ensures forall p :: p in r.0 ==> exists d :: d in docs && p.uri == d.uri && p.version == d.version
    ensures forall u :: u in r.1 ==> u in cache || exists d :: d in docs && d.uri == u
    ensures forall u :: u in cache ==> u in r.1 && r.1[u] == cache[u]
    ensures DistinctUris(docs) ==> r.0 == Somes(Publications(cache, docs, config, parse, showErrors, source))
    decreases |docs|
  {
    if |docs| == 0 then ([], cache)
    else
      var (published, cache1) := Validate(cache, docs[0], config(docs[0].uri), parse, showErrors, source);
      var (rest, cache2) := ValidateAll(cache1, docs[1..], config, parse, showErrors, source);
      PublicationsShift(cache, docs, config, parse, showErrors, source);
      match published
      case Some(p) => ([p] + rest, cache2)
      case None => (rest, cache2)
  }

  /** `didChangeConfiguration`: the options cache is emptied first, then every open document is revalidated. */
  function DidChangeConfiguration(cache: Cache, docs: seq<Document>, config: Uri -> LspConfig, parse: ArgParser,
                                  showErrors: (Path, string, CompilerOptions) -> Result<seq<Highlight>, string>,
                                  source: string)
    : (r: (seq<PublishDiagnosticsParams>, Cache))
    ensures forall u :: u in r.1 ==> exists d :: d in docs && d.uri == u
    ensures forall p :: p in r.0 ==> exists d :: d in docs && p.uri == d.uri && p.version == d.version
    ensures DistinctUris(docs) ==> r.0 == Somes(Publications(map[], docs, config, parse, showErrors, source))
  {
    assert Invalidate(cache) == map[];
    ValidateAll(Invalidate(cache), docs, config, parse, showErrors, source)
  }

  /** Truncation keeps a prefix: raising the cap never changes the diagnostics already published. */
  lemma {:induction false} TruncationIsPrefix(highlights: seq<Highlight>, m1: nat, m2: nat, source: string)
    requires m1 <= m2
    ensures BuildDiagnostics(highlights, m1, source) <= BuildDiagnostics(highlights, m2, source)
  {
    var a := BuildDiagnostics(highlights, m1, source);
    var b := BuildDiagnostics(highlights, m2, source);
    assert |a| <= |b|;
    forall i | 0 <= i < |a|
      ensures a[i] == b[i]
    {
      assert a[i] == ToDiagnostic(highlights[i], source);
    }
  }
}

=== FILE: document_symbols.dfy ===
/**
 * `textDocument/documentSymbol`: the compiler's flat symbol list, whose
 * entries point to their parent by index, is rebuilt into a tree when the
 * client supports hierarchical symbols (`receiveTextDocument_documentSymbol`,
 * `init`, `walk`), and emitted as flat `SymbolInformation` records otherwise.
 */
module DocumentSymbols {
  import opened Results
  import opened LspProtocol
  import opened OptionsCache
  import opened PathResolver
  import opened DefinitionRename

  datatype DocumentSymbol = DocumentSymbol(
    name: string,
    kind: SymbolKind,
    range: Range,
    selectionRange: Range,
    children: Option<seq<DocumentSymbol>>)

  /** The flat shape. The server fills in only `location`: name stays empty and kind unset. */
  datatype SymbolInformation = SymbolInformation(name: string, kind: Option<SymbolKind>, location: Location)

  datatype DocumentSymbolResult = Hierarchical(symbols: seq<DocumentSymbol>) | Flat(infos: seq<SymbolInformation>)

  /** The tree of flat-list indices the walk visits; it is turned into protocol symbols afterwards. */
  datatype IndexTree = IndexTree(index: nat, children: seq<IndexTree>)

  /** A symbol belongs to the document when its reported file resolves to the document's path. */
  predicate InDocument(fs: FileSystem, s: NativeSymbol, docPath: Path, dirs: seq<Path>) {
    Resolve(fs, s.filename, dirs) == Ok(docPath)
  }

  /** The indices of `kept` are strictly increasing and below `n`. */
  predicate Increasing(kept: seq<nat>, n: nat) {
    (forall k :: 0 <= k < |kept| ==> kept[k] < n)
    && (forall a, b :: 0 <= a < b < |kept| ==> kept[a] < kept[b])
  }

  /**
   * The exception the filter loop raises at symbol `s` of a list of `n`:
   * `resolve` failing, or a symbol of the document whose parent index is
   * past the end of the list (`symbols.at`).
   */
  function FilterError(fs: FileSystem, s: NativeSymbol, n: nat, docPath: Path, dirs: seq<Path>): Option<LspError> {
    match Resolve(fs, s.filename, dirs)
    case Err(e) => Some(e)
    case Ok(path) => if path == docPath && s.parentIndex >= n then Some(IndexOutOfRange(s.parentIndex)) else None
  }

  /**
   * The filter pass from position `i` on: the indices of the symbols that belong
   * to the document, in list order. `resolve` is applied to every symbol and a
   * kept symbol's parent is looked up with `symbols.at`, so the first failure
   * in list order is the request's error.
   */
  function FilterPass(fs: FileSystem, symbols: seq<NativeSymbol>, docPath: Path, dirs: seq<Path>, i: nat)
    : (r: Result<seq<nat>, LspError>)
    requires i <= |symbols|
    ensures r.Ok? <==> forall j :: i <= j < |symbols| ==> FilterError(fs, symbols[j], |symbols|, docPath, dirs).None?
    ensures r.Ok? ==> Increasing(r.value, |symbols|)
    ensures r.Ok? ==> forall j :: j in r.value <==> i <= j < |symbols| && InDocument(fs, symbols[j], docPath, dirs)
    ensures r.Ok? ==> forall j :: j in r.value ==> symbols[j].parentIndex < |symbols|
    ensures r.Ok? ==> forall j :: i <= j < |symbols| ==> Resolve(fs, symbols[j].filename, dirs).Ok?
    ensures r.Err? ==>
      exists j :: i <= j < |symbols| && FilterError(fs, symbols[j], |symbols|, docPath, dirs) == Some(r.error)
        && forall k :: i <= k < j ==> FilterError(fs, symbols[k], |symbols|, docPath, dirs).None?
    decreases |symbols| - i
  {
    if i == |symbols| then Ok([])
    else
      match Resolve(fs, symbols[i].filename, dirs)
      case Err(e) => Err(e)
      case Ok(path) =>
        if path == docPath && symbols[i].parentIndex >= |symbols| then
          Err(IndexOutOfRange(symbols[i].parentIndex))
        else
          match FilterPass(fs, symbols, docPath, dirs, i + 1)
          case Err(e) => Err(e)
          case Ok(rest) =>
            forall k | 0 <= k < |rest|
              ensures i < rest[k]
            {
              assert rest[k] in rest;
            }
            if path == docPath then Ok([i] + rest) else Ok(rest)
  }

  /** The kept indices whose parent index is `p`, in list order. */
  function ChildrenOf(symbols: seq<NativeSymbol>, kept: seq<nat>, p: int): (r: seq<nat>)
    requires forall k :: 0 <= k < |kept| ==> kept[k] < |symbols|
    ensures forall k :: 0 <= k < |r| ==> r[k] in kept && r[k] < |symbols| && symbols[r[k]].parentIndex == p
    ensures forall j :: j in kept && symbols[j].parentIndex == p ==> j in r
    ensures Increasing(kept, |symbols|) ==> Increasing(r, |symbols|)
    decreases |kept|
  {
    if |kept| == 0 then []
    else
      var rest := ChildrenOf(symbols, kept[1..], p);
      if symbols[kept[0]].parentIndex == p then
        ListedFirst(symbols, kept, rest);
        [kept[0]] + rest
      else rest
  }

  /** The kept indices with a negative parent index, in list order. */
  function RootsOf(symbols: seq<NativeSymbol>, kept: seq<nat>): (r: seq<nat>)
    requires forall k :: 0 <= k < |kept| ==> kept[k] < |symbols|
    ensures forall k :: 0 <= k < |r| ==> r[k] in kept && r[k] < |symbols| && symbols[r[k]].parentIndex < 0
    ensures forall j :: j in kept && symbols[j].parentIndex < 0 ==> j in r
    ensures Increasing(kept, |symbols|) ==> Increasing(r, |symbols|)
    decreases |kept|
  {
    if |kept| == 0 then []
    else
      var rest := RootsOf(symbols, kept[1..]);
      if symbols[kept[0]].parentIndex < 0 then
        ListedFirst(symbols, kept, rest);
        [kept[0]] + rest
      else rest
  }

  /** Putting the first kept index in front of a selection from the rest keeps the order increasing. */
  lemma ListedFirst(symbols: seq<NativeSymbol>, kept: seq<nat>, rest: seq<nat>)
    requires |kept| > 0
    requires forall k :: 0 <= k < |rest| ==> rest[k] in kept[1..]
    requires Increasing(kept, |symbols|) ==> Increasing(kept[1..], |symbols|) ==> Increasing(rest, |symbols|)
    ensures Increasing(kept, |symbols|) ==> Increasing([kept[0]] + rest, |symbols|)
  {
    if Increasing(kept, |symbols|) {
      assert Increasing(kept[1..], |symbols|);
      forall k | 0 <= k < |rest|
        ensures kept[0] < rest[k]
      {
        var m :| 0 <= m < |kept[1..]| && kept[1..][m] == rest[k];
        assert kept[m + 1] == rest[k];
      }
    }
  }

  /**
   * `c` is a chain of parent links starting at a root: `c[0]` has no parent and
   * each later entry's parent index is the entry before it.
   */
  predicate ParentChain(symbols: seq<NativeSymbol>, c: seq<nat>) {
    && (forall k :: 0 <= k < |c| ==> c[k] < |symbols|)
    && (|c| > 0 ==> symbols[c[0]].parentIndex < 0)
    && (forall k :: 1 <= k < |c| ==> symbols[c[k]].parentIndex == c[k - 1])
  }

  predicate Distinct(c: seq<nat>) {
    forall a, b :: 0 <= a < b < |c| ==> c[a] != c[b]
  }

  /** A parent chain never repeats an index: following parents back from a repeat would reach a root twice. */
  lemma {:induction false} ParentChainDistinctAt(symbols: seq<NativeSymbol>, c: seq<nat>, a: nat, b: nat)
    requires ParentChain(symbols, c)
    requires a < b < |c|
    ensures c[a] != c[b]
    decreases a
  {
    if a > 0 && c[a] == c[b] {
      assert symbols[c[a]].parentIndex == c[a - 1];
      assert symbols[c[b]].parentIndex == c[b - 1];
      ParentChainDistinctAt(symbols, c, a - 1, b - 1);
    } else if a == 0 {
      assert symbols[c[b]].parentIndex == c[b - 1] >= 0;
    }
  }

  lemma ParentChainDistinct(symbols: seq<NativeSymbol>, c: seq<nat>)
    requires ParentChain(symbols, c)
    ensures Distinct(c)
  {
    forall a, b | 0 <= a < b < |c|
      ensures c[a] != c[b]
    {
      ParentChainDistinctAt(symbols, c, a, b);
    }
  }

  /** Pigeonhole: a sequence of distinct indices below `n` has at most `n` entries. */
  lemma {:induction false} DistinctBound(c: seq<nat>, n: nat)
    requires Distinct(c)
    requires forall k :: 0 <= k < |c| ==> c[k] < n
    ensures |c| <= n
    decreases n
  {
    if |c| > 0 {
      assert c[0] < n;
      if k :| 0 <= k < |c| && c[k] == n - 1 {
        var rest := c[..k] + c[k + 1..];
        assert forall i :: 0 <= i < |rest| ==> rest[i] == if i < k then c[i] else c[i + 1];
        assert forall i :: 0 <= i < |rest| ==> rest[i] < n - 1;
        forall a, b | 0 <= a < b < |rest|
          ensures rest[a] != rest[b]
        {
          var a' := if a < k then a else a + 1;
          var b' := if b < k then b else b + 1;
          assert rest[a] == c[a'] && rest[b] == c[b'] && a' < b';
        }
        DistinctBound(rest, n - 1);
        assert |rest| == |c| - 1;
      } else {
        assert forall i :: 0 <= i < |c| ==> c[i] < n - 1;
        DistinctBound(c, n - 1);
      }
    }
  }

  /**
   * `walk` from the kept symbol `j`, whose ancestors are `path`: a node gets a
   * children list only when at least one kept symbol names it as parent, and
   * its children are those symbols in list order.
   */
  function Walk(symbols: seq<NativeSymbol>, kept: seq<nat>, j: nat, path: seq<nat>): (t: IndexTree)
    requires forall k :: 0 <= k < |kept| ==> kept[k] < |symbols|
    requires ParentChain(symbols, path + [j])
    ensures t.index == j
    ensures |t.children| == |ChildrenOf(symbols, kept, j)|
    ensures forall k :: 0 <= k < |t.children| ==>
      var kid := ChildrenOf(symbols, kept, j)[k];
      && |path| < |symbols| && ParentChain(symbols, path + [j] + [kid])
      && t.children[k] == Walk(symbols, kept, kid, path + [j])
    decreases |symbols| - |path|
  {
    ParentChainDistinct(symbols, path + [j]);
    DistinctBound(path + [j], |symbols|);
    var kids := ChildrenOf(symbols, kept, j);
    IndexTree(j, seq(|kids|, k requires 0 <= k < |kids| =>
      assert ParentChain(symbols, path + [j] + [kids[k]]);
      Walk(symbols, kept, kids[k], path + [j])))
  }

  /** `init`: name, kind, and the end-exclusive range used for both `range` and `selectionRange`. */
  function Init(s: NativeSymbol): (d: DocumentSymbol)
    ensures d.range == d.selectionRange
    ensures d.range.start == Position(s.firstLine - 1, s.firstColumn - 1)
    ensures d.range.end == Position(s.lastLine - 1, s.lastColumn)
    ensures d.name == s.name && d.kind == SymbolKindOf(s.symbolType) && d.children.None?
  {
    DocumentSymbol(s.name, SymbolKindOf(s.symbolType), SymbolEndExclusiveRange(s), SymbolEndExclusiveRange(s), None)
  }

  predicate IndicesBelow(t: IndexTree, n: nat) {
    t.index < n && forall k :: 0 <= k < |t.children| ==> IndicesBelow(t.children[k], n)
  }

  /** The protocol symbol for an index tree: `init` on every node, children kept in order, no list for a leaf. */
  function ToDocumentSymbol(symbols: seq<NativeSymbol>, t: IndexTree): (d: DocumentSymbol)
    requires IndicesBelow(t, |symbols|)
    ensures d.name == symbols[t.index].name && d.kind == SymbolKindOf(symbols[t.index].symbolType)
    ensures d.range == Init(symbols[t.index]).range && d.selectionRange == d.range
    ensures d.children.Some? <==> |t.children| > 0
    ensures d.children.Some? ==>
      && |d.children.value| == |t.children|
      && forall k :: 0 <= k < |t.children| ==> d.children.value[k] == ToDocumentSymbol(symbols, t.children[k])
    decreases t
  {
    var node := Init(symbols[t.index]);
    var kids := t.children;
    if |kids| == 0 then node
    else node.(children := Some(seq(|kids|, k requires 0 <= k < |kids| => ToDocumentSymbol(symbols, kids[k]))))
  }

  lemma {:induction false} WalkIndicesBelow(symbols: seq<NativeSymbol>, kept: seq<nat>, j: nat, path: seq<nat>)
    requires forall k :: 0 <= k < |kept| ==> kept[k] < |symbols|
    requires ParentChain(symbols, path + [j])
    ensures IndicesBelow(Walk(symbols, kept, j, path), |symbols|)
    decreases |symbols| - |path|
  {
    ParentChainDistinct(symbols, path + [j]);
    DistinctBound(path + [j], |symbols|);
    var t := Walk(symbols, kept, j, path);
    assert (path + [j])[|path|] == j;
    var kids := ChildrenOf(symbols, kept, j);
    forall k | 0 <= k < |kids|
      ensures IndicesBelow(t.children[k], |symbols|)
    {
      assert ParentChain(symbols, path + [j] + [kids[k]]);
      WalkIndicesBelow(symbols, kept, kids[k], path + [j]);
    }
  }

  /** The walk from a root symbol. */
  function RootTree(symbols: seq<NativeSymbol>, kept: seq<nat>, j: nat): (t: IndexTree)
    requires forall k :: 0 <= k < |kept| ==> kept[k] < |symbols|
    requires j < |symbols| && symbols[j].parentIndex < 0
    ensures t.index == j && IndicesBelow(t, |symbols|)
  {
    assert ParentChain(symbols, [] + [j]);
    WalkIndicesBelow(symbols, kept, j, []);
    Walk(symbols, kept, j, [])
  }

  /** The root trees of the hierarchical result, one per root in list order. */
  function RootTrees(symbols: seq<NativeSymbol>, kept: seq<nat>): (ts: seq<IndexTree>)
    requires forall k :: 0 <= k < |kept| ==> kept[k] < |symbols|
    ensures |ts| == |RootsOf(symbols, kept)|
    ensures forall k :: 0 <= k < |ts| ==>
      var root := RootsOf(symbols, kept)[k];
      && ts[k].index == root && IndicesBelow(ts[k], |symbols|)
      && ParentChain(symbols, [] + [root]) && ts[k] == Walk(symbols, kept, root, [])
  {
    var roots := RootsOf(symbols, kept);
    seq(|roots|, k requires 0 <= k < |roots| => RootTree(symbols, kept, roots[k]))
  }

  /** The hierarchical build over the filtered symbols. */
  function BuildHierarchy(fs: FileSystem, symbols: seq<NativeSymbol>, docPath: Path, dirs: seq<Path>)
    : (r: Result<seq<DocumentSymbol>, LspError>)
    ensures r.Err? <==> FilterPass(fs, symbols, docPath, dirs, 0).Err?
    ensures r.Err? ==> r.error == FilterPass(fs, symbols, docPath, dirs, 0).error
    ensures r.Ok? ==>
      var kept := FilterPass(fs, symbols, docPath, dirs, 0).value;
      var trees := RootTrees(symbols, kept);
      && |r.value| == |RootsOf(symbols, kept)| == |trees|
      && forall k :: 0 <= k < |trees| ==> r.value[k] == ToDocumentSymbol(symbols, trees[k])
  {
    match FilterPass(fs, symbols, docPath, dirs, 0)
    case Err(e) => Err(e)
    case Ok(kept) =>
      var trees := RootTrees(symbols, kept);
      Ok(seq(|trees|, k requires 0 <= k < |trees| => ToDocumentSymbol(symbols, trees[k])))
  }

  /** The flat shape: one record per symbol, no filtering, end column kept. */
  function BuildFlat(fs: FileSystem, symbols: seq<NativeSymbol>, dirs: seq<Path>): (r: Result<seq<SymbolInformation>, LspError>)
    ensures r.Ok? <==> AllResolve(fs, symbols, dirs)
    ensures r.Err? ==> IsFirstResolveError(fs, symbols, dirs, r.error)
    ensures r.Ok? ==> |r.value| == |symbols| && forall i :: 0 <= i < |symbols| ==>
      && r.value[i].name == "" && r.value[i].kind.None?
      && r.value[i].location.uri == FileUri(Resolve(fs, symbols[i].filename, dirs).value)
      && r.value[i].location.range.start == Position(symbols[i].firstLine - 1, symbols[i].firstColumn - 1)
      && r.value[i].location.range.end == Position(symbols[i].lastLine - 1, symbols[i].lastColumn)
  {
    match MapLocations(fs, symbols, dirs)
    case Err(e) => Err(e)
    case Ok(locations) =>
      Ok(seq(|locations|, i requires 0 <= i < |locations| =>
        SymbolInformation("", None, locations[i].(range := SymbolEndExclusiveRange(symbols[i])))))
  }

  /** `j` is the index of some node of `t`. */
  predicate Occurs(t: IndexTree, j: nat) {
    t.index == j || exists k :: 0 <= k < |t.children| && Occurs(t.children[k], j)
  }

  /**
   * Every node below the start of a walk is a kept symbol whose parent is
   * itself a node of the same tree: the walk follows parent links only.
   */
  lemma {:induction false} WalkFollowsParents(symbols: seq<NativeSymbol>, kept: seq<nat>, i: nat, path: seq<nat>, j: nat)
    requires forall k :: 0 <= k < |kept| ==> kept[k] < |symbols|
    requires ParentChain(symbols, path + [i])
    requires Occurs(Walk(symbols, kept, i, path), j)
    ensures j == i || (j in kept && j < |symbols| && symbols[j].parentIndex >= 0
                       && Occurs(Walk(symbols, kept, i, path), symbols[j].parentIndex as nat))
    decreases |symbols| - |path|
  {
    ParentChainDistinct(symbols, path + [i]);
    DistinctBound(path + [i], |symbols|);
    var t := Walk(symbols, kept, i, path);
    var kids := ChildrenOf(symbols, kept, i);
    if j != i {
      var k :| 0 <= k < |t.children| && Occurs(t.children[k], j);
      assert ParentChain(symbols, path + [i] + [kids[k]]);
      assert t.children[k] == Walk(symbols, kept, kids[k], path + [i]);
      WalkFollowsParents(symbols, kept, kids[k], path + [i], j);
      if j == kids[k] {
        assert Occurs(t, i);
      } else {
        assert Occurs(t.children[k], symbols[j].parentIndex as nat);
      }
    }
  }

  /** The walk from one kept root never reaches a kept symbol whose parent was not kept. */
  lemma RootWalkSkipsOrphan(symbols: seq<NativeSymbol>, kept: seq<nat>, r: nat, j: nat)
    requires forall k :: 0 <= k < |kept| ==> kept[k] < |symbols|
    requires r in kept && r < |symbols| && symbols[r].parentIndex < 0
    requires j in kept && symbols[j].parentIndex >= 0 && symbols[j].parentIndex as nat !in kept
    ensures !Occurs(Walk(symbols, kept, r, []), j)
  {
    assert ParentChain(symbols, [] + [r]);
    if Occurs(Walk(symbols, kept, r, []), j) {
      WalkFollowsParents(symbols, kept, r, [], j);
      WalkFollowsParents(symbols, kept, r, [], symbols[j].parentIndex as nat);
      assert false;
    }
  }

  /**
   * A kept symbol whose parent was filtered out (it lives in another file)
   * appears nowhere in the hierarchical result: it is collected as a child of
   * a parent that no walk ever visits.
   */
  lemma OrphanUnreachable(symbols: seq<NativeSymbol>, kept: seq<nat>, j: nat)
    requires forall k :: 0 <= k < |kept| ==> kept[k] < |symbols|
    requires j in kept && symbols[j].parentIndex >= 0 && symbols[j].parentIndex as nat !in kept
    ensures forall k :: 0 <= k < |RootTrees(symbols, kept)| ==> !Occurs(RootTrees(symbols, kept)[k], j)
  {
    var trees := RootTrees(symbols, kept);
    var roots := RootsOf(symbols, kept);
    forall k | 0 <= k < |trees|
      ensures !Occurs(trees[k], j)
    {
      assert trees[k] == RootTree(symbols, kept, roots[k]) == Walk(symbols, kept, roots[k], []);
      RootWalkSkipsOrphan(symbols, kept, roots[k], j);
    }
  }

  /** The node reached from `t` by following the child positions in `p`, if they all exist. */
  function TreeAt(t: IndexTree, p: seq<nat>): Option<IndexTree>
    decreases |p|
  {
    if |p| == 0 then Some(t)
    else if p[0] < |t.children| then TreeAt(t.children[p[0]], p[1..])
    else None
  }

  /** The protocol symbol reached from `d` by following the child positions in `p`, if they all exist. */
  function DocAt(d: DocumentSymbol, p: seq<nat>): Option<DocumentSymbol>
    decreases |p|
  {
    if |p| == 0 then Some(d)
    else
      match d.children
      case None => None
      case Some(kids) => if p[0] < |kids| then DocAt(kids[p[0]], p[1..]) else None
  }

  /** A parent chain of symbols that all passed the filter. */
  predicate KeptChain(symbols: seq<NativeSymbol>, kept: seq<nat>, c: seq<nat>) {
    ParentChain(symbols, c) && forall k :: 0 <= k < |c| ==> c[k] in kept
  }

  /** The walk from entry `n` of a parent chain, whose ancestors are the entries before it. */
  function WalkAt(symbols: seq<NativeSymbol>, kept: seq<nat>, c: seq<nat>, n: nat): (t: IndexTree)
    requires forall k :: 0 <= k < |kept| ==> kept[k] < |symbols|
    requires ParentChain(symbols, c) && n < |c|
    ensures t.index == c[n] && IndicesBelow(t, |symbols|)
    ensures |t.children| == |ChildrenOf(symbols, kept, c[n])|
  {
    assert c[..n] + [c[n]] == c[..n + 1];
    assert ParentChain(symbols, c[..n] + [c[n]]);
    WalkIndicesBelow(symbols, kept, c[n], c[..n]);
    Walk(symbols, kept, c[n], c[..n])
  }

  /** One link of a chain of kept symbols: the walk from entry `m + 1` is a child of the walk from entry `m`. */
  lemma WalkStep(symbols: seq<NativeSymbol>, kept: seq<nat>, c: seq<nat>, m: nat)
    requires forall k :: 0 <= k < |kept| ==> kept[k] < |symbols|
    requires KeptChain(symbols, kept, c) && m + 1 < |c|
    ensures exists q ::
      && 0 <= q < |WalkAt(symbols, kept, c, m).children|
      && WalkAt(symbols, kept, c, m).children[q] == WalkAt(symbols, kept, c, m + 1)
  {
    var j, kid := c[m], c[m + 1];
    var path := c[..m];
    assert path + [j] == c[..m + 1];
    var kids := ChildrenOf(symbols, kept, j);
    assert kid in kept && symbols[kid].parentIndex == j;
    assert kid in kids;
    var q :| 0 <= q < |kids| && kids[q] == kid;
    var t := Walk(symbols, kept, j, path);
    assert t == WalkAt(symbols, kept, c, m);
    assert t.children[q] == Walk(symbols, kept, kid, path + [j]);
  }

  /** A path below a child extends to a path below its parent. */
  lemma ChildPath(t: IndexTree, q: nat, u: IndexTree, p: seq<nat>, z: IndexTree)
    requires q < |t.children| && t.children[q] == u && TreeAt(u, p) == Some(z)
    ensures exists p' :: |p'| == |p| + 1 && TreeAt(t, p') == Some(z)
  {
    assert ([q] + p)[1..] == p;
    assert TreeAt(t, [q] + p) == Some(z);
  }

  /** Walking down a chain of kept symbols: the walk from a later entry lies below the walk from an earlier one. */
  lemma {:induction false} WalkReaches(symbols: seq<NativeSymbol>, kept: seq<nat>, c: seq<nat>, m: nat, n: nat)
    requires forall k :: 0 <= k < |kept| ==> kept[k] < |symbols|
    requires KeptChain(symbols, kept, c) && m <= n < |c|
    ensures exists p :: |p| == n - m && TreeAt(WalkAt(symbols, kept, c, m), p) == Some(WalkAt(symbols, kept, c, n))
    decreases n - m
  {
    var t, z := WalkAt(symbols, kept, c, m), WalkAt(symbols, kept, c, n);
    if m == n {
      var none: seq<nat> := [];
      assert |none| == n - m && TreeAt(t, none) == Some(z);
    } else {
      var u := WalkAt(symbols, kept, c, m + 1);
      WalkStep(symbols, kept, c, m);
      var q :| 0 <= q < |t.children| && t.children[q] == u;
      WalkReaches(symbols, kept, c, m + 1, n);
      var p :| |p| == n - (m + 1) && TreeAt(u, p) == Some(z);
      ChildPath(t, q, u, p, z);
    }
  }

  /**
   * Completeness of the walk: a kept symbol whose ancestors were all kept
   * appears in the root tree of its outermost ancestor, one level down per
   * ancestor, and directly under the node of its parent.
   */
  lemma KeptChainInTree(symbols: seq<NativeSymbol>, kept: seq<nat>, c: seq<nat>)
    requires forall k :: 0 <= k < |kept| ==> kept[k] < |symbols|
    requires KeptChain(symbols, kept, c) && |c| > 0
    ensures exists q, p ::
      && 0 <= q < |RootTrees(symbols, kept)| && |p| == |c| - 1
      && RootTrees(symbols, kept)[q] == WalkAt(symbols, kept, c, 0)
      && TreeAt(RootTrees(symbols, kept)[q], p) == Some(WalkAt(symbols, kept, c, |c| - 1))
    ensures |c| > 1 ==>
      var parent := WalkAt(symbols, kept, c, |c| - 2);
      exists q :: 0 <= q < |parent.children| && parent.children[q] == WalkAt(symbols, kept, c, |c| - 1)
  {
    var roots := RootsOf(symbols, kept);
    assert c[0] in kept && symbols[c[0]].parentIndex < 0;
    assert c[0] in roots;
    var q :| 0 <= q < |roots| && roots[q] == c[0];
    assert c[..0] == [];
    assert RootTrees(symbols, kept)[q] == WalkAt(symbols, kept, c, 0);
    WalkReaches(symbols, kept, c, 0, |c| - 1);
    if |c| > 1 {
      WalkStep(symbols, kept, c, |c| - 2);
    }
  }

  /** Following a path of child positions commutes with the conversion to protocol symbols. */
  lemma {:induction false} TreeAtConverts(symbols: seq<NativeSymbol>, t: IndexTree, p: seq<nat>)
    requires IndicesBelow(t, |symbols|) && TreeAt(t, p).Some?
    ensures IndicesBelow(TreeAt(t, p).value, |symbols|)
    ensures DocAt(ToDocumentSymbol(symbols, t), p) == Some(ToDocumentSymbol(symbols, TreeAt(t, p).value))
    decreases |p|
  {
    if |p| > 0 {
      var d := ToDocumentSymbol(symbols, t);
      assert d.children.value[p[0]] == ToDocumentSymbol(symbols, t.children[p[0]]);
      TreeAtConverts(symbols, t.children[p[0]], p[1..]);
    }
  }

  /** `KeptChainInTree` carried over to the protocol symbols of the root trees. */
  lemma KeptChainConverted(symbols: seq<NativeSymbol>, kept: seq<nat>, c: seq<nat>)
    requires forall k :: 0 <= k < |kept| ==> kept[k] < |symbols|
    requires KeptChain(symbols, kept, c) && |c| > 0
    ensures exists q, p ::
      && 0 <= q < |RootTrees(symbols, kept)| && |p| == |c| - 1 && RootTrees(symbols, kept)[q].index == c[0]
      && DocAt(ToDocumentSymbol(symbols, RootTrees(symbols, kept)[q]), p)
         == Some(ToDocumentSymbol(symbols, WalkAt(symbols, kept, c, |c| - 1)))
  {
    var trees := RootTrees(symbols, kept);
    KeptChainInTree(symbols, kept, c);
    var q, p :| && 0 <= q < |trees| && |p| == |c| - 1 && trees[q] == WalkAt(symbols, kept, c, 0)
      && TreeAt(trees[q], p) == Some(WalkAt(symbols, kept, c, |c| - 1));
    TreeAtConverts(symbols, trees[q], p);
  }

  /**
   * `node` is what `init` makes of symbol `j` (name, kind, and the same range for
   * `range` and `selectionRange`), with a children list exactly when some kept
   * symbol names `j` as parent.
   */
  predicate InitNode(symbols: seq<NativeSymbol>, kept: seq<nat>, j: nat, node: DocumentSymbol)
    requires forall k :: 0 <= k < |kept| ==> kept[k] < |symbols|
    requires j < |symbols|
  {
    && node.name == symbols[j].name && node.kind == SymbolKindOf(symbols[j].symbolType)
    && node.range == node.selectionRange == Init(symbols[j]).range
    && (node.children.Some? <==> |ChildrenOf(symbols, kept, j)| > 0)
  }

  /**
   * Completeness of the hierarchical result: for every chain of symbols of the
   * document from a root down to `j`, the entry of the root holds, one level
   * down per ancestor, the symbol `init` builds from `j`.
   */
  lemma HierarchyComplete(fs: FileSystem, symbols: seq<NativeSymbol>, docPath: Path, dirs: seq<Path>, c: seq<nat>)
    requires FilterPass(fs, symbols, docPath, dirs, 0).Ok?
    requires KeptChain(symbols, FilterPass(fs, symbols, docPath, dirs, 0).value, c) && |c| > 0
    ensures BuildHierarchy(fs, symbols, docPath, dirs).Ok?
    ensures
      var r := BuildHierarchy(fs, symbols, docPath, dirs).value;
      exists q, p ::
        && 0 <= q < |r| && |p| == |c| - 1 && r[q].name == symbols[c[0]].name
        && DocAt(r[q], p).Some?
        && InitNode(symbols, FilterPass(fs, symbols, docPath, dirs, 0).value, c[|c| - 1], DocAt(r[q], p).value)
  {
    var kept := FilterPass(fs, symbols, docPath, dirs, 0).value;
    var r := BuildHierarchy(fs, symbols, docPath, dirs).value;
    var trees := RootTrees(symbols, kept);
    var last := WalkAt(symbols, kept, c, |c| - 1);
    KeptChainConverted(symbols, kept, c);
    var q, p :| && 0 <= q < |trees| && |p| == |c| - 1 && trees[q].index == c[0]
      && DocAt(ToDocumentSymbol(symbols, trees[q]), p) == Some(ToDocumentSymbol(symbols, last));
    assert r[q] == ToDocumentSymbol(symbols, trees[q]);
    assert InitNode(symbols, kept, c[|c| - 1], ToDocumentSymbol(symbols, last));
  }

  /**
   * `receiveTextDocument_documentSymbol`: the symbols come from the compiler
   * with the cached options (no cursor), and the client's capability picks
   * the hierarchical or the flat shape.
   */
  function ReceiveDocumentSymbol(cache: Cache, doc: Document, config: LspConfig, parse: ArgParser,
                                 getSymbols: (Path, string, CompilerOptions) -> seq<NativeSymbol>,
                                 fs: FileSystem, hierarchical: bool)
    : (r: (Result<DocumentSymbolResult, LspError>, Cache))
    ensures var (opts, cache') := GetCompilerOptions(cache, doc.uri, doc.path, config.flags, parse);
      && r.1 == cache'
      && (opts.Err? ==> r.0 == Err(opts.error))
      && (opts.Ok? ==>
            var symbols := getSymbols(doc.path, doc.text, opts.value);
            var dirs := opts.value.includeDirs;
            && (hierarchical ==> r.0.Ok? == FilterPass(fs, symbols, doc.path, dirs, 0).Ok?)
            && (hierarchical && r.0.Ok? ==> r.0.value == Hierarchical(BuildHierarchy(fs, symbols, doc.path, dirs).value))
            && (hierarchical && r.0.Err? ==> r.0.error == FilterPass(fs, symbols, doc.path, dirs, 0).error)
            && (!hierarchical ==> (r.0.Ok? <==> AllResolve(fs, symbols, dirs)))
            && (!hierarchical && r.0.Ok? ==> r.0.value == Flat(BuildFlat(fs, symbols, dirs).value))
            && (!hierarchical && r.0.Err? ==> IsFirstResolveError(fs, symbols, dirs, r.0.error)))
  {
    var (opts, cache') := GetCompilerOptions(cache, doc.uri, doc.path, config.flags, parse);
    match opts
    case Err(e) => (Err(e), cache')
    case Ok(o) =>
      var symbols := getSymbols(doc.path, doc.text, o);
      if hierarchical then
        match BuildHierarchy(fs, symbols, doc.path, o.includeDirs)
        case Err(e) => (Err(e), cache')
        case Ok(tree) => (Ok(Hierarchical(tree)), cache')
      else
        match BuildFlat(fs, symbols, o.includeDirs)
        case Err(e) => (Err(e), cache')
        case Ok(infos) => (Ok(Flat(infos)), cache')
  }
}

=== FILE: format_edit.dfy ===
/**
 * Integer and logical output editing (`handle_integer`, `handle_logical`):
 * I and L editing of the Fortran standard, sections 13.7.2.2 and 13.7.3.
 * Both append to the output record; the model returns the appended field.
 */
module FormatEdit {
  import opened Decimal
  import opened CBase

  const INT64_MIN: int := -0x8000_0000_0000_0000
  const INT64_MAX: int := 0x7FFF_FFFF_FFFF_FFFF

  type Int64 = v: int | INT64_MIN <= v <= INT64_MAX

  /** The number of decimal digits of `|val|`. */
  function DigitCount(val: Int64): (n: nat)
    ensures n >= 1
  {
    |Digits(Abs(val))|
  }

  function Repeated(c: CChar, n: int): (s: CString)
    ensures |s| == (if n < 0 then 0 else n)
    ensures forall i :: 0 <= i < |s| ==> s[i] == c
  {
    seq(if n < 0 then 0 else n, _ => c)
  }

  /** The digits of `|val|` as a C string (they are all ASCII digits). */
  function DigitText(val: Int64): (s: CString)
    ensures |s| == DigitCount(val) && AllDigits(s) && Value(s) == Abs(val)
  {
    ValueOfDigits(Abs(val));
    Digits(Abs(val))
  }

  /** The widths an `Iw` or `Iw.m` descriptor carries: `w` after the letter, `m` after the first '.'. */
  datatype IntegerEdit = IntegerEdit(width: int, minDigits: int, hasMin: bool)

  function ParseIntegerEdit(format: CString): (e: IntegerEdit)
    requires |format| >= 1
    ensures e.hasMin <==> '.' in format
  {
    var dot := IndexFrom(format, '.', 0);
    if dot < |format| then IntegerEdit(Atoi(format[1..]), Atoi(format[dot + 1..]), true)
    else IntegerEdit(Atoi(format[1..]), 0, false)
  }

  /** The sign character, if any: '-' for negatives, '+' under SP for the rest. */
  function SignText(val: Int64, signPlus: bool): (s: CString)
    ensures |s| <= 1
    ensures |s| == 1 <==> val < 0 || signPlus
  {
    if val < 0 then "-" else if signPlus then "+" else ""
  }

  /**
   * `handle_integer` as written. The field fits when `w` covers the digits
   * and the sign, without taking the `m` zero-padding into account.
   */
  function HandleIntegerAsWritten(format: CString, val: Int64, signPlus: bool): (r: CString)
    requires |format| >= 1
  {
    var e := ParseIntegerEdit(format);
    var len := DigitCount(val);
    var sign := |SignText(val, signPlus)|;
    var width := if !e.hasMin && e.width == 0 then len + sign else e.width;
    if width >= len + sign || width == 0 then
      if e.minDigits > len then
        Repeated(' ', width - e.minDigits - sign) + SignText(val, signPlus) + Repeated('0', e.minDigits - len) + DigitText(val)
      else
        Repeated(' ', width - len - sign) + SignText(val, signPlus) + DigitText(val)
    else
      Repeated('*', width)
  }

  /** The characters a number needs: its sign and at least `m` digits. */
  function Needed(val: Int64, signPlus: bool, minDigits: int): nat {
    |SignText(val, signPlus)| + (if minDigits > DigitCount(val) then minDigits else DigitCount(val))
  }

  /**
   * `handle_integer` with the fit test I editing calls for: a field of
   * width `w` that cannot hold the sign and `max(m, digits)` digits is
   * filled with `w` asterisks. `I0`, `I0.m` and a bare `I` use the minimal width.
   */
  function HandleInteger(format: CString, val: Int64, signPlus: bool): (r: CString)
    requires |format| >= 1
    ensures var e := ParseIntegerEdit(format);
      var w := e.width;
      && (w != 0 && w < Needed(val, signPlus, e.minDigits) ==> r == Repeated('*', w))
      && (w != 0 && w >= Needed(val, signPlus, e.minDigits) ==> |r| == w)
      && (w == 0 ==> |r| == Needed(val, signPlus, e.minDigits))
    ensures var e := ParseIntegerEdit(format);
      var digits := if e.minDigits > DigitCount(val) then e.minDigits else DigitCount(val);
      (e.width == 0 ==> r == PaddedField(Needed(val, signPlus, e.minDigits), digits, val, signPlus))
      && (e.width != 0 && e.width >= Needed(val, signPlus, e.minDigits) ==> r == PaddedField(e.width, digits, val, signPlus))
  {
    var e := ParseIntegerEdit(format);
    var len := DigitCount(val);
    var sign := |SignText(val, signPlus)|;
    var digits := if e.minDigits > len then e.minDigits else len;
    var width := if e.width == 0 then digits + sign else e.width;
    if width >= digits + sign then PaddedField(width, digits, val, signPlus)
    else Repeated('*', width)
  }

  /**
   * Blanks, the sign, and `|val|` zero-padded to `digits` digits, `width`
   * characters in all; `PaddedFieldLayout` states where each part sits.
   */
  function PaddedField(width: int, digits: nat, val: Int64, signPlus: bool): (r: CString)
    requires DigitCount(val) <= digits && digits + |SignText(val, signPlus)| <= width
    ensures |r| == width
  {
    Repeated(' ', width - digits - |SignText(val, signPlus)|) + SignText(val, signPlus)
      + Repeated('0', digits - DigitCount(val)) + DigitText(val)
  }

  /**
   * The layout of a padded field: the number is right-justified, the sign
   * sits immediately before its digits, and the digits are exactly `digits`
   * characters, zero-padded, whose value is `|val|`.
   */
  lemma PaddedFieldLayout(width: int, digits: nat, val: Int64, signPlus: bool)
    requires DigitCount(val) <= digits && digits + |SignText(val, signPlus)| <= width
    ensures var r := PaddedField(width, digits, val, signPlus);
      var sign := SignText(val, signPlus);
      var p := width - digits - |sign|;
      && (forall i :: 0 <= i < p ==> r[i] == ' ')
      && r[p..p + |sign|] == sign
      && |r[p + |sign|..]| == digits
      && AllDigits(r[p + |sign|..])
      && Value(r[p + |sign|..]) == Abs(val)
      && (forall i :: p + |sign| <= i < width - DigitCount(val) ==> r[i] == '0')
  {
    var r := PaddedField(width, digits, val, signPlus);
    var sign := SignText(val, signPlus);
    var p := width - digits - |sign|;
    var zeros := Repeated('0', digits - DigitCount(val));
    var number := zeros + DigitText(val);
    LeadingZerosValue(digits - DigitCount(val), DigitText(val));
    assert r == Repeated(' ', p) + sign + number;
    assert r[p..p + |sign|] == sign;
    assert r[p + |sign|..] == number;
    assert forall i :: p + |sign| <= i < width - DigitCount(val) ==> r[i] == zeros[i - p - |sign|];
  }

  /** The padded field as the concatenation of its four parts. */
  lemma PaddedFieldParts(width: int, digits: nat, val: Int64, signPlus: bool)
    requires DigitCount(val) <= digits && digits + |SignText(val, signPlus)| <= width
    ensures PaddedField(width, digits, val, signPlus)
      == Repeated(' ', width - digits - |SignText(val, signPlus)|) + SignText(val, signPlus)
         + Repeated('0', digits - DigitCount(val)) + DigitText(val)
  {
  }

  lemma PaddedFieldReadsBack(width: int, digits: nat, val: Int64, signPlus: bool)
    requires DigitCount(val) <= digits && digits + |SignText(val, signPlus)| <= width
    ensures Atoi(PaddedField(width, digits, val, signPlus)) == val
  {
    var sign := SignText(val, signPlus);
    var body := Repeated('0', digits - DigitCount(val)) + DigitText(val);
    LeadingZerosValue(digits - DigitCount(val), DigitText(val));
    assert PaddedField(width, digits, val, signPlus) == Repeated(' ', width - digits - |sign|) + sign + body;
    AtoiOfField(width - digits - |sign|, sign, body);
  }

  lemma {:induction false} LeadingZerosValue(z: nat, d: CString)
    requires AllDigits(d)
    ensures AllDigits(Repeated('0', z) + d) && Value(Repeated('0', z) + d) == Value(d)
    decreases |d|
  {
    var s := Repeated('0', z) + d;
    if |d| == 0 {
      assert s == Repeated('0', z);
      AllZerosValue(Repeated('0', z));
    } else {
      LeadingZerosValue(z, d[..|d| - 1]);
      assert s[..|s| - 1] == Repeated('0', z) + d[..|d| - 1];
    }
  }

  lemma {:induction false} AllZerosValue(s: CString)
    requires forall i :: 0 <= i < |s| ==> s[i] == '0'
    ensures AllDigits(s) && Value(s) == 0
    decreases |s|
  {
    if |s| > 0 {
      AllZerosValue(s[..|s| - 1]);
    }
  }

  /** `atoi` skips leading blanks. */
  lemma {:induction false} AtoiSkipsBlanks(n: nat, rest: CString)
    requires |rest| == 0 || !IsSpace(rest[0])
    ensures AtoiFrom(Repeated(' ', n) + rest, 0) == AtoiFrom(Repeated(' ', n) + rest, n)
  {
    var s := Repeated(' ', n) + rest;
    var i := n;
    while i > 0
      invariant 0 <= i <= n
      invariant AtoiFrom(s, i) == AtoiFrom(s, n)
    {
      assert IsSpace(s[i - 1]);
      i := i - 1;
    }
  }

  /** `atoi` of a sign followed by digits. */
  lemma AtoiSignedDigits(pre: nat, sign: CString, digits: CString)
    requires AllDigits(digits) && |digits| >= 1
    requires sign == "-" || sign == "+" || sign == ""
    ensures var s := Repeated(' ', pre) + sign + digits;
      AtoiFrom(s, pre) == if sign == "-" then -(Value(digits) as int) else Value(digits)
  {
    var s := Repeated(' ', pre) + sign + digits;
    var start := pre + |sign|;
    assert s[pre..] == sign + digits;
    assert s[start..] == digits;
    assert !IsSpace(s[pre]);
    assert start == if s[pre] == '-' || s[pre] == '+' then pre + 1 else pre;
    assert (s[pre] == '-') == (sign == "-");
    DigitRunToEnd(s, start);
    assert s[start..|s|] == digits;
  }

  lemma {:induction false} DigitRunToEnd(s: CString, i: nat)
    requires i <= |s| && AllDigits(s[i..])
    ensures DigitRunEnd(s, i) == |s|
    decreases |s| - i
  {
    if i < |s| {
      assert IsDigit(s[i..][0]);
      assert s[i + 1..] == s[i..][1..];
      DigitRunToEnd(s, i + 1);
    }
  }

  /** `atoi` of a field of blanks, an optional sign and digits. */
  lemma AtoiOfField(pre: nat, sign: CString, digits: CString)
    requires AllDigits(digits) && |digits| >= 1
    requires sign == "-" || sign == "+" || sign == ""
    ensures Atoi(Repeated(' ', pre) + sign + digits) == if sign == "-" then -(Value(digits) as int) else Value(digits)
  {
    assert |sign + digits| > 0 && !IsSpace((sign + digits)[0]);
    assert Repeated(' ', pre) + sign + digits == Repeated(' ', pre) + (sign + digits);
    AtoiSkipsBlanks(pre, sign + digits);
    AtoiSignedDigits(pre, sign, digits);
  }

  /** Whenever the field is not asterisks, reading it back with `atoi` gives the value written. */
  lemma HandleIntegerReadsBack(format: CString, val: Int64, signPlus: bool)
    requires |format| >= 1
    requires var e := ParseIntegerEdit(format); e.width == 0 || e.width >= Needed(val, signPlus, e.minDigits)
    ensures Atoi(HandleInteger(format, val, signPlus)) == val
  {
    var e := ParseIntegerEdit(format);
    var len := DigitCount(val);
    var digits := if e.minDigits > len then e.minDigits else len;
    var width := if e.width == 0 then digits + |SignText(val, signPlus)| else e.width;
    PaddedFieldReadsBack(width, digits, val, signPlus);
  }

  /**
   * The discrepancy: with `w` enough for the sign and the digits but not for
   * the `m` zero-padded digits, the field as written is longer than `w`.
   */
  lemma HandleIntegerAsWrittenOverflowsField(format: CString, val: Int64, signPlus: bool)
    requires |format| >= 1
    requires var e := ParseIntegerEdit(format);
      e.hasMin && e.width != 0 && DigitCount(val) + |SignText(val, signPlus)| <= e.width < Needed(val, signPlus, e.minDigits)
    ensures |HandleIntegerAsWritten(format, val, signPlus)| == Needed(val, signPlus, ParseIntegerEdit(format).minDigits)
    ensures |HandleIntegerAsWritten(format, val, signPlus)| > ParseIntegerEdit(format).width
    ensures HandleInteger(format, val, signPlus) == Repeated('*', ParseIntegerEdit(format).width)
  {
  }

  /** `I3.3` applied to -5: "-005", four characters in a three-character field. */
  lemma HandleIntegerAsWrittenExample()
    ensures HandleIntegerAsWritten("i3.3", -5, false) == "-005"
    ensures HandleInteger("i3.3", -5, false) == "***"
  {
    assert ParseIntegerEdit("i3.3") == IntegerEdit(3, 3, true) by {
      assert IndexFrom("i3.3", '.', 0) == 2;
      assert "i3.3"[1..] == "3.3";
      assert "i3.3"[3..] == "3";
      assert Atoi("3") == 3;
      assert DigitRunEnd("3.3", 0) == 1;
      assert "3.3"[0..1] == "3";
    }
    assert DigitText(-5) == "5";
  }

  /** `I5.3` of 5 is right-justified and zero-padded; `I2` of 5 under SP puts the plus sign before the digit. */
  lemma HandleIntegerLayoutExample()
    ensures HandleInteger("i5.3", 5, false) == "  005"
    ensures HandleInteger("i2", 5, true) == "+5"
  {
    EditI53();
    EditI2();
    assert DigitText(5) == "5";
    assert Needed(5, false, 3) == 3 && Needed(5, true, 0) == 2;
    PaddedFieldParts(5, 3, 5, false);
    assert Repeated(' ', 2) == "  " && Repeated('0', 2) == "00";
    PaddedFieldParts(2, 1, 5, true);
    assert Repeated(' ', 0) == "" && Repeated('0', 0) == "";
  }

  lemma EditI53()
    ensures ParseIntegerEdit("i5.3") == IntegerEdit(5, 3, true)
  {
    assert IndexFrom("i5.3", '.', 0) == 2;
    assert "i5.3"[1..] == "5.3";
    assert "i5.3"[3..] == "3";
    assert Atoi("3") == 3;
    assert DigitRunEnd("5.3", 0) == 1;
    assert "5.3"[0..1] == "5";
  }

  lemma EditI2()
    ensures ParseIntegerEdit("i2") == IntegerEdit(2, 0, false)
  {
    assert IndexFrom("i2", '.', 0) == 2;
    assert "i2"[1..] == "2";
    assert Atoi("2") == 2;
  }

  /** Outside the discrepancy the two definitions agree. */
  lemma HandleIntegerAgreesElsewhere(format: CString, val: Int64, signPlus: bool)
    requires |format| >= 1
    requires var e := ParseIntegerEdit(format);
      e.width == 0 || e.width >= Needed(val, signPlus, e.minDigits) || e.width < DigitCount(val) + |SignText(val, signPlus)|
    ensures HandleIntegerAsWritten(format, val, signPlus) == HandleInteger(format, val, signPlus)
  {
    var e := ParseIntegerEdit(format);
    var len, sign := DigitCount(val), SignText(val, signPlus);
    var digits := if e.minDigits > len then e.minDigits else len;
    if e.width == 0 || e.width >= digits + |sign| {
      var width := if e.width == 0 then digits + |sign| else e.width;
      assert HandleInteger(format, val, signPlus) == PaddedField(width, digits, val, signPlus);
      WrittenIsPadded(format, val, signPlus, width, digits);
    }
  }

  /** Where the field fits, the field as written is the padded field. */
  lemma WrittenIsPadded(format: CString, val: Int64, signPlus: bool, width: int, digits: nat)
    requires |format| >= 1
    requires var e := ParseIntegerEdit(format);
      && digits == (if e.minDigits > DigitCount(val) then e.minDigits else DigitCount(val))
      && width == (if e.width == 0 then digits + |SignText(val, signPlus)| else e.width)
      && width >= digits + |SignText(val, signPlus)|
    ensures HandleIntegerAsWritten(format, val, signPlus) == PaddedField(width, digits, val, signPlus)
  {
    WrittenIsParts(format, val, signPlus, width, digits);
    PaddedFieldParts(width, digits, val, signPlus);
  }

  /** Where the field fits, the field as written is blanks, the sign, the zeros and the digits. */
  lemma WrittenIsParts(format: CString, val: Int64, signPlus: bool, width: int, digits: nat)
    requires |format| >= 1
    requires var e := ParseIntegerEdit(format);
      && digits == (if e.minDigits > DigitCount(val) then e.minDigits else DigitCount(val))
      && width == (if e.width == 0 then digits + |SignText(val, signPlus)| else e.width)
      && width >= digits + |SignText(val, signPlus)|
    ensures HandleIntegerAsWritten(format, val, signPlus)
      == Repeated(' ', width - digits - |SignText(val, signPlus)|) + SignText(val, signPlus)
         + Repeated('0', digits - DigitCount(val)) + DigitText(val)
  {
    var e := ParseIntegerEdit(format);
    var len, sign, text := DigitCount(val), SignText(val, signPlus), DigitText(val);
    var pad := Repeated(' ', width - digits - |sign|);
    var zeros := Repeated('0', digits - len);
    if e.minDigits > len {
      assert e.hasMin;
      if e.width == 0 {
        RepeatedNone(' ', 0 - e.minDigits - |sign|);
        RepeatedNone(' ', width - digits - |sign|);
      }
    } else {
      RepeatedNone('0', digits - len);
      assert zeros == [];
      assert pad + sign + zeros + text == pad + sign + text by {
        assert pad + sign + zeros == pad + sign;
      }
      if e.width == 0 {
        RepeatedNone(' ', 0 - len - |sign|);
        RepeatedNone(' ', width - digits - |sign|);
      }
    }
  }

  /** No copies at all when the count is not positive. */
  lemma RepeatedNone(c: CChar, n: int)
    requires n <= 0
    ensures Repeated(c, n) == []
  {
  }

  /**
   * `handle_logical`: `w - 1` blanks and then T or F, as L editing
   * prescribes; a zero width still writes the letter.
   */
  function HandleLogical(format: CString, val: bool): (r: CString)
    requires |format| >= 1
    ensures var w := Atoi(format[1..]);
      && |r| == (if w >= 1 then w else 1)
      && r[|r| - 1] == (if val then 'T' else 'F')
      && forall i :: 0 <= i < |r| - 1 ==> r[i] == ' '
  {
    Repeated(' ', Atoi(format[1..]) - 1) + (if val then "T" else "F")
  }
}

=== FILE: format_parser.dfy ===
/**
 * The format-string tokenizer of the runtime: `remove_spaces_except_quotes`
 * drops blanks outside character-string edit descriptors, and
 * `parse_fortran_format` splits the cleaned text into one string per
 * edit descriptor, expanding repeat counts.
 */
module FormatParser {
  import opened Results
  import opened Decimal
  import opened CBase

  // ---------------------------------------------------------------------
  // remove_spaces_except_quotes
  // ---------------------------------------------------------------------

  predicate IsQuote(c: char) {
    c == '"' || c == '\''
  }

  /** Whether the scan is inside a quoted segment, and which quote opened it. */
  datatype QuoteState = Outside | Inside(quote: char)

  /**
   * The state after the character at `i`: a quote not preceded (in the
   * input) by a backslash opens a segment, or closes the segment it opened.
   */
  function NextQuoteState(s: CString, i: nat, q: QuoteState): (n: QuoteState)
    requires i < |s|
    ensures !IsQuote(s[i]) ==> n == q
    ensures IsQuote(s[i]) && (i == 0 || s[i - 1] != '\\') && q.Outside? ==> n == Inside(s[i])
    ensures IsQuote(s[i]) && (i == 0 || s[i - 1] != '\\') && q == Inside(s[i]) ==> n == Outside
  {
    if IsQuote(s[i]) && (i == 0 || s[i - 1] != '\\') then
      match q
      case Outside => Inside(s[i])
      case Inside(c) => if c == s[i] then Outside else q
    else q
  }

  function CleanFrom(s: CString, i: nat, q: QuoteState): (r: CString)
    requires i <= |s|
    ensures |r| <= |s| - i
    ensures (forall k :: i <= k < |s| ==> !IsSpace(s[k])) ==> r == s[i..]
    ensures q.Outside? && (forall k :: i <= k < |s| ==> !IsQuote(s[k])) ==> forall k :: 0 <= k < |r| ==> !IsSpace(r[k])
    decreases |s| - i
  {
    if i == |s| then []
    else
      var next := NextQuoteState(s, i, q);
      assert s[i..] == [s[i]] + s[i + 1..];
      (if !IsSpace(s[i]) || next.Inside? then [s[i]] else []) + CleanFrom(s, i + 1, next)
  }

  /** The characters of `s` that are not white space, in order. */
  function NonSpace(s: CString): (r: CString)
    ensures |r| <= |s|
  {
    if |s| == 0 then [] else (if IsSpace(s[0]) then [] else [s[0]]) + NonSpace(s[1..])
  }

  lemma {:induction false} NonSpaceAppend(a: CString, b: CString)
    ensures NonSpace(a + b) == NonSpace(a) + NonSpace(b)
    decreases |a|
  {
    if |a| > 0 {
      assert (a + b)[1..] == a[1..] + b;
      NonSpaceAppend(a[1..], b);
    } else {
      assert a + b == b;
    }
  }

  lemma {:induction false} CleanKeepsNonSpace(s: CString, i: nat, q: QuoteState)
    requires i <= |s|
    ensures NonSpace(CleanFrom(s, i, q)) == NonSpace(s[i..])
    decreases |s| - i
  {
    if i < |s| {
      var next := NextQuoteState(s, i, q);
      var head: CString := if !IsSpace(s[i]) || next.Inside? then [s[i]] else [];
      CleanKeepsNonSpace(s, i + 1, next);
      NonSpaceAppend(head, CleanFrom(s, i + 1, next));
      assert s[i..][1..] == s[i + 1..];
    }
  }

  lemma {:induction false} CleanWithoutQuotes(s: CString, i: nat, q: QuoteState)
    requires i <= |s| && q.Outside?
    requires forall k :: i <= k < |s| ==> !IsQuote(s[k])
    ensures CleanFrom(s, i, q) == NonSpace(s[i..])
    decreases |s| - i
  {
    if i < |s| {
      CleanWithoutQuotes(s, i + 1, q);
      assert s[i..][1..] == s[i + 1..];
    }
  }

  lemma CleanWithoutAnyQuote(s: CString)
    ensures (forall k :: 0 <= k < |s| ==> !IsQuote(s[k])) ==> CleanFrom(s, 0, Outside) == NonSpace(s)
  {
    if forall k :: 0 <= k < |s| ==> !IsQuote(s[k]) {
      CleanWithoutQuotes(s, 0, Outside);
      assert s[0..] == s;
    }
  }

  /**
   * `remove_spaces_except_quotes`: every non-blank character survives, so
   * the result is never longer, and without quotes every blank goes.
   */
  function RemoveSpacesExceptQuotes(s: CString): (r: CString)
    ensures |r| <= |s|
    ensures NonSpace(r) == NonSpace(s)
    ensures (forall k :: 0 <= k < |s| ==> !IsQuote(s[k])) ==> r == NonSpace(s)
  {
    CleanKeepsNonSpace(s, 0, Outside);
    CleanWithoutAnyQuote(s);
    assert s[0..] == s;
    CleanFrom(s, 0, Outside)
  }

  /**
   * A quoted segment that opens outside quotes is copied verbatim, blanks
   * included, and the scan is outside quotes again after its closing quote.
   */
  lemma {:induction false} QuotedSegmentKept(s: CString, i: nat, j: nat)
    requires i < j < |s| && IsQuote(s[i]) && s[j] == s[i]
    requires i == 0 || s[i - 1] != '\\'
    requires forall k :: i < k < j ==> s[k] != s[i]
    requires s[j - 1] != '\\'
    ensures CleanFrom(s, i, Outside) == s[i..j + 1] + CleanFrom(s, j + 1, Outside)
  {
    assert NextQuoteState(s, i, Outside) == Inside(s[i]);
    assert CleanFrom(s, i, Outside) == [s[i]] + CleanFrom(s, i + 1, Inside(s[i]));
    InsideSegment(s, i + 1, j, s[i]);
    assert s[i..j + 1] == [s[i]] + s[i + 1..j + 1];
    ConsAppend(s[i], s[i + 1..j + 1], CleanFrom(s, j + 1, Outside));
  }

  lemma {:induction false} InsideSegment(s: CString, k: nat, j: nat, quote: char)
    requires 0 < k <= j < |s| && IsQuote(quote) && s[j] == quote && s[j - 1] != '\\'
    requires forall m :: k <= m < j ==> s[m] != quote
    ensures CleanFrom(s, k, Inside(quote)) == s[k..j + 1] + CleanFrom(s, j + 1, Outside)
    decreases j - k
  {
    var rest := CleanFrom(s, j + 1, Outside);
    if k < j {
      assert NextQuoteState(s, k, Inside(quote)) == Inside(quote);
      assert CleanFrom(s, k, Inside(quote)) == [s[k]] + CleanFrom(s, k + 1, Inside(quote));
      InsideSegment(s, k + 1, j, quote);
      assert s[k..j + 1] == [s[k]] + s[k + 1..j + 1];
      ConsAppend(s[k], s[k + 1..j + 1], rest);
    } else {
      assert NextQuoteState(s, j, Inside(quote)) == Outside;
      assert s[j..j + 1] == [s[j]];
    }
  }

  lemma ConsAppend(c: char, a: CString, b: CString)
    ensures [c] + (a + b) == ([c] + a) + b
  {
  }

  // ---------------------------------------------------------------------
  // parse_fortran_format
  // ---------------------------------------------------------------------

  /** `t` occurs in `s` at some position. */
  ghost predicate SliceOf(s: CString, t: CString) {
    exists a, b :: 0 <= a <= b <= |s| && s[a..b] == t
  }

  /** Every token is a copy of the nonempty slice `s[a..b]`. */
  predicate CopiesOf(s: CString, tokens: seq<CString>, a: nat, b: nat) {
    a < b <= |s| && forall k :: 0 <= k < |tokens| ==> tokens[k] == s[a..b]
  }

  /**
   * One pass of the tokenizer loop: where the next pass starts, the tokens
   * it appends, and whether it sets `item_start` to one past the count
   * before it (a parenthesised group).
   */
  datatype Step = Step(next: nat, tokens: seq<CString>, mark: bool)

  const PeriodRequired: string := "Error: Period required in format specifier\n"
  const InvalidAfterS: string := "Error: Invalid format specifier. After 's' specifier\n"

  function WidthRequired(s: CString, i: nat): string
    requires i < |s|
  {
    "Error: Positive width required with '" + [s[i], At(s, i + 1)] + "' descriptor in format string\n"
  }

  function Unsupported(c: char): string {
    "Unsupported or unrecognized `" + [c] + "` in format string\n"
  }

  /** The letters that begin a descriptor the tokenizer knows, after `tolower`. */
  predicate KnownLead(c: char) {
    c in {',', '/', ':', '*', '"', '\'', 'a', 'e', 'i', 'd', 'f', 'l', 's', '(', 't'}
  }

  /** `kP` or `-kP`, a scale factor with a single digit. */
  predicate ScaleFactorAt(s: CString, i: nat)
    requires i < |s|
  {
    || (s[i] == '-' && IsDigit(At(s, i + 1)) && ToLower(At(s, i + 2)) == 'p')
    || (IsDigit(s[i]) && ToLower(At(s, i + 1)) == 'p')
  }

  /** A pass that succeeds moves forward and appends copies of one nonempty slice. */
  ghost predicate Advances(s: CString, i: nat, r: Outcome<Step>) {
    r.Ok? ==> i < r.value.next <= |s| && exists a, b :: CopiesOf(s, r.value.tokens, a, b)
  }

  /** The descriptor `s[i..j]` as the single token of a pass. */
  function Token(s: CString, i: nat, j: nat): (r: Outcome<Step>)
    requires i < j <= |s|
    ensures Advances(s, i, r) && r.Ok? && r.value.tokens == [s[i..j]] && !r.value.mark && r.value.next == j
  {
    assert CopiesOf(s, [s[i..j]], i, j);
    Ok(Step(j, [s[i..j]], false))
  }

  /** A pass that appends nothing. */
  function Skip(s: CString, i: nat): (r: Outcome<Step>)
    requires i < |s|
    ensures Advances(s, i, r) && r == Ok(Step(i + 1, [], false))
  {
    assert CopiesOf(s, [], i, i + 1);
    Ok(Step(i + 1, [], false))
  }

  /** A quoted literal, quotes included; without a closing quote the scan runs past the terminator. */
  function QuotedStep(s: CString, i: nat): (r: Outcome<Step>)
    requires i < |s| && IsQuote(s[i])
    ensures Advances(s, i, r) && (r.Err? ==> r.error.Undefined?)
    ensures r.Ok? ==> s[r.value.next - 1] == s[i] && forall k :: i < k < r.value.next - 1 ==> s[k] != s[i]
    ensures r.Ok? ==> r.value.tokens == [s[i..r.value.next]]
  {
    var close := IndexFrom(s, s[i], i + 1);
    if close == |s| then Err(Undefined("unterminated quoted literal: the scan reads past the terminator"))
    else Token(s, i, close + 1)
  }

  /** Where the width of an E descriptor at `i` starts: past the optional N and then the optional S. */
  function ExponentWidthAt(s: CString, i: nat): (j: nat)
    requires i < |s|
    ensures i < j <= |s|
  {
    var j0 := if ToLower(At(s, i + 1)) == 'n' then i + 2 else i + 1;
    if ToLower(At(s, j0)) == 's' then j0 + 1 else j0
  }

  /** E, EN and ES editing: a period is required; after the digits an exponent may follow. */
  function ExponentStep(s: CString, i: nat): (r: Outcome<Step>)
    requires i < |s|
    ensures Advances(s, i, r)
    ensures '.' !in s[i..] ==> r == Err(Fatal(PeriodRequired))
    ensures r.Err? ==> r == Err(Fatal(PeriodRequired))
    ensures r.Err? <==> At(s, DigitRunEnd(s, ExponentWidthAt(s, i))) != '.'
  {
    var j2 := DigitRunEnd(s, ExponentWidthAt(s, i));
    if At(s, j2) != '.' then Err(Fatal(PeriodRequired))
    else
      assert s[i..][j2 - i] == '.';
      var j3 := DigitRunEnd(s, j2 + 1);
      Token(s, i, if ToLower(At(s, j3)) == 'e' || ToLower(At(s, j3)) == 'n' then DigitRunEnd(s, j3 + 1) else j3)
  }

  /** S, SP and SS; a lone S before a comma leaves the comma for the next pass. */
  function SignStep(s: CString, i: nat): (r: Outcome<Step>)
    requires i < |s|
    ensures Advances(s, i, r)
    ensures !(At(s, i + 1) in {',', 'p', 'P', 's', 'S'}) <==> r == Err(Fatal(InvalidAfterS))
    ensures r.Err? ==> r == Err(Fatal(InvalidAfterS))
  {
    if At(s, i + 1) == ',' then Token(s, i, i + 1)
    else if ToLower(At(s, i + 1)) == 'p' || ToLower(At(s, i + 1)) == 's' then Token(s, i, i + 2)
    else Err(Fatal(InvalidAfterS))
  }

  /** A parenthesised group is one token and sets the mark. */
  function GroupStep(s: CString, i: nat): (r: Outcome<Step>)
    requires i < |s|
    ensures Advances(s, i, r) && (r.Err? ==> r.error.Undefined?)
    ensures r.Ok? ==> r.value.mark && |r.value.tokens| == 1 && s[r.value.next - 1] == ')'
  {
    var close := IndexFrom(s, ')', i + 1);
    if close == |s| then Err(Undefined("unterminated group: the scan reads past the terminator"))
    else
      var t := Token(s, i, close + 1).value;
      Ok(t.(mark := true))
  }

  /** Where the width of a T descriptor at `i` starts: past the optional L or R. */
  function TabWidthAt(s: CString, i: nat): (j: nat)
    requires i < |s|
    ensures i < j <= |s|
  {
    if ToLower(At(s, i + 1)) == 'l' || ToLower(At(s, i + 1)) == 'r' then i + 2 else i + 1
  }

  /** T, TL and TR need a width. */
  function TabStep(s: CString, i: nat): (r: Outcome<Step>)
    requires i < |s|
    ensures Advances(s, i, r) && (r.Err? ==> r == Err(Fatal(WidthRequired(s, i))))
    ensures r.Err? <==> !IsDigit(At(s, TabWidthAt(s, i)))
    ensures r.Ok? ==> IsDigit(s[r.value.next - 1])
  {
    var j := TabWidthAt(s, i);
    if !IsDigit(At(s, j)) then Err(Fatal(WidthRequired(s, i)))
    else
      var e := DigitRunEnd(s, j);
      assert j < e by {
        assert j < |s| && IsDigit(s[j]);
      }
      assert s[j..e][e - 1 - j] == s[e - 1];
      Token(s, i, e)
  }

  /** A character no case names: a scale factor, a repeat count, a blank, or an error. */
  function DefaultStep(s: CString, i: nat): (r: Outcome<Step>)
    requires i < |s|
    ensures Advances(s, i, r)
    ensures ScaleFactorAt(s, i) ==> r.Ok? && |r.value.tokens| == 1
    ensures !IsDigit(s[i]) && s[i] != ' ' && !ScaleFactorAt(s, i) <==> r == Err(Fatal(Unsupported(s[i])))
    ensures r.Err? && r.error.Fatal? ==> !IsDigit(s[i])
    ensures r.Ok? && r.value.mark ==> IsDigit(s[i])
    ensures IsDigit(s[i]) && !ScaleFactorAt(s, i) && r.Ok? ==>
      && |r.value.tokens| == Value(s[i..DigitRunEnd(s, i)])
      && (r.value.mark <==> At(s, DigitRunEnd(s, i)) == '(')
  {
    if s[i] == '-' && IsDigit(At(s, i + 1)) && ToLower(At(s, i + 2)) == 'p' then Token(s, i, i + 3)
    else if IsDigit(s[i]) && ToLower(At(s, i + 1)) == 'p' then Token(s, i, i + 2)
    else if IsDigit(s[i]) then RepeatStep(s, i)
    else if s[i] != ' ' then Err(Fatal(Unsupported(s[i])))
    else Skip(s, i)
  }

  /** A single pass of the tokenizer loop over the descriptor at `i`. */
  function ParseStep(s: CString, i: nat): (r: Outcome<Step>)
    requires i < |s|
    ensures Advances(s, i, r)
    ensures r.Ok? ==> i < r.value.next <= |s|
    ensures r.Ok? && r.value.mark ==> s[i] == '(' || IsDigit(s[i])
    ensures s[i] == ',' || s[i] == ' ' ==> r == Ok(Step(i + 1, [], false))
    ensures s[i] in {'/', ':', '*'} ==> r == Ok(Step(i + 1, [[s[i]]], false))
  {
    var c := ToLower(s[i]);
    if c == ',' then Skip(s, i)
    else if c == '/' || c == ':' || c == '*' then
      assert s[i..i + 1] == [s[i]];
      Token(s, i, i + 1)
    else if c == '"' || c == '\'' then QuotedStep(s, i)
    else if c == 'a' then Token(s, i, DigitRunEnd(s, i + 1))
    else if c == 'e' then ExponentStep(s, i)
    else if c == 'i' || c == 'd' || c == 'f' || c == 'l' then Token(s, i, NumericEnd(s, i))
    else if c == 's' then SignStep(s, i)
    else if c == '(' then GroupStep(s, i)
    else if c == 't' then TabStep(s, i)
    else DefaultStep(s, i)
  }

  /**
   * The fatal errors: E whose width digits are not followed by a period, S
   * not followed by a comma, P or S, T, TL or TR without a width digit, and
   * a character no descriptor starts with; E and T fail exactly in those
   * cases, and there is no other way to fail fatally.
   */
  lemma ParseStepErrors(s: CString, i: nat)
    requires i < |s|
    ensures ToLower(s[i]) == 's' && !(At(s, i + 1) in {',', 'p', 'P', 's', 'S'}) ==> ParseStep(s, i) == Err(Fatal(InvalidAfterS))
    ensures ToLower(s[i]) == 'e' && '.' !in s[i..] ==> ParseStep(s, i) == Err(Fatal(PeriodRequired))
    ensures ToLower(s[i]) == 'e' ==>
      (ParseStep(s, i).Err? <==> At(s, DigitRunEnd(s, ExponentWidthAt(s, i))) != '.')
    ensures ToLower(s[i]) == 't' ==>
      (ParseStep(s, i).Err? <==> !IsDigit(At(s, TabWidthAt(s, i))))
    ensures ToLower(s[i]) == 't' && !IsDigit(At(s, TabWidthAt(s, i))) ==> ParseStep(s, i) == Err(Fatal(WidthRequired(s, i)))
    ensures !KnownLead(ToLower(s[i])) && !IsDigit(s[i]) && s[i] != ' ' && !ScaleFactorAt(s, i) ==> ParseStep(s, i) == Err(Fatal(Unsupported(s[i])))
    ensures ParseStep(s, i).Err? && ParseStep(s, i).error.Fatal? ==>
      ToLower(s[i]) in {'e', 's', 't'} || (!KnownLead(ToLower(s[i])) && !IsDigit(s[i]))
  {
    var c := ToLower(s[i]);
    if c == 'e' {
      DispatchExponent(s, i);
    } else if c == 't' {
      DispatchTab(s, i);
    } else if c == 's' {
      DispatchSign(s, i);
    } else if !KnownLead(c) {
      DispatchDefault(s, i);
    } else {
      OtherLeadsNotFatal(s, i);
    }
  }

  lemma DispatchExponent(s: CString, i: nat)
    requires i < |s| && ToLower(s[i]) == 'e'
    ensures ParseStep(s, i) == ExponentStep(s, i)
  {
  }

  lemma DispatchTab(s: CString, i: nat)
    requires i < |s| && ToLower(s[i]) == 't'
    ensures ParseStep(s, i) == TabStep(s, i)
  {
  }

  lemma DispatchSign(s: CString, i: nat)
    requires i < |s| && ToLower(s[i]) == 's'
    ensures ParseStep(s, i) == SignStep(s, i)
  {
  }

  lemma DispatchDefault(s: CString, i: nat)
    requires i < |s| && !KnownLead(ToLower(s[i]))
    ensures ParseStep(s, i) == DefaultStep(s, i)
  {
  }

  /** The other known descriptors never fail fatally. */
  lemma OtherLeadsNotFatal(s: CString, i: nat)
    requires i < |s| && KnownLead(ToLower(s[i])) && !(ToLower(s[i]) in {'e', 's', 't'})
    ensures ParseStep(s, i).Err? ==> ParseStep(s, i).error.Undefined?
  {
  }

  /**
   * A quoted literal is one token, quotes included; a scale factor is one
   * token; a repeat count `r` yields `r` tokens, and sets the mark exactly
   * when a parenthesised group follows it.
   */
  lemma ParseStepShapes(s: CString, i: nat)
    requires i < |s|
    ensures IsQuote(s[i]) && ParseStep(s, i).Ok? ==>
      var step := ParseStep(s, i).value;
      step.tokens == [s[i..step.next]] && s[step.next - 1] == s[i]
    ensures ScaleFactorAt(s, i) ==> ParseStep(s, i).Ok? && |ParseStep(s, i).value.tokens| == 1
    ensures IsDigit(s[i]) && !ScaleFactorAt(s, i) && ParseStep(s, i).Ok? ==>
      && |ParseStep(s, i).value.tokens| == Value(s[i..DigitRunEnd(s, i)])
      && (ParseStep(s, i).value.mark <==> At(s, DigitRunEnd(s, i)) == '(')
  {
  }

  /** The end of an I, D, F or L descriptor: letter, optional S, digits, optional `.digits`, and after a period an optional exponent. */
  function NumericEnd(s: CString, i: nat): (j: nat)
    requires i < |s|
    ensures i < j <= |s|
  {
    var j0 := if ToLower(At(s, i + 1)) == 's' then i + 2 else i + 1;
    var j1 := DigitRunEnd(s, j0);
    var dot := At(s, j1) == '.';
    var j2 := DigitRunEnd(s, if dot then j1 + 1 else j1);
    if dot && ToLower(At(s, j2)) == 'e' then DigitRunEnd(s, j2 + 1) else j2
  }

  /** `r` copies of `t`. */
  function Copies(t: CString, r: nat): (ts: seq<CString>)
    ensures |ts| == r && forall k :: 0 <= k < r ==> ts[k] == t
  {
    seq(r, _ => t)
  }

  /**
   * A repeat count `r` followed by a parenthesised group (which sets
   * `item_start`) or by one descriptor: `r` copies of it.
   */
  function RepeatStep(s: CString, i: nat): (r: Outcome<Step>)
    requires i < |s| && IsDigit(s[i])
    ensures Advances(s, i, r)
    ensures r.Ok? ==> |r.value.tokens| == Value(s[i..DigitRunEnd(s, i)])
    ensures r.Ok? ==> exists a, b :: CopiesOf(s, r.value.tokens, a, b) && a == DigitRunEnd(s, i)
    ensures r.Ok? ==> (r.value.mark <==> At(s, DigitRunEnd(s, i)) == '(')
    ensures r.Err? ==> r.error.Undefined?
  {
    var e := DigitRunEnd(s, i);
    var count := Value(s[i..e]);
    if At(s, e) == '(' then
      var close := IndexFrom(s, ')', e + 1);
      if close == |s| then Err(Undefined("unterminated group: the scan reads past the terminator"))
      else
        assert CopiesOf(s, Copies(s[e..close + 1], count), e, close + 1);
        Ok(Step(close + 1, Copies(s[e..close + 1], count), true))
    else if e == |s| then
      Err(Undefined("repeat count at the end: the scan reads past the terminator"))
    else
      var j := if IsDigit(At(s, e + 1)) then
          var j1 := DigitRunEnd(s, e + 1);
          DigitRunEnd(s, if At(s, j1) == '.' then j1 + 1 else j1)
        else e + 1;
      assert CopiesOf(s, Copies(s[e..j], count), e, j);
      Ok(Step(j, Copies(s[e..j], count), false))
  }

  /** The tokens from `i` on, and the `item_start` mark relative to them (one past the count before the last group). */
  datatype Tokens = Tokens(items: seq<CString>, mark: Option<nat>)

  function ParseFrom(s: CString, i: nat): (r: Outcome<Tokens>)
    requires i <= |s|
    ensures r.Ok? && r.value.mark.Some? ==> 1 <= r.value.mark.value
    decreases |s| - i
  {
    if i == |s| then Ok(Tokens([], None))
    else
      match ParseStep(s, i)
      case Err(e) => Err(e)
      case Ok(step) =>
        match ParseFrom(s, step.next)
        case Err(e) => Err(e)
        case Ok(rest) =>
          var mark := if rest.mark.Some? then Some(|step.tokens| + rest.mark.value)
            else if step.mark then Some(1) else None;
          Ok(Tokens(step.tokens + rest.items, mark))
  }

  /** Every token is a nonempty piece of the format string. */
  lemma {:induction false} ParseFromSlices(s: CString, i: nat)
    requires i <= |s|
    ensures ParseFrom(s, i).Ok? ==>
      forall k :: 0 <= k < |ParseFrom(s, i).value.items| ==> |ParseFrom(s, i).value.items[k]| >= 1 && SliceOf(s, ParseFrom(s, i).value.items[k])
    decreases |s| - i
  {
    if i < |s| && ParseFrom(s, i).Ok? {
      var step := ParseStep(s, i).value;
      ParseFromSlices(s, step.next);
      var rest := ParseFrom(s, step.next).value;
      var a: nat, b: nat :| CopiesOf(s, step.tokens, a, b);
      var items := ParseFrom(s, i).value.items;
      assert items == step.tokens + rest.items;
      forall k | 0 <= k < |items|
        ensures |items[k]| >= 1 && SliceOf(s, items[k])
      {
        if k < |step.tokens| {
          assert items[k] == s[a..b];
        } else {
          assert items[k] == rest.items[k - |step.tokens|];
        }
      }
    }
  }

  /** The tokens, `*count` and `*item_start` after the call. */
  datatype Parsed = Parsed(values: seq<CString>, count: nat, itemStart: int)

  /**
   * `parse_fortran_format`: the new tokens follow the `count` slots the
   * caller already had; `count` grows by the number of tokens, and
   * `item_start` moves only when a parenthesised group was seen.
   */
  function ParseFortranFormat(format: CString, count: nat, itemStart: int): (r: Outcome<Parsed>)
    ensures r.Ok? ==> r.value.count == count + |r.value.values|
    ensures r.Ok? ==> forall k :: 0 <= k < |r.value.values| ==> |r.value.values[k]| >= 1 && SliceOf(format, r.value.values[k])
    ensures r.Ok? && '(' !in format ==> r.value.itemStart == itemStart
    ensures r.Ok? && r.value.itemStart != itemStart ==> count < r.value.itemStart
  {
    NoGroupNoMark(format);
    ParseFromSlices(format, 0);
    var tokens :- ParseFrom(format, 0);
    Ok(Parsed(tokens.items, count + |tokens.items|,
      if tokens.mark.Some? then count + tokens.mark.value else itemStart))
  }

  lemma NoGroupNoMark(s: CString)
    ensures '(' !in s && ParseFrom(s, 0).Ok? ==> ParseFrom(s, 0).value.mark == None
  {
    if '(' !in s {
      ParseWithoutGroups(s, 0);
    }
  }

  lemma {:induction false} ParseWithoutGroups(s: CString, i: nat)
    requires i <= |s| && '(' !in s
    ensures ParseFrom(s, i).Ok? ==> ParseFrom(s, i).value.mark == None
    decreases |s| - i
  {
    if i < |s| {
      var step := ParseStep(s, i);
      if step.Ok? {
        ParseWithoutGroups(s, step.value.next);
      }
    }
  }

  // Round trip: comma-separated simple descriptors tokenize back to themselves.

  predicate IsDescriptorLetter(c: char) {
    c in {'i', 'I', 'd', 'D', 'f', 'F', 'l', 'L'}
  }

  /**
   * A descriptor the tokenizer returns unchanged: `/`, `:`, `*`, `Aw`, or
   * one of I, D, F, L followed by a width and an optional `.d`.
   */
  predicate Simple(t: CString) {
    || t == "/" || t == ":" || t == "*"
    || (|t| >= 1 && t[0] in {'a', 'A'} && AllDigits(t[1..]))
    || (|t| >= 1 && IsDescriptorLetter(t[0]) && AllDigits(t[1..]))
    || Dotted(t)
  }

  /** `t` has the form `Iw.d`: the dot ends the first digit run. */
  predicate Dotted(t: CString) {
    |t| >= 1 && DottedAt(t, DigitRunEnd(t, 1))
  }

  /** A dot that splits `t` into two digit runs is the one `Dotted` looks at. */
  lemma DottedAtIsDotted(t: CString, p: nat)
    requires DottedAt(t, p)
    ensures Dotted(t) && DigitRunEnd(t, 1) == p
  {
    assert !IsDigit(t[p]);
    DigitRunEndAt(t, 1, p);
  }

  /** `t` is a letter of I, D, F, L, digits, '.' at `p`, and digits. */
  predicate DottedAt(t: CString, p: nat) {
    1 <= p < |t| && IsDescriptorLetter(t[0]) && t[p] == '.' && AllDigits(t[1..p]) && AllDigits(t[p + 1..])
  }

  /** The descriptors separated by commas. */
  function Join(ts: seq<CString>): (s: CString) {
    if |ts| == 0 then [] else if |ts| == 1 then ts[0] else ts[0] + "," + Join(ts[1..])
  }

  /** A run of digits from `i` to `j` that stops at a non-digit or the end is the run `DigitRunEnd` finds. */
  lemma {:induction false} DigitRunEndAt(s: CString, i: nat, j: nat)
    requires i <= j <= |s| && AllDigits(s[i..j])
    requires j == |s| || !IsDigit(s[j])
    ensures DigitRunEnd(s, i) == j
    decreases j - i
  {
    if i < j {
      assert IsDigit(s[i..j][0]);
      assert s[i + 1..j] == s[i..j][1..];
      DigitRunEndAt(s, i + 1, j);
    }
  }

  /** The end of the descriptor `t` found at `i`, followed by a comma or the end. */
  predicate Delimited(s: CString, i: nat, t: CString) {
    i + |t| <= |s| && s[i..i + |t|] == t && (i + |t| == |s| || s[i + |t|] == ',')
  }

  lemma NumericEndDotted(s: CString, i: nat, t: CString, p: nat)
    requires DottedAt(t, p) && Delimited(s, i, t)
    ensures NumericEnd(s, i) == i + |t|
  {
    DottedLead(s, i, t, p);
    DottedRuns(s, i, t, p);
    NumericEndOfRuns(s, i, i + p, i + |t|);
  }

  /** The character after the letter is the dot or a digit, and the dot lands at `i + p`. */
  lemma DottedLead(s: CString, i: nat, t: CString, p: nat)
    requires DottedAt(t, p) && Delimited(s, i, t)
    ensures s[i + p] == '.' && (s[i + 1] == '.' || IsDigit(s[i + 1]))
  {
    var n := |t|;
    assert s[i + 1] == t[1] && s[i + p] == '.' by {
      assert s[i..i + n][1] == t[1] && s[i..i + n][p] == t[p];
    }
    if p > 1 {
      assert t[1..p][0] == t[1];
    }
  }

  /** The two digit runs of a copied `Fw.d` end at the dot and at the end of the copy. */
  lemma DottedRuns(s: CString, i: nat, t: CString, p: nat)
    requires DottedAt(t, p) && Delimited(s, i, t)
    ensures DigitRunEnd(s, i + 1) == i + p && DigitRunEnd(s, i + p + 1) == i + |t|
  {
    var n := |t|;
    assert s[i + p] == '.' by {
      assert s[i..i + n][p] == t[p];
    }
    CopiedDigits(s, i, t, 1, p);
    DigitRunEndAt(s, i + 1, i + p);
    assert t[p + 1..n] == t[p + 1..];
    CopiedDigits(s, i, t, p + 1, n);
    DigitRunEndAt(s, i + p + 1, i + n);
  }

  /** A letter, digits up to the dot at `d`, and digits up to `e`, with no exponent after them. */
  lemma NumericEndOfRuns(s: CString, i: nat, d: nat, e: nat)
    requires i < d < e <= |s| && s[d] == '.'
    requires s[i + 1] == '.' || IsDigit(s[i + 1])
    requires DigitRunEnd(s, i + 1) == d && DigitRunEnd(s, d + 1) == e
    requires e == |s| || s[e] == ','
    ensures NumericEnd(s, i) == e
  {
  }

  /** Digits of `t[a..b]` stay digits where `t` is copied into `s` at `i`. */
  lemma CopiedDigits(s: CString, i: nat, t: CString, a: nat, b: nat)
    requires i + |t| <= |s| && s[i..i + |t|] == t && a <= b <= |t| && AllDigits(t[a..b])
    ensures AllDigits(s[i + a..i + b])
  {
    var u := s[i + a..i + b];
    forall k | 0 <= k < |u|
      ensures IsDigit(u[k])
    {
      assert u[k] == s[i..i + |t|][a + k];
      assert t[a..b][k] == t[a + k];
    }
  }

  lemma DigitsAfterLetter(s: CString, i: nat, t: CString)
    requires |t| >= 1 && AllDigits(t[1..]) && Delimited(s, i, t)
    ensures DigitRunEnd(s, i + 1) == i + |t|
    ensures At(s, i + 1) != 's' && At(s, i + 1) != 'S' && At(s, i + |t|) != '.'
  {
    var n := |t|;
    assert s[i..i + n][1..] == s[i + 1..i + n];
    if n > 1 {
      assert At(s, i + 1) == t[1];
    }
    DigitRunEndAt(s, i + 1, i + n);
  }

  /** A simple descriptor followed by a comma or the end is one token. */
  lemma SimpleStep(s: CString, i: nat, t: CString)
    requires Simple(t) && Delimited(s, i, t)
    ensures |t| >= 1 && ParseStep(s, i) == Ok(Step(i + |t|, [t], false))
  {
    assert s[i] == t[0] by {
      assert s[i..i + |t|][0] == t[0];
    }
    if t == "/" || t == ":" || t == "*" {
      assert s[i..i + 1] == t;
    } else if Dotted(t) {
      NumericEndDotted(s, i, t, DigitRunEnd(t, 1));
      LetterStep(s, i);
      TokenUpTo(s, i, t, i + |t|);
    } else {
      DigitsAfterLetter(s, i, t);
      TokenUpTo(s, i, t, i + |t|);
      if IsDescriptorLetter(t[0]) {
        assert NumericEnd(s, i) == i + |t|;
        LetterStep(s, i);
      } else {
        WidthStep(s, i);
      }
    }
  }

  /** The token the tokenizer cuts from `i` to the end of a copy of `t` is `t`. */
  lemma TokenUpTo(s: CString, i: nat, t: CString, j: nat)
    requires i < j == i + |t| <= |s| && s[i..i + |t|] == t
    ensures Token(s, i, j) == Ok(Step(j, [t], false))
  {
  }

  /** An I, D, F or L descriptor is cut where its number ends. */
  lemma LetterStep(s: CString, i: nat)
    requires i < |s| && IsDescriptorLetter(s[i])
    ensures ParseStep(s, i) == Token(s, i, NumericEnd(s, i))
  {
  }

  /** An A descriptor is cut where its width ends. */
  lemma WidthStep(s: CString, i: nat)
    requires i < |s| && s[i] in {'a', 'A'}
    ensures DigitRunEnd(s, i + 1) > i && ParseStep(s, i) == Token(s, i, DigitRunEnd(s, i + 1))
  {
  }

  /** One unfolding of the tokenizer loop when the pass sets no mark. */
  lemma ParseFromUnfold(s: CString, i: nat, step: Step, rest: seq<CString>, items: seq<CString>)
    requires i < |s| && ParseStep(s, i) == Ok(step) && !step.mark
    requires step.next <= |s| && ParseFrom(s, step.next) == Ok(Tokens(rest, None))
    requires items == step.tokens + rest
    ensures ParseFrom(s, i) == Ok(Tokens(items, None))
  {
  }

  lemma ParseFromEnd(s: CString, j: nat)
    requires j == |s|
    ensures ParseFrom(s, j) == Ok(Tokens([], None))
  {
  }

  /** A descriptor, a comma, and the tokens after the comma. */
  lemma ParseCons(s: CString, i: nat, t: CString, rest: seq<CString>, ts: seq<CString>)
    requires ts == [t] + rest
    requires i + |t| < |s| && ParseStep(s, i) == Ok(Step(i + |t|, [t], false)) && s[i + |t|] == ','
    requires ParseFrom(s, i + |t| + 1) == Ok(Tokens(rest, None))
    ensures ParseFrom(s, i) == Ok(Tokens(ts, None))
  {
    var j := i + |t|;
    ParseFromUnfold(s, j, Step(j + 1, [], false), rest, rest);
    ParseFromUnfold(s, i, Step(j, [t], false), rest, ts);
  }

  /** `s` holds the descriptors `ts` from `i` on, separated by commas. */
  predicate JoinedAt(s: CString, i: nat, ts: seq<CString>)
    decreases |ts|
  {
    if |ts| == 0 then i == |s|
    else
      && i + |ts[0]| <= |s| && s[i..i + |ts[0]|] == ts[0]
      && if |ts| == 1 then i + |ts[0]| == |s|
         else i + |ts[0]| < |s| && s[i + |ts[0]|] == ',' && JoinedAt(s, i + |ts[0]| + 1, ts[1..])
  }

  lemma {:induction false} JoinIsJoined(pre: CString, ts: seq<CString>)
    ensures JoinedAt(pre + Join(ts), |pre|, ts)
    decreases |ts|
  {
    var s := pre + Join(ts);
    if |ts| == 1 {
      assert s[|pre|..|pre| + |ts[0]|] == ts[0];
    } else if |ts| > 1 {
      var t := ts[0];
      var pre' := pre + t + ",";
      assert s == pre' + Join(ts[1..]);
      JoinIsJoined(pre', ts[1..]);
      assert s[|pre|..|pre| + |t|] == t;
    }
  }

  /** Every descriptor of `ts` is simple. */
  ghost predicate AllSimple(ts: seq<CString>)
    decreases |ts|
  {
    |ts| == 0 || (Simple(ts[0]) && AllSimple(ts[1..]))
  }

  lemma {:induction false} AllSimpleOf(ts: seq<CString>)
    requires forall k :: 0 <= k < |ts| ==> Simple(ts[k])
    ensures AllSimple(ts)
    decreases |ts|
  {
    if |ts| > 0 {
      var rest := ts[1..];
      assert forall k :: 0 <= k < |rest| ==> Simple(rest[k]) by {
        forall k | 0 <= k < |rest| ensures Simple(rest[k]) {
          assert rest[k] == ts[k + 1];
        }
      }
      AllSimpleOf(rest);
    }
  }

  /** Simple descriptors joined by commas from `i` to the end are tokenized back into themselves. */
  lemma {:induction false} ParseJoin(s: CString, i: nat, ts: seq<CString>)
    requires AllSimple(ts)
    requires i <= |s| && JoinedAt(s, i, ts)
    ensures ParseFrom(s, i) == Ok(Tokens(ts, None))
    decreases |ts|
  {
    if |ts| == 0 {
      ParseFromEnd(s, i);
    } else if |ts| == 1 {
      ParseJoinLast(s, i, ts);
    } else {
      var j := JoinedStep(s, i, ts);
      ParseJoin(s, j, ts[1..]);
    }
  }

  /** The last descriptor of a joined list. */
  lemma ParseJoinLast(s: CString, i: nat, ts: seq<CString>)
    requires |ts| == 1 && AllSimple(ts) && JoinedAt(s, i, ts)
    ensures ParseFrom(s, i) == Ok(Tokens(ts, None))
  {
    ParseLast(s, i, ts[0], ts);
  }

  /**
   * The tokens from `i` are the first descriptor followed by the tokens
   * from `j`, the position after its comma.
   */
  lemma JoinedStep(s: CString, i: nat, ts: seq<CString>) returns (j: nat)
    requires |ts| > 1 && AllSimple(ts) && JoinedAt(s, i, ts)
    ensures j <= |s| && AllSimple(ts[1..]) && JoinedAt(s, j, ts[1..])
    ensures ParseFrom(s, j) == Ok(Tokens(ts[1..], None)) ==> ParseFrom(s, i) == Ok(Tokens(ts, None))
  {
    var t, rest := JoinedUncons(s, i, ts);
    j := i + |t| + 1;
    if ParseFrom(s, j) == Ok(Tokens(rest, None)) {
      ParseSimpleCons(s, i, t, rest, ts);
    }
  }

  /** The first descriptor of a joined list and the ones after its comma. */
  lemma JoinedUncons(s: CString, i: nat, ts: seq<CString>) returns (t: CString, rest: seq<CString>)
    requires |ts| > 1 && AllSimple(ts) && JoinedAt(s, i, ts)
    ensures t == ts[0] && rest == ts[1..] && ts == [t] + rest
    ensures Simple(t) && Delimited(s, i, t) && i + |t| < |s|
  {
    t, rest := ts[0], ts[1..];
    HeadTail(ts);
  }

  lemma HeadTail(ts: seq<CString>)
    requires |ts| > 0
    ensures [ts[0]] + ts[1..] == ts
  {
  }

  /** A simple descriptor that ends the string is its only token. */
  lemma ParseLast(s: CString, i: nat, t: CString, ts: seq<CString>)
    requires ts == [t]
    requires Simple(t) && Delimited(s, i, t) && i + |t| == |s|
    ensures ParseFrom(s, i) == Ok(Tokens(ts, None))
  {
    SimpleStep(s, i, t);
    ParseFromEnd(s, i + |t|);
    ParseFromUnfold(s, i, Step(i + |t|, [t], false), [], ts);
  }

  /** A simple descriptor, a comma, and the tokens after the comma. */
  lemma ParseSimpleCons(s: CString, i: nat, t: CString, rest: seq<CString>, ts: seq<CString>)
    requires ts == [t] + rest
    requires Simple(t) && Delimited(s, i, t) && i + |t| < |s|
    requires ParseFrom(s, i + |t| + 1) == Ok(Tokens(rest, None))
    ensures ParseFrom(s, i) == Ok(Tokens(ts, None))
  {
    SimpleStep(s, i, t);
    ParseCons(s, i, t, rest, ts);
  }

  /** The call's results once the tokens from the start are known. */
  lemma ParseFortranFormatOf(format: CString, count: nat, itemStart: int, items: seq<CString>)
    requires ParseFrom(format, 0) == Ok(Tokens(items, None))
    ensures ParseFortranFormat(format, count, itemStart) == Ok(Parsed(items, count + |items|, itemStart))
  {
  }

  /** Tokenizing simple descriptors joined by commas gives them back, and counts them. */
  lemma ParseFortranFormatJoin(ts: seq<CString>, count: nat, itemStart: int)
    requires forall k :: 0 <= k < |ts| ==> Simple(ts[k])
    ensures ParseFortranFormat(Join(ts), count, itemStart) == Ok(Parsed(ts, count + |ts|, itemStart))
  {
    var s := Join(ts);
    JoinIsJoined([], ts);
    assert [] + s == s;
    AllSimpleOf(ts);
    ParseJoin(s, 0, ts);
    ParseFortranFormatOf(s, count, itemStart, ts);
  }
}

=== FILE: json_messages.dfy ===
/**
 * Whole messages through the test client's base-protocol reader: a
 * `Content-Length` header followed by its body is read back exactly, a
 * short body times out, other headers are skipped, and consecutive
 * messages are read one after the other.
 */
module LspJsonMessages {
  import opened Results
  import opened Decimal
  import CBase
  import opened LspJsonText
  import opened LspJsonStream

  function Header(n: nat): (h: seq<Byte>)
    ensures |h| == 20 + |Digits(n)|
  {
    Ascii("Content-Length: ") + Ascii(Digits(n)) + [CR, LF, CR, LF]
  }

  /** Where the header's parts lie: the numeral ends at `e`, the empty line is at `e + 2`. */
  lemma HeaderLayout(n: nat, payload: seq<Byte>)
    ensures var inp := Header(n) + payload; var e := 16 + |Digits(n)|;
      inp[..14] == Ascii("Content-Length") && inp[14] == Colon && inp[15] == Space &&
      inp[16..e] == Ascii(Digits(n)) &&
      inp[e] == CR && inp[e + 1] == LF && inp[e + 2] == CR && inp[e + 2 + 1] == LF &&
      inp[e + 2 + 2..] == payload
  {
    var inp := Header(n) + payload;
    var d := Ascii(Digits(n));
    var e := 16 + |Digits(n)|;
    assert inp == Ascii("Content-Length: ") + d + [CR, LF, CR, LF] + payload;
    assert inp[..14] == Ascii("Content-Length");
    assert inp[16..e] == d;
  }

  /** The `Content-Length` name of a header line sets the flag and moves to its value. */
  lemma ContentLengthNameStep(inp: seq<Byte>, hcl: Option<bool>, numBytes: int)
    requires |inp| > 15 && inp[..14] == Ascii("Content-Length") && inp[14] == Colon
    ensures ScanName(inp, 0, 0, hcl, numBytes) == ParseHeaderValue(inp, 15, true, numBytes)
  {
    PlainName(inp, 0, 14, "Content-Length");
    ContentLengthAnyCase();
    HeaderName(inp, 0, 14, hcl, numBytes);
  }

  /** A header name of letters and `-` is UTF-8 with no line end or `:` in it. */
  lemma PlainName(inp: seq<Byte>, start: nat, k: nat, name: string)
    requires forall i :: 0 <= i < |name| ==> 'A' <= name[i] <= 'Z' || 'a' <= name[i] <= 'z' || name[i] == '-'
    requires start <= k <= |inp| && inp[start..k] == Ascii(name)
    ensures ValidUtf8(inp[start..k])
    ensures forall i :: start <= i < k ==> inp[i] != CR && inp[i] != LF && inp[i] != Colon
  {
    forall i | start <= i < k ensures inp[i] != CR && inp[i] != LF && inp[i] != Colon {
      assert inp[i] == inp[start..k][i - start];
    }
    AsciiIsUtf8(inp[start..k]);
  }

  /** A value ` N\r\n` under Content-Length, its `\r` at `e`, sets the body length to N. */
  lemma ContentLengthValueStep(inp: seq<Byte>, e: nat, n: nat, numBytes: int)
    requires |Digits(n)| <= MaxStrDigits
    requires 16 <= e && e + 1 < |inp| && inp[15] == Space && inp[16..e] == Ascii(Digits(n))
    requires inp[e] == CR && inp[e + 1] == LF
    ensures ParseHeaderValue(inp, 15, true, numBytes) == ScanName(inp, e + 2, e + 2, Some(true), n)
  {
    ValueBytes(inp, e, n);
    NumeralText(1, n);
    PyIntOfDigits(1, n);
    HeaderValue(inp, 15, e, true, numBytes);
  }

  /**
   * A Content-Length value ` D\r\n`, its `\r` at `e`, whose digits `D` (leading
   * zeros included) outnumber the conversion limit fails the message.
   */
  lemma ContentLengthTooLong(inp: seq<Byte>, e: nat, numBytes: int)
    requires 16 <= e && e + 1 < |inp| && inp[15] == Space && inp[e] == CR && inp[e + 1] == LF
    requires forall i :: 16 <= i < e ==> IsDigitByte(inp[i])
    requires e - 16 > MaxStrDigits
    ensures ParseHeaderValue(inp, 15, true, numBytes) == Err(ValueError)
  {
    var v, d := inp[15..e], inp[16..e];
    assert v == [Space] + d;
    assert forall i :: 0 <= i < |d| ==> IsDigitByte(d[i]) by {
      forall i | 0 <= i < |d| ensures IsDigitByte(d[i]) {
        assert d[i] == inp[16 + i];
      }
    }
    assert forall i :: 15 <= i < e ==> inp[i] != CR && inp[i] != LF by {
      forall i | 15 <= i < e ensures inp[i] != CR && inp[i] != LF {
        if i > 15 {
          assert IsDigitByte(inp[i]);
        }
      }
    }
    assert forall i :: 0 <= i < |v| ==> v[i] < 0x80 by {
      forall i | 0 <= i < |v| ensures v[i] < 0x80 {
        assert v[i] == inp[15 + i];
        if i > 0 {
          assert IsDigitByte(inp[15 + i]);
        }
      }
    }
    AsciiIsUtf8(v);
    StripLeadingSpaces([Space], d);
    DigitsOverLimit(v, d);
    HeaderValue(inp, 15, e, true, numBytes);
  }

  /** The value of `Content-Length: N` with its blank is the text ` N`. */
  lemma ValueBytes(inp: seq<Byte>, e: nat, n: nat)
    requires 16 <= e <= |inp| && inp[15] == Space && inp[16..e] == Ascii(Digits(n))
    ensures inp[15..e] == Ascii(CBase.Blanks(1) + Digits(n))
    ensures forall i :: 15 <= i < e ==> inp[i] != CR && inp[i] != LF
  {
    var v := Ascii(CBase.Blanks(1) + Digits(n));
    forall i | 0 <= i < |v| ensures inp[15 + i] == v[i] {
      if i > 0 {
        assert inp[15 + i] == inp[16..e][i - 1];
      }
    }
    NumeralText(1, n);
  }

  /** Blanks then a numeral: ASCII text free of line ends. */
  lemma NumeralText(blanks: nat, n: nat)
    ensures var v := Ascii(CBase.Blanks(blanks) + Digits(n));
      ValidUtf8(v) && forall i :: 0 <= i < |v| ==> v[i] == Space || IsDigitByte(v[i])
  {
    var v := Ascii(CBase.Blanks(blanks) + Digits(n));
    forall i | 0 <= i < |v| ensures v[i] == Space || IsDigitByte(v[i]) {
      if i >= blanks {
        assert v[i] == Digits(n)[i - blanks] as int;
      }
    }
    AsciiIsUtf8(v);
  }

  /**
   * A well-formed message: after `Content-Length: N\r\n\r\n` with at
   * least N bytes following, `next` returns exactly those N bytes and
   * leaves the input just after them, whatever state came before.
   */
  lemma WellFormedMessage(n: nat, payload: seq<Byte>, hcl: Option<bool>)
    requires |Digits(n)| <= MaxStrDigits
    requires |payload| >= n && ValidUtf8(payload[..n])
    ensures Next(Stream(Header(n) + payload, hcl)) == Ok((payload[..n], Stream(payload[n..], Some(true))))
  {
    var inp := Header(n) + payload;
    var e := 16 + |Digits(n)|;
    HeaderLayout(n, payload);
    TailParts(inp, e + 2 + 2, payload, n);
    LengthMessage(inp, e, n, hcl);
  }

  /** A Content-Length line, the empty line, then `n` bytes of UTF-8: one message. */
  lemma LengthMessage(inp: seq<Byte>, e: nat, n: nat, hcl: Option<bool>)
    requires |Digits(n)| <= MaxStrDigits
    requires 16 <= e && e + 2 + 2 + n <= |inp| && inp[..14] == Ascii("Content-Length") && inp[14] == Colon
    requires inp[15] == Space && inp[16..e] == Ascii(Digits(n)) && inp[e] == CR && inp[e + 1] == LF
    requires inp[e + 2] == CR && inp[e + 2 + 1] == LF && ValidUtf8(inp[e + 2 + 2..e + 2 + 2 + n])
    ensures Next(Stream(inp, hcl)) == Ok((inp[e + 2 + 2..e + 2 + 2 + n], Stream(inp[e + 2 + 2 + n..], Some(true))))
  {
    assert ScanName(inp, 0, 0, hcl, 0) == ScanName(inp, e + 2, e + 2, Some(true), n) by {
      ContentLengthLine(inp, e, n, hcl);
    }
    MessageAt(inp, e + 2, n, hcl);
  }

  /** The first `n` bytes of a tail of `inp`, and what follows them, as slices of `inp`. */
  lemma TailParts(inp: seq<Byte>, q: nat, tail: seq<Byte>, n: nat)
    requires q <= |inp| && inp[q..] == tail && n <= |tail|
    ensures q + n <= |inp| && inp[q..q + n] == tail[..n] && inp[q + n..] == tail[n..]
  {
  }

  /** Headers that leave the body length at `n` before an empty line at `p`, then `n` bytes: one message. */
  lemma MessageAt(inp: seq<Byte>, p: nat, n: nat, hcl: Option<bool>)
    requires p + 2 + n <= |inp| && inp[p] == CR && inp[p + 1] == LF && ValidUtf8(inp[p + 2..p + 2 + n])
    requires ScanName(inp, 0, 0, hcl, 0) == ScanName(inp, p, p, Some(true), n)
    ensures Next(Stream(inp, hcl)) == Ok((inp[p + 2..p + 2 + n], Stream(inp[p + 2 + n..], Some(true))))
  {
    var f := Framed(inp[p + 2..p + 2 + n], p + 2 + n);
    BodyAfterHeaders(inp, p, n);
    NextOfFramed(inp, hcl, f);
  }

  /** An empty line at `p` after Content-Length, then `n` bytes: the message ends with those bytes. */
  lemma BodyAfterHeaders(inp: seq<Byte>, p: nat, n: nat)
    requires p + 2 + n <= |inp| && inp[p] == CR && inp[p + 1] == LF && ValidUtf8(inp[p + 2..p + 2 + n])
    ensures ScanName(inp, p, p, Some(true), n) == Ok(Framed(inp[p + 2..p + 2 + n], p + 2 + n))
  {
    FullBody(inp, p + 2, n);
  }

  /** `next` returns the body the scan framed and the input after it. */
  lemma NextOfFramed(inp: seq<Byte>, hcl: Option<bool>, f: Framed)
    requires ScanName(inp, 0, 0, hcl, 0) == Ok(f)
    ensures f.end <= |inp| && Next(Stream(inp, hcl)) == Ok((f.body, Stream(inp[f.end..], Some(true))))
  {
  }

  /** With `n` bytes available the body is exactly those bytes. */
  lemma FullBody(inp: seq<Byte>, pos: nat, n: nat)
    requires pos + n <= |inp| && ValidUtf8(inp[pos..pos + n])
    ensures ParseBody(inp, pos, n) == Ok(Framed(inp[pos..pos + n], pos + n))
  {
    if n == 0 {
      assert inp[pos..pos] == [];
    }
  }

  /** The header lines of `Header(n)` leave the body length at `n` and the flag set, before the empty line at `e + 2`. */
  lemma HeadersRead(n: nat, payload: seq<Byte>, hcl: Option<bool>)
    requires |Digits(n)| <= MaxStrDigits
    ensures var inp := Header(n) + payload; var e := 16 + |Digits(n)|;
      e + 2 + 2 <= |inp| && inp[e + 2] == CR && inp[e + 2 + 1] == LF && inp[e + 2 + 2..] == payload &&
      ScanName(inp, 0, 0, hcl, 0) == ScanName(inp, e + 2, e + 2, Some(true), n)
  {
    var inp := Header(n) + payload;
    var e := 16 + |Digits(n)|;
    HeaderLayout(n, payload);
    ContentLengthLine(inp, e, n, hcl);
  }

  /** A `Content-Length: N` line at the start of the input sets the flag and the body length. */
  lemma ContentLengthLine(inp: seq<Byte>, e: nat, n: nat, hcl: Option<bool>)
    requires |Digits(n)| <= MaxStrDigits
    requires 16 <= e && e + 2 <= |inp| && inp[..14] == Ascii("Content-Length") && inp[14] == Colon
    requires inp[15] == Space && inp[16..e] == Ascii(Digits(n)) && inp[e] == CR && inp[e + 1] == LF
    ensures ScanName(inp, 0, 0, hcl, 0) == ScanName(inp, e + 2, e + 2, Some(true), n)
  {
    ContentLengthNameStep(inp, hcl, 0);
    ContentLengthValueStep(inp, e, n, 0);
  }

  /** Short body: fewer than N bytes after the header is the time-out error, never a partial body. */
  lemma ShortBody(n: nat, payload: seq<Byte>, hcl: Option<bool>)
    requires |Digits(n)| <= MaxStrDigits
    requires |payload| < n
    ensures Next(Stream(Header(n) + payload, hcl)) == Err(TimedOut)
  {
    var inp := Header(n) + payload;
    var e := 16 + |Digits(n)|;
    HeadersRead(n, payload, hcl);
    EmptyLine(inp, e + 2, Some(true), n);
  }

  /**
   * Any other header: the name does not match, so `has_content_length`
   * becomes false and the body length is kept, whatever the value says.
   */
  lemma OtherHeader(inp: seq<Byte>, start: nat, k: nat, j: nat, hcl: Option<bool>, numBytes: int)
    requires start <= k < j && j + 1 < |inp| && inp[k] == Colon && inp[j] == CR && inp[j + 1] == LF
    requires forall i :: start <= i < k ==> inp[i] != CR && inp[i] != LF && inp[i] != Colon
    requires forall i :: k < i < j ==> inp[i] != CR && inp[i] != LF
    requires ValidUtf8(inp[start..k]) && UpperBytes(inp[start..k]) != ContentLengthName
    ensures ScanName(inp, start, start, hcl, numBytes) == ScanName(inp, j + 2, j + 2, Some(false), numBytes)
  {
    HeaderName(inp, start, k, hcl, numBytes);
    HeaderValue(inp, k + 1, j, false, numBytes);
  }

  /**
   * End of headers after another header: with Content-Type following
   * Content-Length, the empty line is out of sequence.
   */
  lemma ContentTypeLast(payload: seq<Byte>, hcl: Option<bool>)
    ensures Next(Stream(ContentTypeExample + payload, hcl)) == Err(OutOfSequenceNewline)
  {
    var inp := ContentTypeExample + payload;
    assert ScanName(inp, 0, 0, hcl, 0) == ScanName(inp, 19, 19, Some(true), 2) by {
      LengthLineLayout(payload);
      ContentLengthLine(inp, 17, 2, hcl);
    }
    assert ScanName(inp, 19, 19, Some(true), 2) == ScanName(inp, 36, 36, Some(false), 2) by {
      TypeLineLayout(payload);
      ContentTypeName(inp, 19);
      OtherHeader(inp, 19, 31, 34, Some(true), 2);
    }
    assert inp[36] == CR && inp[37] == LF by {
      TypeLineLayout(payload);
    }
    EmptyLine(inp, 36, Some(false), 2);
  }

  /** `Content-Type` is a header name other than Content-Length. */
  lemma ContentTypeName(inp: seq<Byte>, start: nat)
    requires start + 12 <= |inp| && inp[start..start + 12] == Ascii("Content-Type")
    ensures ValidUtf8(inp[start..start + 12]) && UpperBytes(inp[start..start + 12]) != ContentLengthName
    ensures forall i :: start <= i < start + 12 ==> inp[i] != CR && inp[i] != LF && inp[i] != Colon
  {
    PlainName(inp, start, start + 12, "Content-Type");
    ContentLengthAnyCase();
  }

  /** A Content-Length header, then a Content-Type header, then the empty line. */
  const ContentTypeExample: seq<Byte> := Ascii("Content-Length: 2\r\nContent-Type: x\r\n\r\n")

  /** The two-header example followed by `payload`, byte for byte. */
  lemma ContentTypeBytes(payload: seq<Byte>, i: nat)
    requires i < 38
    ensures |ContentTypeExample + payload| >= 38
    ensures (ContentTypeExample + payload)[i] == "Content-Length: 2\r\nContent-Type: x\r\n\r\n"[i] as int
  {
  }

  /** Where the parts of the Content-Length line of the two-header example lie. */
  lemma LengthLineLayout(payload: seq<Byte>)
    ensures var inp := ContentTypeExample + payload;
      |inp| >= 38 && inp[..14] == Ascii("Content-Length") && inp[14] == Colon && inp[15] == Space &&
      inp[16..17] == Ascii(Digits(2)) && inp[17] == CR && inp[18] == LF
  {
    var inp := ContentTypeExample + payload;
    forall i | 0 <= i < 19
      ensures inp[i] == "Content-Length: 2\r\n"[i] as int
    {
      ContentTypeBytes(payload, i);
    }
    assert inp[..14] == Ascii("Content-Length");
    assert Ascii(Digits(2)) == [50] by {
      assert Digits(2) == [DigitChar(2)];
    }
    assert inp[16..17] == [inp[16]];
  }

  /** Where the parts of the Content-Type line and the empty line of the example lie. */
  lemma TypeLineLayout(payload: seq<Byte>)
    ensures var inp := ContentTypeExample + payload;
      |inp| >= 38 && inp[19..31] == Ascii("Content-Type") && inp[31] == Colon &&
      (forall i :: 31 < i < 34 ==> inp[i] != CR && inp[i] != LF) &&
      inp[34] == CR && inp[35] == LF && inp[36] == CR && inp[37] == LF
  {
    var inp := ContentTypeExample + payload;
    forall i | 19 <= i < 38
      ensures inp[i] == "Content-Length: 2\r\nContent-Type: x\r\n\r\n"[i] as int
    {
      ContentTypeBytes(payload, i);
    }
    assert inp[19..31] == Ascii("Content-Type");
  }

  /**
   * State reset: `next` starts every message with body length zero but
   * keeps `has_content_length`, so after a message an empty line alone
   * yields an empty body; before any header it fails on the missing
   * attribute instead.
   */
  lemma StateReset(rest: seq<Byte>)
    ensures Next(Stream([CR, LF] + rest, Some(true))) == Ok(([], Stream(rest, Some(true))))
    ensures Next(Stream([CR, LF] + rest, None)) == Err(MissingAttribute)
    ensures Next(Stream([CR, LF] + rest, Some(false))) == Err(OutOfSequenceNewline)
  {
    var inp := [CR, LF] + rest;
    EmptyLine(inp, 0, Some(true), 0);
    AsciiIsUtf8([]);
    assert inp[2..] == rest;
  }

  /** Two messages back to back: the second `next` starts where the first body ended. */
  lemma Consecutive(n: nat, body: seq<Byte>, m: nat, more: seq<Byte>, hcl: Option<bool>)
    requires |Digits(n)| <= MaxStrDigits && |Digits(m)| <= MaxStrDigits
    requires |body| == n && ValidUtf8(body) && |more| >= m && ValidUtf8(more[..m])
    ensures var s := Stream(Header(n) + body + Header(m) + more, hcl);
      Next(s).Ok? && Next(s).value.0 == body &&
      Next(Next(s).value.1) == Ok((more[..m], Stream(more[m..], Some(true))))
  {
    var s := Stream(Header(n) + body + Header(m) + more, hcl);
    var payload := body + (Header(m) + more);
    var second := Stream(Header(m) + more, Some(true));
    assert Next(s) == Ok((body, second)) by {
      Regroup(Header(n), body, Header(m), more);
      WellFormedMessage(n, payload, hcl);
    }
    WellFormedMessage(m, more, Some(true));
  }

  /** Concatenation regrouped, and the two halves of a concatenation. */
  lemma Regroup(a: seq<Byte>, b: seq<Byte>, c: seq<Byte>, d: seq<Byte>)
    ensures a + b + c + d == a + (b + (c + d))
    ensures (b + (c + d))[..|b|] == b && (b + (c + d))[|b|..] == c + d
  {
  }
}

=== FILE: json_stream.dfy ===
/**
 * The test client's reader for the base protocol of the Language Server
 * Protocol Specification 3.17 (section "Base Protocol", "Header Part"):
 * header lines `name: value\r\n`, an empty line, then a body of exactly
 * `Content-Length` bytes. The reader is a byte-level state machine
 * (`LspJsonStream.next`, `parse_header_name`, `parse_header_value`,
 * `parse_body`); here it runs over a finite byte sequence, and running out
 * of bytes is the time-out error. The body is returned as the bytes
 * `json.loads` would be given.
 */
module LspJsonStream {
  import opened Results
  import opened LspJsonText

  /** The exceptions the reader raises. */
  datatype StreamError =
    | TimedOut                    // the input ended before the message did
    | ExpectedLineFeed(got: Byte) // a `\r` followed by something else
    | OutOfSequenceNewline        // a bare `\n`, or an empty line that cannot end the headers
    | MissingAttribute            // `has_content_length` read before any header set it
    | UnicodeDecodeError          // a header name, value or body that is not UTF-8
    | ValueError                  // `int()` rejected the Content-Length value

  /**
   * The reader between messages: the unread input and `has_content_length`,
   * which `next` does not reset (`None` until the first header sets it).
   */
  datatype Stream = Stream(input: seq<Byte>, hasContentLength: Option<bool>)

  /** A parsed message: its body and the index just past it. */
  datatype Framed = Framed(body: seq<Byte>, end: nat)

  const ContentLengthName: seq<Byte> := Ascii("CONTENT-LENGTH")

  // ---------------------------------------------------------------------
  // The state machine

  /**
   * `parse_header_name`, having read `inp[start..k]` of the current
   * header name. `\r\n` ends the headers when nothing precedes it and the
   * last header was Content-Length; `:` ends the name, which is
   * upper-cased, decoded and compared with CONTENT-LENGTH.
   */
  function ScanName(inp: seq<Byte>, start: nat, k: nat, hcl: Option<bool>, numBytes: int): (r: Result<Framed, StreamError>)
    requires start <= k <= |inp|
    ensures r.Ok? ==> k < r.value.end <= |inp|
    decreases |inp| - k, 0
  {
    if k == |inp| then Err(TimedOut)
    else if inp[k] == CR then
      if k + 1 == |inp| then Err(TimedOut)
      else if inp[k + 1] != LF then Err(ExpectedLineFeed(inp[k + 1]))
      else if k == start then
        match hcl
        case None => Err(MissingAttribute)
        case Some(true) => ParseBody(inp, k + 2, numBytes)
        case Some(false) => Err(OutOfSequenceNewline)
      else Err(OutOfSequenceNewline)
    else if inp[k] == LF then Err(OutOfSequenceNewline)
    else if inp[k] == Colon then
      var name := UpperBytes(inp[start..k]);
      if !ValidUtf8(name) then Err(UnicodeDecodeError)
      else ParseHeaderValue(inp, k + 1, name == ContentLengthName, numBytes)
    else ScanName(inp, start, k + 1, hcl, numBytes)
  }

  /** The index of the first byte at or after `k` that is neither a blank nor a tab. */
  function SkipBlanks(inp: seq<Byte>, k: nat): (j: nat)
    requires k <= |inp|
    ensures k <= j <= |inp| && (j == |inp| || (inp[j] != Space && inp[j] != Tab))
    ensures forall i :: k <= i < j ==> inp[i] == Space || inp[i] == Tab
    decreases |inp| - k
  {
    if k < |inp| && (inp[k] == Space || inp[k] == Tab) then SkipBlanks(inp, k + 1) else k
  }

  /**
   * `parse_header_value`, starting just after the `:`: leading blanks and
   * tabs are read past, then the value runs to `\r\n`.
   */
  function ParseHeaderValue(inp: seq<Byte>, start: nat, hcl: bool, numBytes: int): (r: Result<Framed, StreamError>)
    requires start <= |inp|
    ensures r.Ok? ==> start < r.value.end <= |inp|
    decreases |inp| - start, 2
  {
    ScanValue(inp, start, SkipBlanks(inp, start), hcl, numBytes)
  }

  /**
   * The value loop, at `inp[k]`. The value is `inp[start..k]` (leading
   * blanks included); it becomes the body length only under a
   * Content-Length header, and is ignored otherwise.
   */
  function ScanValue(inp: seq<Byte>, start: nat, k: nat, hcl: bool, numBytes: int): (r: Result<Framed, StreamError>)
    requires start <= k <= |inp|
    ensures r.Ok? ==> k < r.value.end <= |inp|
    decreases |inp| - k, 1
  {
    if k == |inp| then Err(TimedOut)
    else if inp[k] == CR then
      if k + 1 == |inp| then Err(TimedOut)
      else if inp[k + 1] != LF then Err(ExpectedLineFeed(inp[k + 1]))
      else if hcl then
        var value := inp[start..k];
        if !ValidUtf8(value) then Err(UnicodeDecodeError)
        else match PyInt(value)
          case None => Err(ValueError)
          case Some(n) => ScanName(inp, k + 2, k + 2, Some(true), n)
      else ScanName(inp, k + 2, k + 2, Some(false), numBytes)
    else if inp[k] == LF then Err(OutOfSequenceNewline)
    else ScanValue(inp, start, k + 1, hcl, numBytes)
  }

  /**
   * `parse_body` at `pos`: exactly `numBytes` more bytes, or the time-out
   * error when fewer remain. The body is the last `numBytes` bytes read,
   * which is nothing when `numBytes` is zero or negative.
   */
  function ParseBody(inp: seq<Byte>, pos: nat, numBytes: int): (r: Result<Framed, StreamError>)
    requires pos <= |inp|
    ensures r.Ok? <==> (numBytes <= 0 || pos + numBytes <= |inp|) && ValidUtf8(BodyBytes(inp, pos, numBytes))
    ensures r.Ok? ==> r.value.end == pos + |r.value.body| && r.value.body == BodyBytes(inp, pos, numBytes)
    ensures r.Ok? ==> |r.value.body| == if numBytes > 0 then numBytes else 0
  {
    if numBytes > 0 && |inp| - pos < numBytes then Err(TimedOut)
    else
      var body := BodyBytes(inp, pos, numBytes);
      if !ValidUtf8(body) then Err(UnicodeDecodeError)
      else Ok(Framed(body, pos + |body|))
  }

  /** The `numBytes` bytes at `pos`, or none when `numBytes` is not positive. */
  function BodyBytes(inp: seq<Byte>, pos: nat, numBytes: int): seq<Byte>
    requires pos <= |inp|
  {
    if numBytes <= 0 then [] else if pos + numBytes <= |inp| then inp[pos..pos + numBytes] else []
  }

  /**
   * `next`: the body length and the read position start again from zero
   * for every message; `has_content_length` carries over. A message ends
   * with `has_content_length` set, and the rest of the input is what
   * follows what was consumed.
   */
  function Next(s: Stream): (r: Result<(seq<Byte>, Stream), StreamError>)
    ensures r.Ok? ==> r.value.1.hasContentLength == Some(true)
    ensures r.Ok? ==> (|r.value.1.input| < |s.input| &&
      s.input == s.input[..|s.input| - |r.value.1.input|] + r.value.1.input)
  {
    var f :- ScanName(s.input, 0, 0, s.hasContentLength, 0);
    Ok((f.body, Stream(s.input[f.end..], Some(true))))
  }

  /** `body` is UTF-8 and is the last bytes of `inp[..end]`. */
  predicate Frames(inp: seq<Byte>, f: Framed) {
    |f.body| <= f.end <= |inp| && inp[f.end - |f.body|..f.end] == f.body && ValidUtf8(f.body)
  }

  /** What `next` returns is UTF-8 text and the tail of what it consumed. */
  lemma NextFrames(s: Stream)
    requires Next(s).Ok?
    ensures var (body, rest) := Next(s).value; var consumed := s.input[..|s.input| - |rest.input|];
      |body| <= |consumed| && consumed[|consumed| - |body|..] == body && ValidUtf8(body)
  {
    ScanNameFrames(s.input, 0, 0, s.hasContentLength, 0);
  }

  lemma {:induction false} ScanNameFrames(inp: seq<Byte>, start: nat, k: nat, hcl: Option<bool>, numBytes: int)
    requires start <= k <= |inp|
    ensures var r := ScanName(inp, start, k, hcl, numBytes); r.Ok? ==> Frames(inp, r.value)
    decreases |inp| - k, 0
  {
    if k < |inp| {
      if inp[k] == CR {
      } else if inp[k] == Colon {
        ParseHeaderValueFrames(inp, k + 1, UpperBytes(inp[start..k]) == ContentLengthName, numBytes);
      } else if inp[k] != LF {
        ScanNameFrames(inp, start, k + 1, hcl, numBytes);
      }
    }
  }

  lemma {:induction false} ParseHeaderValueFrames(inp: seq<Byte>, start: nat, hcl: bool, numBytes: int)
    requires start <= |inp|
    ensures var r := ParseHeaderValue(inp, start, hcl, numBytes); r.Ok? ==> Frames(inp, r.value)
    decreases |inp| - start, 2
  {
    ScanValueFrames(inp, start, SkipBlanks(inp, start), hcl, numBytes);
  }

  /** The end of a value line: the scan goes on at the next line, with or without a new body length. */
  lemma {:induction false} ValueLineFrames(inp: seq<Byte>, start: nat, k: nat, hcl: bool, numBytes: int)
    requires start <= k && k + 1 < |inp| && inp[k] == CR && inp[k + 1] == LF
    ensures var r := ScanValue(inp, start, k, hcl, numBytes); r.Ok? ==> Frames(inp, r.value)
    decreases |inp| - k, 0
  {
    if !hcl {
      ScanNameFrames(inp, k + 2, k + 2, Some(false), numBytes);
    } else {
      var value := inp[start..k];
      if ValidUtf8(value) && PyInt(value).Some? {
        var n := PyInt(value).value;
        assert ScanValue(inp, start, k, hcl, numBytes) == ScanName(inp, k + 2, k + 2, Some(true), n);
        ScanNameFrames(inp, k + 2, k + 2, Some(true), n);
      } else {
        assert ScanValue(inp, start, k, hcl, numBytes).Err?;
      }
    }
  }

  lemma {:induction false} ScanValueFrames(inp: seq<Byte>, start: nat, k: nat, hcl: bool, numBytes: int)
    requires start <= k <= |inp|
    ensures var r := ScanValue(inp, start, k, hcl, numBytes); r.Ok? ==> Frames(inp, r.value)
    decreases |inp| - k, 1
  {
    if k < |inp| {
      if inp[k] == CR {
        if k + 1 < |inp| && inp[k + 1] == LF {
          ValueLineFrames(inp, start, k, hcl, numBytes);
        }
      } else if inp[k] != LF {
        ScanValueFrames(inp, start, k + 1, hcl, numBytes);
      }
    }
  }

  // ---------------------------------------------------------------------
  // Properties of the state machine

  /** A header name free of `\r`, `\n` and `:` is read through to the byte after it. */
  lemma {:induction false} NameRunsTo(inp: seq<Byte>, start: nat, k: nat, j: nat, hcl: Option<bool>, numBytes: int)
    requires start <= k <= j <= |inp|
    requires forall i :: k <= i < j ==> inp[i] != CR && inp[i] != LF && inp[i] != Colon
    ensures ScanName(inp, start, k, hcl, numBytes) == ScanName(inp, start, j, hcl, numBytes)
    decreases j - k
  {
    if k < j {
      NameRunsTo(inp, start, k + 1, j, hcl, numBytes);
    }
  }

  /** A header value free of `\r` and `\n` is read through to the byte after it. */
  lemma {:induction false} ValueRunsTo(inp: seq<Byte>, start: nat, k: nat, j: nat, hcl: bool, numBytes: int)
    requires start <= k <= j <= |inp|
    requires forall i :: k <= i < j ==> inp[i] != CR && inp[i] != LF
    ensures ScanValue(inp, start, k, hcl, numBytes) == ScanValue(inp, start, j, hcl, numBytes)
    decreases j - k
  {
    if k < j {
      ValueRunsTo(inp, start, k + 1, j, hcl, numBytes);
    }
  }

  /**
   * Header-name matching: at the `:` the name read so far, upper-cased,
   * decides `has_content_length`, and the value is parsed next.
   */
  lemma HeaderName(inp: seq<Byte>, start: nat, k: nat, hcl: Option<bool>, numBytes: int)
    requires start <= k < |inp| && inp[k] == Colon
    requires forall i :: start <= i < k ==> inp[i] != CR && inp[i] != LF && inp[i] != Colon
    requires ValidUtf8(inp[start..k])
    ensures ScanName(inp, start, start, hcl, numBytes) ==
      ParseHeaderValue(inp, k + 1, UpperBytes(inp[start..k]) == ContentLengthName, numBytes)
  {
    NameRunsTo(inp, start, start, k, hcl, numBytes);
    UpperKeepsUtf8(inp[start..k]);
  }

  /** Upper-casing changes only ASCII letters, so it keeps UTF-8 valid. */
  lemma {:induction false} UpperKeepsUtf8(s: seq<Byte>)
    ensures ValidUtf8(UpperBytes(s)) <==> ValidUtf8(s)
    decreases |s|
  {
    if |s| > 0 {
      var u := UpperBytes(s);
      var n := SequenceLength(s);
      assert SequenceLength(u) == n;
      if n > 0 {
        assert u[n..] == UpperBytes(s[n..]);
        UpperKeepsUtf8(s[n..]);
      }
    }
  }

  /** The name comparison ignores letter case. */
  lemma ContentLengthAnyCase()
    ensures UpperBytes(Ascii("Content-Length")) == ContentLengthName
    ensures UpperBytes(Ascii("content-length")) == ContentLengthName
    ensures UpperBytes(Ascii("Content-Type")) != ContentLengthName
  {
    assert |Ascii("Content-Type")| == 12;
  }

  /**
   * Header values: a value line sets the body length from `int()` of the
   * whole value only under Content-Length; under any other header the
   * value is not even decoded, and the body length is kept.
   */
  lemma HeaderValue(inp: seq<Byte>, start: nat, k: nat, hcl: bool, numBytes: int)
    requires start <= k && k + 1 < |inp| && inp[k] == CR && inp[k + 1] == LF
    requires forall i :: start <= i < k ==> inp[i] != CR && inp[i] != LF
    ensures !hcl ==> ParseHeaderValue(inp, start, hcl, numBytes) == ScanName(inp, k + 2, k + 2, Some(false), numBytes)
    ensures hcl && ValidUtf8(inp[start..k]) && PyInt(inp[start..k]).Some? ==>
      ParseHeaderValue(inp, start, hcl, numBytes) == ScanName(inp, k + 2, k + 2, Some(true), PyInt(inp[start..k]).value)
    ensures hcl && ValidUtf8(inp[start..k]) && PyInt(inp[start..k]).None? ==>
      ParseHeaderValue(inp, start, hcl, numBytes) == Err(ValueError)
  {
    var j := SkipBlanks(inp, start);
    assert inp[k] != Space && inp[k] != Tab;
    assert j <= k;
    ValueRunsTo(inp, start, j, k, hcl, numBytes);
  }

  /** Bad line endings: `\r` must be followed by `\n` in a header name. */
  lemma CarriageReturnWithoutLineFeed(inp: seq<Byte>, start: nat, k: nat, hcl: Option<bool>, numBytes: int)
    requires start <= k && k + 1 < |inp| && inp[k] == CR && inp[k + 1] != LF
    requires forall i :: start <= i < k ==> inp[i] != CR && inp[i] != LF && inp[i] != Colon
    ensures ScanName(inp, start, start, hcl, numBytes) == Err(ExpectedLineFeed(inp[k + 1]))
  {
    NameRunsTo(inp, start, start, k, hcl, numBytes);
  }

  /** Bad line endings: a bare `\n` in a header name, or a name line without `:`, is out of sequence. */
  lemma BareLineFeedInName(inp: seq<Byte>, start: nat, k: nat, hcl: Option<bool>, numBytes: int)
    requires start <= k < |inp|
    requires inp[k] == LF || (start < k && k + 1 < |inp| && inp[k] == CR && inp[k + 1] == LF)
    requires forall i :: start <= i < k ==> inp[i] != CR && inp[i] != LF && inp[i] != Colon
    ensures ScanName(inp, start, start, hcl, numBytes) == Err(OutOfSequenceNewline)
  {
    NameRunsTo(inp, start, start, k, hcl, numBytes);
  }

  /** Bad line endings in a header value: `\r` without `\n`, or a bare `\n`. */
  lemma BadLineEndingInValue(inp: seq<Byte>, start: nat, k: nat, hcl: bool, numBytes: int)
    requires start <= k < |inp| && (inp[k] == LF || (k + 1 < |inp| && inp[k] == CR && inp[k + 1] != LF))
    requires forall i :: start <= i < k ==> inp[i] != CR && inp[i] != LF
    ensures inp[k] == LF ==> ParseHeaderValue(inp, start, hcl, numBytes) == Err(OutOfSequenceNewline)
    ensures inp[k] == CR ==> ParseHeaderValue(inp, start, hcl, numBytes) == Err(ExpectedLineFeed(inp[k + 1]))
  {
    var j := SkipBlanks(inp, start);
    assert inp[k] != Space && inp[k] != Tab;
    assert j <= k;
    ValueRunsTo(inp, start, j, k, hcl, numBytes);
  }

  /**
   * End of headers: the empty line reads the body only when the most
   * recent header was Content-Length.
   */
  lemma EmptyLine(inp: seq<Byte>, k: nat, hcl: Option<bool>, numBytes: int)
    requires k + 1 < |inp| && inp[k] == CR && inp[k + 1] == LF
    ensures hcl == Some(true) ==> ScanName(inp, k, k, hcl, numBytes) == ParseBody(inp, k + 2, numBytes)
    ensures hcl == Some(false) ==> ScanName(inp, k, k, hcl, numBytes) == Err(OutOfSequenceNewline)
    ensures hcl == None ==> ScanName(inp, k, k, hcl, numBytes) == Err(MissingAttribute)
  {
  }
}

=== FILE: json_text.dfy ===
/**
 * The bytes, text and integers the test client's base-protocol reader
 * works with: ASCII encoding, `bytes.upper()`, UTF-8 validity, and
 * Python's `int()` on the decoded value of a `Content-Length` header.
 */
module LspJsonText {
  import opened Results
  import opened Decimal
  import CBase

  type Byte = b: int | 0 <= b < 256

  const CR: Byte := 13
  const LF: Byte := 10
  const Colon: Byte := 58
  const Space: Byte := 32
  const Tab: Byte := 9
  const Underscore: Byte := 95

  // ---------------------------------------------------------------------
  // Bytes, text and UTF-8

  /** The bytes of an ASCII string. */
  function Ascii(s: string): (b: seq<Byte>)
    requires forall i :: 0 <= i < |s| ==> s[i] as int < 128
    ensures |b| == |s| && forall i :: 0 <= i < |s| ==> b[i] == s[i] as int
  {
    seq(|s|, i requires 0 <= i < |s| => s[i] as int as Byte)
  }

  /** Bytes read as Latin-1 characters, which for ASCII is their decoding. */
  function Text(b: seq<Byte>): (s: string)
    ensures |s| == |b| && forall i :: 0 <= i < |b| ==> s[i] as int == b[i]
  {
    seq(|b|, i requires 0 <= i < |b| => b[i] as char)
  }

  /** `bytes.upper()`: ASCII lower-case letters only. */
  function UpperBytes(s: seq<Byte>): (r: seq<Byte>)
    ensures |r| == |s|
    ensures forall i :: 0 <= i < |s| ==> r[i] == if 97 <= s[i] <= 122 then s[i] - 32 else s[i]
  {
    seq(|s|, i requires 0 <= i < |s| => if 97 <= s[i] <= 122 then s[i] - 32 else s[i])
  }

  predicate IsContinuation(b: Byte) {
    0x80 <= b <= 0xBF
  }

  /**
   * The length of the well-formed UTF-8 sequence `s` starts with, or 0
   * when it starts with none: no overlong forms, no surrogates, nothing
   * above U+10FFFF (Table 3-7 of the Unicode Standard).
   */
  function SequenceLength(s: seq<Byte>): (n: nat)
    requires |s| > 0
    ensures n <= 4 && n <= |s|
  {
    if s[0] < 0x80 then 1
    else if 0xC2 <= s[0] <= 0xDF then
      if |s| >= 2 && IsContinuation(s[1]) then 2 else 0
    else if 0xE0 <= s[0] <= 0xEF then
      if |s| >= 3 &&
        (if s[0] == 0xE0 then 0xA0 <= s[1] <= 0xBF
         else if s[0] == 0xED then 0x80 <= s[1] <= 0x9F
         else IsContinuation(s[1])) &&
        IsContinuation(s[2])
      then 3 else 0
    else if 0xF0 <= s[0] <= 0xF4 then
      if |s| >= 4 &&
        (if s[0] == 0xF0 then 0x90 <= s[1] <= 0xBF
         else if s[0] == 0xF4 then 0x80 <= s[1] <= 0x8F
         else IsContinuation(s[1])) &&
        IsContinuation(s[2]) && IsContinuation(s[3])
      then 4 else 0
    else 0
  }

  /** Whether `bytes.decode("utf-8")` succeeds: `s` is a run of well-formed sequences. */
  predicate ValidUtf8(s: seq<Byte>)
    decreases |s|, 1
  {
    |s| == 0 || LeadingSequenceValid(s)
  }

  /** `s` starts with a well-formed sequence and continues as valid UTF-8 after it. */
  predicate LeadingSequenceValid(s: seq<Byte>)
    requires |s| > 0
    decreases |s|, 0
  {
    SequenceLength(s) > 0 && ValidUtf8(s[SequenceLength(s)..])
  }

  /** ASCII is UTF-8. */
  lemma {:induction false} AsciiIsUtf8(s: seq<Byte>)
    requires forall i :: 0 <= i < |s| ==> s[i] < 0x80
    ensures ValidUtf8(s)
    decreases |s|
  {
    if |s| > 0 {
      AsciiIsUtf8(s[1..]);
    }
  }

  // ---------------------------------------------------------------------
  // int() on a decoded header value

  /** The ASCII characters `str.strip` and `int()` treat as white space. */
  predicate IsPyWhitespace(b: Byte) {
    b == 32 || 9 <= b <= 13 || 28 <= b <= 31
  }

  predicate IsDigitByte(b: Byte) {
    48 <= b <= 57
  }

  function StripStart(s: seq<Byte>): (r: seq<Byte>)
    ensures |r| <= |s| && r == s[|s| - |r|..]
    ensures |r| == 0 || !IsPyWhitespace(r[0])
    decreases |s|
  {
    if |s| > 0 && IsPyWhitespace(s[0]) then StripStart(s[1..]) else s
  }

  function StripEnd(s: seq<Byte>): (r: seq<Byte>)
    ensures |r| <= |s| && r == s[..|r|]
    ensures |r| == 0 || !IsPyWhitespace(r[|r| - 1])
    decreases |s|
  {
    if |s| > 0 && IsPyWhitespace(s[|s| - 1]) then StripEnd(s[..|s| - 1]) else s
  }

  /** Digits with single underscores between them, as `int()` accepts. */
  predicate DigitGroups(d: seq<Byte>) {
    |d| > 0 && IsDigitByte(d[0]) && IsDigitByte(d[|d| - 1]) &&
    (forall i :: 0 <= i < |d| ==> IsDigitByte(d[i]) || d[i] == Underscore) &&
    (forall i :: 0 <= i < |d| - 1 ==> d[i] == Underscore ==> d[i + 1] != Underscore)
  }

  /** The digits of a digit-group string, underscores dropped. */
  function DropUnderscores(d: seq<Byte>): (r: seq<Byte>)
    requires forall i :: 0 <= i < |d| ==> IsDigitByte(d[i]) || d[i] == Underscore
    ensures forall i :: 0 <= i < |r| ==> IsDigitByte(r[i])
    ensures (forall i :: 0 <= i < |d| ==> IsDigitByte(d[i])) ==> r == d
    decreases |d|
  {
    if |d| == 0 then []
    else if d[0] == Underscore then DropUnderscores(d[1..])
    else [d[0]] + DropUnderscores(d[1..])
  }

  /**
   * The default integer string conversion length limit of Python (3.11 on,
   * and 3.10.7 on): `int()` raises `ValueError` for a decimal string of more
   * digits than this, underscores not counted.
   */
  const MaxStrDigits: nat := 4300

  /**
   * `int(s)` on the ASCII text of a header value: surrounding white space
   * is ignored, an optional sign, then decimal digits that may be grouped
   * with single underscores, at most `MaxStrDigits` of them; anything else
   * is a `ValueError` (`None`).
   */
  function PyInt(s: seq<Byte>): (r: Option<int>)
    ensures r.Some? ==> |StripEnd(StripStart(s))| > 0
  {
    var t := StripEnd(StripStart(s));
    if |t| == 0 then None
    else
      var negative := t[0] == '-' as int;
      var d := if t[0] == '-' as int || t[0] == '+' as int then t[1..] else t;
      if DigitGroups(d) && |DropUnderscores(d)| <= MaxStrDigits then
        var magnitude: int := Value(Text(DropUnderscores(d)));
        Some(if negative then -magnitude else magnitude)
      else None
  }

  /** A decimal numeral, with any leading blanks, reads back as its number. */
  lemma PyIntOfDigits(blanks: nat, n: nat)
    requires |Digits(n)| <= MaxStrDigits
    ensures PyInt(Ascii(CBase.Blanks(blanks) + Digits(n))) == Some(n)
  {
    var d := Ascii(Digits(n));
    var s := Ascii(CBase.Blanks(blanks) + Digits(n));
    NumeralBytes(n);
    assert StripEnd(StripStart(s)) == d by {
      assert s == Ascii(CBase.Blanks(blanks)) + d;
      StripLeadingSpaces(Ascii(CBase.Blanks(blanks)), d);
    }
    UnsignedDigits(s, d);
  }

  /** Text that strips to more plain digits than the conversion limit is a `ValueError`. */
  lemma DigitsOverLimit(s: seq<Byte>, t: seq<Byte>)
    requires StripEnd(StripStart(s)) == t && |t| > MaxStrDigits
    requires forall i :: 0 <= i < |t| ==> IsDigitByte(t[i])
    ensures PyInt(s) == None
  {
    assert t[0] != '-' as int && t[0] != '+' as int;
    assert DropUnderscores(t) == t;
  }

  /** The bytes of a numeral are digits and read back as the number. */
  lemma NumeralBytes(n: nat)
    ensures var d := Ascii(Digits(n));
      |d| > 0 && !IsPyWhitespace(d[0]) &&
      (forall i :: 0 <= i < |d| ==> IsDigitByte(d[i])) && AllDigits(Text(d)) && Value(Text(d)) == n
  {
    var d := Ascii(Digits(n));
    assert Text(d) == Digits(n);
    ValueOfDigits(n);
  }

  /** Text that strips to plain digits reads as their decimal value. */
  lemma UnsignedDigits(s: seq<Byte>, t: seq<Byte>)
    requires StripEnd(StripStart(s)) == t && |t| > 0
    requires forall i :: 0 <= i < |t| ==> IsDigitByte(t[i])
    requires |t| <= MaxStrDigits
    ensures AllDigits(Text(t)) && PyInt(s) == Some(Value(Text(t)))
  {
    assert t[0] != '-' as int && t[0] != '+' as int;
    assert DigitGroups(t);
    assert DropUnderscores(t) == t;
    assert AllDigits(Text(t));
  }

  lemma {:induction false} StripLeadingSpaces(w: seq<Byte>, d: seq<Byte>)
    requires forall i :: 0 <= i < |w| ==> w[i] == Space
    requires |d| > 0 && !IsPyWhitespace(d[0])
    ensures StripStart(w + d) == d
    decreases |w|
  {
    if |w| == 0 {
      assert w + d == d;
    } else {
      assert (w + d)[1..] == w[1..] + d;
      StripLeadingSpaces(w[1..], d);
    }
  }
}

=== FILE: lsp_protocol.dfy ===
/**
 * The slice of the Language Server Protocol 3.17 data model that the
 * server core produces, plus the compiler front-end's native records it
 * consumes. Compiler positions are 1-based and inclusive at both ends;
 * protocol positions are 0-based.
 */
module LspProtocol {

  type Uri = string
  type Path = string

  /** An open document as read under its lock: URI, path, text and version are one snapshot. */
  datatype Document = Document(uri: Uri, path: Path, text: string, version: int)

  /** The workspace configuration the server reads for a document. */
  datatype LspConfig = LspConfig(flags: seq<string>, maxNumberOfProblems: nat)

  /** A 0-based protocol position. Integers are exact: no unsigned wrap-around. */
  datatype Position = Position(line: int, character: int)

  datatype Range = Range(start: Position, end: Position)

  datatype Location = Location(uri: Uri, range: Range)

  /** The request error the server raises (`LSP_EXCEPTION(ErrorCodes::InvalidParams, …)`). */
  datatype LspError =
    | InvalidParams(message: string)
    | IndexOutOfRange(index: int)

  /** The compiler's symbol-kind classification (`ASR::symbolType`). */
  datatype SymbolType =
    | ModuleSymbol | FunctionSymbol | GenericProcedure | CustomOperator | StructSymbol
    | EnumSymbol | VariableSymbol | ClassSymbol | ClassProcedure | TemplateSymbol
    | OtherSymbolType

  /**
   * A compiler-native symbol record (`lc::document_symbols`): name, kind,
   * originating file, 1-based inclusive range, and the index of its parent in
   * the same flat list (negative for "no parent").
   */
  datatype NativeSymbol = NativeSymbol(
    name: string,
    symbolType: SymbolType,
    filename: Path,
    firstLine: int,
    firstColumn: int,
    lastLine: int,
    lastColumn: int,
    parentIndex: int)

  /** The protocol's `SymbolKind` values the server emits. */
  datatype SymbolKind = Module | Function | Operator | Struct | Enum | Variable | Class | Method | TypeParameter

  /** The protocol numbering of `SymbolKind` (section "Document Symbols Request" of LSP 3.17). */
  function SymbolKindCode(k: SymbolKind): int {
    match k
    case Module => 2
    case Class => 5
    case Method => 6
    case Enum => 10
    case Function => 12
    case Variable => 13
    case Struct => 23
    case Operator => 25
    case TypeParameter => 26
  }

  /** Compiler symbol type to protocol symbol kind; unknown types become Function. */
  function SymbolKindOf(t: SymbolType): (k: SymbolKind)
    ensures t == ModuleSymbol <==> k == Module
    ensures t == CustomOperator <==> k == Operator
    ensures t == StructSymbol <==> k == Struct
    ensures t == EnumSymbol <==> k == Enum
    ensures t == VariableSymbol <==> k == Variable
    ensures t == ClassSymbol <==> k == Class
    ensures t == ClassProcedure <==> k == Method
    ensures t == TemplateSymbol <==> k == TypeParameter
    ensures k == Function <==> t in {FunctionSymbol, GenericProcedure, OtherSymbolType}
  {
    match t
    case ModuleSymbol => Module
    case FunctionSymbol => Function
    case GenericProcedure => Function
    case CustomOperator => Operator
    case StructSymbol => Struct
    case EnumSymbol => Enum
    case VariableSymbol => Variable
    case ClassSymbol => Class
    case ClassProcedure => Method
    case TemplateSymbol => TypeParameter
    case OtherSymbolType => Function
  }

  /** Distinct protocol kinds have distinct wire codes. */
  lemma SymbolKindCodeInjective(a: SymbolKind, b: SymbolKind)
    ensures SymbolKindCode(a) == SymbolKindCode(b) ==> a == b
  {
  }

  // ---------------------------------------------------------------------
  // Position mapping. Three conventions coexist and are kept apart on
  // purpose: the cursor (0-based to 1-based), the closed range used by
  // definition and rename (both columns decremented), and the end-exclusive
  // range used by diagnostics and document symbols (end column kept).
  // ---------------------------------------------------------------------

  /** The 1-based start of a native range as a protocol position. */
  function StartOf(firstLine: int, firstColumn: int): Position {
    Position(firstLine - 1, firstColumn - 1)
  }

  /** Definition and rename: both ends decremented (closed interval in 0-based terms). */
  function ClosedRange(firstLine: int, firstColumn: int, lastLine: int, lastColumn: int): Range {
    Range(StartOf(firstLine, firstColumn), Position(lastLine - 1, lastColumn - 1))
  }

  /** Diagnostics and document symbols: the end column is NOT decremented. */
  function EndExclusiveRange(firstLine: int, firstColumn: int, lastLine: int, lastColumn: int): Range {
    Range(StartOf(firstLine, firstColumn), Position(lastLine - 1, lastColumn))
  }

  /** A protocol cursor as the compiler's 1-based (line, column). */
  function CursorToNative(p: Position): (r: (int, int))
    ensures StartOf(r.0, r.1) == p
  {
    (p.line + 1, p.character + 1)
  }

  /**
   * The other direction: a native 1-based start, read as a protocol position
   * and sent back as a cursor, is the same line and column, so two distinct
   * native starts never meet at one protocol position.
   */
  lemma CursorRoundTrip(line: int, column: int)
    ensures CursorToNative(StartOf(line, column)) == (line, column)
    ensures forall l, c :: StartOf(l, c) == StartOf(line, column) ==> (l, c) == (line, column)
  {
  }

  /** The two range conventions agree on the start and differ by exactly one column at the end. */
  lemma RangeConventionsDiffer(fl: int, fc: int, ll: int, lc: int)
    ensures ClosedRange(fl, fc, ll, lc).start == EndExclusiveRange(fl, fc, ll, lc).start
    ensures ClosedRange(fl, fc, ll, lc).end.line == EndExclusiveRange(fl, fc, ll, lc).end.line
    ensures ClosedRange(fl, fc, ll, lc).end.character + 1 == EndExclusiveRange(fl, fc, ll, lc).end.character
  {
  }

  /** A symbol's native range in the closed (definition/rename) convention. */
  function SymbolClosedRange(s: NativeSymbol): Range {
    ClosedRange(s.firstLine, s.firstColumn, s.lastLine, s.lastColumn)
  }

  /** A symbol's native range in the end-exclusive (document symbol) convention. */
  function SymbolEndExclusiveRange(s: NativeSymbol): Range {
    EndExclusiveRange(s.firstLine, s.firstColumn, s.lastLine, s.lastColumn)
  }
}

=== FILE: open_statement.dfy ===
/**
 * The decision `_lfortran_open` takes before it calls `fopen`: defaults for
 * omitted specifiers, the trimming of trailing blanks from the file name,
 * the STATUS= table (which `fopen` access mode, whether an absent file is
 * created first, which combinations are fatal) and the FORM= table
 * (formatted or unformatted). Specifiers compare case-insensitively, as
 * `strcasecmp` does. Whether the named file exists is an input.
 */
module OpenStatement {
  import opened Results
  import opened CBase

  /** The `fopen` modes the table chooses between: `"r+"` and `"w+"` (which truncates or creates). */
  datatype AccessMode = ReadUpdate | WriteUpdate

  function ModeString(m: AccessMode): string {
    match m
    case ReadUpdate => "r+"
    case WriteUpdate => "w+"
  }

  /**
   * What the runtime goes on to do: open `fileName` with `mode`, after
   * creating it empty when `createFirst`; `binary` is the unit's form.
   */
  datatype OpenPlan = OpenPlan(fileName: CString, mode: AccessMode, createFirst: bool, binary: bool)

  const DefaultFileName: CString := "_lfortran_generated_file.txt"
  const DefaultStatus: CString := "unknown"
  const DefaultForm: CString := "formatted"

  /** A `char*` argument, with `NULL` replaced by a default. */
  function OrDefault(arg: Option<CString>, default: CString): CString {
    match arg
    case None => default
    case Some(s) => s
  }

  /** The index the backward blank scan stops at: the last non-blank, or 0. */
  function ScanBack(f: CString, e: nat): (r: nat)
    requires e < |f|
    ensures r <= e
    ensures r == 0 || !IsSpace(f[r])
    ensures forall j :: r < j <= e ==> IsSpace(f[j])
    decreases e
  {
    if e > 0 && IsSpace(f[e]) then ScanBack(f, e - 1) else e
  }

  /**
   * The trimming step: a name whose last character is a blank loses its
   * trailing white space, but the first character is always kept. An
   * empty name makes the runtime read the byte before it.
   */
  function TrimFileName(f: CString): (r: Outcome<CString>)
    ensures r.Ok? <==> |f| > 0
    ensures r.Ok? ==> 0 < |r.value| <= |f| && r.value == f[..|r.value|]
    ensures r.Ok? && f[|f| - 1] != ' ' ==> r.value == f
    ensures r.Ok? && f[|f| - 1] == ' ' ==>
      (|r.value| == 1 || !IsSpace(r.value[|r.value| - 1])) &&
      forall j :: |r.value| <= j < |f| ==> IsSpace(f[j])
  {
    if |f| == 0 then Err(Undefined("_lfortran_open: reads the byte before an empty file name"))
    else if f[|f| - 1] != ' ' then Ok(f)
    else Ok(f[..ScanBack(f, |f| - 1) + 1])
  }

  /**
   * The STATUS= table. The result is the access mode and whether the file
   * is to be created empty before it is opened.
   */
  function StatusDecision(status: CString, fileExists: bool, fileName: CString): (r: Outcome<(AccessMode, bool)>)
    ensures r.Ok? <==>
      (StrCaseEql(status, "old") && fileExists) ||
      (StrCaseEql(status, "new") && !fileExists) ||
      StrCaseEql(status, "replace") || StrCaseEql(status, "unknown")
    ensures r.Ok? ==> (r.value.0 == WriteUpdate <==> StrCaseEql(status, "new") || StrCaseEql(status, "replace"))
    ensures r.Ok? ==> (r.value.1 <==> StrCaseEql(status, "unknown") && !fileExists)
    ensures r.Err? ==> r.error.Fatal?
  {
    SpellingsDistinct(status);
    if StrCaseEql(status, "old") then
      if !fileExists then
        Err(Fatal("Runtime error: File `" + fileName + "` does not exists!\nCannot open a file with the `status=old`\n"))
      else Ok((ReadUpdate, false))
    else if StrCaseEql(status, "new") then
      if fileExists then
        Err(Fatal("Runtime error: File `" + fileName + "` exists!\nCannot open a file with the `status=new`\n"))
      else Ok((WriteUpdate, false))
    else if StrCaseEql(status, "replace") then Ok((WriteUpdate, false))
    else if StrCaseEql(status, "unknown") then Ok((ReadUpdate, !fileExists))
    else if StrCaseEql(status, "scratch") then Err(Fatal("Runtime error: Unhandled type status=`scratch`\n"))
    else Err(Fatal("Runtime error: STATUS specifier in OPEN statement has invalid value '" + status + "'\n"))
  }

  /** The FORM= table: whether the unit is unformatted. */
  function FormDecision(form: CString): (r: Outcome<bool>)
    ensures r.Ok? <==> StrCaseEql(form, "formatted") || StrCaseEql(form, "unformatted")
    ensures r.Ok? ==> (r.value <==> StrCaseEql(form, "unformatted"))
    ensures r.Err? ==> r.error == Fatal("Runtime error: FORM specifier in OPEN statement has invalid value '" + form + "'\n")
  {
    if StrCaseEql(form, "formatted") then Ok(false)
    else if StrCaseEql(form, "unformatted") then Ok(true)
    else Err(Fatal("Runtime error: FORM specifier in OPEN statement has invalid value '" + form + "'\n"))
  }

  /** No string matches two different specifier spellings. */
  lemma SpellingsDistinct(s: CString)
    ensures !(StrCaseEql(s, "formatted") && StrCaseEql(s, "unformatted"))
    ensures StrCaseEql(s, "old") ==> !StrCaseEql(s, "new")
    ensures StrCaseEql(s, "replace") ==> !StrCaseEql(s, "unknown") && !StrCaseEql(s, "scratch")
    ensures StrCaseEql(s, "unknown") ==> !StrCaseEql(s, "scratch")
  {
    if StrCaseEql(s, "old") {
      assert ToLower(s[0]) == 'o';
    }
    if StrCaseEql(s, "replace") {
      assert ToLower(s[0]) == 'r';
    }
    if StrCaseEql(s, "unknown") {
      assert ToLower(s[0]) == 'u';
    }
  }

  /**
   * `_lfortran_open` up to its `fopen`: an omitted name, status or form
   * takes its default, the name is trimmed, and the two tables decide;
   * STATUS= is decided (and can fail) before FORM=.
   */
  function Open(fName: Option<CString>, status: Option<CString>, form: Option<CString>, fileExists: CString -> bool): (r: Outcome<OpenPlan>)
    ensures fName == Some([]) ==> r.Err? && r.error.Undefined?
    ensures r.Ok? ==> StatusDecision(OrDefault(status, DefaultStatus), fileExists(r.value.fileName), r.value.fileName).Ok?
    ensures r.Ok? ==> FormDecision(OrDefault(form, DefaultForm)) == Ok(r.value.binary)
    ensures r.Ok? ==> TrimFileName(OrDefault(fName, DefaultFileName)) == Ok(r.value.fileName)
    ensures r.Ok? ==>
      StatusDecision(OrDefault(status, DefaultStatus), fileExists(r.value.fileName), r.value.fileName)
      == Ok((r.value.mode, r.value.createFirst))
    ensures var trimmed := TrimFileName(OrDefault(fName, DefaultFileName));
      && (trimmed.Err? ==> r == Err(trimmed.error))
      && (trimmed.Ok? ==>
            var decided := StatusDecision(OrDefault(status, DefaultStatus), fileExists(trimmed.value), trimmed.value);
            var formed := FormDecision(OrDefault(form, DefaultForm));
            && (decided.Err? ==> r == Err(decided.error))
            && (decided.Ok? && formed.Err? ==> r == Err(formed.error))
            && (decided.Ok? && formed.Ok? ==> r.Ok?))
  {
    var name :- TrimFileName(OrDefault(fName, DefaultFileName));
    var access :- StatusDecision(OrDefault(status, DefaultStatus), fileExists(name), name);
    var binary :- FormDecision(OrDefault(form, DefaultForm));
    Ok(OpenPlan(name, access.0, access.1, binary))
  }

  /** With every specifier omitted, the default file is opened formatted, created first if absent. */
  lemma OpenDefaults(fileExists: CString -> bool)
    ensures Open(None, None, None, fileExists) ==
      Ok(OpenPlan(DefaultFileName, ReadUpdate, !fileExists(DefaultFileName), false))
  {
    assert StrCaseEql(DefaultStatus, "unknown");
    SpellingsDistinct(DefaultStatus);
    assert StrCaseEql(DefaultForm, "formatted");
  }

  /**
   * A successful open never destroys an existing file unless STATUS= is
   * REPLACE, and the file it opens exists by the time `fopen` runs: it was
   * there, it is created first, or `"w+"` creates it.
   */
  lemma OpenSafety(fName: Option<CString>, status: Option<CString>, form: Option<CString>, fileExists: CString -> bool)
    requires Open(fName, status, form, fileExists).Ok?
    ensures var p := Open(fName, status, form, fileExists).value;
      (fileExists(p.fileName) && p.mode == WriteUpdate ==> StrCaseEql(OrDefault(status, DefaultStatus), "replace")) &&
      (fileExists(p.fileName) || p.createFirst || p.mode == WriteUpdate)
  {
    SpellingsDistinct(OrDefault(status, DefaultStatus));
  }

  /** Specifiers that differ only in letter case take the same decisions. */
  lemma StatusIgnoresCase(a: CString, b: CString, fileExists: bool, fileName: CString)
    requires |a| == |b| && forall i :: 0 <= i < |a| ==> ToLower(a[i]) == ToLower(b[i])
    ensures StatusDecision(a, fileExists, fileName).Ok? == StatusDecision(b, fileExists, fileName).Ok?
    ensures StatusDecision(a, fileExists, fileName).Ok? ==>
      StatusDecision(a, fileExists, fileName) == StatusDecision(b, fileExists, fileName)
  {
    CaseEqlTransfers(a, b, "old");
    CaseEqlTransfers(a, b, "new");
    CaseEqlTransfers(a, b, "replace");
    CaseEqlTransfers(a, b, "unknown");
  }

  lemma FormIgnoresCase(a: CString, b: CString)
    requires |a| == |b| && forall i :: 0 <= i < |a| ==> ToLower(a[i]) == ToLower(b[i])
    ensures FormDecision(a).Ok? == FormDecision(b).Ok?
    ensures FormDecision(a).Ok? ==> FormDecision(a) == FormDecision(b)
  {
    CaseEqlTransfers(a, b, "formatted");
    CaseEqlTransfers(a, b, "unformatted");
  }

  lemma CaseEqlTransfers(a: CString, b: CString, word: string)
    requires |a| == |b| && forall i :: 0 <= i < |a| ==> ToLower(a[i]) == ToLower(b[i])
    ensures StrCaseEql(a, word) <==> StrCaseEql(b, word)
  {
  }

  /** Trimming twice trims no more than trimming once. */
  lemma TrimIdempotent(f: CString)
    requires |f| > 0
    ensures TrimFileName(TrimFileName(f).value) == TrimFileName(f)
  {
    var t := TrimFileName(f).value;
    if t[|t| - 1] == ' ' {
      if f[|f| - 1] == ' ' {
        assert |t| == 1;
        assert t[..ScanBack(t, 0) + 1] == t;
      }
    }
  }

  /** A name of blanks only is cut to its first blank, not to nothing. */
  lemma TrimAllBlank()
    ensures TrimFileName("   ") == Ok(" ")
  {
    var blanks: CString := "   ";
    assert ScanBack(blanks, 1) == 0;
    assert ScanBack(blanks, 2) == 0;
    assert blanks[..1] == " ";
  }
}

=== FILE: options_cache.dfy ===
/**
 * The per-URI compiler-options cache of the language server
 * (`getCompilerOptions` / `invalidateConfigCaches`), modelled as a single
 * sequential map. The read-locked probe and the write-locked re-check-then-insert
 * are kept as separate steps so that an insertion by another request in
 * between can be expressed.
 */
module OptionsCache {
  import opened Results
  import opened LspProtocol

  /**
   * The compiler options the server derives for one document. `line` and
   * `column` are the decimal strings position-sensitive queries set; `other`
   * stands for every setting this model does not inspect.
   */
  datatype CompilerOptions = CompilerOptions(
    includeDirs: seq<Path>,
    line: string,
    column: string,
    continueCompilation: bool,
    other: seq<string>)

  type Cache = map<Uri, CompilerOptions>

  /** The command-line parser (`LFortranCommandLineParser`): argv to options or an error message. */
  type ArgParser = seq<string> -> Result<CompilerOptions, string>

  /** The read-locked probe. */
  function Probe(cache: Cache, uri: Uri): (r: Option<CompilerOptions>)
    ensures r.Some? <==> uri in cache
    ensures r.Some? ==> r.value == cache[uri]
  {
    if uri in cache then Some(cache[uri]) else None
  }

  /**
   * The write-locked step after a miss: re-check, and insert `built` only if
   * the URI is still absent. Returns the options handed to the caller.
   */
  function Fill(cache: Cache, uri: Uri, built: CompilerOptions): (r: (CompilerOptions, Cache))
    ensures uri in r.1 && r.0 == r.1[uri]
    ensures r.1.Keys == cache.Keys + {uri}
    ensures forall u :: u in cache ==> r.1[u] == cache[u]
    ensures uri !in cache ==> r.0 == built
  {
    if uri in cache then (cache[uri], cache) else (built, cache[uri := built])
  }

  /** The options built on a miss: the parse of `flags ++ [path]`, with continue-compilation on. */
  function Build(path: Path, flags: seq<string>, parse: ArgParser): (r: Result<CompilerOptions, LspError>)
    ensures parse(flags + [path]).Err? <==> r.Err?
    ensures r.Err? ==> r.error == InvalidParams(parse(flags + [path]).error)
    ensures r.Ok? ==> r.value == parse(flags + [path]).value.(continueCompilation := true)
  {
    match parse(flags + [path])
    case Err(msg) => Err(InvalidParams(msg))
    case Ok(o) => Ok(o.(continueCompilation := true))
  }

  /**
   * `getCompilerOptions(document)`: a hit returns the stored entry; a miss
   * builds, then fills. A parse failure raises InvalidParams and caches nothing.
   */
  function GetCompilerOptions(cache: Cache, uri: Uri, path: Path, flags: seq<string>, parse: ArgParser)
    : (r: (Result<CompilerOptions, LspError>, Cache))
    ensures uri in cache ==> r == (Ok(cache[uri]), cache)
    ensures uri !in cache ==> r.0 == Build(path, flags, parse)
    ensures r.0.Err? ==> r.1 == cache
    ensures r.0.Ok? ==> r.1 == cache[uri := r.0.value]
    ensures r.0.Ok? ==> r.0.value.continueCompilation || uri in cache
  {
    match Probe(cache, uri)
    case Some(o) => (Ok(o), cache)
    case None =>
      match Build(path, flags, parse)
      case Err(e) => (Err(e), cache)
      case Ok(built) =>
        var (o, cache') := Fill(cache, uri, built);
        (Ok(o), cache')
  }

  /** `invalidateConfigCaches`: the whole map is emptied. */
  function Invalidate(cache: Cache): (r: Cache)
    ensures forall u :: u !in r
  {
    map[]
  }

  /** A URI never has two entries and an existing entry is never replaced: every other URI's entry survives a lookup. */
  lemma GetKeepsOtherEntries(cache: Cache, uri: Uri, path: Path, flags: seq<string>, parse: ArgParser)
    ensures var r := GetCompilerOptions(cache, uri, path, flags, parse);
      forall u :: u in cache ==> u in r.1 && r.1[u] == cache[u]
  {
  }

  /** The second lookup of a URI is a hit: same options, cache unchanged, no rebuild. */
  lemma GetIsIdempotent(cache: Cache, uri: Uri, path: Path, flags: seq<string>, parse: ArgParser,
                        path2: Path, flags2: seq<string>, parse2: ArgParser)
    requires GetCompilerOptions(cache, uri, path, flags, parse).0.Ok?
    ensures var r1 := GetCompilerOptions(cache, uri, path, flags, parse);
      var r2 := GetCompilerOptions(r1.1, uri, path2, flags2, parse2);
      r2 == r1
  {
  }

  /**
   * Two requests that both missed on the probe and both built options: the
   * first fill inserts, the second re-check finds that entry and returns it,
   * so both callers observe the same options and the map holds one entry.
   */
  lemma RacingFillsAgree(cache: Cache, uri: Uri, built1: CompilerOptions, built2: CompilerOptions)
    requires uri !in cache
    ensures var (o1, c1) := Fill(cache, uri, built1);
      var (o2, c2) := Fill(c1, uri, built2);
      o1 == o2 == built1 && c2 == c1 == cache[uri := built1]
  {
  }

  /** After invalidation the next lookup rebuilds from the current configuration, whatever was cached before. */
  lemma RebuildAfterInvalidate(cache: Cache, uri: Uri, path: Path, flags: seq<string>, parse: ArgParser)
    ensures GetCompilerOptions(Invalidate(cache), uri, path, flags, parse).0 == Build(path, flags, parse)
  {
  }
}

=== FILE: path_resolver.dfy ===
/**
 * `resolve(filename, compilerOptions)`: the path of a file the compiler
 * reports, searched first as given and then under each include directory in
 * declared order. The filesystem is an oracle.
 */
module PathResolver {
  import opened Results
  import opened LspProtocol

  /**
   * The filesystem as seen by the server: `pathExists` is `fs::exists`,
   * `normalize` is `fs::absolute(..).lexically_normal()`, `join` is `dir / name`.
   */
  datatype FileSystem = FileSystem(
    pathExists: Path -> bool,
    normalize: Path -> Path,
    join: (Path, Path) -> Path)

  /** The search order: the file itself, then each include directory in declared order. */
  function Candidates(fs: FileSystem, filename: Path, includeDirs: seq<Path>): (c: seq<Path>)
    ensures |c| == |includeDirs| + 1
    ensures c[0] == fs.normalize(filename)
    ensures forall i :: 0 <= i < |includeDirs| ==> c[i + 1] == fs.normalize(fs.join(includeDirs[i], filename))
  {
    [fs.normalize(filename)] + seq(|includeDirs|, i requires 0 <= i < |includeDirs| => fs.normalize(fs.join(includeDirs[i], filename)))
  }

  /** The loop over include directories, from position `i` on. */
  function SearchIncludeDirs(fs: FileSystem, filename: Path, includeDirs: seq<Path>, i: nat): (r: Option<Path>)
    requires i <= |includeDirs|
    ensures r.Some? ==> fs.pathExists(r.value)
    decreases |includeDirs| - i
  {
    if i == |includeDirs| then None
    else
      var path := fs.normalize(fs.join(includeDirs[i], filename));
      if fs.pathExists(path) then Some(path) else SearchIncludeDirs(fs, filename, includeDirs, i + 1)
  }

  function Resolve(fs: FileSystem, filename: Path, includeDirs: seq<Path>): (r: Result<Path, LspError>)
    ensures fs.pathExists(fs.normalize(filename)) ==> r == Ok(fs.normalize(filename))
    ensures r.Ok? ==> fs.pathExists(r.value)
    ensures r.Err? ==> r.error == InvalidParams("File not found: " + filename)
  {
    var path := fs.normalize(filename);
    if fs.pathExists(path) then Ok(path)
    else
      match SearchIncludeDirs(fs, filename, includeDirs, 0)
      case Some(p) => Ok(p)
      case None => Err(InvalidParams("File not found: " + filename))
  }

  /** The include-directory loop returns the first existing candidate at or after `i + 1`, or nothing. */
  lemma {:induction false} SearchIsFirstExisting(fs: FileSystem, filename: Path, includeDirs: seq<Path>, i: nat)
    requires i <= |includeDirs|
    ensures var c := Candidates(fs, filename, includeDirs);
      var r := SearchIncludeDirs(fs, filename, includeDirs, i);
      && (r.None? <==> forall k :: i + 1 <= k < |c| ==> !fs.pathExists(c[k]))
      && (r.Some? ==> exists k :: i + 1 <= k < |c| && r.value == c[k] && fs.pathExists(c[k])
                          && forall k' :: i + 1 <= k' < k ==> !fs.pathExists(c[k']))
    decreases |includeDirs| - i
  {
    var c := Candidates(fs, filename, includeDirs);
    if i < |includeDirs| {
      SearchIsFirstExisting(fs, filename, includeDirs, i + 1);
      var path := fs.normalize(fs.join(includeDirs[i], filename));
      assert c[i + 1] == path;
      if !fs.pathExists(path) {
        var r := SearchIncludeDirs(fs, filename, includeDirs, i + 1);
        if r.Some? {
          var k :| i + 2 <= k < |c| && r.value == c[k] && fs.pathExists(c[k])
                   && forall k' :: i + 2 <= k' < k ==> !fs.pathExists(c[k']);
          assert forall k' :: i + 1 <= k' < k ==> !fs.pathExists(c[k']);
        }
      }
    }
  }

  /**
   * `resolve` returns the first existing path of the search order and fails
   * with "File not found: " + filename exactly when none exists.
   */
  lemma ResolveIsFirstExisting(fs: FileSystem, filename: Path, includeDirs: seq<Path>)
    ensures var c := Candidates(fs, filename, includeDirs);
      var r := Resolve(fs, filename, includeDirs);
      && (r.Err? <==> forall k :: 0 <= k < |c| ==> !fs.pathExists(c[k]))
      && (r.Err? ==> r.error == InvalidParams("File not found: " + filename))
      && (r.Ok? ==> exists k :: 0 <= k < |c| && r.value == c[k] && fs.pathExists(c[k])
                        && forall k' :: 0 <= k' < k ==> !fs.pathExists(c[k']))
  {
    SearchIsFirstExisting(fs, filename, includeDirs, 0);
    var c := Candidates(fs, filename, includeDirs);
    var r := Resolve(fs, filename, includeDirs);
    if r.Ok? && !fs.pathExists(c[0]) {
      var k :| 1 <= k < |c| && r.value == c[k] && fs.pathExists(c[k]) && forall k' :: 1 <= k' < k ==> !fs.pathExists(c[k']);
      assert forall k' :: 0 <= k' < k ==> !fs.pathExists(c[k']);
    }
  }
}

=== FILE: results.dfy ===
/** Failure-compatible result and option types shared by every module of the model. */
module Results {

  /** The source's exceptions, `exit(1)` paths and error returns become `Err`. */
  datatype Result<+T, +E> = Ok(value: T) | Err(error: E) {

    predicate IsFailure() {
      Err?
    }

    function PropagateFailure<U>(): Result<U, E>
      requires Err?
    {
      Err(error)
    }

    function Extract(): T
      requires Ok?
    {
      value
    }
  }

  /** An optional value: `std::optional`, a nullable pointer, or an unset attribute. */
  datatype Option<+T> = None | Some(value: T)

  /** The present values of `s`, in order. */
  function Somes<T>(s: seq<Option<T>>): (r: seq<T>)
    ensures |r| <= |s|
    ensures forall k :: 0 <= k < |r| ==> Some(r[k]) in s
    ensures forall i :: 0 <= i < |s| && s[i].Some? ==> s[i].value in r
  {
    if |s| == 0 then []
    else
      assert s == [s[0]] + s[1..];
      match s[0]
      case Some(x) => [x] + Somes(s[1..])
      case None => Somes(s[1..])
  }
}

=== FILE: runtime_stack.dfy ===
/**
 * The growable `int64_t` stack the print serializer keeps array sizes on:
 * `create_stack`, `push_stack`, `pop_stack`, `get_stack_top` and
 * `stack_empty`. The live items are `p[0..top_index]`; `stack_size` is the
 * allocated capacity, which starts at 10 and doubles whenever a push finds
 * the stack full.
 */
module RuntimeStack {
  import opened Results
  import opened CBase

  const InitialCapacity: nat := 10

  /** `items` are `p[0..top_index]` (so `top_index == |items| - 1`); `capacity` is `stack_size`. */
  datatype Stack = Stack(items: seq<int>, capacity: nat)

  /** A capacity `create_stack` and repeated doubling can produce. */
  predicate IsCapacity(c: nat)
    decreases c
  {
    c == InitialCapacity || (c > InitialCapacity && c % 2 == 0 && IsCapacity(c / 2))
  }

  /** The items fit in the allocation, whose size is 10 doubled some number of times. */
  predicate Valid(s: Stack) {
    |s.items| <= s.capacity && IsCapacity(s.capacity)
  }

  /** `create_stack`: no items, room for ten. */
  function CreateStack(): (s: Stack)
    ensures Valid(s) && s.items == [] && s.capacity == InitialCapacity
  {
    Stack([], InitialCapacity)
  }

  /** `push_stack`: doubles the allocation when `top_index == stack_size - 1`, then stores `val`. */
  function Push(s: Stack, val: int): (r: Stack)
    requires Valid(s)
    ensures Valid(r)
    ensures r.items == s.items + [val]
    ensures r.capacity == if |s.items| == s.capacity then 2 * s.capacity else s.capacity
  {
    if |s.items| == s.capacity then Stack(s.items + [val], 2 * s.capacity)
    else Stack(s.items + [val], s.capacity)
  }

  /** `pop_stack`: an empty stack is a fatal internal error; otherwise the top item goes. */
  function Pop(s: Stack): (r: Outcome<Stack>)
    ensures r.Err? <==> s.items == []
    ensures r.Err? ==> r.error == Fatal("Compiler Internal Error.\n")
    ensures r.Ok? ==> r.value.capacity == s.capacity && r.value.items + [s.items[|s.items| - 1]] == s.items
  {
    if |s.items| == 0 then Err(Fatal("Compiler Internal Error.\n"))
    else Ok(Stack(s.items[..|s.items| - 1], s.capacity))
  }

  /** `get_stack_top`: `p[top_index]`, which reads `p[-1]` on an empty stack. */
  function Top(s: Stack): (r: Outcome<int>)
    ensures r.Ok? <==> s.items != []
    ensures r.Ok? ==> r.value == s.items[|s.items| - 1]
  {
    if |s.items| == 0 then Err(Undefined("get_stack_top: p[-1] on an empty stack"))
    else Ok(s.items[|s.items| - 1])
  }

  /** `stack_empty`. */
  function Empty(s: Stack): (r: bool)
    ensures r <==> Top(s).Err?
  {
    |s.items| == 0
  }

  /** Pushing then reading the top gives the pushed value. */
  lemma TopOfPush(s: Stack, val: int)
    requires Valid(s)
    ensures Top(Push(s, val)) == Ok(val)
    ensures !Empty(Push(s, val))
  {
  }

  /** Pushing then popping restores the items (the allocation may have grown). */
  lemma PopOfPush(s: Stack, val: int)
    requires Valid(s)
    ensures Pop(Push(s, val)).Ok?
    ensures Pop(Push(s, val)).value.items == s.items
    ensures Valid(Pop(Push(s, val)).value)
  {
    assert (s.items + [val])[..|s.items|] == s.items;
  }

  /** Popping keeps a valid stack valid. */
  lemma PopValid(s: Stack)
    requires Valid(s) && Pop(s).Ok?
    ensures Valid(Pop(s).value)
  {
  }

  /** The items of a stack are the values pushed and not popped, last on top. */
  function PushAll(s: Stack, vals: seq<int>): (r: Stack)
    requires Valid(s)
    ensures Valid(r)
    decreases |vals|
  {
    if |vals| == 0 then s else PushAll(Push(s, vals[0]), vals[1..])
  }

  lemma {:induction false} PushAllItems(s: Stack, vals: seq<int>)
    requires Valid(s)
    ensures PushAll(s, vals).items == s.items + vals
    ensures PushAll(s, vals).capacity >= s.capacity
    decreases |vals|
  {
    if |vals| > 0 {
      PushAllItems(Push(s, vals[0]), vals[1..]);
      assert s.items + [vals[0]] + vals[1..] == s.items + vals;
    }
  }
}

=== FILE: serialization.dfy ===
/**
 * The small decoders the print serializer uses on its type-code string:
 * the element type enumeration and the edit letter each type prints with
 * (`primitive_enum_to_format_specifier`), the check that a format edit
 * suits an argument (`is_format_match`), the decimal array size embedded
 * in the string (`get_serialized_array_size`) and the element-type code
 * (`set_current_PrimitiveType`). A position in the string is the
 * serializer's `current_stop`.
 */
module PrintSerialization {
  import opened Results
  import opened Decimal
  import opened CBase

  /** `enum primitive_types`, in declaration order (`INTEGER_64_TYPE` is 0, `NONE_TYPE` is 9). */
  datatype PrimitiveType =
    | Integer64 | Integer32 | Integer16 | Integer8
    | Float64 | Float32
    | Character | Logical
    | CPtr
    | NoneType

  function EnumValue(t: PrimitiveType): (n: nat)
    ensures n < 10
  {
    match t
    case Integer64 => 0
    case Integer32 => 1
    case Integer16 => 2
    case Integer8 => 3
    case Float64 => 4
    case Float32 => 5
    case Character => 6
    case Logical => 7
    case CPtr => 8
    case NoneType => 9
  }

  /**
   * `primitive_enum_to_format_specifier`: the edit letter a type prints
   * with; `P` for a C pointer is not a Fortran edit. `NONE_TYPE` is
   * reported on stderr and ends the program (with exit status 0).
   */
  function FormatSpecifier(t: PrimitiveType): (r: Outcome<char>)
    ensures r.Err? <==> t == NoneType
    ensures r.Err? ==> r.error == Fatal("Compiler Error : Unidentified Type 9\n")
    ensures r.Ok? ==> r.value in {'i', 'f', 'a', 'l', 'P'}
  {
    match t
    case Integer64 => Ok('i')
    case Integer32 => Ok('i')
    case Integer16 => Ok('i')
    case Integer8 => Ok('i')
    case Float64 => Ok('f')
    case Float32 => Ok('f')
    case Character => Ok('a')
    case Logical => Ok('l')
    case CPtr => Ok('P')
    case NoneType => Err(Fatal("Compiler Error : Unidentified Type 9\n"))
  }

  /**
   * The edits, after lower-casing, an argument of type `t` may be printed
   * with: integers take I; reals take F, D and E; character and logical
   * arguments take both A and L (gfortran's leniency); nothing suits a
   * C pointer.
   */
  function AcceptedEdits(t: PrimitiveType): set<char> {
    match t
    case Integer64 => {'i'}
    case Integer32 => {'i'}
    case Integer16 => {'i'}
    case Integer8 => {'i'}
    case Float64 => {'f', 'd', 'e'}
    case Float32 => {'f', 'd', 'e'}
    case Character => {'a', 'l'}
    case Logical => {'a', 'l'}
    case CPtr => {}
    case NoneType => {}
  }

  /**
   * `is_format_match`: the edit letter is lower-cased, D and E count as F,
   * and A and L are interchangeable between character and logical.
   */
  function IsFormatMatch(formatValue: char, t: PrimitiveType): (r: Outcome<bool>)
    ensures r.Ok? <==> t != NoneType
    ensures r.Ok? ==> (r.value <==> ToLower(formatValue) in AcceptedEdits(t))
  {
    var correct :- FormatSpecifier(t);
    var lowered := ToLower(formatValue);
    var lowered := if lowered == 'd' || lowered == 'e' then 'f' else lowered;
    var special := (lowered == 'l' && correct == 'a') || (lowered == 'a' && correct == 'l');
    Ok(lowered == correct || special)
  }

  /** Every type but the C pointer accepts the edit it prints with, in either case. */
  lemma OwnSpecifierMatches(t: PrimitiveType)
    requires t != NoneType && t != CPtr
    ensures IsFormatMatch(FormatSpecifier(t).value, t) == Ok(true)
    ensures IsFormatMatch(Upper(FormatSpecifier(t).value), t) == Ok(true)
  {
  }

  /** The upper-case form of a lower-case ASCII letter. */
  function Upper(c: char): (r: char)
    ensures 'a' <= c <= 'z' ==> ToLower(r) == c
  {
    if 'a' <= c <= 'z' then (c as int - 32) as char else c
  }

  /**
   * `get_serialized_array_size`: reads the run of decimal digits starting
   * at `stop` as a number, and returns it with the position after the run.
   */
  method GetSerializedArraySize(s: CString, stop: nat) returns (size: nat, next: nat)
    requires stop <= |s|
    ensures next == DigitRunEnd(s, stop)
    ensures stop <= next <= |s| && AllDigits(s[stop..next]) && size == Value(s[stop..next])
  {
    size := 0;
    next := stop;
    while IsDigit(At(s, next))
      invariant stop <= next <= |s|
      invariant AllDigits(s[stop..next])
      invariant size == Value(s[stop..next])
      invariant forall j :: stop <= j < next ==> IsDigit(s[j])
      decreases |s| - next
    {
      assert s[stop..next + 1][..next - stop] == s[stop..next];
      size := size * 10 + DigitValue(s[next]);
      next := next + 1;
    }
    DigitRunIs(s, stop, next);
  }

  /** A run of digits ending at a non-digit (or the end) is the run `DigitRunEnd` finds. */
  lemma {:induction false} DigitRunIs(s: CString, i: nat, j: nat)
    requires i <= j <= |s|
    requires forall k :: i <= k < j ==> IsDigit(s[k])
    requires j == |s| || !IsDigit(s[j])
    ensures DigitRunEnd(s, i) == j
    decreases j - i
  {
    if i < j {
      DigitRunIs(s, i + 1, j);
    }
  }

  /** A size written in decimal in front of a non-digit reads back as that size. */
  lemma ArraySizeRoundTrip(prefix: CString, n: nat, rest: CString)
    requires |rest| == 0 || !IsDigit(rest[0])
    ensures var s := prefix + DigitsC(n) + rest;
      DigitRunEnd(s, |prefix|) == |prefix| + |Digits(n)| &&
      Value(s[|prefix|..|prefix| + |Digits(n)|]) == n
  {
    var s := prefix + DigitsC(n) + rest;
    var d := DigitsC(n);
    assert s[|prefix|..|prefix| + |d|] == d;
    DigitRunIs(s, |prefix|, |prefix| + |d|);
    ValueOfDigits(n);
  }

  /** `Digits(n)` as a C string: decimal digits are never NUL. */
  function DigitsC(n: nat): (s: CString)
    ensures s == Digits(n)
  {
    var d := Digits(n);
    assert forall k :: 0 <= k < |d| ==> IsDigit(d[k]);
    d
  }

  /** The code `set_current_PrimitiveType` reads for each printable type. */
  function TypeCode(t: PrimitiveType): (code: CString)
    requires t != NoneType
  {
    match t
    case Integer64 => "I8"
    case Integer32 => "I4"
    case Integer16 => "I2"
    case Integer8 => "I1"
    case Float64 => "R8"
    case Float32 => "R4"
    case Logical => "L"
    case Character => "S"
    case CPtr => "CPtr"
  }

  /**
   * `set_current_PrimitiveType`: decodes the type code at `stop` and
   * returns the type with the position after the code. An unknown code is
   * fatal, quoting the whole serialization string; the message after an
   * unknown real kind lacks the blank between "compiler" and "internal".
   * A C pointer code must continue `Ptr`; the runtime checks it with its
   * assertion macro, which stops the program quoting the string.
   */
  function SetCurrentPrimitiveType(s: CString, stop: nat): (r: Outcome<(PrimitiveType, nat)>)
    requires stop <= |s|
    ensures r.Ok? ==> r.value.0 != NoneType && r.value.1 == stop + |TypeCode(r.value.0)| <= |s|
    ensures r.Err? ==> r.error.Fatal?
  {
    match At(s, stop)
    case 'I' => IntegerKind(s, stop + 1)
    case 'R' => RealKind(s, stop + 1)
    case 'L' => Ok((Logical, stop + 1))
    case 'S' => Ok((Character, stop + 1))
    case 'C' => PointerCode(s, stop + 1)
    case _ => Err(Unidentified(s))
  }

  /** The text of the report of an unknown type code. */
  const UnidentifiedText: string := "RunTime - compiler internal error : Unidentified Print Types Serialization --> "

  /** The text after an unknown real kind, which lacks the blank after "compiler". */
  const UnidentifiedRealText: string := "RunTime - compilerinternal error : Unidentified Print Types Serialization --> "

  /** The fatal report of an unknown code, quoting the whole string. */
  function Unidentified(s: CString): Failure {
    Fatal(UnidentifiedText + s + "\n")
  }

  /** The same report after an unknown real kind. */
  function UnidentifiedReal(s: CString): Failure {
    Fatal(UnidentifiedRealText + s + "\n")
  }

  /** The kind digit after `I`, at `k`. */
  function IntegerKind(s: CString, k: nat): (r: Outcome<(PrimitiveType, nat)>)
    requires k <= |s|
    ensures r.Ok? ==> r.value.0 in {Integer64, Integer32, Integer16, Integer8} && r.value.1 == k + 1 <= |s|
    ensures r.Err? ==> r.error == Unidentified(s)
  {
    match At(s, k)
    case '8' => Ok((Integer64, k + 1))
    case '4' => Ok((Integer32, k + 1))
    case '2' => Ok((Integer16, k + 1))
    case '1' => Ok((Integer8, k + 1))
    case _ => Err(Unidentified(s))
  }

  /** The kind digit after `R`, at `k`. */
  function RealKind(s: CString, k: nat): (r: Outcome<(PrimitiveType, nat)>)
    requires k <= |s|
    ensures r.Ok? ==> r.value.0 in {Float64, Float32} && r.value.1 == k + 1 <= |s|
    ensures r.Err? ==> r.error == UnidentifiedReal(s)
  {
    match At(s, k)
    case '8' => Ok((Float64, k + 1))
    case '4' => Ok((Float32, k + 1))
    case _ => Err(UnidentifiedReal(s))
  }

  /**
   * The `Ptr` that must follow `C`, at `k`, read left to right and no
   * further than the first mismatch (the runtime's `&&` chain).
   */
  function PointerCode(s: CString, k: nat): (r: Outcome<(PrimitiveType, nat)>)
    requires k <= |s|
    ensures r.Ok? ==> r.value == (CPtr, k + 3) && k + 3 <= |s|
    ensures r.Err? ==> r.error == Fatal(s + "\n")
  {
    if At(s, k) == 'P' && At(s, k + 1) == 't' && At(s, k + 2) == 'r' then Ok((CPtr, k + 3))
    else Err(Fatal(s + "\n"))
  }

  /** Every printable type's code decodes back to that type, whatever follows it. */
  lemma TypeCodeRoundTrip(prefix: CString, t: PrimitiveType, rest: CString)
    requires t != NoneType
    ensures SetCurrentPrimitiveType(prefix + TypeCode(t) + rest, |prefix|) ==
      Ok((t, |prefix| + |TypeCode(t)|))
  {
    var c := TypeCode(t);
    var s := prefix + c + rest;
    var n := |prefix|;
    CodeChar(prefix, c, rest, 0);
    if |c| > 1 {
      CodeChar(prefix, c, rest, 1);
    }
    if t == CPtr {
      CodeChar(prefix, c, rest, 2);
      CodeChar(prefix, c, rest, 3);
    }
    DecodesAt(s, n, t);
  }

  /** A type's code whose characters stand at `n` decodes to that type. */
  lemma DecodesAt(s: CString, n: nat, t: PrimitiveType)
    requires t != NoneType && n + |TypeCode(t)| <= |s|
    requires forall k :: 0 <= k < |TypeCode(t)| ==> At(s, n + k) == TypeCode(t)[k]
    ensures SetCurrentPrimitiveType(s, n) == Ok((t, n + |TypeCode(t)|))
  {
    var c := TypeCode(t);
    assert At(s, n) == c[0];
    if |c| > 1 {
      assert At(s, n + 1) == c[1];
    }
    if t == CPtr {
      assert At(s, n + 2) == c[2] && At(s, n + 3) == c[3];
    }
  }

  /** Character `k` of a code sits at `|prefix| + k` wherever the code is embedded. */
  lemma CodeChar(prefix: CString, c: CString, rest: CString, k: nat)
    requires k < |c|
    ensures At(prefix + c + rest, |prefix| + k) == c[k]
  {
  }

  /** Whatever the decoder accepts is exactly the code of the type it reports. */
  lemma DecodedIsTypeCode(s: CString, stop: nat)
    requires stop <= |s| && SetCurrentPrimitiveType(s, stop).Ok?
    ensures var (t, next) := SetCurrentPrimitiveType(s, stop).value;
      s[stop..next] == TypeCode(t)
  {
    var (t, next) := SetCurrentPrimitiveType(s, stop).value;
    var c := TypeCode(t);
    assert forall k :: 0 <= k < |c| ==> s[stop + k] == c[k];
  }

  /** Decoded types are distinct by code: two types decode from the same text only if equal. */
  lemma TypeCodeInjective(t: PrimitiveType, u: PrimitiveType)
    requires t != NoneType && u != NoneType && TypeCode(t) == TypeCode(u)
    ensures t == u
  {
    var a := TypeCode(t);
    assert a[0] == TypeCode(u)[0];
    if |a| == 2 {
      assert a[1] == TypeCode(u)[1];
    }
  }
}

=== FILE: string_assign.dfy ===
/**
 * Character assignment. A fixed-length left-hand side keeps its length and
 * is blank-padded or truncated; an allocatable left-hand side is a
 * descriptor (buffer, size, capacity) whose buffer grows by doubling.
 */
module StringAssign {
  import opened Results
  import opened CBase
  import opened StringCompare

  /**
   * `_lfortran_strcpy_pointer_string`: the right-hand side is copied into the
   * fixed-length left-hand side, which keeps its length and is blank-padded;
   * an unallocated left-hand side first becomes `|y|` blanks.
   */
  function StrcpyPointer(x: Option<CString>, y: Option<CString>): (r: Outcome<CString>)
    ensures r.Err? <==> y.None?
    ensures r.Err? ==> r.error.Fatal?
    ensures r.Ok? ==> |r.value| == (if x.Some? then |x.value| else |y.value|)
    ensures r.Ok? ==> forall i :: 0 <= i < |r.value| ==>
      r.value[i] == (if i < |y.value| then y.value[i] else ' ')
  {
    match y
    case None => Result<CString, Failure>.Err(Fatal("Runtime Error : RHS allocatable-character variable must be allocated before assignment.\n"))
    case Some(src) =>
      var dst := if x.Some? then x.value else Blanks(|src|);
      Ok(seq(|dst|, i requires 0 <= i < |dst| => if i < |src| then src[i] else ' '))
  }

  /** A long enough left-hand side then compares equal to the right-hand side; a short one holds its prefix. */
  lemma StrcpyPointerMeaning(x: Option<CString>, y: CString)
    ensures var r := StrcpyPointer(x, Some(y)).value;
      && (x.None? || |x.value| >= |y| ==> StrCompareEq(r, y))
      && (x.Some? && |x.value| < |y| ==> r == y[..|x.value|])
  {
    var r := StrcpyPointer(x, Some(y)).value;
    if x.None? || |x.value| >= |y| {
      var n := TrimmedLength(y);
      assert r[..|y|] == y;
      assert TrimmedLength(r) == n by {
        assert forall k :: n <= k < |r| ==> r[k] == ' ';
        TrimmedLengthOfBlankTail(r, n);
      }
      assert TrimTrailingBlanks(r) == r[..n] == y[..n] == TrimTrailingBlanks(y);
    }
  }

  /** Where every byte from `n` on is a blank and the byte before `n` is not, `n` is the trimmed length. */
  lemma {:induction false} TrimmedLengthOfBlankTail(s: CString, n: nat)
    requires n <= |s|
    requires n == 0 || s[n - 1] != ' '
    requires forall k :: n <= k < |s| ==> s[k] == ' '
    ensures TrimmedLength(s) == n
    decreases |s|
  {
    if |s| > n {
      var t := s[..|s| - 1];
      assert forall k :: n <= k < |t| ==> t[k] == s[k];
      TrimmedLengthOfBlankTail(t, n);
    }
  }

  /** An allocatable string: the heap block (absent when unallocated), the length, and the block's size. */
  datatype Descriptor = Descriptor(buffer: Option<seq<Cell>>, size: int, capacity: int)

  /** The two states the descriptor may be in on entry to an assignment. */
  predicate WellFormed(d: Descriptor) {
    || (d.buffer.Some? && d.size <= d.capacity - 1)
    || (d.buffer.None? && d.size == 0 && d.capacity == 0)
  }


  /**
   * `_lfortran_allocate_string`: a fresh descriptor gets a block of at least
   * 100 bytes and the requested length; allocating twice, or from an
   * inconsistent state, is fatal.
   */
  function AllocateString(d: Descriptor, desiredSize: int): (r: Outcome<Descriptor>)
    ensures r.Ok? <==> d.buffer.None? && d.size == 0 && d.capacity == 0
    ensures r.Err? ==> r.error.Fatal?
    ensures r.Ok? ==>
      && r.value.buffer.Some?
      && r.value.capacity >= 100 && r.value.capacity >= desiredSize
      && (desiredSize > 100 ==> r.value.capacity == desiredSize)
      && |r.value.buffer.value| == r.value.capacity
      && r.value.size == desiredSize - 1
      && WellFormed(r.value)
  {
    if d.buffer.None? && d.size == 0 && d.capacity == 0 then
      var initialCapacity := if 100 < desiredSize then desiredSize else 100;
      Ok(Descriptor(Some(Fresh(initialCapacity)), desiredSize - 1, initialCapacity))
    else if d.buffer.Some? && d.capacity != 0 then
      Err(Fatal("runtime error: Attempting to allocate already allocated variable\n"))
    else
      Err(Fatal("Compiler Internal Error :Invalid state of string descriptor\n"))
  }

  /** `realloc`: the block keeps its leading contents; any new room is indeterminate. */
  function Realloc(m: seq<Cell>, newSize: nat): (r: seq<Cell>)
    ensures |r| == newSize
    ensures forall i :: 0 <= i < newSize ==> r[i] == if i < |m| then m[i] else Unset
  {
    seq(newSize, i requires 0 <= i < newSize => if i < |m| then m[i] else Unset)
  }

  /** `extend_string`: the capacity at least doubles, and reaches `newSize` when doubling is not enough. */
  function ExtendString(d: Descriptor, newSize: int): (r: Descriptor)
    requires d.capacity >= 0
    ensures r.capacity >= 2 * d.capacity && r.capacity >= newSize
    ensures r.capacity == 2 * d.capacity || r.capacity == newSize
    ensures r.size == d.size
    ensures r.buffer.Some? && |r.buffer.value| == r.capacity
    ensures forall i :: 0 <= i < r.capacity && d.buffer.Some? && i < |d.buffer.value| ==>
      r.buffer.value[i] == d.buffer.value[i]
  {
    var newCapacity := if d.capacity * 2 < newSize then newSize else d.capacity * 2;
    var current := if d.buffer.Some? then d.buffer.value else [];
    Descriptor(Some(Realloc(current, newCapacity)), d.size, newCapacity)
  }

  /** Memory `m` with `s` and its terminator written from position 0. */
  function WriteCString(m: seq<Cell>, s: CString): (r: Outcome<seq<Cell>>)
    ensures r.Ok? <==> |s| < |m|
    ensures r.Err? ==> r.error.Undefined?
    ensures r.Ok? ==>
      && |r.value| == |m| && ReadCString(r.value, 0) == Ok(s)
      && forall i :: |s| < i < |m| ==> r.value[i] == m[i]
  {
    if |s| < |m| then
      var w := seq(|m|, i requires 0 <= i < |m| => if i < |s| then Byte(s[i]) else if i == |s| then Byte('\0') else m[i]);
      assert w[..|s| + 1] == Cells(s);
      ReadCellsFrom(s, 0);
      ReadPrefix(w, |s| + 1, 0);
      Ok(w)
    else
      Err(Undefined("write past the end of the string buffer"))
  }

  /** A string that ends inside the first `n` cells reads the same from the whole block. */
  lemma {:induction false} ReadPrefix(m: seq<Cell>, n: nat, i: nat)
    requires i <= n <= |m|
    requires ReadCString(m[..n], i).Ok?
    ensures ReadCString(m, i) == ReadCString(m[..n], i)
    decreases n - i
  {
    assert m[..n][i] == m[i];
    if m[i] != Byte('\0') {
      ReadPrefix(m, n, i + 1);
    }
  }

  /**
   * `_lfortran_strcpy_descriptor_string`: afterwards the buffer holds `y`,
   * the size is `|y|`, and the capacity is unchanged unless it was too small,
   * in which case it grows as `extend_string` (or `_lfortran_allocate_string`
   * for an unallocated left-hand side) decides.
   */
  function StrcpyDescriptor(d: Descriptor, y: Option<CString>): (r: Outcome<Descriptor>)
    requires d.buffer.Some? ==> |d.buffer.value| == d.capacity
    ensures r.Ok? <==> WellFormed(d) && y.Some?
    ensures r.Err? ==> r.error.Fatal?
    ensures r.Ok? ==>
      && r.value.buffer.Some?
      && ReadCString(r.value.buffer.value, 0) == Ok(y.value)
      && r.value.size == |y.value|
      && r.value.size <= r.value.capacity - 1
      && (d.buffer.None? ==> r.value.capacity == (if 100 < |y.value| + 1 then |y.value| + 1 else 100))
      && (d.buffer.Some? && |y.value| + 1 <= d.capacity ==> r.value.capacity == d.capacity)
      && (d.buffer.Some? && d.capacity < |y.value| + 1 ==>
            r.value.capacity == (if 2 * d.capacity < |y.value| + 1 then |y.value| + 1 else 2 * d.capacity))
  {
    if !WellFormed(d) then
      Err(Fatal("compiler-behavior error : string x_string_capacity < string size"))
    else if y.None? then
      Err(Fatal("Runtime Error : RHS allocatable-character variable must be allocated before assignment.\n"))
    else
      var src := y.value;
      var sized :=
        if d.buffer.None? then AllocateString(d, |src| + 1).value
        else if d.capacity < |src| + 1 then ExtendString(d, |src| + 1)
        else d;
      var written := WriteCString(sized.buffer.value, src);
      Ok(sized.(buffer := Some(written.value), size := |src|))
  }

  /** Assigning the same value twice leaves the descriptor's capacity where the first assignment put it. */
  lemma StrcpyDescriptorSettles(d: Descriptor, y: CString)
    requires d.buffer.Some? ==> |d.buffer.value| == d.capacity
    requires WellFormed(d)
    ensures var once := StrcpyDescriptor(d, Some(y)).value;
      var twice := StrcpyDescriptor(once, Some(y));
      && twice.Ok?
      && twice.value.capacity == once.capacity
      && ReadCString(twice.value.buffer.value, 0) == Ok(y)
  {
  }
}

=== FILE: string_compare.dfy ===
/**
 * Character relational operators: `str_compare` ignores trailing blanks,
 * compares the remaining bytes as signed `char` values, as on x86-64, and falls
 * back to the difference of the trimmed lengths; the six
 * `_lpython_str_compare_*` entry points are sign tests on it.
 */
module StringCompare {
  import opened CBase

  /** `strlen_without_trailing_space`: the length once trailing blanks are dropped. */
  function TrimmedLength(s: CString): (n: nat)
    ensures n <= |s|
    ensures n > 0 ==> s[n - 1] != ' '
    ensures forall k :: n <= k < |s| ==> s[k] == ' '
  {
    if |s| == 0 then 0
    else if s[|s| - 1] == ' ' then TrimmedLength(s[..|s| - 1])
    else |s|
  }

  function TrimTrailingBlanks(s: CString): (t: CString)
    ensures |t| <= |s| && t == s[..|t|]
  {
    s[..TrimmedLength(s)]
  }

  /** The value of a byte as a signed `char` (signed-char targets such as x86-64); never zero for a string byte. */
  function SignedChar(c: CChar): (v: int)
    ensures -128 <= v < 128 && v != 0
    ensures v % 256 == c as int
  {
    if c as int < 128 then c as int else c as int - 256
  }

  lemma SignedCharInjective(a: CChar, b: CChar)
    ensures SignedChar(a) == SignedChar(b) <==> a == b
  {
  }

  /** The first position at or after `i` and before `lim` where `a` and `b` differ, or `lim`. */
  function FirstDifference(a: CString, b: CString, lim: nat, i: nat): (k: nat)
    requires i <= lim <= |a| && lim <= |b|
    ensures i <= k <= lim
    ensures k < lim ==> a[k] != b[k]
    ensures forall j :: i <= j < k ==> a[j] == b[j]
    decreases lim - i
  {
    if i == lim || a[i] != b[i] then i else FirstDifference(a, b, lim, i + 1)
  }

  /** `str_compare`: negative, zero or positive as `s1` sorts before, with or after `s2`. */
  function StrCompare(s1: CString, s2: CString): (r: int)
    ensures r == 0 <==> TrimTrailingBlanks(s1) == TrimTrailingBlanks(s2)
  {
    var l1 := TrimmedLength(s1);
    var l2 := TrimmedLength(s2);
    var lim := if l1 < l2 then l1 else l2;
    var i := FirstDifference(s1, s2, lim, 0);
    var r := if i == lim then l1 - l2 else SignedChar(s1[i]) - SignedChar(s2[i]);
    assert r == 0 ==> TrimTrailingBlanks(s1) == TrimTrailingBlanks(s2) by {
      if r == 0 {
        if i < lim {
          SignedCharInjective(s1[i], s2[i]);
        } else {
          assert forall j :: 0 <= j < l1 ==> TrimTrailingBlanks(s1)[j] == TrimTrailingBlanks(s2)[j];
        }
      }
    }
    assert TrimTrailingBlanks(s1) == TrimTrailingBlanks(s2) ==> r == 0 by {
      if TrimTrailingBlanks(s1) == TrimTrailingBlanks(s2) {
        assert l1 == l2;
      }
    }
    r
  }

  lemma {:induction false} FirstDifferenceSymmetric(a: CString, b: CString, lim: nat, i: nat)
    requires i <= lim <= |a| && lim <= |b|
    ensures FirstDifference(a, b, lim, i) == FirstDifference(b, a, lim, i)
    decreases lim - i
  {
    if i < lim && a[i] == b[i] {
      FirstDifferenceSymmetric(a, b, lim, i + 1);
    }
  }

  /** Swapping the operands negates the result. */
  lemma StrCompareAntisymmetric(s1: CString, s2: CString)
    ensures StrCompare(s1, s2) == -StrCompare(s2, s1)
  {
    var l1 := TrimmedLength(s1);
    var l2 := TrimmedLength(s2);
    var lim := if l1 < l2 then l1 else l2;
    FirstDifferenceSymmetric(s1, s2, lim, 0);
  }

  /**
   * The order `str_compare` implements, stated without it: after trailing
   * blanks are dropped, `a` is a proper prefix of `b`, or at the first
   * differing position `a` holds the smaller signed byte.
   */
  predicate TrimmedLess(a: CString, b: CString) {
    var ta := TrimTrailingBlanks(a);
    var tb := TrimTrailingBlanks(b);
    exists k :: 0 <= k <= |ta| && k <= |tb| && ta[..k] == tb[..k]
      && ((k == |ta| && k < |tb|) || (k < |ta| && k < |tb| && SignedChar(ta[k]) < SignedChar(tb[k])))
  }

  /** A negative result means exactly that `s1` sorts first in the trimmed signed-byte order. */
  lemma StrCompareNegativeIsTrimmedLess(s1: CString, s2: CString)
    ensures StrCompare(s1, s2) < 0 <==> TrimmedLess(s1, s2)
  {
    var t1 := TrimTrailingBlanks(s1);
    var t2 := TrimTrailingBlanks(s2);
    var l1 := |t1|;
    var l2 := |t2|;
    var lim := if l1 < l2 then l1 else l2;
    var i := FirstDifference(s1, s2, lim, 0);
    assert t1[..i] == t2[..i] by {
      assert forall j :: 0 <= j < i ==> t1[j] == s1[j] && t2[j] == s2[j];
    }
    if StrCompare(s1, s2) < 0 {
      assert 0 <= i <= l1 && i <= l2;
    }
    if TrimmedLess(s1, s2) {
      var k :| 0 <= k <= l1 && k <= l2 && t1[..k] == t2[..k]
        && ((k == l1 && k < l2) || (k < l1 && k < l2 && SignedChar(t1[k]) < SignedChar(t2[k])));
      assert forall j :: 0 <= j < k ==> s1[j] == t1[..k][j] == t2[..k][j] == s2[j];
      if k < l1 {
        assert s1[k] == t1[k] && s2[k] == t2[k];
        assert i == k;
      } else {
        assert i == lim == k;
      }
    }
  }

  /** `_lpython_str_compare_eq`. */
  function StrCompareEq(s1: CString, s2: CString): (r: bool)
    ensures r <==> TrimTrailingBlanks(s1) == TrimTrailingBlanks(s2)
  {
    StrCompare(s1, s2) == 0
  }

  /** `_lpython_str_compare_noteq`. */
  function StrCompareNotEq(s1: CString, s2: CString): (r: bool)
    ensures r <==> TrimTrailingBlanks(s1) != TrimTrailingBlanks(s2)
  {
    StrCompare(s1, s2) != 0
  }

  /** `_lpython_str_compare_lt`. */
  function StrCompareLt(s1: CString, s2: CString): (r: bool)
    ensures r <==> TrimmedLess(s1, s2)
  {
    StrCompareNegativeIsTrimmedLess(s1, s2);
    StrCompare(s1, s2) < 0
  }

  /** `_lpython_str_compare_gt`. */
  function StrCompareGt(s1: CString, s2: CString): (r: bool)
    ensures r <==> TrimmedLess(s2, s1)
  {
    StrCompareAntisymmetric(s1, s2);
    StrCompareNegativeIsTrimmedLess(s2, s1);
    StrCompare(s1, s2) > 0
  }

  /** `_lpython_str_compare_lte`. */
  function StrCompareLte(s1: CString, s2: CString): (r: bool)
    ensures r <==> !TrimmedLess(s2, s1)
  {
    StrCompareAntisymmetric(s1, s2);
    StrCompareNegativeIsTrimmedLess(s2, s1);
    StrCompare(s1, s2) <= 0
  }

  /** `_lpython_str_compare_gte`. */
  function StrCompareGte(s1: CString, s2: CString): (r: bool)
    ensures r <==> !TrimmedLess(s1, s2)
  {
    StrCompareNegativeIsTrimmedLess(s1, s2);
    StrCompare(s1, s2) >= 0
  }

  /** The six operators agree with each other: exactly one of <, =, > holds. */
  lemma StrCompareTrichotomy(s1: CString, s2: CString)
    ensures StrCompareLt(s1, s2) || StrCompareEq(s1, s2) || StrCompareGt(s1, s2)
    ensures !(StrCompareLt(s1, s2) && StrCompareGt(s1, s2))
    ensures StrCompareEq(s1, s2) ==> !StrCompareLt(s1, s2) && !StrCompareGt(s1, s2)
  {
    StrCompareAntisymmetric(s1, s2);
    StrCompareNegativeIsTrimmedLess(s1, s2);
    StrCompareNegativeIsTrimmedLess(s2, s1);
  }
}

=== FILE: string_ops.dfy ===
/**
 * The string intrinsics that build new strings: concatenation, repetition,
 * 1-based indexing and substrings, Python-style slicing and slice
 * assignment, blank initialisation, white-space trimming and the base name
 * of a file path.
 */
module StringOps {
  import opened Results
  import opened Decimal
  import opened CBase
  import opened StringCompare

  /** `_lfortran_strcat`: the bytes of `s1` followed by those of `s2`. */
  method Strcat(s1: CString, s2: CString) returns (dest: CString)
    ensures |dest| == |s1| + |s2|
    ensures dest[..|s1|] == s1 && dest[|s1|..] == s2
  {
    dest := [];
    var i := 0;
    while i < |s1|
      invariant 0 <= i <= |s1| && dest == s1[..i]
    {
      dest := dest + [s1[i]];
      i := i + 1;
    }
    i := 0;
    while i < |s2|
      invariant 0 <= i <= |s2| && dest == s1 + s2[..i]
    {
      dest := dest + [s2[i]];
      i := i + 1;
    }
  }

  /** `n` copies of `s` back to back; nothing for a non-positive count. */
  function Repeat(s: CString, n: int): (r: CString)
    ensures |r| == (if n <= 0 then 0 else n * |s|)
    decreases n
  {
    if n <= 0 then []
    else
      assert (n - 1) * |s| + |s| == n * |s|;
      Repeat(s, n - 1) + s
  }

  /** Copy `q` of the repetition holds `s` again. */
  lemma {:induction false} RepeatAt(s: CString, n: int, q: nat, j: nat)
    requires q < n && j < |s|
    ensures q * |s| + j < |Repeat(s, n)| && Repeat(s, n)[q * |s| + j] == s[j]
    decreases n
  {
    var shorter := Repeat(s, n - 1);
    assert Repeat(s, n) == shorter + s;
    if q < n - 1 {
      RepeatAt(s, n - 1, q, j);
      assert Repeat(s, n)[q * |s| + j] == shorter[q * |s| + j];
    } else {
      assert q * |s| + j == |shorter| + j;
    }
  }

  /**
   * `_lfortran_strrepeat` and `_lfortran_strrepeat_c`: the string repeated
   * `n` times. The byte count `s_len*n` and the buffer size one above it are
   * C `int`s, so a count out of that range is undefined.
   */
  method Strrepeat(s: CString, n: int) returns (r: Outcome<CString>)
    requires IsInt(n) && |s| <= INT_MAX
    ensures r.Ok? <==> INT_MIN <= |s| * n < INT_MAX
    ensures r.Ok? ==> r.value == Repeat(s, n)
    ensures r.Err? ==> r.error.Undefined?
  {
    var count := |s| * n;
    if count < INT_MIN || count >= INT_MAX {
      return Err(Undefined("int overflow computing the length of the repetition"));
    }
    var dest: CString := [];
    var i := 0;
    while i < n
      invariant n <= 0 ==> i == 0
      invariant n > 0 ==> 0 <= i <= n
      invariant dest == Repeat(s, i)
    {
      var j := 0;
      while j < |s|
        invariant 0 <= j <= |s|
        invariant dest == Repeat(s, i) + s[..j]
      {
        dest := dest + [s[j]];
        j := j + 1;
      }
      i := i + 1;
    }
    r := Ok(dest);
  }

  /**
   * `_lfortran_str_item`: the character at 1-based index `idx`; an index below
   * 1 counts back from the end (0 is the last character).
   */
  function StrItem(s: CString, idx: int): (r: Outcome<CString>)
    ensures r.Ok? <==> 1 - |s| <= idx <= |s|
    ensures r.Err? ==> r == Err(Fatal("String index: " + IntToString(idx - 1) + "is out of Bounds\n"))
    ensures r.Ok? ==> r.value == [s[(idx - 1) % |s|]]
  {
    var adjusted := if idx < 1 then idx + |s| else idx;
    if adjusted < 1 || adjusted >= |s| + 1 then
      Err(Fatal("String index: " + IntToString(idx - 1) + "is out of Bounds\n"))
    else
      WrapIndex(idx - 1, |s|);
      Ok([s[adjusted - 1]])
  }

  /** An index in `[-n, n)` taken modulo `n` lands where adding `n` to a negative index does. */
  lemma WrapIndex(x: int, n: int)
    requires 0 < n && -n <= x < n
    ensures x % n == if x < 0 then x + n else x
  {
    if x < 0 {
      assert x + n == x - (-1) * n;
    }
  }

  /**
   * `_lfortran_str_copy`: the substring from 1-based `idx1` to `idx2`
   * inclusive; non-positive indices count from the end. Only `idx1` is
   * bounds-checked; an `idx2` past the terminator or before `idx1 - 1` is
   * undefined behaviour.
   */
  function StrCopy(s: CString, idx1: int, idx2: int): (r: Outcome<CString>)
    ensures r == Err(Fatal("String index out of Bounds\n")) <==> idx1 > |s| || idx1 <= -|s|
    ensures r.Ok? <==>
      var i1 := if idx1 <= 0 then |s| + idx1 else idx1;
      var i2 := if idx2 <= 0 then |s| + idx2 else idx2;
      -|s| < idx1 <= |s| && i1 - 1 <= i2 <= |s| + 1
    ensures r.Ok? ==>
      var i1 := if idx1 <= 0 then |s| + idx1 else idx1;
      var i2 := if idx2 <= 0 then |s| + idx2 else idx2;
      1 <= i1 <= |s| && r.value == s[i1 - 1..if i2 <= |s| then i2 else |s|]
  {
    if idx1 > |s| || idx1 <= -|s| then Err(Fatal("String index out of Bounds\n"))
    else
      var i1 := if idx1 <= 0 then |s| + idx1 else idx1;
      var i2 := if idx2 <= 0 then |s| + idx2 else idx2;
      if i2 < i1 - 1 then Err(Undefined("terminator written before the start of the result"))
      else if i2 > |s| + 1 then Err(Undefined("read past the terminator of the source"))
      else Ok(s[i1 - 1..if i2 <= |s| then i2 else |s|])
  }

  /** A Fortran substring `s(i:j)` with `1 <= i <= j <= len(s)` is the contiguous run of bytes. */
  lemma StrCopyIsSubstring(s: CString, i: int, j: int)
    requires 1 <= i <= j <= |s|
    ensures StrCopy(s, i, j) == Ok(s[i - 1..j])
  {
  }

  /** The start and stop a slice uses once negative indices and omitted bounds are resolved. */
  function SliceBounds(len: int, idx1: int, idx2: int, step: int, idx1Present: bool, idx2Present: bool): (int, int) {
    var i1 := if idx1 < 0 then idx1 + len else idx1;
    var i2 := if idx2 < 0 then idx2 + len else idx2;
    var start := if idx1Present then i1 else if step > 0 then 0 else len - 1;
    var stop := if idx2Present then i2 else if step > 0 then len else -1;
    (start, stop)
  }

  /** The early exit: a slice that selects nothing. */
  predicate SliceSelectsNothing(len: int, start: int, stop: int, step: int) {
    || start == stop
    || (step > 0 && (start > stop || start >= len))
    || (step < 0 && (start < stop || stop >= len - 1))
  }

  /** `i` is still inside the slice: below `stop` going up, above it going down. */
  predicate BeforeStop(i: int, stop: int, step: int) {
    if step > 0 then i < stop else i > stop
  }

  /** The `k`-th position of a slice that starts at `i`. */
  function Pos(i: int, k: nat, step: int): int {
    i + k * step
  }

  lemma PosShift(i: int, k: nat, step: int)
    ensures Pos(i + step, k, step) == Pos(i, k + 1, step)
  {
    assert (k + 1) * step == k * step + step;
  }

  /** Positions only move away from where they started: once past `stop`, a later position is past it too. */
  lemma PastStop(i: int, stop: int, step: int, n: nat, k: nat)
    requires step != 0 && n <= k && !BeforeStop(Pos(i, n, step), stop, step)
    ensures !BeforeStop(Pos(i, k, step), stop, step)
  {
    assert Pos(i, k, step) == Pos(i, n, step) + (k - n) * step;
    if step > 0 {
      assert (k - n) * step >= 0;
    } else {
      assert (k - n) * step <= 0;
    }
  }

  /** `v` holds the bytes of `s` at `i`, `i + step`, ... for exactly the positions before `stop`. */
  predicate Strided(s: CString, i: int, stop: int, step: int, v: CString) {
    && (forall k: nat :: k < |v| ==>
          BeforeStop(Pos(i, k, step), stop, step) && 0 <= Pos(i, k, step) < |s| && v[k] == s[Pos(i, k, step)])
    && !BeforeStop(Pos(i, |v|, step), stop, step)
  }

  /** Some position before `stop` lies before the start of the string. */
  ghost predicate ReadsBeforeStart(i: int, stop: int, step: int) {
    exists k: nat :: BeforeStop(Pos(i, k, step), stop, step) && Pos(i, k, step) < 0
  }

  /** The bytes at `i`, `i + step`, ... while before `stop`; reading before the string is undefined. */
  function Stride(s: CString, i: int, stop: int, step: int): (r: Outcome<CString>)
    requires step != 0
    requires step > 0 ==> stop <= |s|
    requires step < 0 ==> i <= |s| - 1
    ensures r.Ok? ==> Strided(s, i, stop, step, r.value)
    ensures r.Err? ==> r.error.Undefined?
    decreases if step > 0 then stop - i else i - stop
  {
    if !BeforeStop(i, stop, step) then Ok([])
    else if i < 0 then Err(Undefined("slice reads before the start of the string"))
    else
      var rest :- Stride(s, i + step, stop, step);
      var r := [s[i]] + rest;
      assert forall k: nat :: 1 <= k <= |rest| ==> Pos(i, k, step) == Pos(i + step, k - 1, step) by {
        forall k: nat | 1 <= k <= |rest|
          ensures Pos(i, k, step) == Pos(i + step, k - 1, step)
        {
          PosShift(i, k - 1, step);
        }
      }
      assert Pos(i, 0, step) == i;
      PosShift(i, |rest|, step);
      Ok(r)
  }

  /** A stride fails exactly when one of its positions before `stop` is before the start of the string. */
  lemma {:induction false} StrideFailsIff(s: CString, i: int, stop: int, step: int)
    requires step != 0
    requires step > 0 ==> stop <= |s|
    requires step < 0 ==> i <= |s| - 1
    ensures Stride(s, i, stop, step).Err? <==> ReadsBeforeStart(i, stop, step)
    decreases if step > 0 then stop - i else i - stop
  {
    var r := Stride(s, i, stop, step);
    if r.Ok? {
      if ReadsBeforeStart(i, stop, step) {
        var k: nat :| BeforeStop(Pos(i, k, step), stop, step) && Pos(i, k, step) < 0;
        if k >= |r.value| {
          PastStop(i, stop, step, |r.value|, k);
        }
        assert false;
      }
    } else if BeforeStop(i, stop, step) && i >= 0 {
      StrideFailsIff(s, i + step, stop, step);
      var k: nat :| BeforeStop(Pos(i + step, k, step), stop, step) && Pos(i + step, k, step) < 0;
      PosShift(i, k, step);
      assert BeforeStop(Pos(i, k + 1, step), stop, step) && Pos(i, k + 1, step) < 0;
    } else {
      assert BeforeStop(Pos(i, 0, step), stop, step) && Pos(i, 0, step) < 0;
    }
  }

  /** The start and stop a non-empty slice walks: the stop clamped to the length going up, the start going down. */
  function StrideBounds(len: int, start: int, stop: int, step: int): (b: (int, int))
    ensures step > 0 ==> b.0 == start && b.1 <= len && (b.1 == stop || b.1 == len)
    ensures step <= 0 ==> b.1 == stop && b.0 <= len - 1 && (b.0 == start || b.0 == len - 1)
  {
    if step > 0 then (start, if stop > len then len else stop)
    else (if start >= len then len - 1 else start, stop)
  }

  /**
   * `dest_len`, the size of the buffer a non-empty slice allocates, as C
   * computes it on `int`: an intermediate out of range is undefined, and the
   * division truncates toward zero.
   */
  function SliceBufferSize(a: int, b: int, step: int): (r: Outcome<int>)
    requires step != 0
    ensures r.Ok? ==> IsInt(r.value)
    ensures r.Err? ==> r.error.Undefined?
  {
    var d := b - a;
    var e := d + step;
    var f := if step > 0 then e - 1 else e + 1;
    var q := CDiv(f, step);
    if IsInt(d) && IsInt(e) && IsInt(f) && IsInt(q) && IsInt(q + 1) then Ok(q + 1)
    else Err(Undefined("int overflow computing the slice length"))
  }

  /** `y / t` is the `q` with `q * t <= y < (q + 1) * t`. */
  lemma DivUnique(y: int, t: int, q: int)
    requires t > 0 && q * t <= y < (q + 1) * t
    ensures y / t == q
  {
    var d := y / t - q;
    assert y == (y / t) * t + y % t && 0 <= y % t < t;
    assert d * t == (y / t) * t - q * t;
    assert (q + 1) * t == q * t + t;
    assert -t < d * t < t;
  }

  /** `n` steps of `t` are the fewest that cover `x`: `(x + t - 1) / t`, rounding up. */
  lemma CountBy(x: int, t: int, n: nat)
    requires t > 0 && n >= 1 && (n - 1) * t < x <= n * t
    ensures (x + t - 1) / t == n
  {
    assert (n - 1) * t == n * t - t;
    assert (n + 1) * t == n * t + t;
    DivUnique(x + t - 1, t, n);
  }

  /** The buffer a non-empty slice allocates holds exactly its bytes and the terminator. */
  lemma StridedFits(s: CString, a: int, b: int, step: int, v: CString)
    requires step != 0 && BeforeStop(a, b, step) && Strided(s, a, b, step, v)
    ensures SliceBufferSize(a, b, step).Ok? ==> SliceBufferSize(a, b, step).value == |v| + 1
  {
    assert Pos(a, 0, step) == a;
    var n := |v|;
    assert n >= 1;
    assert BeforeStop(Pos(a, n - 1, step), b, step);
    assert !BeforeStop(Pos(a, n, step), b, step);
    assert Pos(a, n, step) == Pos(a, n - 1, step) + step;
    if step > 0 {
      CountBy(b - a, step, n);
    } else {
      var t := -step;
      assert Pos(a, n - 1, step) == a - (n - 1) * t;
      assert Pos(a, n, step) == a - n * t;
      CountBy(a - b, t, n);
      assert CDiv(b - a + step + 1, step) == (a - b + t - 1) / t;
    }
  }

  /** The loop's `s_i += step`, from `i` until `stop`, never leaves the range of `int`. */
  predicate StepsStayInInt(i: int, stop: int, step: int)
    requires step != 0
    decreases if step > 0 then stop - i else i - stop
  {
    BeforeStop(i, stop, step) ==> IsInt(i + step) && StepsStayInInt(i + step, stop, step)
  }

  /** A loop whose last step before `stop` still lands in range never overflows. */
  lemma StepsWithin(i: int, stop: int, step: int)
    requires step != 0 && IsInt(i)
    requires step > 0 ==> stop - 1 + step <= INT_MAX
    requires step < 0 ==> stop + 1 + step >= INT_MIN
    ensures StepsStayInInt(i, stop, step)
    decreases if step > 0 then stop - i else i - stop
  {
    if BeforeStop(i, stop, step) {
      StepsWithin(i + step, stop, step);
    }
  }

  /** Some step the loop takes from a position before `stop` leaves the range of `int`. */
  ghost predicate StepOverflows(i: int, stop: int, step: int) {
    exists k: nat :: BeforeStop(Pos(i, k, step), stop, step) && !IsInt(Pos(i, k, step) + step)
  }

  /** The loop's check and the step-by-step statement agree. */
  lemma {:induction false} StepsStayInIntIff(i: int, stop: int, step: int)
    requires step != 0
    ensures StepsStayInInt(i, stop, step) <==> !StepOverflows(i, stop, step)
    decreases if step > 0 then stop - i else i - stop
  {
    assert Pos(i, 0, step) == i;
    if BeforeStop(i, stop, step) {
      StepsStayInIntIff(i + step, stop, step);
      if StepOverflows(i, stop, step) && IsInt(i + step) {
        var k: nat :| BeforeStop(Pos(i, k, step), stop, step) && !IsInt(Pos(i, k, step) + step);
        if k > 0 {
          PosShift(i, k - 1, step);
          assert BeforeStop(Pos(i + step, k - 1, step), stop, step) && !IsInt(Pos(i + step, k - 1, step) + step);
        }
      }
      if StepOverflows(i + step, stop, step) {
        var k: nat :| BeforeStop(Pos(i + step, k, step), stop, step) && !IsInt(Pos(i + step, k, step) + step);
        PosShift(i, k, step);
        assert BeforeStop(Pos(i, k + 1, step), stop, step) && !IsInt(Pos(i, k + 1, step) + step);
      }
    } else {
      forall k: nat
        ensures !BeforeStop(Pos(i, k, step), stop, step)
      {
        PastStop(i, stop, step, 0, k);
      }
    }
  }

  /**
   * `_lfortran_str_slice`: Python's `s[idx1:idx2:step]` as the runtime
   * computes it. A stop past the end is clamped going up and a start past
   * the end is clamped going down; a negative index that stays negative
   * after adding the length is read as is, which is undefined, and so is
   * a buffer size or a step of the index that overflows `int`.
   */
  function StrSlice(s: CString, idx1: int, idx2: int, step: int, idx1Present: bool, idx2Present: bool)
    : (r: Outcome<CString>)
    requires IsInt(idx1) && IsInt(idx2) && IsInt(step) && |s| <= INT_MAX
    ensures step == 0 <==> r == Err(Fatal("slice step cannot be zero\n"))
    ensures r.Err? && step != 0 ==> r.error.Undefined?
    ensures step != 0 && SliceSelectsNothing(|s|, SliceBounds(|s|, idx1, idx2, step, idx1Present, idx2Present).0,
                                             SliceBounds(|s|, idx1, idx2, step, idx1Present, idx2Present).1, step)
      ==> r == Ok([])
    ensures step != 0 ==>
      var (start, stop) := SliceBounds(|s|, idx1, idx2, step, idx1Present, idx2Present);
      var (a, b) := StrideBounds(|s|, start, stop, step);
      !SliceSelectsNothing(|s|, start, stop, step) ==>
        && (r.Ok? ==> Strided(s, a, b, step, r.value) && SliceBufferSize(a, b, step) == Ok(|r.value| + 1))
        && (r.Err? <==> ReadsBeforeStart(a, b, step) || SliceBufferSize(a, b, step).Err? || StepOverflows(a, b, step))
  {
    if step == 0 then Err(Fatal("slice step cannot be zero\n"))
    else
      var (start, stop) := SliceBounds(|s|, idx1, idx2, step, idx1Present, idx2Present);
      if SliceSelectsNothing(|s|, start, stop, step) then Ok([])
      else
        var (a, b) := StrideBounds(|s|, start, stop, step);
        var size :- SliceBufferSize(a, b, step);
        StepsStayInIntIff(a, b, step);
        if !StepsStayInInt(a, b, step) then Err(Undefined("int overflow stepping the slice index"))
        else
          StrideFailsIff(s, a, b, step);
          var v :- Stride(s, a, b, step);
          StridedFits(s, a, b, step, v);
          Ok(v)
  }

  /** A step so large that `dest_len` overflows is undefined, where unbounded arithmetic would read one byte. */
  lemma StrSliceHugeStep()
    ensures StrSlice("abcdefghij", 1, 10, INT_MAX, true, true) == Err(Undefined("int overflow computing the slice length"))
  {
  }

  /** With unit step and in-range bounds, slicing is the contiguous substring `s[idx1..idx2]`. */
  lemma StrSliceUnitStep(s: CString, idx1: nat, idx2: nat)
    requires idx1 <= idx2 <= |s| <= INT_MAX && idx2 - idx1 < INT_MAX
    ensures StrSlice(s, idx1, idx2, 1, true, true) == Ok(s[idx1..idx2])
  {
    if idx1 < idx2 {
      assert SliceBufferSize(idx1, idx2, 1) == Ok(idx2 - idx1 + 1);
      StepsWithin(idx1, idx2, 1);
      StrideUpInRange(s, idx1, idx2, 1);
      var r := StrSlice(s, idx1, idx2, 1, true, true);
      assert r == Stride(s, idx1, idx2, 1);
      assert Pos(idx1, |r.value|, 1) == idx1 + |r.value|;
      if |r.value| > 0 {
        assert Pos(idx1, |r.value| - 1, 1) == idx1 + |r.value| - 1;
      }
      assert |r.value| == idx2 - idx1;
      assert forall k :: 0 <= k < |r.value| ==> r.value[k] == s[idx1..idx2][k] by {
        forall k: nat | k < |r.value|
          ensures r.value[k] == s[idx1..idx2][k]
        {
          assert Pos(idx1, k, 1) == idx1 + k;
        }
      }
      assert r.value == s[idx1..idx2];
    }
  }

  /** `s[::-1]` reverses the string. */
  lemma StrSliceReverses(s: CString)
    requires |s| < INT_MAX
    ensures StrSlice(s, 0, 0, -1, false, false).Ok?
    ensures var r := StrSlice(s, 0, 0, -1, false, false).value;
      |r| == |s| && forall k :: 0 <= k < |s| ==> r[k] == s[|s| - 1 - k]
  {
    if |s| > 0 {
      assert SliceBounds(|s|, 0, 0, -1, false, false) == (|s| - 1, -1);
      assert StrideBounds(|s|, |s| - 1, -1, -1) == (|s| - 1, -1);
      assert SliceBufferSize(|s| - 1, -1, -1) == Ok(|s| + 1);
      StepsWithin(|s| - 1, -1, -1);
      assert StrSlice(s, 0, 0, -1, false, false) == Stride(s, |s| - 1, -1, -1);
      StrideReverses(s);
    }
  }

  /** Walking down from the last byte to the front reads the string backwards. */
  lemma StrideReverses(s: CString)
    requires |s| > 0
    ensures Stride(s, |s| - 1, -1, -1).Ok?
    ensures var v := Stride(s, |s| - 1, -1, -1).value;
      |v| == |s| && forall k :: 0 <= k < |s| ==> v[k] == s[|s| - 1 - k]
  {
    StrideFromInRange(s, |s| - 1, -1, -1);
    var v := Stride(s, |s| - 1, -1, -1).value;
    assert Strided(s, |s| - 1, -1, -1, v);
    assert Pos(|s| - 1, |v|, -1) == |s| - 1 - |v|;
    if |v| > 0 {
      assert Pos(|s| - 1, |v| - 1, -1) == |s| - |v|;
    }
    forall k | 0 <= k < |s|
      ensures v[k] == s[|s| - 1 - k]
    {
      assert Pos(|s| - 1, k, -1) == |s| - 1 - k;
    }
  }

  /** Going up from a non-negative start never reads before the string. */
  lemma {:induction false} StrideUpInRange(s: CString, i: int, stop: int, step: int)
    requires step > 0 && stop <= |s| && i >= 0
    ensures Stride(s, i, stop, step).Ok?
    decreases stop - i
  {
    if BeforeStop(i, stop, step) {
      StrideUpInRange(s, i + step, stop, step);
    }
  }

  /** Going down from an in-range start to a stop of at least -1 never reads before the string. */
  lemma {:induction false} StrideFromInRange(s: CString, i: int, stop: int, step: int)
    requires step < 0 && stop >= -1 && i <= |s| - 1
    ensures Stride(s, i, stop, step).Ok?
    decreases i - stop
  {
    if BeforeStop(i, stop, step) {
      StrideFromInRange(s, i + step, stop, step);
    }
  }

  /**
   * The writes of a slice assignment: position `i` of `m` receives byte `d`
   * of `r` (its terminator when `d == |r|`) while before `stop`.
   */
  function StrideWrite(m: seq<Cell>, r: CString, i: int, d: nat, stop: int, step: int): (w: Outcome<seq<Cell>>)
    requires step != 0
    ensures w.Ok? ==> |w.value| == |m|
    ensures w.Err? ==> w.error.Undefined?
    decreases if step > 0 then stop - i else i - stop
  {
    if !BeforeStop(i, stop, step) then Ok(m)
    else if d > |r| then Err(Undefined("slice assignment reads past the terminator of the value"))
    else if i < 0 || i >= |m| then Err(Undefined("slice assignment writes outside the result"))
    else StrideWrite(m[i := Byte(At(r, d))], r, i + step, d + 1, stop, step)
  }

  /** Position `p` is one of `i`, `i + step`, ... before `stop`. */
  ghost predicate Selected(i: int, stop: int, step: int, p: int) {
    exists k: nat :: BeforeStop(Pos(i, k, step), stop, step) && Pos(i, k, step) == p
  }

  /** A slice that starts one step later never comes back to `i`. */
  lemma StrideLeavesStart(i: int, j: int, step: int)
    requires step != 0 && j == i + step
    ensures forall k: nat :: Pos(j, k, step) != i
  {
    forall k: nat
      ensures Pos(j, k, step) != i
    {
      assert Pos(j, k, step) - i == (k + 1) * step;
      if step > 0 {
        assert (k + 1) * step >= step;
      } else {
        assert (k + 1) * step <= step;
      }
    }
  }

  /** A position selected by the slice that starts one step later is selected from `i` too. */
  lemma SelectedShift(i: int, stop: int, step: int, p: int)
    requires step != 0
    ensures Selected(i + step, stop, step, p) ==> Selected(i, stop, step, p)
  {
    if Selected(i + step, stop, step, p) {
      var k: nat :| BeforeStop(Pos(i + step, k, step), stop, step) && Pos(i + step, k, step) == p;
      PosShift(i, k, step);
      assert BeforeStop(Pos(i, k + 1, step), stop, step) && Pos(i, k + 1, step) == p;
    }
  }

  /**
   * What a successful run of the writes leaves in memory: the `k`-th selected
   * position holds byte `d + k` of `r` (an existing byte or its terminator),
   * and every position that is not selected keeps its old cell.
   */
  lemma {:induction false} StrideWriteCells(m: seq<Cell>, r: CString, i: int, d: nat, stop: int, step: int)
    requires step != 0 && StrideWrite(m, r, i, d, stop, step).Ok?
    ensures var w := StrideWrite(m, r, i, d, stop, step).value;
      && (forall k: nat :: BeforeStop(Pos(i, k, step), stop, step) ==>
            d + k <= |r| && 0 <= Pos(i, k, step) < |m| && w[Pos(i, k, step)] == Byte(At(r, d + k)))
      && (forall p :: 0 <= p < |m| && !Selected(i, stop, step, p) ==> w[p] == m[p])
    decreases if step > 0 then stop - i else i - stop
  {
    var w := StrideWrite(m, r, i, d, stop, step).value;
    if !BeforeStop(i, stop, step) {
      forall k: nat
        ensures !BeforeStop(Pos(i, k, step), stop, step)
      {
        PastStop(i, stop, step, 0, k);
      }
    } else {
      var m' := m[i := Byte(At(r, d))];
      StrideWriteCells(m', r, i + step, d + 1, stop, step);
      forall k: nat | BeforeStop(Pos(i, k, step), stop, step)
        ensures d + k <= |r| && 0 <= Pos(i, k, step) < |m| && w[Pos(i, k, step)] == Byte(At(r, d + k))
      {
        if k > 0 {
          PosShift(i, k - 1, step);
        } else {
          StrideLeavesStart(i, i + step, step);
        }
      }
      forall p | 0 <= p < |m| && !Selected(i, stop, step, p)
        ensures w[p] == m[p]
      {
        assert BeforeStop(Pos(i, 0, step), stop, step) && Pos(i, 0, step) == i;
        SelectedShift(i, stop, step, p);
      }
    }
  }

  /**
   * The writes fail exactly when some selected position reads past the
   * terminator of `r` or lies outside the buffer.
   */
  lemma {:induction false} StrideWriteFailsIff(m: seq<Cell>, r: CString, i: int, d: nat, stop: int, step: int)
    requires step != 0
    ensures StrideWrite(m, r, i, d, stop, step).Err? <==>
      exists k: nat :: BeforeStop(Pos(i, k, step), stop, step) && (d + k > |r| || Pos(i, k, step) < 0 || Pos(i, k, step) >= |m|)
    decreases if step > 0 then stop - i else i - stop
  {
    var w := StrideWrite(m, r, i, d, stop, step);
    if w.Ok? {
      StrideWriteCells(m, r, i, d, stop, step);
    } else if BeforeStop(i, stop, step) && d <= |r| && 0 <= i < |m| {
      var m' := m[i := Byte(At(r, d))];
      StrideWriteFailsIff(m', r, i + step, d + 1, stop, step);
      var k: nat :| BeforeStop(Pos(i + step, k, step), stop, step)
        && (d + 1 + k > |r| || Pos(i + step, k, step) < 0 || Pos(i + step, k, step) >= |m'|);
      PosShift(i, k, step);
      assert BeforeStop(Pos(i, k + 1, step), stop, step)
        && (d + (k + 1) > |r| || Pos(i, k + 1, step) < 0 || Pos(i, k + 1, step) >= |m|);
    } else {
      assert BeforeStop(Pos(i, 0, step), stop, step) && Pos(i, 0, step) == i && d + 0 == d;
    }
  }

  /** Memory `w` holds the string `v` from its first cell on, terminator included. */
  predicate ReadsAs(w: seq<Cell>, v: CString) {
    |v| < |w| && w[|v|] == Byte('\0') && forall q :: 0 <= q < |v| ==> w[q] == Byte(v[q])
  }

  /**
   * Reading back the buffer of a slice assignment, at the selected positions:
   * one read before the terminator holds the matching byte of `r`, and the
   * terminator, when selected, is the one copied from `r`.
   */
  lemma ReadSelected(r: CString, start: int, stop: int, step: int, w: seq<Cell>, v: CString)
    requires step != 0
    requires forall k: nat :: BeforeStop(Pos(start, k, step), stop, step) ==>
      k <= |r| && 0 <= Pos(start, k, step) < |w| && w[Pos(start, k, step)] == Byte(At(r, k))
    requires ReadsAs(w, v)
    ensures forall k: nat :: BeforeStop(Pos(start, k, step), stop, step) && 0 <= Pos(start, k, step) <= |v| ==>
      if Pos(start, k, step) < |v| then k < |r| && v[Pos(start, k, step)] == r[k] else k == |r|
  {
    forall k: nat | BeforeStop(Pos(start, k, step), stop, step) && 0 <= Pos(start, k, step) <= |v|
      ensures if Pos(start, k, step) < |v| then k < |r| && v[Pos(start, k, step)] == r[k] else k == |r|
    {
      var p := Pos(start, k, step);
      if p < |v| {
        assert w[p] == Byte(v[p]);
      }
    }
  }

  /**
   * Reading back the buffer of a slice assignment, elsewhere: every byte read
   * at a position that is not selected is `s`'s own, and a terminator met at
   * such a position is the one at the end of `s`.
   */
  lemma ReadUnselected(s: CString, len: int, start: int, stop: int, step: int, w: seq<Cell>, v: CString)
    requires |s| <= len && |w| == len + 1
    requires forall p :: 0 <= p < |w| && !Selected(start, stop, step, p) ==> w[p] == (Cells(s) + Fresh(len - |s|))[p]
    requires ReadsAs(w, v)
    ensures forall p :: 0 <= p < |v| && !Selected(start, stop, step, p) ==> p < |s| && v[p] == s[p]
    ensures !Selected(start, stop, step, |v|) ==> |v| == |s|
  {
    var dest := Cells(s) + Fresh(len - |s|);
    forall p | 0 <= p < |v| && !Selected(start, stop, step, p)
      ensures p < |s| && v[p] == s[p]
    {
      assert w[p] == Byte(v[p]);
    }
    if !Selected(start, stop, step, |v|) {
      var p := |v|;
      assert w[p] == Byte('\0');
    }
  }

  /**
   * What a slice assignment reads back as `v`: a selected position before the
   * terminator holds the matching byte of `r`, the terminator sits where `r`
   * ran out, and every unselected position keeps the byte of `s`.
   */
  ghost predicate AssignedSlice(s: CString, r: CString, start: int, stop: int, step: int, v: CString) {
    && (forall k: nat :: BeforeStop(Pos(start, k, step), stop, step) && 0 <= Pos(start, k, step) <= |v| ==>
          if Pos(start, k, step) < |v| then k < |r| && v[Pos(start, k, step)] == r[k] else k == |r|)
    && (forall p :: 0 <= p < |v| && !Selected(start, stop, step, p) ==> p < |s| && v[p] == s[p])
    && (!Selected(start, stop, step, |v|) ==> |v| == |s|)
  }

  /** Writing `r` over the widened copy of `s` and reading the result back gives an assigned slice. */
  lemma AssignedContent(s: CString, r: CString, len: int, start: int, stop: int, step: int, written: seq<Cell>, v: CString)
    requires step != 0 && |s| <= len
    requires StrideWrite(Cells(s) + Fresh(len - |s|), r, start, 0, stop, step) == Ok(written)
    requires ReadCString(written, 0) == Ok(v)
    ensures AssignedSlice(s, r, start, stop, step, v)
  {
    var dest := Cells(s) + Fresh(len - |s|);
    StrideWriteCells(dest, r, start, 0, stop, step);
    assert ReadsAs(written, v) by {
      assert forall q :: 0 <= q < |v| ==> written[0 + q] == Byte(v[q]);
    }
    ReadSelected(r, start, stop, step, written, v);
    ReadUnselected(s, len, start, stop, step, written, v);
  }

  /**
   * Some selected position of a slice assignment lies outside the buffer of
   * `len + 1` bytes, or comes after the position that receives `r`'s terminator.
   */
  ghost predicate WritesOutside(r: CString, len: int, start: int, stop: int, step: int) {
    exists k: nat :: BeforeStop(Pos(start, k, step), stop, step)
      && (k > |r| || Pos(start, k, step) < 0 || Pos(start, k, step) > len)
  }

  /**
   * `_lfortran_str_slice_assign`: a copy of `s`, widened to `|r|` when `r` is
   * longer, with `r`'s bytes written at the slice's positions; an empty slice
   * returns `s` itself. The buffer size `s_len + 1` and the stepped index are
   * `int`s, so a string of `INT_MAX` bytes or a step past the `int` range is
   * undefined.
   */
  function StrSliceAssign(s: CString, r: CString, idx1: int, idx2: int, step: int, idx1Present: bool, idx2Present: bool)
    : (out: Outcome<CString>)
    requires IsInt(idx1) && IsInt(idx2) && IsInt(step) && |s| <= INT_MAX && |r| <= INT_MAX
    ensures step == 0 <==> out == Err(Fatal("slice step cannot be zero\n"))
    ensures out.Err? && step != 0 ==> out.error.Undefined?
    ensures step != 0 ==>
      var len := if |s| < |r| then |r| else |s|;
      var (start, stop) := SliceBounds(len, idx1, idx2, step, idx1Present, idx2Present);
      SliceSelectsNothing(len, start, stop, step) ==> out == Ok(s)
    ensures step != 0 && out.Ok? ==>
      var len := if |s| < |r| then |r| else |s|;
      var (start, stop) := SliceBounds(len, idx1, idx2, step, idx1Present, idx2Present);
      !SliceSelectsNothing(len, start, stop, step) ==> AssignedSlice(s, r, start, stop, step, out.value)
    ensures step != 0 ==>
      var len := if |s| < |r| then |r| else |s|;
      var (start, stop) := SliceBounds(len, idx1, idx2, step, idx1Present, idx2Present);
      !SliceSelectsNothing(len, start, stop, step) ==>
        && (len == INT_MAX ==> out == Err(Undefined("int overflow computing the buffer size")))
        && (len < INT_MAX && StepOverflows(start, stop, step) ==>
              out == Err(Undefined("int overflow stepping the slice index")))
    ensures step != 0 ==>
      var len := if |s| < |r| then |r| else |s|;
      var (start, stop) := SliceBounds(len, idx1, idx2, step, idx1Present, idx2Present);
      !SliceSelectsNothing(len, start, stop, step) && WritesOutside(r, len, start, stop, step) ==> out.Err?
  {
    if step == 0 then Err(Fatal("slice step cannot be zero\n"))
    else
      var len := if |s| < |r| then |r| else |s|;
      var (start, stop) := SliceBounds(len, idx1, idx2, step, idx1Present, idx2Present);
      if SliceSelectsNothing(len, start, stop, step) then Ok(s)
      else if len == INT_MAX then Err(Undefined("int overflow computing the buffer size"))
      else if !StepsStayInInt(start, stop, step) then Err(Undefined("int overflow stepping the slice index"))
      else
        StepsStayInIntIff(start, stop, step);
        var dest := Cells(s) + Fresh(len - |s|);
        StrideWriteFailsIff(dest, r, start, 0, stop, step);
        var written :- StrideWrite(dest, r, start, 0, stop, step);
        var out := ReadCString(written, 0);
        if out.Ok? then
          AssignedContent(s, r, len, start, stop, step, written, out.value);
          out
        else out
  }

  /** Unit-step writes replace the cells in `[i, stop)` with consecutive bytes of `r` from `d` on. */
  lemma {:induction false} StrideWriteUnit(m: seq<Cell>, r: CString, i: int, d: nat, stop: int)
    requires 0 <= i <= stop <= |m| && d + (stop - i) <= |r|
    ensures StrideWrite(m, r, i, d, stop, 1).Ok?
    ensures var w := StrideWrite(m, r, i, d, stop, 1).value;
      forall p :: 0 <= p < |m| ==> w[p] == if i <= p < stop then Byte(r[d + p - i]) else m[p]
    decreases stop - i
  {
    if i < stop {
      var m' := m[i := Byte(At(r, d))];
      StrideWriteUnit(m', r, i + 1, d + 1, stop);
    }
  }

  /**
   * Assigning to `s[a:b]` a value at least as long as the slice (and no longer
   * than `s`) replaces exactly those bytes, with the leading bytes of the
   * value, and leaves every other byte of `s` as it was.
   */
  lemma StrSliceAssignUnitStep(s: CString, r: CString, a: nat, b: nat)
    requires a < b <= |s| < INT_MAX && b - a <= |r| <= |s|
    ensures StrSliceAssign(s, r, a, b, 1, true, true) == Ok(s[..a] + r[..b - a] + s[b..])
  {
    StepsWithin(a, b, 1);
    var expected := s[..a] + r[..b - a] + s[b..];
    var dest := Cells(s) + Fresh(0);
    assert dest == Cells(s);
    StrideWriteUnit(dest, r, a, 0, b);
    var written := StrideWrite(dest, r, a, 0, b, 1).value;
    assert forall p :: 0 <= p < |written| ==> written[p] == Cells(expected)[p];
    assert written == Cells(expected);
    ReadCellsFrom(expected, 0);
  }

  /** `_lfortran_string_init`: a buffer of `size_plus_one` bytes becomes blanks and a terminator. */
  function StringInit(sizePlusOne: int): (r: Outcome<CString>)
    ensures r.Ok? <==> sizePlusOne >= 1
    ensures r.Err? ==> r.error.Undefined?
    ensures r.Ok? ==> |r.value| == sizePlusOne - 1 && StrCompareEq(r.value, [])
  {
    if sizePlusOne < 1 then Err(Undefined("terminator written before the buffer"))
    else
      var b := Blanks(sizePlusOne - 1);
      assert TrimmedLength(b) == 0 by {
        BlankTrimmedLength(b);
      }
      Ok(b)
  }

  lemma {:induction false} BlankTrimmedLength(s: CString)
    requires forall k :: 0 <= k < |s| ==> s[k] == ' '
    ensures TrimmedLength(s) == 0
    decreases |s|
  {
    if |s| > 0 {
      BlankTrimmedLength(s[..|s| - 1]);
    }
  }

  /** The first position at or after `i` that is not white space, or `|s|`. */
  function SkipSpaces(s: CString, i: nat): (j: nat)
    requires i <= |s|
    ensures i <= j <= |s| && (j == |s| || !IsSpace(s[j]))
    ensures forall k :: i <= k < j ==> IsSpace(s[k])
    decreases |s| - i
  {
    if i < |s| && IsSpace(s[i]) then SkipSpaces(s, i + 1) else i
  }

  /** One past the last position above `lo` that is not white space, or `lo + 1`. */
  function TrimEnd(s: CString, lo: nat, end: nat): (j: nat)
    requires lo < end <= |s|
    ensures lo < j <= end
    ensures j - 1 == lo || !IsSpace(s[j - 1])
    ensures forall k :: j <= k < end ==> IsSpace(s[k])
    decreases end
  {
    if end - 1 > lo && IsSpace(s[end - 1]) then TrimEnd(s, lo, end - 1) else end
  }

  /** `r` is the run of `s` starting at `a`, and everything around it is white space. */
  predicate TrimmedAt(s: CString, r: CString, a: int) {
    && 0 <= a <= |s| - |r| && r == s[a..a + |r|]
    && (forall k :: 0 <= k < a ==> IsSpace(s[k]))
    && (forall k :: a + |r| <= k < |s| ==> IsSpace(s[k]))
  }

  /**
   * `remove_whitespace`: the string without leading and trailing white
   * space; a NULL or empty string gives "(null)".
   */
  function RemoveWhitespace(str: Option<CString>): (r: CString)
    ensures str.None? || |str.value| == 0 ==> r == "(null)"
    ensures str.Some? && |str.value| > 0 ==>
      && |r| <= |str.value|
      && (|r| > 0 ==> !IsSpace(r[0]) && !IsSpace(r[|r| - 1]))
      && exists a :: TrimmedAt(str.value, r, a)
  {
    if str.None? || |str.value| == 0 then "(null)"
    else
      var s := str.value;
      var a := SkipSpaces(s, 0);
      if a == |s| then
        assert TrimmedAt(s, [], a);
        []
      else
        var b := TrimEnd(s, a, |s|);
        assert TrimmedAt(s, s[a..b], a);
        s[a..b]
  }

  /** The last position holding `c`, if any. */
  function LastIndexOf(s: CString, c: char): (r: Option<nat>)
    ensures r.Some? ==> r.value < |s| && s[r.value] == c && forall k :: r.value < k < |s| ==> s[k] != c
    ensures r.None? ==> forall k :: 0 <= k < |s| ==> s[k] != c
    decreases |s|
  {
    if |s| == 0 then None
    else if s[|s| - 1] == c then Some(|s| - 1)
    else LastIndexOf(s[..|s| - 1], c)
  }

  /** `b` starts at `a`, right after a '/' or at the start, and is followed by the last '.'. */
  predicate BaseNameAt(filename: CString, b: CString, a: int) {
    && 0 <= a && a + |b| < |filename| && filename[a..a + |b|] == b
    && (a == 0 || filename[a - 1] == '/')
    && filename[a + |b|] == '.' && '.' !in filename[a + |b| + 1..]
  }

  /** Some '/' has no '.' after it: the last '/' comes after the last '.'. */
  predicate SlashAfterLastDot(filename: CString) {
    exists k :: 0 <= k < |filename| && filename[k] == '/' && '.' !in filename[k + 1..]
  }

  /**
   * `get_base_name`: the text between the last '/' and the last '.'. A name
   * without a '.' is undefined behaviour; a '.' before the last '/' gives NULL.
   */
  function GetBaseName(filename: CString): (r: Outcome<Option<CString>>)
    ensures r.Err? <==> '.' !in filename
    ensures r.Err? ==> r.error.Undefined?
    ensures r.Ok? && r.value.Some? ==>
      var b := r.value.value;
      && '/' !in b
      && exists a :: BaseNameAt(filename, b, a)
    ensures r.Ok? ==> (r.value.None? <==> SlashAfterLastDot(filename))
  {
    match LastIndexOf(filename, '.')
    case None => Err(Undefined("file name without an extension"))
    case Some(dot) =>
      var start := match LastIndexOf(filename, '/') case None => 0 case Some(slash) => slash + 1;
      if dot < start then
        assert filename[start - 1] == '/';
        assert '.' !in filename[start..] by {
          forall k | 0 <= k < |filename[start..]| ensures filename[start..][k] != '.' {
            assert filename[start..][k] == filename[start + k];
          }
        }
        Ok(None)
      else
        assert !SlashAfterLastDot(filename) by {
          if k :| 0 <= k < |filename| && filename[k] == '/' && '.' !in filename[k + 1..] {
            assert false;
          }
        }
        var b := filename[start..dot];
        assert BaseNameAt(filename, b, start) by {
          assert filename[start..start + |b|] == b;
          var tail := filename[dot + 1..];
          assert forall k :: 0 <= k < |tail| ==> tail[k] == filename[dot + 1 + k];
        }
        assert '/' !in b by {
          forall k | 0 <= k < |b| ensures b[k] != '/' {
            assert b[k] == filename[start + k];
          }
        }
        Ok(Some(b))
  }
}

=== FILE: unit_table.dfy ===
/**
 * The runtime's table from Fortran unit numbers to open files
 * (`unit_to_file[0..last_index_used]`): `store_unit_file`,
 * `get_file_pointer_from_unit`, `get_file_name_from_unit` and
 * `remove_from_unit_to_file`. Storing never replaces a record: it retargets
 * every record already held for the unit and appends a new one, so a unit
 * opened twice holds two records, and lookups and removal act on the first.
 */
module UnitTable {
  import opened Results
  import opened CBase

  const MaxUnits: nat := 1000

  /** An open `FILE*`, known only by its identity. */
  type FileHandle = nat

  /** `struct UNIT_FILE`. */
  datatype UnitFile = UnitFile(unit: int, filename: CString, filep: FileHandle, binary: bool)

  /** The live records `unit_to_file[0..last_index_used]`, so `last_index_used == |t| - 1`. */
  type Table = seq<UnitFile>

  /** The position of the first record for `unit`, if there is one. */
  function FirstMatch(t: Table, unit: int): (r: Option<nat>)
    ensures r.Some? ==> r.value < |t| && t[r.value].unit == unit
    ensures r.Some? ==> forall j :: 0 <= j < r.value ==> t[j].unit != unit
    ensures r.None? <==> forall j :: 0 <= j < |t| ==> t[j].unit != unit
    decreases |t|
  {
    if |t| == 0 then None
    else if t[0].unit == unit then Some(0)
    else match FirstMatch(t[1..], unit)
      case None => None
      case Some(k) => Some(k + 1)
  }

  /** The record a lookup of `unit` finds: the first one held for it. */
  function Lookup(t: Table, unit: int): (r: Option<UnitFile>)
    ensures r.None? <==> forall j :: 0 <= j < |t| ==> t[j].unit != unit
    ensures r.Some? ==> r.value.unit == unit
    ensures r.Some? ==> exists k :: 0 <= k < |t| && t[k] == r.value && forall j :: 0 <= j < k ==> t[j].unit != unit
  {
    match FirstMatch(t, unit)
    case None => None
    case Some(k) => Some(t[k])
  }

  /** How many records the table holds for `unit`. */
  function CountOf(t: Table, unit: int): (n: nat)
    ensures n <= |t|
    ensures n == 0 <==> FirstMatch(t, unit).None?
    decreases |t|
  {
    if |t| == 0 then 0
    else (if t[0].unit == unit then 1 else 0) + CountOf(t[1..], unit)
  }

  /** A record after `store_unit_file`'s first loop has seen it. */
  function Retarget(rec: UnitFile, unit: int, filep: FileHandle, binary: bool): UnitFile {
    if rec.unit == unit then rec.(filep := filep, binary := binary) else rec
  }

  /**
   * `store_unit_file`: every record already held for `unit` takes the new
   * file pointer and form (but keeps its file name), then a new record is
   * appended; a table already holding `MAXUNITS` records is fatal.
   */
  function StoreUnitFile(t: Table, unit: int, filename: CString, filep: FileHandle, binary: bool): (r: Outcome<Table>)
    ensures r.Ok? <==> |t| < MaxUnits
    ensures r.Err? ==> r.error == Fatal("Only 1000 units can be opened for now\n.")
    ensures r.Ok? ==> |r.value| == |t| + 1 && r.value[|t|] == UnitFile(unit, filename, filep, binary)
    ensures r.Ok? ==> forall j :: 0 <= j < |t| ==>
      r.value[j].unit == t[j].unit && r.value[j].filename == t[j].filename &&
      (t[j].unit == unit ==> r.value[j].filep == filep && r.value[j].binary == binary) &&
      (t[j].unit != unit ==> r.value[j] == t[j])
  {
    if |t| >= MaxUnits then Err(Fatal("Only 1000 units can be opened for now\n."))
    else Ok(seq(|t|, j requires 0 <= j < |t| => Retarget(t[j], unit, filep, binary))
            + [UnitFile(unit, filename, filep, binary)])
  }

  /**
   * `get_file_pointer_from_unit`: the file pointer and form of the first
   * record for `unit`; `NULL` and `false` when there is none.
   */
  method GetFilePointerFromUnit(t: Table, unit: int) returns (filep: Option<FileHandle>, binary: bool)
    ensures Lookup(t, unit).None? ==> filep.None? && !binary
    ensures Lookup(t, unit).Some? ==>
      filep == Some(Lookup(t, unit).value.filep) && binary == Lookup(t, unit).value.binary
  {
    binary := false;
    var i := 0;
    while i < |t|
      invariant 0 <= i <= |t|
      invariant forall j :: 0 <= j < i ==> t[j].unit != unit
    {
      if t[i].unit == unit {
        FirstMatchIs(t, unit, i);
        binary := t[i].binary;
        return Some(t[i].filep), binary;
      }
      i := i + 1;
    }
    return None, binary;
  }

  /**
   * `get_file_name_from_unit`: the file name and form of the first record
   * for `unit`; `NULL` and `false` when there is none.
   */
  method GetFileNameFromUnit(t: Table, unit: int) returns (filename: Option<CString>, binary: bool)
    ensures Lookup(t, unit).None? ==> filename.None? && !binary
    ensures Lookup(t, unit).Some? ==>
      filename == Some(Lookup(t, unit).value.filename) && binary == Lookup(t, unit).value.binary
  {
    binary := false;
    var i := 0;
    while i < |t|
      invariant 0 <= i <= |t|
      invariant forall j :: 0 <= j < i ==> t[j].unit != unit
    {
      if t[i].unit == unit {
        FirstMatchIs(t, unit, i);
        binary := t[i].binary;
        return Some(t[i].filename), binary;
      }
      i := i + 1;
    }
    return None, binary;
  }

  /** A matching record with no match before it is the first match. */
  lemma FirstMatchIs(t: Table, unit: int, i: nat)
    requires i < |t| && t[i].unit == unit
    requires forall j :: 0 <= j < i ==> t[j].unit != unit
    ensures FirstMatch(t, unit) == Some(i)
  {
  }

  /**
   * `remove_from_unit_to_file` as a whole: the first record for `unit` is
   * deleted and the later ones move down one place; without one the
   * table is unchanged.
   */
  function RemoveUnit(t: Table, unit: int): (r: Table)
    ensures |r| == if FirstMatch(t, unit).Some? then |t| - 1 else |t|
    ensures CountOf(r, unit) == if FirstMatch(t, unit).Some? then CountOf(t, unit) - 1 else CountOf(t, unit)
  {
    match FirstMatch(t, unit)
    case None => t
    case Some(k) => CountSplit(t, unit, k); t[..k] + t[k + 1..]
  }

  /** Counting records across the two sides of a deleted one. */
  lemma CountSplit(t: Table, unit: int, k: nat)
    requires k < |t|
    ensures CountOf(t, unit) == CountOf(t[..k], unit) + (if t[k].unit == unit then 1 else 0) + CountOf(t[k + 1..], unit)
    ensures CountOf(t[..k] + t[k + 1..], unit) == CountOf(t[..k], unit) + CountOf(t[k + 1..], unit)
  {
    CountConcat(t[..k], t[k..], unit);
    assert t == t[..k] + t[k..];
    assert t[k..][1..] == t[k + 1..];
    CountConcat(t[..k], t[k + 1..], unit);
  }

  lemma {:induction false} CountConcat(a: Table, b: Table, unit: int)
    ensures CountOf(a + b, unit) == CountOf(a, unit) + CountOf(b, unit)
    decreases |a|
  {
    if |a| == 0 {
      assert a + b == b;
    } else {
      assert (a + b)[0] == a[0];
      assert (a + b)[1..] == a[1..] + b;
      CountConcat(a[1..], b, unit);
    }
  }

  /**
   * `remove_from_unit_to_file`, by its loops: find the first record for
   * `unit`, shift every later record down one place, shorten the table.
   */
  method RemoveFromUnitToFile(t: Table, unit: int) returns (r: Table)
    ensures r == RemoveUnit(t, unit)
  {
    var index := -1;
    var i := 0;
    while i < |t|
      invariant 0 <= i <= |t|
      invariant forall j :: 0 <= j < i ==> t[j].unit != unit
    {
      if t[i].unit == unit {
        index := i;
        break;
      }
      i := i + 1;
    }
    if index == -1 {
      return t;
    }
    FirstMatchIs(t, unit, index);
    var a := t;
    var m := index;
    while m < |t| - 1
      invariant index <= m <= |t| - 1
      invariant |a| == |t|
      invariant a[..index] == t[..index]
      invariant forall j :: index <= j < m ==> a[j] == t[j + 1]
      invariant forall j :: m <= j < |t| ==> a[j] == t[j]
    {
      a := a[m := a[m + 1]];
      m := m + 1;
    }
    r := a[..|t| - 1];
    assert r == t[..index] + t[index + 1..];
  }

  /** After a store, a lookup of the unit finds the new file pointer and form. */
  lemma StoreThenLookup(t: Table, unit: int, filename: CString, filep: FileHandle, binary: bool)
    requires StoreUnitFile(t, unit, filename, filep, binary).Ok?
    ensures var found := Lookup(StoreUnitFile(t, unit, filename, filep, binary).value, unit);
      found.Some? && found.value.filep == filep && found.value.binary == binary
  {
    var r := StoreUnitFile(t, unit, filename, filep, binary).value;
    match FirstMatch(t, unit)
    case None =>
      FirstMatchIs(r, unit, |t|);
    case Some(k) =>
      FirstMatchIs(r, unit, k);
  }

  /**
   * The file name a lookup finds after a store is the new one only when
   * the unit had no record: a unit opened again keeps its first file name.
   */
  lemma StoreThenFileName(t: Table, unit: int, filename: CString, filep: FileHandle, binary: bool)
    requires StoreUnitFile(t, unit, filename, filep, binary).Ok?
    ensures var found := Lookup(StoreUnitFile(t, unit, filename, filep, binary).value, unit);
      found.Some? &&
      found.value.filename == if Lookup(t, unit).Some? then Lookup(t, unit).value.filename else filename
  {
    var r := StoreUnitFile(t, unit, filename, filep, binary).value;
    match FirstMatch(t, unit)
    case None =>
      FirstMatchIs(r, unit, |t|);
    case Some(k) =>
      FirstMatchIs(r, unit, k);
  }

  /** A store leaves what every other unit looks up unchanged. */
  lemma StoreKeepsOthers(t: Table, unit: int, filename: CString, filep: FileHandle, binary: bool, other: int)
    requires StoreUnitFile(t, unit, filename, filep, binary).Ok? && other != unit
    ensures Lookup(StoreUnitFile(t, unit, filename, filep, binary).value, other) == Lookup(t, other)
  {
    var r := StoreUnitFile(t, unit, filename, filep, binary).value;
    match FirstMatch(t, other)
    case None =>
      assert FirstMatch(r, other).None?;
    case Some(k) =>
      FirstMatchIs(r, other, k);
  }

  /** Where each record of a table lands once the record at `k` is deleted. */
  lemma DeleteIndex(t: Table, k: nat, d: Table)
    requires k < |t| && d == t[..k] + t[k + 1..]
    ensures |d| == |t| - 1
    ensures forall j :: 0 <= j < k ==> d[j] == t[j]
    ensures forall j :: k <= j < |d| ==> d[j] == t[j + 1]
  {
  }

  /** Deleting a record of another unit does not change what a lookup finds. */
  lemma DeleteKeepsOther(t: Table, k: nat, other: int)
    requires k < |t| && t[k].unit != other
    ensures Lookup(t[..k] + t[k + 1..], other) == Lookup(t, other)
  {
    var d := t[..k] + t[k + 1..];
    DeleteIndex(t, k, d);
    match FirstMatch(t, other)
    case None =>
      assert forall j :: 0 <= j < |d| ==> d[j].unit != other by {
        forall j | 0 <= j < |d| ensures d[j].unit != other {
          assert d[j] == t[if j < k then j else j + 1];
        }
      }
    case Some(m) =>
      if m < k {
        FirstMatchIs(d, other, m);
      } else {
        assert d[m - 1] == t[m];
        assert forall j :: 0 <= j < m - 1 ==> d[j].unit != other by {
          forall j | 0 <= j < m - 1 ensures d[j].unit != other {
            assert d[j] == t[if j < k then j else j + 1];
          }
        }
        FirstMatchIs(d, other, m - 1);
      }
  }

  /** A removal leaves what every other unit looks up unchanged. */
  lemma RemoveKeepsOthers(t: Table, unit: int, other: int)
    requires other != unit
    ensures Lookup(RemoveUnit(t, unit), other) == Lookup(t, other)
  {
    match FirstMatch(t, unit)
    case None =>
    case Some(k) =>
      DeleteKeepsOther(t, k, other);
  }

  /** Storing a unit the table does not hold and then removing it restores the table. */
  lemma StoreThenRemoveFresh(t: Table, unit: int, filename: CString, filep: FileHandle, binary: bool)
    requires StoreUnitFile(t, unit, filename, filep, binary).Ok? && Lookup(t, unit).None?
    ensures RemoveUnit(StoreUnitFile(t, unit, filename, filep, binary).value, unit) == t
  {
    var r := StoreUnitFile(t, unit, filename, filep, binary).value;
    FirstMatchIs(r, unit, |t|);
    assert r[..|t|] == t;
  }

  /**
   * A unit stored while it already had a record still has one after a
   * single removal: the record appended by the second store survives.
   */
  lemma ReopenThenRemoveKeepsUnit(t: Table, unit: int, filename: CString, filep: FileHandle, binary: bool)
    requires StoreUnitFile(t, unit, filename, filep, binary).Ok? && Lookup(t, unit).Some?
    ensures Lookup(RemoveUnit(StoreUnitFile(t, unit, filename, filep, binary).value, unit), unit).Some?
  {
    var r := StoreUnitFile(t, unit, filename, filep, binary).value;
    var k := FirstMatch(t, unit).value;
    FirstMatchIs(r, unit, k);
    var s := RemoveUnit(r, unit);
    assert s == r[..k] + r[k + 1..];
    assert s[|t| - 1] == r[|t|];
    assert s[|t| - 1].unit == unit;
  }
}

=== FILE: words.dfy ===
/**
 * Unsigned machine words as natural numbers below `2^w`: C's shifts become
 * multiplication and division by powers of two, and `&`, `|` and `~` are
 * defined bit by bit. Bit `k` of `x` is the `k`-th binary digit.
 */
module Words {

  function Pow2(k: nat): (p: nat)
    ensures p >= 1
  {
    if k == 0 then 1 else 2 * Pow2(k - 1)
  }

  /** A `w`-bit unsigned value. */
  predicate IsWord(x: int, w: nat) {
    0 <= x < Pow2(w)
  }

  lemma {:induction false} Pow2Add(a: nat, b: nat)
    ensures Pow2(a + b) == Pow2(a) * Pow2(b)
    decreases a
  {
    if a > 0 {
      Pow2Add(a - 1, b);
      assert Pow2(a + b) == 2 * Pow2(a - 1 + b);
      MulAssoc(2, Pow2(a - 1), Pow2(b));
    }
  }

  lemma MulAssoc(a: int, b: int, c: int)
    ensures a * (b * c) == (a * b) * c
  {
  }

  lemma {:induction false} Pow2Monotone(a: nat, b: nat)
    requires a <= b
    ensures Pow2(a) <= Pow2(b)
    decreases b
  {
    if a < b {
      Pow2Monotone(a, b - 1);
    }
  }

  lemma MulMonotone(a: int, b: int, c: int)
    requires 0 <= c && a <= b
    ensures a * c <= b * c
  {
    assert b * c - a * c == (b - a) * c;
  }

  /** Division and remainder are determined by any decomposition with a remainder in range. */
  lemma DivModUnique(x: int, d: int, q: int, r: int)
    requires d > 0 && 0 <= r < d && x == q * d + r
    ensures x / d == q && x % d == r
  {
    var q0, r0 := x / d, x % d;
    assert x == q0 * d + r0;
    if q0 < q {
      MulMonotone(q0 + 1, q, d);
    } else if q < q0 {
      MulMonotone(q + 1, q0, d);
    }
  }

  lemma MulModSplit(x: nat, c: nat, m: nat)
    requires c > 0 && m > 0
    ensures (x * c) % (c * m) == (x % m) * c
    ensures (x * c) / (c * m) == x / m
  {
    var q, r := x / m, x % m;
    assert x * c == q * (c * m) + r * c by {
      assert x == q * m + r;
      assert x * c == (q * m + r) * c;
    }
    MulMonotone(r + 1, m, c);
    DivModUnique(x * c, c * m, q, r * c);
  }

  lemma DivDiv(x: nat, a: nat, b: nat)
    requires a > 0 && b > 0
    ensures x / (a * b) == (x / a) / b
    ensures x % (a * b) == (x / a) % b * a + x % a
  {
    var q1, r1 := x / a, x % a;
    var q2, r2 := q1 / b, q1 % b;
    assert x == q2 * (a * b) + (r2 * a + r1) by {
      assert x == q1 * a + r1;
      assert q1 == q2 * b + r2;
      assert q1 * a == (q2 * b + r2) * a;
    }
    MulMonotone(r2 + 1, b, a);
    DivModUnique(x, a * b, q2, r2 * a + r1);
  }

  lemma ModDiv(x: nat, d: nat, m: nat)
    requires d > 0 && m > 0
    ensures (x % (d * m)) / d == (x / d) % m
    ensures (x % (d * m)) % d == x % d
  {
    DivDiv(x, d, m);
    var a, b := (x / d) % m, x % d;
    DivModUnique(a * d + b, d, a, b);
  }

  function DivNat(x: nat, d: nat): (q: nat)
    requires d > 0
    ensures q == x / d
  {
    x / d
  }

  // Bits ------------------------------------------------------------------

  /** Bit `k` of `x`. */
  predicate Bit(x: nat, k: nat) {
    (x / Pow2(k)) % 2 == 1
  }

  lemma BitSucc(x: nat, k: nat)
    ensures Bit(x, k + 1) == Bit(x / 2, k)
  {
    DivDiv(x, 2, Pow2(k));
  }

  /** A value below `2^k` has no bit at `k` or above. */
  lemma BitAbove(x: nat, k: nat)
    requires x < Pow2(k)
    ensures !Bit(x, k)
  {
    DivModUnique(x, Pow2(k), 0, x);
  }

  lemma BitAboveWord(x: nat, w: nat, k: nat)
    requires IsWord(x, w) && w <= k
    ensures !Bit(x, k)
  {
    Pow2Monotone(w, k);
    BitAbove(x, k);
  }

  /** Bits of `x / 2^p` are the bits of `x` from `p` up. */
  lemma BitDiv(x: nat, p: nat, j: nat)
    ensures Bit(DivNat(x, Pow2(p)), j) == Bit(x, p + j)
  {
    var P, J := Pow2(p), Pow2(j);
    Pow2Add(p, j);
    DivDiv(x, P, J);
    assert x / Pow2(p + j) == (x / P) / J;
  }

  /** Bits of `x % 2^l` are the bits of `x` below `l`. */
  lemma BitMod(x: nat, l: nat, j: nat)
    ensures Bit(x % Pow2(l), j) == (j < l && Bit(x, j))
  {
    if j < l {
      var J, P, Q := Pow2(j), Pow2(l - j), Pow2(l - j - 1);
      var y: nat := DivNat(x, J);
      Pow2Add(j, l - j);
      assert Pow2(l) == J * P;
      ModDiv(x, J, P);
      assert (x % Pow2(l)) / J == y % P;
      assert P == 2 * Q;
      ModDiv(y, 2, Q);
    } else {
      Pow2Monotone(l, j);
      BitAbove(x % Pow2(l), j);
    }
  }

  /** Bits of `c * 2^t` are the bits of `c` moved up by `t`. */
  lemma BitMul(c: nat, t: nat, k: nat)
    ensures Bit(c * Pow2(t), k) == (t <= k && Bit(c, k - t))
  {
    if t <= k {
      Pow2Add(t, k - t);
      MulModSplit(c, Pow2(t), Pow2(k - t));
    } else {
      BitMulBelow(c, t, k);
    }
  }

  lemma BitMulBelow(c: nat, t: nat, k: nat)
    requires k < t
    ensures !Bit(c * Pow2(t), k)
  {
    var K, R := Pow2(k), Pow2(t - k - 1);
    Pow2Add(k, t - k);
    assert Pow2(t) == K * (2 * R);
    var e: nat := c * R;
    calc {
      c * Pow2(t);
      c * (K * (2 * R));
      { MulAssoc(c, K, 2 * R); }
      (c * K) * (2 * R);
      { MulAssoc(c * K, 2, R); }
      ((c * K) * 2) * R;
      2 * e * K;
    }
    DivModUnique(c * Pow2(t), K, 2 * e, 0);
  }

  /** Two `w`-bit words with the same bits are equal. */
  lemma {:induction false} BitsEqual(x: nat, y: nat, w: nat)
    requires IsWord(x, w) && IsWord(y, w)
    requires forall k :: 0 <= k < w ==> Bit(x, k) == Bit(y, k)
    ensures x == y
    decreases w
  {
    if w > 0 {
      forall k | 0 <= k < w - 1
        ensures Bit(x / 2, k) == Bit(y / 2, k)
      {
        BitSucc(x, k);
        BitSucc(y, k);
      }
      BitsEqual(x / 2, y / 2, w - 1);
      assert Bit(x, 0) == Bit(y, 0);
    } else {
      assert x == 0 && y == 0;
    }
  }

  // C's unsigned shifts and bitwise operators ------------------------------

  /** `x << s` on a `w`-bit unsigned value (`s < w`; larger counts are undefined in C). */
  function Shl(x: nat, s: nat, w: nat): (r: nat)
    ensures IsWord(r, w)
  {
    (x * Pow2(s)) % Pow2(w)
  }

  /** `x >> s` on an unsigned value. */
  function Shr(x: nat, s: nat): (r: nat)
    ensures r <= x
  {
    ShrLe(x, Pow2(s));
    DivNat(x, Pow2(s))
  }

  /** `x >> s` and `x % 2^s` put back together give `x`. */
  lemma ShrSplit(x: nat, s: nat)
    ensures x == Shr(x, s) * Pow2(s) + x % Pow2(s)
  {
    var P := Pow2(s);
    assert x == (x / P) * P + x % P;
  }

  lemma ShrLe(x: nat, d: nat)
    requires d >= 1
    ensures x / d <= x
  {
    if x / d > x {
      MulMonotone(x + 1, x / d, d);
    }
  }

  /** `~x` on a `w`-bit unsigned value. */
  function Not(x: nat, w: nat): (r: nat)
    requires IsWord(x, w)
    ensures IsWord(r, w)
  {
    Pow2(w) - 1 - x
  }

  function And(x: nat, y: nat): nat
    decreases x
  {
    if x == 0 || y == 0 then 0 else 2 * And(x / 2, y / 2) + (if x % 2 == 1 && y % 2 == 1 then 1 else 0)
  }

  function Or(x: nat, y: nat): nat
    decreases x + y
  {
    if x == 0 then y else if y == 0 then x
    else 2 * Or(x / 2, y / 2) + (if x % 2 == 1 || y % 2 == 1 then 1 else 0)
  }

  lemma {:induction false} AndBit(x: nat, y: nat, k: nat)
    ensures Bit(And(x, y), k) == (Bit(x, k) && Bit(y, k))
    decreases k
  {
    if x == 0 {
      assert x / Pow2(k) == 0;
    } else if y == 0 {
      assert y / Pow2(k) == 0;
    } else {
      var b := if x % 2 == 1 && y % 2 == 1 then 1 else 0;
      var a := And(x / 2, y / 2);
      assert And(x, y) == 2 * a + b;
      HalfOf(a, b);
      if k == 0 {
        Bit0(And(x, y));
        Bit0(x);
        Bit0(y);
      } else {
        BitSucc(And(x, y), k - 1);
        BitSucc(x, k - 1);
        BitSucc(y, k - 1);
        AndBit(x / 2, y / 2, k - 1);
      }
    }
  }

  lemma {:induction false} OrBit(x: nat, y: nat, k: nat)
    ensures Bit(Or(x, y), k) == (Bit(x, k) || Bit(y, k))
    decreases x + y
  {
    if x == 0 {
      assert x / Pow2(k) == 0;
    } else if y == 0 {
      assert y / Pow2(k) == 0;
    } else {
      var b := if x % 2 == 1 || y % 2 == 1 then 1 else 0;
      var o := Or(x / 2, y / 2);
      assert Or(x, y) == 2 * o + b;
      HalfOf(o, b);
      if k == 0 {
        Bit0(Or(x, y));
        Bit0(x);
        Bit0(y);
      } else {
        BitSucc(Or(x, y), k - 1);
        BitSucc(x, k - 1);
        BitSucc(y, k - 1);
        OrBit(x / 2, y / 2, k - 1);
      }
    }
  }

  /** Bit 0 is the remainder by two. */
  lemma Bit0(x: nat)
    ensures Bit(x, 0) == (x % 2 == 1)
  {
    assert Pow2(0) == 1;
  }

  /** `2q + b` with `b` a bit halves to `q`, leaving `b`. */
  lemma HalfOf(q: nat, b: nat)
    requires b < 2
    ensures (2 * q + b) / 2 == q && (2 * q + b) % 2 == b
  {
    DivModUnique(2 * q + b, 2, q, b);
  }

  lemma {:induction false} NotBit(x: nat, w: nat, k: nat)
    requires IsWord(x, w) && k < w
    ensures Bit(Not(x, w), k) == !Bit(x, k)
    decreases k
  {
    var n := Not(x, w);
    var h := Pow2(w - 1);
    assert Pow2(w) == 2 * h;
    HalfOf(x / 2, x % 2);
    assert x / 2 < h;
    var m: nat := h - 1 - x / 2;
    assert n == 2 * m + (1 - x % 2);
    HalfOf(m, 1 - x % 2);
    if k == 0 {
      Bit0(n);
      Bit0(x);
    } else {
      BitSucc(n, k - 1);
      BitSucc(x, k - 1);
      assert n / 2 == Not(x / 2, w - 1);
      NotBit(x / 2, w - 1, k - 1);
    }
  }

  lemma {:induction false} OrWord(x: nat, y: nat, w: nat)
    requires IsWord(x, w) && IsWord(y, w)
    ensures IsWord(Or(x, y), w)
    decreases x + y
  {
    if x != 0 && y != 0 {
      assert w > 0;
      assert Pow2(w) == 2 * Pow2(w - 1);
      OrWord(x / 2, y / 2, w - 1);
    }
  }

  lemma {:induction false} AndWord(x: nat, y: nat)
    ensures And(x, y) <= x
    decreases x
  {
    if x != 0 && y != 0 {
      AndWord(x / 2, y / 2);
    }
  }

  /** `x & (2^n - 1)` keeps the low `n` bits. */
  lemma {:induction false} AndLowMask(x: nat, n: nat)
    ensures And(x, Pow2(n) - 1) == x % Pow2(n)
    decreases n
  {
    if n == 0 {
      assert Pow2(0) - 1 == 0;
    } else if x == 0 {
      DivModUnique(0, Pow2(n), 0, 0);
    } else {
      var h := Pow2(n - 1);
      MaskHalves(n);
      AndLowMask(x / 2, n - 1);
      assert And(x, Pow2(n) - 1) == 2 * ((x / 2) % h) + x % 2;
      DivDiv(x, 2, h);
    }
  }

  /** The mask of `n` low bits is an odd number whose half is the mask of `n - 1` bits. */
  lemma MaskHalves(n: nat)
    requires n > 0
    ensures Pow2(n) - 1 == 2 * (Pow2(n - 1) - 1) + 1
    ensures (Pow2(n) - 1) / 2 == Pow2(n - 1) - 1 && (Pow2(n) - 1) % 2 == 1
  {
    HalfOf(Pow2(n - 1) - 1, 1);
  }

  lemma {:induction false} AndSymmetric(x: nat, y: nat)
    ensures And(x, y) == And(y, x)
    decreases x
  {
    if x != 0 && y != 0 {
      AndSymmetric(x / 2, y / 2);
    }
  }

  /** Or of values with no common bits is their sum: `a * 2^s | b` with `b < 2^s`. */
  lemma {:induction false} OrDisjoint(a: nat, s: nat, b: nat)
    requires b < Pow2(s)
    ensures Or(a * Pow2(s), b) == a * Pow2(s) + b
    decreases s
  {
    if s > 0 {
      var h := Pow2(s - 1);
      var c: nat := a * h;
      assert a * Pow2(s) == 2 * c by {
        assert Pow2(s) == 2 * h;
        MulAssoc(a, 2, h);
      }
      HalfOf(b / 2, b % 2);
      assert b / 2 < h;
      OrDisjoint(a, s - 1, b / 2);
      if c != 0 && b != 0 {
        HalfOf(c, 0);
        assert Or(2 * c, b) == 2 * Or(c, b / 2) + b % 2;
      }
    }
  }

  lemma BitMulLow(a: nat, s: nat, k: nat)
    requires k < s
    ensures !Bit(a * Pow2(s), k)
  {
    BitMul(a, s, k);
  }

  lemma {:induction false} Pow2Exceeds(n: nat)
    ensures n < Pow2(n)
    decreases n
  {
    if n > 0 {
      Pow2Exceeds(n - 1);
    }
  }

  lemma {:induction false} OrSymmetric(x: nat, y: nat)
    ensures Or(x, y) == Or(y, x)
    decreases x + y
  {
    if x != 0 && y != 0 {
      OrSymmetric(x / 2, y / 2);
    }
  }

  /** A value below `2^m` placed above `n` low bits stays below `2^(n + m)`. */
  lemma StackBelow(h: nat, n: nat, r: nat, m: nat)
    requires h < Pow2(m) && r < Pow2(n)
    ensures 0 <= h * Pow2(n) && h * Pow2(n) + r < Pow2(n + m)
  {
    var N, M := Pow2(n), Pow2(m);
    Pow2Add(n, m);
    MulMonotone(h + 1, M, N);
    assert (h + 1) * N == h * N + N;
    assert M * N == N * M;
  }

  /** `x % 2^n % 2^m` with `m <= n` is `x % 2^m`. */
  lemma ModPow2Mod(x: nat, m: nat, n: nat)
    requires m <= n
    ensures x % Pow2(n) % Pow2(m) == x % Pow2(m)
  {
    Pow2Add(m, n - m);
    ModDiv(x, Pow2(m), Pow2(n - m));
  }

  // Two's complement ------------------------------------------------------

  /** A signed `w`-bit value. */
  predicate IsSigned(v: int, w: nat)
    requires w > 0
  {
    -(Pow2(w - 1) as int) <= v < Pow2(w - 1)
  }

  /** The `w`-bit pattern of `v`: C's conversion of any integer to a `w`-bit unsigned type. */
  function Unsigned(v: int, w: nat): (u: nat)
    ensures IsWord(u, w)
  {
    v % Pow2(w)
  }

  /** The signed value of a `w`-bit pattern (two's complement, as GCC and Clang convert). */
  function Signed(u: nat, w: nat): (v: int)
    requires w > 0 && IsWord(u, w)
    ensures IsSigned(v, w)
    ensures v >= 0 <==> u < Pow2(w - 1)
  {
    if u < Pow2(w - 1) then u else u - Pow2(w)
  }

  lemma UnsignedSigned(u: nat, w: nat)
    requires w > 0 && IsWord(u, w)
    ensures Unsigned(Signed(u, w), w) == u
  {
    if u >= Pow2(w - 1) {
      DivModUnique(u - Pow2(w), Pow2(w), -1, u);
    } else {
      DivModUnique(u, Pow2(w), 0, u);
    }
  }

  lemma SignedUnsigned(v: int, w: nat)
    requires w > 0 && IsSigned(v, w)
    ensures Signed(Unsigned(v, w), w) == v
  {
    if v < 0 {
      DivModUnique(v, Pow2(w), -1, v + Pow2(w));
    } else {
      DivModUnique(v, Pow2(w), 0, v);
    }
  }
}
